=== FILE: README.md ===
# MDL Molfile reader, modelled in Dafny

This project models RDKit's MDL Molfile reader, `MolDataStreamToMol` in
`Code/GraphMol/FileParsers/MolFileParser.cpp`. The model covers everything
the reader does before chemistry post-processing:

- the three header lines and the counts line with its `V2000`/`V3000` tag;
- the V2000 atom and bond lines, with their fixed columns, query bonds and
  atom-list symbols;
- the V2000 properties block: the legacy atom list and the `M  CHG`, `RAD`,
  `ISO`, `SUB`, `UNS`, `RBC`, `ALS` and `RGP` lines, the `A`/`V` lines, and
  `M  END`;
- the V3000 connection table: continued `M  V30` lines, the `COUNTS` line,
  the atom block with its KEY=VALUE properties and atom lists, the bond
  block, and the skipped S group and 3D-constraint blocks;
- query atoms and bonds, with the deferred query completion that fills the
  ring-bond-count sentinel from the finished molecule.

Each reader is a pure function over a line stream. It returns a `Result`
whose error kind names what the C++ does:

- `FormatError` for `FileParseException`;
- `CastError` for `bad_lexical_cast`;
- `RangeError` for `RANGE_CHECK` and out-of-range atom indices;
- `InvariantError` for `PRECONDITION`;
- `Undefined` for undefined behaviour.

Integer fields are read the way `atoi`, `toInt` and `lexical_cast<unsigned>`
read them. Negative values cast to `unsigned int` wrap modulo 2^32.

Where the code departs from what the format evidently intends, the affected
readers take a flag, `asWritten`. With `asWritten` true they behave as the
code is written; with it false they behave as intended. The whole-file
reader's round-trip lemmas are stated with the flag false. Each
discrepancy has a pair of lemmas, listed under "## Findings".

Where the format description and the code disagree, the model follows the
code:

- `M  SUB` with count 6 becomes an equality query on 6
  (`MolFileParser.cpp:338-340`), not "6 or more".
- The optional fields of the V2000 counts line are read inside a
  `try` block that swallows every failure, and then never used.

Modules:

- Support: `Wrappers`, `Text`, `Fields`, `LineStream`, `Queries` and
  `Molecule`.
- V2000: `V2000`, plus `Edits`, `Properties` and `PropertyBlock` for the
  properties block.
- V3000: `V3000Lines`, `V3000Atoms`, `V3000Bonds` and `V3000Ctab`.
- `MolFile` orchestrates the whole read.
- Written-text partners of the readers: `Writer`, `CountWriter`,
  `V3000Written` and `MolFileWritten`. They state how a writer lays a value
  out and prove that the reader gives it back.
- `Findings`: the as-written lemmas for the V2000 count lines.

## Model

| member | source | states |
|---|---|---|
| Wrappers.Rethrow | Code/GraphMol/FileParsers/MolFileParser.cpp:182-189 | a failed numeric cast inside a field's try block becomes a FileParseException with the caller's message; a success or any other error passes through unchanged |
| Text.Substr | Code/GraphMol/FileParsers/MolFileParser.cpp:1018 | `substr(pos, n)` returns at most `n` characters, and exactly `n` when the field lies inside the line |
| Text.CharAt | Code/GraphMol/FileParsers/MolFileParser.cpp:1011 | indexing a std::string gives the character inside the string and the terminating NUL at its size; past the size it also gives NUL where C++ is undefined, so every caller that may index past the size tests the length first (`Properties.OldAtomList`) |
| Text.TrimSpec | Code/GraphMol/FileParsers/MolFileParser.cpp:1281 | `trim_copy` leaves no white space at either end, and gives the empty string exactly when the input is all white space |
| Text.UpTo | Code/GraphMol/FileParsers/MolFileParser.cpp:510-511 | erasing from the first blank keeps a prefix that contains no blank, and the character after it, if any, is that blank |
| Text.ToUpper | Code/GraphMol/FileParsers/MolFileParser.cpp:1165 | the C-locale upper case moves only the 26 lower-case ASCII letters, each by 32 code points |
| Text.Upper | Code/GraphMol/FileParsers/MolFileParser.cpp:1165 | `to_upper` keeps the length and upper-cases each character in place |
| Text.SplitAny | Code/GraphMol/FileParsers/MolFileParser.cpp:1100 | `split` on a set of separators yields at least one piece, and no piece contains a separator |
| Text.DropEmpty | Code/GraphMol/FileParsers/MolFileParser.cpp:1102-1105 | the pieces kept for an atom list are non-empty pieces taken from the split |
| LineStream.StripCR | Code/GraphMol/FileParsers/MolFileParser.cpp:1632 | the line returned differs from the raw line at most by one trailing carriage return |
| LineStream.GetLine | Code/GraphMol/FileParsers/MolFileParser.cpp:1632-1635 | a read at end of stream returns the empty line and stays at the end; any other read consumes input |
| LineStream.GetLineSplit | Code/GraphMol/FileParsers/MolFileParser.cpp:1632 | a line followed by a newline is read back as written, and the stream continues right after that newline without reaching its end |
| LineStream.GetLineRender | Code/GraphMol/FileParsers/MolFileParser.cpp:1632 | reading one line of a text written line by line returns the first line and leaves exactly the text of the remaining lines |
| LineStream.GetLineLast | Code/GraphMol/FileParsers/MolFileParser.cpp:1632-1635 | a last line without a newline is still returned, and the stream is then at its end |
| Fields.AtoiRightJustify | Code/GraphMol/FileParsers/MolFileParser.cpp:62 | round trip: `atoi` reads any integer written right-justified in a field, blank-padded and with its sign, back as that integer |
| Fields.ToInt | Code/GraphMol/FileParsers/MolFileParser.cpp:60-68 | `toInt` returns the `atoi` value or raises a failed cast that carries the field |
| Fields.AtoiAllSpace | Code/GraphMol/FileParsers/MolFileParser.cpp:61-63 | a field of blanks decodes to 0 under `atoi` |
| Fields.ToIntFailsOnlyOnBlank | Code/GraphMol/FileParsers/MolFileParser.cpp:60-68 | `toInt` fails exactly on a non-empty all-blank field when blanks are not accepted; otherwise it returns the `atoi` value, 0 for a blank field that is accepted |
| Fields.AtoiPadded | Code/GraphMol/FileParsers/MolFileParser.cpp:62 | `atoi` reads a blank-padded natural number back as that number |
| Fields.AtoiPaddedNegative | Code/GraphMol/FileParsers/MolFileParser.cpp:62 | `atoi` reads a blank-padded negative number back as its negation |
| Fields.SignedDigitsToInt | Code/GraphMol/FileParsers/MolFileParser.cpp:60-68 | the decimal text of any integer goes through `toInt` back to that integer; it is "0" only for 0 and holds no blank |
| Fields.RightJustifyToInt | Code/GraphMol/FileParsers/MolFileParser.cpp:60-68 | round trip: `toInt` reads every right-justified integer back, at every width and whether or not blanks are accepted |
| Fields.RightJustifyNotBlank | Code/GraphMol/FileParsers/MolFileParser.cpp:63-65 | a right-justified integer is never an all-blank field, so `toInt` cannot reject it |
| Fields.ToDouble | Code/GraphMol/FileParsers/MolFileParser.cpp:70-78 | `toDouble` returns the `atof` value, and fails exactly when that value is 0, blanks are refused and the field starts with a blank and trims to nothing |
| Fields.CastUnsigned | Code/GraphMol/FileParsers/MolFileParser.cpp:50-58 | `stripSpacesAndCast<unsigned int>` yields a value below 2^32, or a failed cast that carries the field |
| Fields.TrimRightJustify | Code/GraphMol/FileParsers/MolFileParser.cpp:52 | trimming a right-justified natural number leaves exactly its digits |
| Fields.CastUnsignedRoundTrip | Code/GraphMol/FileParsers/MolFileParser.cpp:50-58 | round trip: the cast reads every right-justified natural number below 2^32 back |
| Fields.CastUnsignedOfDigits | Code/GraphMol/FileParsers/MolFileParser.cpp:50-58 | a field that trims to a run of digits below 2^32 casts to their decimal value |
| Fields.CastUnsignedBlank | Code/GraphMol/FileParsers/MolFileParser.cpp:53-56 | an all-blank field casts to 0 when blanks are accepted and fails otherwise |
| Fields.Column | Code/GraphMol/FileParsers/MolFileParser.cpp:1018 | `substr` succeeds exactly when the start lies within the string, and raises an out-of-range error otherwise |
| Fields.IntAtSpec | Code/GraphMol/FileParsers/MolFileParser.cpp:182-189 | a `toInt` of a fixed-column field in a rethrowing try block: a start past the end is a range error, a failed cast a FileParseException, otherwise the `atoi` value |
| Fields.UnsignedAtSpec | Code/GraphMol/FileParsers/MolFileParser.cpp:269-276 | the same for `stripSpacesAndCast<unsigned int>`: range error, FileParseException, or the cast's value |
| Fields.PredU32 | Code/GraphMol/FileParsers/MolFileParser.cpp:109 | subtracting one from an unsigned index wraps 0 to 2^32 - 1 and lowers every other value by one |
| Fields.AsU32 | Code/GraphMol/FileParsers/MolFileParser.cpp:1754 | converting an int count to unsigned keeps values in range and adds 2^32 to negative ones |
| Queries.EqualsQuery | Code/GraphMol/FileParsers/MolFileParser.cpp:159 | a factory query is an un-negated equality leaf on the given feature and value |
| Queries.ExpandMatches | Code/GraphMol/FileParsers/MolFileParser.cpp:349 | expanding a query with AND accepts exactly what both parts accept; with OR, what either part accepts |
| Queries.WithNegationMatches | Code/GraphMol/FileParsers/MolFileParser.cpp:125 | negating the root of a query flips its answer on every input |
| Queries.MagicValValue | Code/GraphMol/FileParsers/MolFileParser.cpp:37 | the default sentinel `-0xDEADBEEF`, computed in unsigned arithmetic and stored in an int, is 559038737 |
| Queries.CompleteResolves | Code/GraphMol/FileParsers/MolFileParser.cpp:25-36 | when no data function produces the sentinel, completion leaves no leaf holding it, and completing twice is completing once |
| Molecule.TypeCodeInjective | Code/GraphMol/FileParsers/MolFileParser.cpp:873-884 | distinct bond types have distinct numeric codes, so a bond-order leaf names exactly one type |
| Molecule.Trunc | Code/GraphMol/FileParsers/MolFileParser.cpp:92 | `static_cast<int>` of a real truncates toward zero |
| Molecule.QueryAtomOf | Code/GraphMol/FileParsers/MolFileParser.cpp:85 | copying an atom into a query atom keeps every field and adds a query on its atomic number |
| Molecule.Upgrade | Code/GraphMol/FileParsers/MolFileParser.cpp:80-96 | `replaceAtomWithQueryAtom` returns a query atom that differs from the input only in its query, and leaves an atom that already has a query unchanged |
| Molecule.UpgradeIdempotent | Code/GraphMol/FileParsers/MolFileParser.cpp:83 | replacing an atom by a query atom twice is the same as doing it once |
| Molecule.UpgradeMatches | Code/GraphMol/FileParsers/MolFileParser.cpp:85-93 | the query atom matches exactly the atoms with the same atomic number and, when set, the same non-zero formal charge and the same truncated mass |
| Molecule.AndQuery | Code/GraphMol/FileParsers/MolFileParser.cpp:346-349 | AND-ing a predicate onto an atom gives it a query and changes nothing else |
| Molecule.AndQueryMatches | Code/GraphMol/FileParsers/MolFileParser.cpp:346-349 | the AND-ed atom matches exactly what the upgraded atom matched and also satisfies the new predicate |
| Molecule.AtomAt | Code/GraphMol/FileParsers/MolFileParser.cpp:198 | `getAtomWithIdx` succeeds exactly for an index of an existing atom, and returns that atom |
| Molecule.AtomIndex | Code/GraphMol/FileParsers/MolFileParser.cpp:117 | `RANGE_CHECK` accepts exactly the indices of existing atoms and raises a range error for all others |
| Molecule.SetAtom | Code/GraphMol/FileParsers/MolFileParser.cpp:164 | `replaceAtom` changes the atom at the index and nothing else in the molecule |
| Molecule.AddAtom | Code/GraphMol/FileParsers/MolFileParser.cpp:973-974 | `addAtom` plus `setAtomPos` append the atom and its position at the same new index and change nothing else |
| Molecule.AddBond | Code/GraphMol/FileParsers/MolFileParser.cpp:1000 | `addBond` succeeds exactly when both ends are distinct existing atoms that no bond joins yet, and then only appends the bond |
| Molecule.AddBondKeepsWellFormed | Code/GraphMol/FileParsers/MolFileParser.cpp:1000 | adding a bond keeps the graph well formed: bonds join distinct existing atoms, and no pair is joined twice |
| Molecule.AddAtomKeepsWellFormed | Code/GraphMol/FileParsers/MolFileParser.cpp:973 | adding an atom keeps the graph well formed |
| Molecule.QueryBondOf | Code/GraphMol/FileParsers/MolFileParser.cpp:929 | copying a bond into a query bond keeps every field and adds a query on its bond order |
| Molecule.Bookmark | Code/GraphMol/FileParsers/MolFileParser.cpp:1356 | bookmarking an atom number files it when the number is new; the atom first filed under a number is the one found later |
| Molecule.CompleteMolQueries | Code/GraphMol/FileParsers/MolFileParser.cpp:37-45 | completion visits every atom: plain atoms stay as they are, and a query atom keeps all its fields and the shape of its query tree |
| Molecule.CompleteAtom | Code/GraphMol/FileParsers/MolFileParser.cpp:40-42 | completing one atom changes only its query, and only in leaf values |
| Molecule.CompleteIfNeeded | Code/GraphMol/FileParsers/MolFileParser.cpp:1834-1837 | the completion pass runs only when a deferred value was stored, and afterwards the flag is cleared |
| Molecule.CompleteMolQueriesResolves | Code/GraphMol/FileParsers/MolFileParser.cpp:37-45 | after completion no query atom keeps the sentinel, as long as the data functions never produce it |
| Molecule.SettleDim | Code/GraphMol/FileParsers/MolFileParser.cpp:1364-1369 | a 2D or 3D label fixes the conformer's dimension and is then cleared; without a label nothing changes |
| Molecule.ZeroCharges | Code/GraphMol/FileParsers/MolFileParser.cpp:174-179 | the first charge line resets every atom's formal charge to 0 and changes nothing else |
| V2000.AcceptField | Code/GraphMol/FileParsers/MolFileParser.cpp:652-662 | an optional atom-line column is read exactly when it is present and not its zero spelling, and then holds the `toInt` value of those columns |
| V2000.GenericQueryMatches | Code/GraphMol/FileParsers/MolFileParser.cpp:685-730 | `*` matches every atom, `Q` every atom but carbon and hydrogen, `A` every atom but hydrogen |
| V2000.SymbolAtom | Code/GraphMol/FileParsers/MolFileParser.cpp:685-730 | the atom a symbol stands for: a query atom without implicit hydrogens for `A`, `Q` and `*`; atomic number 0 for the other special symbols, with R1 to R9 carrying their digit as mass; deuterium and tritium as hydrogen with their masses; any other symbol as the periodic table's element and weight |
| V2000.SetIntProp | Code/GraphMol/FileParsers/MolFileParser.cpp:746-818 | an optional integer property is set exactly when its column was present |
| V2000.AtomProps | Code/GraphMol/FileParsers/MolFileParser.cpp:746-818 | the atom carries a parity property exactly when the parity column is present, and the map number read from its column |
| V2000.BuildAtom | Code/GraphMol/FileParsers/MolFileParser.cpp:733-744 | a charge code c other than 0 gives formal charge 4 - c; an H count of 1 switches off implicit hydrogens; a mass difference is added to the mass and marks a mass query; the symbol fixes atomic number and query |
| V2000.ReadAtomFields | Code/GraphMol/FileParsers/MolFileParser.cpp:648-684 | the symbol is columns 31-33 up to the first blank; mass difference, charge and H count are the accepted values of their columns, 0 when absent; parity and map number are present exactly when their columns are |
| V2000.Coords | Code/GraphMol/FileParsers/MolFileParser.cpp:638-647 | reading the coordinates can fail only with the "Cannot process coordinates." exception |
| V2000.CoordsAtof | Code/GraphMol/FileParsers/MolFileParser.cpp:638-647 | because blanks are accepted, the coordinates are always the `atof` values of columns 0-9, 10-19 and 20-29 |
| V2000.ParseAtomLine | Code/GraphMol/FileParsers/MolFileParser.cpp:627-636 | an atom line succeeds exactly when it is at least 34 characters long, fails otherwise with a FileParseException, and yields the atom built from its fields |
| V2000.AtomLineCharge | Code/GraphMol/FileParsers/MolFileParser.cpp:663-673 | round trip: a charge q from -3 to 3, other than 0, written as the code 4 - q is read back as q |
| V2000.BondOfCode | Code/GraphMol/FileParsers/MolFileParser.cpp:846-898 | codes 0 to 4 give plain bonds and every other code a query bond of unspecified type; the bond has no direction, stereo or aromatic flag yet |
| V2000.OrderPairMatches | Code/GraphMol/FileParsers/MolFileParser.cpp:869-887 | an OR of two bond-order leaves matches exactly the bonds of either order |
| V2000.BondCodeMatches | Code/GraphMol/FileParsers/MolFileParser.cpp:860-893 | code 5 matches single or double bonds, 6 single or aromatic, 7 double or aromatic, and 8 or any other unknown code matches every bond |
| V2000.BondCodeRoundTrip | Code/GraphMol/FileParsers/MolFileParser.cpp:850-859 | round trip: every plain bond type written as its code is read back as that type, without a query |
| V2000.ApplyStereo | Code/GraphMol/FileParsers/MolFileParser.cpp:900-925 | the stereo codes 0, 1, 3, 4 and 6 change only direction and stereo flag, code 3 alone marks stereo-any, and every other code changes nothing |
| V2000.StereoRoundTrip | Code/GraphMol/FileParsers/MolFileParser.cpp:904-921 | round trip: every bond direction written as its stereo code is read back as that direction |
| V2000.ApplyTopology | Code/GraphMol/FileParsers/MolFileParser.cpp:926-948 | topology 1 or 2 turns the bond into a query bond on its order AND-ed with a ring test, negated for 2; any other value is a FileParseException |
| V2000.SwallowedField | Code/GraphMol/FileParsers/MolFileParser.cpp:949-956 | an optional bond column is read exactly when it is present, not "  0" and casts; a failed cast is swallowed |
| V2000.BondOptions | Code/GraphMol/FileParsers/MolFileParser.cpp:900-956 | the optional columns fail only on a readable topology other than 1 or 2; they keep the ends and type, and set the reacting-centre status exactly when its column was read |
| V2000.ParseBondLine | Code/GraphMol/FileParsers/MolFileParser.cpp:822-846 | a bond line succeeds exactly when its three mandatory fields cast and its optional columns are accepted; the ends are the file's 1-based numbers minus one and the type follows the order code |
| V2000.ParseBondLineFails | Code/GraphMol/FileParsers/MolFileParser.cpp:832-842 | a bond line fails exactly when it is shorter than 9 characters, a mandatory field is all blank, or a readable topology is neither 1 nor 2 |
| V2000.BondLineRoundTrip | Code/GraphMol/FileParsers/MolFileParser.cpp:822-898 | round trip: a bond line whose first nine columns a writer filled reads back the same two atoms and the same bond type |
| V2000.AtomLoop | Code/GraphMol/FileParsers/MolFileParser.cpp:965-975 | the atom loop, whatever the line parser: it appends one atom and one position per line behind the existing ones, consumes exactly n lines and changes nothing else of the molecule |
| V2000.AtomLoopLines | Code/GraphMol/FileParsers/MolFileParser.cpp:965-975 | the atom loop builds exactly what the lines it read give when parsed one after the other and appended |
| V2000.LinesAtomsAt | Code/GraphMol/FileParsers/MolFileParser.cpp:965-975 | lines parsed one after the other give their atoms in order: the k-th new atom and position are what the k-th line parses as |
| V2000.ParseAtoms | Code/GraphMol/FileParsers/MolFileParser.cpp:960-976 | reading n atom lines appends n atoms and n positions behind the existing ones, consumes exactly n lines and changes nothing else of the molecule |
| V2000.ParseAtomsInOrder | Code/GraphMol/FileParsers/MolFileParser.cpp:960-976 | the atoms come in file order: the k-th new atom and position are those the k-th line read parses as |
| V2000.MarkAromatic | Code/GraphMol/FileParsers/MolFileParser.cpp:993-994 | only the named atom gains the aromatic flag |
| V2000.AddBondLine | Code/GraphMol/FileParsers/MolFileParser.cpp:989-1000 | a bond is added when `addBond` accepts it; an aromatic bond is flagged and marks both of its atoms aromatic, no other atom field changes, and chirality becomes possible exactly when the bond has a direction other than none or unknown |
| V2000.ParseBonds | Code/GraphMol/FileParsers/MolFileParser.cpp:979-1002 | reading n bond lines appends n bonds after the existing ones, keeps the atom count, consumes exactly n lines, keeps the graph well formed and changes nothing but atoms, bonds and the chirality flag; which bond each line gives is stated by `V2000.ParseBondsInOrder` |
| V2000.ParseBondsLines | Code/GraphMol/FileParsers/MolFileParser.cpp:983-1001 | the bond loop builds exactly what the lines it read give when each is parsed and added in turn |
| V2000.LinesBondsAt | Code/GraphMol/FileParsers/MolFileParser.cpp:983-1001 | lines parsed and added one after the other give their bonds in order: the k-th new bond is what the k-th line parses as, flagged aromatic when its type is aromatic |
| V2000.ParseBondsInOrder | Code/GraphMol/FileParsers/MolFileParser.cpp:979-1002 | the bonds come in file order: the k-th new bond is the bond the k-th line read parses as, flagged aromatic when its type is aromatic |
| V2000.BondLineKeepsWellFormed | Code/GraphMol/FileParsers/MolFileParser.cpp:1000 | adding one parsed bond keeps the graph well formed |
| Edits.RGroupAtom | Code/GraphMol/FileParsers/MolFileParser.cpp:578-587 | an R-group atom becomes a match-anything query atom that records its label, takes the label as mass only for labels 1 to 998, and keeps every other field |
| Edits.ApplyEditWithin | Code/GraphMol/FileParsers/MolFileParser.cpp:164 | applying one entry's edit changes no atom field outside those the edit names |
| Edits.SetInts | Code/GraphMol/FileParsers/MolFileParser.cpp:191-198 | each CHG or RAD entry becomes one edit of the atom its 1-based number names, in line order |
| Properties.UnsignedIndex | Code/GraphMol/FileParsers/MolFileParser.cpp:282-284 | an unsigned 1-based atom number names the atom one below it; with fewer than 2^32 atoms it is accepted exactly for 1 to the atom count, and anything else is a range error |
| Properties.SignedIndex | Code/GraphMol/FileParsers/MolFileParser.cpp:194-198 | a signed 1-based atom number is accepted exactly from 1 to the atom count, and anything else is a range error |
| Properties.ChargePairs | Code/GraphMol/FileParsers/MolFileParser.cpp:190-205 | the CHG entries are read eight columns apart from column 9, and every atom number names an existing atom |
| Properties.BaseAtoms | Code/GraphMol/FileParsers/MolFileParser.cpp:174-179 | the first CHG or RAD line of a block sets every formal charge to 0 first; later lines start from the atoms as they are |
| Properties.ChargeLine | Code/GraphMol/FileParsers/MolFileParser.cpp:167-206 | a CHG line changes formal charges only, and nothing but the atoms |
| Properties.ChargeLineCharges | Code/GraphMol/FileParsers/MolFileParser.cpp:167-206 | after a CHG line each atom's charge is the one its last entry gives, or its previous charge (0 on the block's first line) when no entry names it |
| Properties.RadicalElectrons | Code/GraphMol/FileParsers/MolFileParser.cpp:241-254 | only radical codes 1, 2 and 3 are accepted; 1 and 3 mean two unpaired electrons and 2 means one |
| Properties.RadicalPairs | Code/GraphMol/FileParsers/MolFileParser.cpp:230-261 | the RAD entries keep the line's atom numbers, each with the electron count of its code, and every number names an existing atom |
| Properties.RadicalLine | Code/GraphMol/FileParsers/MolFileParser.cpp:208-262 | a RAD line changes radicals and the first-line charge reset only, and nothing but the atoms |
| Properties.RadicalLineRadicals | Code/GraphMol/FileParsers/MolFileParser.cpp:208-262 | after a RAD line each atom has the electron count its last entry gives, or its previous count when no entry names it |
| Properties.IsoEntry | Code/GraphMol/FileParsers/MolFileParser.cpp:277-298 | an ISO entry reads its atom number from the four columns at its start (1-based, wrapping) and sets only that existing atom's mass: to the value of the next four columns when they exist and are not blank, moving on eight columns, and otherwise to the element's standard atomic weight, moving on four; it is accepted whenever the atom number names an atom and a given mass reads as an integer |
| Properties.IsoEdits | Code/GraphMol/FileParsers/MolFileParser.cpp:277-298 | the ISO line yields one mass edit per entry, each of an existing atom |
| Properties.IsoEditsStep | Code/GraphMol/FileParsers/MolFileParser.cpp:277-298 | one turn of the ISO loop: the first entry's edit, then the edits of the entries from where that entry ended |
| Properties.IsoEditsSteps | Code/GraphMol/FileParsers/MolFileParser.cpp:277-298 | the ISO loop's edits are those of its entries, each entry starting where the one before it ended |
| Properties.IsoEditsAt | Code/GraphMol/FileParsers/MolFileParser.cpp:277-298 | edit k of an ISO line is the edit of the entry starting where entry k - 1 ended (eight columns on with a mass, four without), so its atom and mass are those IsoEntry states |
| Properties.IsotopeLine | Code/GraphMol/FileParsers/MolFileParser.cpp:264-300 | an ISO line changes masses only, and nothing but the atoms |
| Properties.IsotopeLineMasses | Code/GraphMol/FileParsers/MolFileParser.cpp:264-300 | after an ISO line each atom carries the mass set by the last entry naming it, or keeps its own mass when no entry names it, and nothing else about it changes |
| Edits.LastMassWins | Code/GraphMol/FileParsers/MolFileParser.cpp:285-291 | after a run of mass settings an atom carries the mass of the last entry naming it, and is otherwise untouched |
| Properties.CountQuery | Code/GraphMol/FileParsers/MolFileParser.cpp:326-345 | a non-zero count is accepted exactly for SUB -2 to 6, UNS 1 and RBC -2 to 4; any other count is a FileParseException |
| Properties.CountQueryMatches | Code/GraphMol/FileParsers/MolFileParser.cpp:326-449 | SUB -1 asks for no explicit connections, -2 for the degree as drawn and 1 to 6 for exactly that many; RBC -1 for no ring bonds, 1 to 3 for exactly that many, 4 for four or more, -2 defers its value; UNS 1 asks for a multiple bond |
| Properties.CountStride | Code/GraphMol/FileParsers/MolFileParser.cpp:323-350 | as written, the read position skips a count field only for a non-zero SUB or RBC count; corrected, it always does |
| Properties.CountEntry | Code/GraphMol/FileParsers/MolFileParser.cpp:319-350 | a SUB, UNS or RBC entry edits only the query of an existing atom, and only an RBC entry asks for the completion pass |
| Properties.CountField | Code/GraphMol/FileParsers/MolFileParser.cpp:323-350 | a given count field AND-s its query onto the entry's atom, and only RBC asks for the completion pass; a blank or missing field adds nothing and, as written, leaves the position on it (the move at :350 sits inside the test), while corrected every entry is eight columns wide and the position always moves on four |
| Properties.CountEdits | Code/GraphMol/FileParsers/MolFileParser.cpp:316-352 | the entry loop yields query edits of existing atoms only, and only an RBC line asks for the completion pass |
| Properties.CountLine | Code/GraphMol/FileParsers/MolFileParser.cpp:302-459 | a SUB, UNS or RBC line changes atom queries only; only RBC can set the completion flag, and no line clears it |
| Properties.UnsignedPair | Code/GraphMol/FileParsers/MolFileParser.cpp:555-570 | the atom number and label of an RGP entry are the unsigned 3-column fields at `pos` and `pos + 4`, both below 2^32, and the pair is read exactly when both fields read |
| Properties.RGroupEntry | Code/GraphMol/FileParsers/MolFileParser.cpp:556-587 | an RGP entry reads the atom number and the label from two unsigned 3-column fields at columns 10 + 8i and 14 + 8i; when the atom number less one (wrapping) exceeds the atom count the entry is rejected as naming a nonexistent atom, when it equals the count the atom lookup fails, and otherwise the entry makes that atom an R-group atom with the label |
| Properties.RGroupEdits | Code/GraphMol/FileParsers/MolFileParser.cpp:552-588 | the RGP loop yields one edit per entry, each of an existing atom and only of the R-group fields |
| Properties.RGroupLine | Code/GraphMol/FileParsers/MolFileParser.cpp:538-589 | an RGP line changes the R-group fields only, and nothing but the atoms |
| Properties.RGroupEditsStep | Code/GraphMol/FileParsers/MolFileParser.cpp:552-588 | one turn of the RGP loop: the first entry, then the entries after it |
| Properties.RGroupEditsReads | Code/GraphMol/FileParsers/MolFileParser.cpp:552-588 | the loop's entries are those read from entry i on, one per entry, in order |
| Properties.RGroupEditsAt | Code/GraphMol/FileParsers/MolFileParser.cpp:552-588 | the loop's entry k is the one read from columns 10 + 8k on |
| Properties.RGroupLineEdits | Code/GraphMol/FileParsers/MolFileParser.cpp:538-589 | an accepted RGP line applies the entries of the loop to the atoms, and a negative count reads no entry |
| Properties.RGroupLineLabels | Code/GraphMol/FileParsers/MolFileParser.cpp:538-589 | after an RGP line an atom no entry names is unchanged; an atom some entry names is a match-anything query atom carrying the label of the last entry naming it, with that label as its mass when it lies between 1 and 998 |
| Edits.RGroupEditsWin | Code/GraphMol/FileParsers/MolFileParser.cpp:578-587 | after a run of R-group replacements an atom no entry names is unchanged, and an atom some entry names carries the query, label and mass the last of them gives |
| Edits.LastRGroupWins | Code/GraphMol/FileParsers/MolFileParser.cpp:578-587 | replacing one atom several times leaves the match-anything query, the last label, and that label as mass when it lies between 1 and 998 |
| Edits.EditsForIn | Code/GraphMol/FileParsers/MolFileParser.cpp:587 | every edit an atom receives comes from an entry naming that atom |
| Properties.SlotSymbol | Code/GraphMol/FileParsers/MolFileParser.cpp:510-511 | an ALS slot yields a symbol exactly when it contains a blank; the symbol is the blank-free text before the first blank |
| Properties.ListSymbols | Code/GraphMol/FileParsers/MolFileParser.cpp:502-518 | the ALS line yields one atomic number per slot, and all slots lie inside the line |
| Properties.AtomListQuery | Code/GraphMol/FileParsers/MolFileParser.cpp:513-528 | the list query is negated exactly for a T list |
| Properties.AtomListQueryMatches | Code/GraphMol/FileParsers/MolFileParser.cpp:502-528 | corrected, an ALS query accepts exactly the listed elements, or for a T list exactly the others |
| Properties.AtomListQueryAsWritten | Code/GraphMol/FileParsers/MolFileParser.cpp:513-517 | as written, an F list accepts the atom's original element and the listed elements after the first, not the first listed element |
| Properties.NewAtomList | Code/GraphMol/FileParsers/MolFileParser.cpp:470-536 | an ALS line shorter than 15 characters is a FileParseException; an accepted one has T or F at column 14 and changes only the atomic number and query of atoms |
| Properties.OldAtomNums | Code/GraphMol/FileParsers/MolFileParser.cpp:146-161 | the legacy list yields one atomic number per entry, each between 0 and 200 |
| Properties.ListQuery | Code/GraphMol/FileParsers/MolFileParser.cpp:120-163 | the legacy list query has one child per listed element and is negated as the modifier says |
| Properties.ListQueryMatches | Code/GraphMol/FileParsers/MolFileParser.cpp:120-163 | the legacy list query accepts exactly the listed elements, or the others for a T list |
| Properties.OldAtomList | Code/GraphMol/FileParsers/MolFileParser.cpp:105-165 | an accepted legacy atom-list line has T or F at column 4 and changes only the atomic number and query of atoms; once the atom number is read and names an atom, the result is undefined exactly when the line is shorter than 4, or holds a bad flag and is shorter than 14, and a bad flag on a longer line is a FileParseException |
| Properties.AtomAlias | Code/GraphMol/FileParsers/MolFileParser.cpp:591-607 | a line not starting with `A ` fails the precondition; otherwise the line stores the whole next line as the alias of the atom it names, and changes nothing else |
| Properties.AtomValue | Code/GraphMol/FileParsers/MolFileParser.cpp:609-625 | a line not starting with `V ` fails the precondition; otherwise the line stores its text from column 7 on as the value of the atom it names, and changes nothing else |
| PropertyBlock.Head | Code/GraphMol/FileParsers/MolFileParser.cpp:1018 | the six-character tag of a line is its first six characters, or the whole line when it is shorter |
| PropertyBlock.QueryTagLine | Code/GraphMol/FileParsers/MolFileParser.cpp:1034-1039 | the ALS, RBC, SUB and UNS handlers change nothing but the atoms |
| PropertyBlock.TagLine | Code/GraphMol/FileParsers/MolFileParser.cpp:1030-1047 | an `M  ` line changes nothing but the atoms; the first-line flag stays set only when it was set and the line is neither CHG nor RAD; a tag the reader does not know leaves molecule and flag as they were |
| PropertyBlock.PropertyLine | Code/GraphMol/FileParsers/MolFileParser.cpp:1020-1047 | one line of the block changes nothing but the atoms and reads at most the alias line after it; the first-line flag stays set only when it was set and the line is neither CHG nor RAD; a `G`, `S  SKP` or unknown `M  ` line is passed over untouched |
| PropertyBlock.ChargeLineInBlock | Code/GraphMol/FileParsers/MolFileParser.cpp:1017-1047 | a CHG line in the block clears the first-line flag; an atom it does not name gets charge 0 when the line is the block's first CHG or RAD line and keeps its charge on any later one, and an atom it names gets the charge of its last entry |
| PropertyBlock.LegacyLine | Code/GraphMol/FileParsers/MolFileParser.cpp:1020-1029 | an `A` line consumes the alias line after it and a `V` line consumes nothing; both change nothing but the atoms |
| PropertyBlock.PropertyLoop | Code/GraphMol/FileParsers/MolFileParser.cpp:1019-1051 | the loop changes nothing but the atoms and stops only at the end of input, at `M  END` or at `$$$$` |
| PropertyBlock.MolBlockProperties | Code/GraphMol/FileParsers/MolFileParser.cpp:1004-1056 | the properties block, legacy atom list included, changes nothing but the atoms |
| PropertyBlock.LoopSkips | Code/GraphMol/FileParsers/MolFileParser.cpp:1019-1051 | a run of ignored lines closed by `M  END` leaves the molecule unchanged and stops on `M  END` with the stream just after it |
| PropertyBlock.BlockSkips | Code/GraphMol/FileParsers/MolFileParser.cpp:1004-1056 | a block of ignored lines closed by `M  END` leaves the molecule unchanged, counts as complete and resumes reading after `M  END` |
| CountWriter.CountIntent | Code/GraphMol/FileParsers/MolFileParser.cpp:316-352 | the reference meaning of a list of count entries: for each non-zero count, its query AND-ed onto the existing atom the entry names |
| CountWriter.CountEntryRead | Code/GraphMol/FileParsers/MolFileParser.cpp:319-350 | a written entry for an existing atom with an accepted count gives that count's edit and moves on by the stride; any other count is rejected |
| CountWriter.CountEntryZeroAtom | Code/GraphMol/FileParsers/MolFileParser.cpp:320-322 | atom number 0 wraps to 2^32 - 1 as an unsigned index and names no atom, so the entry is rejected |
| CountWriter.CountFieldAccepted | Code/GraphMol/FileParsers/MolFileParser.cpp:323-350 | a given count field with an accepted count gives its edit, moves on by the stride and asks for completion only for RBC -2 |
| CountWriter.CountFieldRejected | Code/GraphMol/FileParsers/MolFileParser.cpp:341-345 | a given count field with any other count is rejected |
| CountWriter.CountEditsWritten | Code/GraphMol/FileParsers/MolFileParser.cpp:316-352 | round trip: with the corrected stride, the entry loop accepts written entries and gives exactly their intended edits |
| CountWriter.CountLineWritten | Code/GraphMol/FileParsers/MolFileParser.cpp:302-459 | round trip: a written SUB, UNS or RBC line, read with the corrected stride, is accepted and gives each atom the queries its entries ask for, AND-ed on in order |
| Writer.RightJustifyWidth | Code/GraphMol/FileParsers/MolFileParser.cpp:1668-1684 | a value that fits a field is written in exactly that many columns |
| Writer.IntAtWritten | Code/GraphMol/FileParsers/MolFileParser.cpp:182-189 | round trip: a written field reads back through `toInt` as the integer it holds, whatever text surrounds it |
| Writer.UnsignedAtWritten | Code/GraphMol/FileParsers/MolFileParser.cpp:269-276 | round trip: the same for the strict unsigned cast |
| Writer.FieldGivenWritten | Code/GraphMol/FileParsers/MolFileParser.cpp:285 | a written four-column field is never taken for an absent one |
| Writer.WrittenField | Code/GraphMol/FileParsers/MolFileParser.cpp:282-286 | a written four-column field reads back as its value, signed or (when not negative) unsigned, and counts as given |
| Writer.EntryWritten | Code/GraphMol/FileParsers/MolFileParser.cpp:193-197 | a written entry has both of its fields given and reading back as its atom number and value |
| Writer.WrittenEntryRead | Code/GraphMol/FileParsers/MolFileParser.cpp:193-197 | round trip: one CHG or RAD entry reads back as the pair written |
| Writer.ReadPairsWritten | Code/GraphMol/FileParsers/MolFileParser.cpp:190-205 | round trip: the entry loop reads back all written entries, whatever precedes and follows them |
| Writer.EntryCountWritten | Code/GraphMol/FileParsers/MolFileParser.cpp:181-189 | the entry count of a written line reads back as the number of entries, through both the signed and the unsigned cast |
| Writer.ChargePairsWritten | Code/GraphMol/FileParsers/MolFileParser.cpp:190-205 | the CHG entry loop accepts written entries whose atom numbers all name existing atoms, and returns them |
| Writer.ChargeLineWritten | Code/GraphMol/FileParsers/MolFileParser.cpp:167-206 | round trip: a written CHG line is accepted, and each atom gets the charge of the last entry naming it, or keeps its previous charge (0 on the block's first line) when none does |
| Findings.TwoEntriesFields | Code/GraphMol/FileParsers/MolFileParser.cpp:306-322 | a written two-entry line holds the count 2 and its four fields at columns 9, 13, 17 and 21 |
| Findings.SecondEntryFails | Code/GraphMol/FileParsers/MolFileParser.cpp:316-358 | a two-entry count line whose second entry is rejected is rejected as a whole |
| Findings.StuckEntry | Code/GraphMol/FileParsers/MolFileParser.cpp:325 | an accepted first entry with a stride of 0 leaves the read position on the count field, column 13 |
| Findings.UnsRejects | Code/GraphMol/FileParsers/MolFileParser.cpp:382-397 | an as-written UNS entry whose count reads as 2 or more is rejected |
| Findings.UnsChain | Code/GraphMol/FileParsers/MolFileParser.cpp:374-397 | as written, the UNS loop reads the first count 1 as the second atom number, then the second atom number as a count, and rejects the line |
| Findings.UnsStrideAsWritten | Code/GraphMol/FileParsers/MolFileParser.cpp:374-397 | as written, a well-formed UNS line with two entries, the second for atom 2 or later, is rejected |
| Findings.UnsStrideCorrected | Code/GraphMol/FileParsers/MolFileParser.cpp:374-397 | corrected, the same UNS lines are accepted whenever both atoms exist |
| Findings.ZeroChain | Code/GraphMol/FileParsers/MolFileParser.cpp:325 | as written, after a zero SUB or RBC count the loop reads that 0 as the next atom number, which names no atom |
| Findings.ZeroCountAsWritten | Code/GraphMol/FileParsers/MolFileParser.cpp:323-325 | as written, a well-formed two-entry SUB or RBC line whose first count is 0 is rejected |
| Findings.ZeroCountCorrected | Code/GraphMol/FileParsers/MolFileParser.cpp:323-325 | corrected, the same lines are accepted whenever both atoms exist and the second count is supported |
| Findings.AtomListFirstAsWritten | Code/GraphMol/FileParsers/MolFileParser.cpp:513-517 | an atom that is the first listed element fails the as-written F list query when its original element differs, and passes the corrected one |
| V3000Lines.V30Line | Code/GraphMol/FileParsers/MolFileParser.cpp:1058-1085 | a logical line needs every physical line to start with `M  V30 `, otherwise a FileParseException; reading one consumes input |
| V3000Lines.V30LastLine | Code/GraphMol/FileParsers/MolFileParser.cpp:1064-1084 | a prefixed physical line that does not end in `-` reads back as its text after the prefix, and the stream continues with the next line |
| V3000Lines.V30ContinuedLine | Code/GraphMol/FileParsers/MolFileParser.cpp:1070-1082 | a physical line ending in `-` contributes its text without the mark in front of whatever the following lines give |
| V3000Lines.V30LineBroken | Code/GraphMol/FileParsers/MolFileParser.cpp:1075-1080 | a continued line followed by a line without the prefix is rejected |
| V3000Lines.V30Physical | Code/GraphMol/FileParsers/MolFileParser.cpp:1070-1082 | a writer spreads a logical line over one physical line per chunk |
| V3000Lines.Tokens | Code/GraphMol/FileParsers/MolFileParser.cpp:1281-1285 | the tokens of a trimmed atom line contain no blank or tab, and there are none exactly when the line is blank |
| V3000Lines.TrimKeeps | Code/GraphMol/FileParsers/MolFileParser.cpp:1281 | trimming leaves alone a text whose ends are not white space |
| V3000Lines.TokensSpaced | Code/GraphMol/FileParsers/MolFileParser.cpp:1281-1285 | round trip: words joined by single blanks tokenize into exactly those words |
| V3000Lines.ColumnsSpaced | Code/GraphMol/FileParsers/MolFileParser.cpp:1387-1389 | round trip: the compressing split of bond and counts lines gives back exactly the words joined by blanks |
| V3000Lines.SplitAssign | Code/GraphMol/FileParsers/MolFileParser.cpp:1157-1168 | a KEY=VALUE token's value contains no `=` |
| V3000Lines.SplitAssignOne | Code/GraphMol/FileParsers/MolFileParser.cpp:1157-1163 | a token is accepted exactly when it contains a single `=` |
| V3000Lines.SplitAssignWritten | Code/GraphMol/FileParsers/MolFileParser.cpp:1157-1168 | round trip: a written KEY=VALUE token, neither part holding `=`, reads back as the upper-cased key and the value |
| V3000Atoms.ListNums | Code/GraphMol/FileParsers/MolFileParser.cpp:1102-1112 | an atom list gives at most one atomic number per piece |
| V3000Atoms.V30ListQuery | Code/GraphMol/FileParsers/MolFileParser.cpp:1107-1113 | the list query's root is negated exactly for a NOT list |
| V3000Atoms.V30ListQueryMatches | Code/GraphMol/FileParsers/MolFileParser.cpp:1102-1113 | an atom list accepts exactly the listed elements, or for a NOT list exactly the others |
| V3000Atoms.V3000Symbol | Code/GraphMol/FileParsers/MolFileParser.cpp:1087-1155 | a symbol that is not a list fails exactly under NOT, or (as written) for `R#`; a list gives a fresh query atom; corrected, `R#` gives a plain atom of atomic number 0 |
| V3000Atoms.AtomListWritten | Code/GraphMol/FileParsers/MolFileParser.cpp:1090-1113 | round trip: a list written as `[S1,S2,...]` reads back as a query atom of the first element that accepts exactly the listed elements, or exactly the others under NOT |
| V3000Atoms.V30AtomProp | Code/GraphMol/FileParsers/MolFileParser.cpp:1184-1261 | one atom property changes only property fields, keeps a query atom a query atom, ignores an unknown key, and fails only with a FileParseException or a failed cast |
| V3000Atoms.ChargePropWritten | Code/GraphMol/FileParsers/MolFileParser.cpp:1184-1190 | a written CHG sets a plain atom's charge; on a query atom it leaves the charge alone and adds a demand for that charge |
| V3000Atoms.RadicalPropWritten | Code/GraphMol/FileParsers/MolFileParser.cpp:1191-1204 | a written RAD code is accepted exactly from 0 to 3; 0 changes nothing, and the others give the same electron count as a V2000 RAD line |
| V3000Atoms.HCountPropWritten | Code/GraphMol/FileParsers/MolFileParser.cpp:1230-1238 | a written non-zero HCOUNT makes the atom a query atom that keeps its old demands and adds that hydrogen count, -1 standing for 0 |
| V3000Atoms.V30AtomProps | Code/GraphMol/FileParsers/MolFileParser.cpp:1171-1264 | the properties of an atom line succeed only when every token is a KEY=VALUE pair, and change only property fields |
| V3000Atoms.PlaceAtom | Code/GraphMol/FileParsers/MolFileParser.cpp:1350-1357 | a read atom is appended with its position and bookmarked under its file number, and nothing else changes |
| V3000Atoms.V3000AtomLine | Code/GraphMol/FileParsers/MolFileParser.cpp:1278-1358 | an accepted atom line has at least six tokens, appends one atom and one position, bookmarks the atom under its number taken as unsigned, and changes nothing else |
| V3000Atoms.SpecAtom | Code/GraphMol/FileParsers/MolFileParser.cpp:1148 | an element symbol gives a plain atom of the periodic table's atomic number, carrying its map number |
| V3000Atoms.V3000AtomLineWritten | Code/GraphMol/FileParsers/MolFileParser.cpp:1278-1358 | round trip: a written element atom line places that atom at that position, bookmarked under the written number |
| V3000Atoms.AtomTextRead | Code/GraphMol/FileParsers/MolFileParser.cpp:1280 | the physical line of a written atom reads back as its tokens joined by blanks |
| V3000Atoms.AtomLines | Code/GraphMol/FileParsers/MolFileParser.cpp:1278-1358 | reading n atom lines appends n atoms and positions after the existing ones, changes nothing but atoms, positions and bookmarks, and consumes input when n > 0 |
| V3000Atoms.AtomLinesUnfold | Code/GraphMol/FileParsers/MolFileParser.cpp:1278-1280 | reading n atom lines is reading one logical line, placing its atom, and reading n - 1 more |
| V3000Atoms.AtomLinesStep | Code/GraphMol/FileParsers/MolFileParser.cpp:1278-1358 | written atom lines in front of further ones are read one after another, each placing its atom |
| V3000Atoms.AtomBlock | Code/GraphMol/FileParsers/MolFileParser.cpp:1265-1371 | an atom block with a count of 0 fails the precondition; an accepted one appends exactly n atoms, keeps the bonds and settles the dimension label |
| V3000Bonds.V30BondProp | Code/GraphMol/FileParsers/MolFileParser.cpp:1449-1502 | one bond property keeps the bond's ends, ignores an unknown key, flags chirality only when CFG gives a wedge or dash and always when it newly does, and fails only with a FileParseException or a failed cast |
| V3000Bonds.CfgCode | Code/GraphMol/FileParsers/MolFileParser.cpp:1457-1477 | the CFG code a writer uses for a direction lies between 0 and 3 |
| V3000Bonds.CfgWritten | Code/GraphMol/FileParsers/MolFileParser.cpp:1455-1477 | round trip: a written CFG value restores the bond's direction (unknown on a single bond, either-double on a double bond), and flags chirality exactly for wedges and dashes |
| V3000Bonds.TopoAgreesWithV2000 | Code/GraphMol/FileParsers/MolFileParser.cpp:1478-1495 | a TOPO value of 1 or 2 on a plain bond gives the same query bond as the V2000 topology column with that value |
| V3000Bonds.V30BondProps | Code/GraphMol/FileParsers/MolFileParser.cpp:1447-1502 | the bond properties succeed only when every token is a KEY=VALUE pair, and keep the bond's ends |
| V3000Bonds.CodeBond | Code/GraphMol/FileParsers/MolFileParser.cpp:1401-1444 | a V3000 order code gives the same bond as the V2000 code, flagged aromatic exactly for code 4 |
| V3000Bonds.WellFormedAfterAdd | Code/GraphMol/FileParsers/MolFileParser.cpp:1506 | adding a bond keeps the graph well formed |
| V3000Bonds.PlaceBond | Code/GraphMol/FileParsers/MolFileParser.cpp:1504-1511 | a bond is placed exactly when `addBond` accepts it: appended, bookmarked under its number, its atoms marked aromatic with it, chirality flagged when a property said so; nothing else changes and the graph stays well formed |
| V3000Bonds.V3000BondLine | Code/GraphMol/FileParsers/MolFileParser.cpp:1386-1512 | a bond line with fewer than four columns is rejected; an accepted one appends one bond between the atoms bookmarked under its third and fourth columns, bookmarks it under its first, and keeps the graph well formed |
| V3000Bonds.V3000BondLineWritten | Code/GraphMol/FileParsers/MolFileParser.cpp:1386-1512 | round trip: a written bond line of a plain type between two bookmarked atoms reads back as that type between those atoms |
| V3000Bonds.BondLines | Code/GraphMol/FileParsers/MolFileParser.cpp:1386-1512 | reading n bond lines appends n bonds after the existing ones, keeps atoms, atom bookmarks and coordinates, and keeps the graph well formed |
| V3000Bonds.BondTextRead | Code/GraphMol/FileParsers/MolFileParser.cpp:1387 | the physical line of a written bond reads back as its tokens joined by blanks |
| V3000Bonds.HasBondBetweenAppend | Code/GraphMol/FileParsers/MolFileParser.cpp:1506 | after a bond is appended, two atoms are bonded exactly when they were before or the new bond joins them |
| V3000Bonds.BondableTail | Code/GraphMol/FileParsers/MolFileParser.cpp:1386-1512 | once the first written bond is placed, the remaining written bonds still join filed, distinct, unbonded atoms |
| V3000Bonds.BondLinesStep | Code/GraphMol/FileParsers/MolFileParser.cpp:1386-1512 | a written bond line in front of further ones is read first, appending its bond, and reading goes on with the rest |
| V3000Bonds.BondLinesWritten | Code/GraphMol/FileParsers/MolFileParser.cpp:1386-1512 | round trip: plain bonds written one per line between filed atoms, no two on the same pair, read back in order as bonds of those types between the atoms their numbers name, and the stream continues after them |
| V3000Bonds.BondBlock | Code/GraphMol/FileParsers/MolFileParser.cpp:1372-1517 | a bond block with a count of 0 fails the precondition; an accepted one appends exactly n bonds between `BEGIN BOND` and `END BOND` and keeps the graph well formed |
| V3000Bonds.BondsIfAny | Code/GraphMol/FileParsers/MolFileParser.cpp:1559 | as written, a table without bonds fails the bond block's precondition; corrected, it skips the block and leaves molecule and stream as they were |
| V3000Ctab.OptionalCount | Code/GraphMol/FileParsers/MolFileParser.cpp:1554-1555 | an optional count is absent past the end of the line; otherwise it is read exactly when `toInt` accepts it, and stored as unsigned |
| V3000Ctab.CountsLine | Code/GraphMol/FileParsers/MolFileParser.cpp:1532-1556 | a line that does not start with `COUNTS ` or is shorter than 8 is a FileParseException; an accepted one has at least two counts, a positive atom count, and the optional counts exactly when the line has them |
| V3000Ctab.CountsLineWritten | Code/GraphMol/FileParsers/MolFileParser.cpp:1532-1556 | round trip: a written COUNTS line with a positive atom count reads back as its four counts |
| V3000Ctab.CountOrZero | Code/GraphMol/FileParsers/MolFileParser.cpp:1553-1555 | a count the line gave is used as is; a missing one is read uninitialized as written (undefined behaviour) and taken as zero when corrected |
| V3000Ctab.SkipSGroup | Code/GraphMol/FileParsers/MolFileParser.cpp:1567-1572 | the S group loop consumes at least one logical line and fails only with a FileParseException |
| V3000Ctab.SGroupBlock | Code/GraphMol/FileParsers/MolFileParser.cpp:1561-1573 | without S groups nothing is read; with them, `BEGIN SGROUP` and at least one more line are |
| V3000Ctab.SkipLines | Code/GraphMol/FileParsers/MolFileParser.cpp:1580 | skipping n logical lines consumes input when n > 0 |
| V3000Ctab.Obj3DBlock | Code/GraphMol/FileParsers/MolFileParser.cpp:1574-1585 | without 3D constraints nothing is read; with them, `BEGIN OBJ3D`, the constraint lines and `END OBJ3D` |
| V3000Ctab.SkipLinkNodes | Code/GraphMol/FileParsers/MolFileParser.cpp:1587-1591 | link-node lines are skipped and the first other line is returned; a line that is not a link node is returned at once |
| V3000Ctab.ToEnd | Code/GraphMol/FileParsers/MolFileParser.cpp:1599-1602 | lines are read up to the first that opens with END; a line that already does stops at once |
| V3000Ctab.SkipBlocks | Code/GraphMol/FileParsers/MolFileParser.cpp:1593-1604 | unknown blocks are skipped, and the first line after them opens no block |
| V3000Ctab.CtabEnd | Code/GraphMol/FileParsers/MolFileParser.cpp:1587-1608 | the tail of the table consumes input and fails only with a FileParseException |
| V3000Ctab.Tables | Code/GraphMol/FileParsers/MolFileParser.cpp:1558-1559 | the atom and bond blocks add exactly the counted atoms and bonds after the existing ones and settle the dimension label |
| V3000Ctab.Skipped | Code/GraphMol/FileParsers/MolFileParser.cpp:1561-1608 | what follows the bond block consumes input, and as written a missing S group count is undefined behaviour |
| V3000Ctab.MolBlock | Code/GraphMol/FileParsers/MolFileParser.cpp:1518-1614 | a V3000 table adds exactly as many atoms and bonds as its COUNTS line announces, keeps the existing bonds in front, settles the dimension label and consumes input |
| V3000Written.LineRead | Code/GraphMol/FileParsers/MolFileParser.cpp:1064-1084 | a prefixed line that does not continue reads back as its text, and the stream continues with the next line |
| V3000Written.KeywordRead | Code/GraphMol/FileParsers/MolFileParser.cpp:1064-1084 | each block keyword line reads back as the keyword |
| V3000Written.CtabEndWritten | Code/GraphMol/FileParsers/MolFileParser.cpp:1587-1608 | a table tail holding only `END CTAB` reads through that line |
| V3000Written.AtomBlockSteps | Code/GraphMol/FileParsers/MolFileParser.cpp:1274-1370 | the atom block is `BEGIN ATOM`, the atom lines and `END ATOM`, followed by the settling of the dimension label |
| V3000Written.AtomBlockWritten | Code/GraphMol/FileParsers/MolFileParser.cpp:1265-1371 | round trip: a written atom block reads back as its atoms placed in turn, the conformer settled by the header's label, and reading resumes after `END ATOM` |
| V3000Written.CountsTextRead | Code/GraphMol/FileParsers/MolFileParser.cpp:1532 | a written COUNTS line reads back as itself |
| V3000Written.MolBlockSteps | Code/GraphMol/FileParsers/MolFileParser.cpp:1518-1614 | a V3000 table is `BEGIN CTAB`, the COUNTS line, the atom and bond blocks, then the skipped blocks and the tail; an error in any part is the table's error |
| V3000Written.AtomsOnlyTables | Code/GraphMol/FileParsers/MolFileParser.cpp:1558-1559 | a table announcing atoms and no bonds fails the bond block's precondition as written, and reads its atoms and stops after `END ATOM` when corrected |
| V3000Written.CtabHead | Code/GraphMol/FileParsers/MolFileParser.cpp:1527-1556 | a written table's `BEGIN CTAB` and COUNTS lines read back, and the counts are its atom count with no bonds, S groups or 3D constraints |
| V3000Written.AtomsOnlyCtabAsWritten | Code/GraphMol/FileParsers/MolFileParser.cpp:1376 | finding, as written: a well-formed table with atoms and no bonds is rejected by the bond block's precondition |
| V3000Written.AtomsOnlyCtabCorrected | Code/GraphMol/FileParsers/MolFileParser.cpp:1518-1614 | finding, corrected: skipping the bond block when there are no bonds, a written atoms-only table reads back as its atoms, the conformer settled |
| V3000Written.SGroupStopsEarly | Code/GraphMol/FileParsers/MolFileParser.cpp:1567-1572 | as written, the S group loop stops right after its first line of ten or more characters, leaving the rest of the block unread |
| V3000Written.EndSGroupRejected | Code/GraphMol/FileParsers/MolFileParser.cpp:1606-1608 | the table tail does not accept the S group block's closing line in place of `END CTAB` |
| V3000Written.SGroupAsWritten | Code/GraphMol/FileParsers/MolFileParser.cpp:1569 | finding, as written: a well-formed one-line S group block leaves `END SGROUP` to the table tail, which rejects it |
| V3000Written.SGroupCorrected | Code/GraphMol/FileParsers/MolFileParser.cpp:1561-1573 | finding, corrected: a written S group block is skipped through its closing line, and the table ends where the writer ended it |
| V3000Written.ShortCountsLine | Code/GraphMol/FileParsers/MolFileParser.cpp:1553-1556 | a COUNTS line with only atom and bond counts gives no S group or 3D constraint count |
| V3000Written.MissingCountsAsWritten | Code/GraphMol/FileParsers/MolFileParser.cpp:1553-1561 | finding, as written: after a COUNTS line with two counts, the S group count is read uninitialized |
| V3000Written.MissingCountsCorrected | Code/GraphMol/FileParsers/MolFileParser.cpp:1553-1561 | finding, corrected: the counts a COUNTS line leaves out are zero, so the table may end right after its bond block |
| V3000Written.BlockThenEnd | Code/GraphMol/FileParsers/MolFileParser.cpp:1593-1604 | an unknown block is skipped through its first line opening with END, and skipping stops on the following `END CTAB` |
| V3000Written.UnknownBlockSkipped | Code/GraphMol/FileParsers/MolFileParser.cpp:1593-1608 | a table tail holding an unknown block `BEGIN name` … `END name` reads through its `END CTAB` line |
| V3000Written.RGroupTokens | Code/GraphMol/FileParsers/MolFileParser.cpp:1281-1285 | a written R# atom line tokenizes into its six words |
| V3000Written.RGroupLineAsWritten | Code/GraphMol/FileParsers/MolFileParser.cpp:1119-1140 | finding, as written: an R# atom on a V3000 atom line sets the atomic number through a pointer that was never allocated |
| V3000Written.RGroupLineCorrected | Code/GraphMol/FileParsers/MolFileParser.cpp:1119-1140 | finding, corrected: the R# atom is a dummy atom of atomic number 0, placed and bookmarked like any other atom |
| MolFile.DimLabel | Code/GraphMol/FileParsers/MolFileParser.cpp:1643-1650 | columns 20-21 of the info line label the molecule 2D exactly for `2d` or `2D` and 3D exactly for `3d` or `3D`; a line shorter than 22 carries no label |
| MolFile.Header | Code/GraphMol/FileParsers/MolFileParser.cpp:1630-1655 | the stream holds no molecule exactly when it ends while the name line is read; otherwise the molecule starts empty with the name, the info line and its dimension label |
| MolFile.CountsFields | Code/GraphMol/FileParsers/MolFileParser.cpp:1662-1714 | a counts line shorter than 6 is a FileParseException; the atom and bond counts are read exactly when `toInt` accepts columns 0-2 and 3-5, with the `atoi` values, and every failure is a FileParseException |
| MolFile.CtabVersion | Code/GraphMol/FileParsers/MolFileParser.cpp:1716-1732 | the table is V3000 exactly when the line has `V3000` at column 34; V2000 exactly when it has at most 35 characters or `V2000` there; any other longer line is a FileParseException |
| MolFile.V2000Tables | Code/GraphMol/FileParsers/MolFileParser.cpp:1741-1754 | the V2000 tables add exactly the counted atoms and, taking the count as unsigned, the counted bonds; they settle the dimension label and keep the name and the completion flag |
| MolFile.V2000Body | Code/GraphMol/FileParsers/MolFileParser.cpp:1736-1757 | a V2000 table with an atom count of 0 or less is a FileParseException; an accepted one adds exactly the counted atoms and bonds and settles the dimension label |
| MolFile.V3000Body | Code/GraphMol/FileParsers/MolFileParser.cpp:1758-1762 | a V3000 table needs zero counts in the fixed columns, otherwise a FileParseException; an accepted one adds atoms, settles the label and completes the record |
| MolFile.Ctab | Code/GraphMol/FileParsers/MolFileParser.cpp:1662-1762 | a bad counts field or version tag is a FileParseException; an accepted table adds at least one atom and settles the dimension label |
| MolFile.Record | Code/GraphMol/FileParsers/MolFileParser.cpp:1656-1774 | an accepted record adds at least one atom, settles the dimension label and leaves no deferred query value behind |
| MolFile.ParseMol | Code/GraphMol/FileParsers/MolFileParser.cpp:1623-1774 | the reader returns no molecule exactly when the text ends on its first line; a molecule it returns has atoms, a settled dimension label and no deferred query value |
| MolFileWritten.HeaderMol | Code/GraphMol/FileParsers/MolFileParser.cpp:1636-1654 | the molecule the header describes carries its three lines and no atoms or bonds yet |
| MolFileWritten.HeaderWritten | Code/GraphMol/FileParsers/MolFileParser.cpp:1630-1655 | round trip: three written header lines read back as the molecule they describe, with the stream at the line after them |
| MolFileWritten.JustifiedWidth | Code/GraphMol/FileParsers/MolFileParser.cpp:1672-1674 | a count below 1000 is written in exactly three columns |
| MolFileWritten.CountsLineFields | Code/GraphMol/FileParsers/MolFileParser.cpp:1662-1681 | round trip: a written counts line gives back its atom and bond counts |
| MolFileWritten.CountsLineVersion | Code/GraphMol/FileParsers/MolFileParser.cpp:1716-1732 | the version tag of a written counts line selects the V2000 or the V3000 table |
| MolFileWritten.CountsLineClean | Code/GraphMol/FileParsers/MolFileParser.cpp:1660 | a written counts line fits on one line |
| MolFileWritten.NoAtomsRejected | Code/GraphMol/FileParsers/MolFileParser.cpp:1737-1739 | a V2000 counts line with no atoms is rejected before any atom line is read |
| MolFileWritten.V3000CountsMustBeZero | Code/GraphMol/FileParsers/MolFileParser.cpp:1758-1760 | a V3000 counts line with a non-zero atom or bond count is rejected |
| MolFileWritten.FileHead | Code/GraphMol/FileParsers/MolFileParser.cpp:1630-1660 | a written header and counts line read back, and the stream is left after the counts line |
| MolFileWritten.ParseMolSteps | Code/GraphMol/FileParsers/MolFileParser.cpp:1630-1774 | the reader returns the record read after the header, or its error |
| MolFileWritten.RecordSteps | Code/GraphMol/FileParsers/MolFileParser.cpp:1656-1774 | the record is the table's molecule with its deferred queries filled in, or the table's error |
| MolFileWritten.V3000CountsHead | Code/GraphMol/FileParsers/MolFileParser.cpp:1662-1732 | a written V3000 counts line is accepted with zero fixed counts and hands the stream to the table |
| MolFileWritten.V3000CtabSteps | Code/GraphMol/FileParsers/MolFileParser.cpp:1758-1762 | a V3000 counts line with zero counts hands the stream to the V3000 table, and the record is complete when the table is read |
| MolFileWritten.AtomsOnlyRecordAsWritten | Code/GraphMol/FileParsers/MolFileParser.cpp:1376 | as written, a V3000 counts line and an atoms-only table fail at the bond block's precondition |
| MolFileWritten.AtomsOnlyRecordCorrected | Code/GraphMol/FileParsers/MolFileParser.cpp:1656-1774 | corrected, the same lines give the molecule with its atoms placed, the label settled and deferred queries filled in |
| MolFileWritten.AtomsOnlyFileAsWritten | Code/GraphMol/FileParsers/MolFileParser.cpp:1376 | finding, as written: a whole well-formed V3000 mol block with atoms and no bonds is rejected |
| MolFileWritten.AtomsOnlyFileCorrected | Code/GraphMol/FileParsers/MolFileParser.cpp:1623-1774 | finding, corrected: the same mol block reads back as the header's molecule with its atoms placed, the dimension label settled and deferred queries filled in |
| Edits.ApplyEditsAt | Code/GraphMol/FileParsers/MolFileParser.cpp:190-205 | each atom ends up as its own entries make it, whatever the entries for other atoms say; an atom no entry names keeps its state |
| Edits.ApplyEditsAgree | Code/GraphMol/FileParsers/MolFileParser.cpp:190-205 | entries that set only some atom fields leave every other field of every atom as it was |
| Edits.LastIntWins | Code/GraphMol/FileParsers/MolFileParser.cpp:191-198 | after a run of CHG or RAD entries an atom carries the value of the last entry naming it, and is otherwise untouched |
| Edits.LastForAbsent | Code/GraphMol/FileParsers/MolFileParser.cpp:191-198 | when no entry names an atom, the value the entries leave it is the one it had |
| Queries.CompleteSameShape | Code/GraphMol/FileParsers/MolFileParser.cpp:25-36 | completing deferred queries keeps the shape of every query tree |
| Queries.CompleteLeaves | Code/GraphMol/FileParsers/MolFileParser.cpp:25-36 | completion changes the leaves one by one: each leaf of the result is the corresponding input leaf, filled when it holds the sentinel |
| Queries.CompleteIdentity | Code/GraphMol/FileParsers/MolFileParser.cpp:25-36 | a query tree without the sentinel is left exactly as it was |
| Text.JoinSplitAny | Code/GraphMol/FileParsers/MolFileParser.cpp:1100 | splitting on one separator loses nothing: joining the pieces with it gives the input back |
| Text.SplitAnyJoin | Code/GraphMol/FileParsers/MolFileParser.cpp:1100 | pieces free of the separator, joined with it, split back into the same pieces |
| LineStream.ReadRender | Code/GraphMol/FileParsers/MolFileParser.cpp:1632-1635 | round trip: a text written line by line reads back every line in order without reaching the end, and the next read gives the empty line at the end |
| V3000Lines.V30LineWritten | Code/GraphMol/FileParsers/MolFileParser.cpp:1058-1085 | round trip: a logical line written over several prefixed physical lines with continuation marks reads back as the chunks joined, and the stream continues after them |
| V3000Atoms.UnknownPropsIgnored | Code/GraphMol/FileParsers/MolFileParser.cpp:1171-1264 | KEY=VALUE properties whose keys the reader does not know leave the atom unchanged |
| V3000Atoms.AtomLinesWritten | Code/GraphMol/FileParsers/MolFileParser.cpp:1278-1358 | round trip: element atoms written one per line read back in order as those atoms, and the stream continues after them |
| V3000Written.SkipSGroupWritten | Code/GraphMol/FileParsers/MolFileParser.cpp:1561-1572 | with the corrected test, S group lines are skipped through `END SGROUP` and the stream continues after it |
| V3000Written.ToEndWritten | Code/GraphMol/FileParsers/MolFileParser.cpp:1058-1085 | reading a block body from its first line through its END line leaves the stream after that line |
| Properties.OrAtomNumsMatches | Code/GraphMol/FileParsers/MolFileParser.cpp:150-160 | OR-ing atomic-number equality queries onto a query accepts exactly what the query accepts or an atom whose atomic number is in the list |
| Fields.LeadingDigitsSpec | Code/GraphMol/FileParsers/MolFileParser.cpp:62 | the digits `atoi` reads form a prefix of the text made only of digits and followed by no further digit |
| Fields.DecimalValueDigits | Code/GraphMol/FileParsers/MolFileParser.cpp:62 | round trip: the decimal digits of a natural number read back as that number |

## Left out

- Chemistry post-processing after the record is read (`:1776-1831`) is left out because it belongs to other RDKit components. That covers: the stereo and chirality assignment from 3D coordinates or wedge bonds, sanitization, valence computation, and hydrogen removal.
- The chiral flag is read but not used further.
- The periodic table (`getAtomicNumber`, `getAtomicWeight`) is a parameter of the model. So is `atof`. Neither is defined here.
- Isotope masses and coordinates are kept as the reals the collaborators return. Floating-point rounding is not modelled.
- Line counters and the logging of warnings are left out because they do not change the molecule.
- Stream I/O is modelled as reading a string line by line. The file and string wrappers (`:1843-1877`) are left out because they only open the stream and call the reader.
- Memory management is left out. That covers deleting a half-built molecule on error and `RWMol` allocation.
- `RWMol`, `Conformer`, `Atom`, `Bond` and `QueryAtom` are reduced to the fields the reader sets. `ROMol.cpp` and the atom and bond classes are not part of this model.
- `Query.h` is not part of this model. The `LessEqual` query is assumed to match when its value is at most the atom's value, so a ring-bond count of 4 means "4 or more".
- V3000Lines.Tokens: quote handling in `escaped_list_separator` (`:1282-1283`) is not modelled. The trimmed V3000 atom line is split at every blank and tab, and the quote characters `'` and `"` get no special meaning. A quoted token holding a blank is therefore split in two, and its quotes stay in the tokens. This simplification keeps the tokenizer a plain split. The atom-list split inside `[...]` (`:1100-1101`) is a plain `boost::split` at commas in the source as well, and the model does the same.
- `std::string::substr(pos, n)` shortens `n` to what is left of the line, and throws `std::out_of_range` only when `pos` is past the end. The field readers do the same: `Fields.Column`, `Fields.IntAt` and `Fields.UnsignedAt` return a `RangeError` when `pos` is past the end, and otherwise read the shortened field (`Text.Substr`). `Text.Substr` alone gives the empty string for a start past the end; it is used directly only where the start is 0 or a length test precedes it.
- Molecule.NewAtom: a freshly constructed `Atom(n)` or `QueryAtom(n)` is assumed to carry mass 0, no charge and no query. `Atom.cpp` is not part of this model. The assumption shows where the reader never sets a mass: the V3000 atom-list atom (`:1107-1108`), the V3000 generic query atoms `A`, `Q` and `*` (`:1120-1137`), and the corrected `R#` atom.
- `atoi` overflow is not modelled because integers are unbounded. The `unsigned int` casts are modelled with explicit wrap-around.
- PropertyBlock.MolBlockProperties: its ensures states only that nothing but the atoms changes. Whether the block was complete is stated only by `PropertyBlock.BlockSkips`, for a block of ignored lines closed by `M  END`; for blocks holding property lines it is not stated.
- V3000Bonds.BondLines: its ensures states the count, the kept prefix, the frame and well-formedness. Which bond each line gives is stated by `V3000Bonds.BondLinesWritten` for written lines of plain bonds; for lines with properties, query bond codes or bonds the graph refuses it is stated only one line at a time, by `V3000Bonds.V3000BondLine`.
- Properties.IsoEdits: its ensures states the count, the atom range and that only masses change; the edit of each entry, and so the mass it sets, is stated by `Properties.IsoEditsAt` together with `Properties.IsoEntry`.
- Properties.IsotopeLine: its ensures states only that nothing but the masses changes; the mass each atom ends with is stated by `Properties.IsotopeLineMasses`, through `Properties.IsoEditsAt` and `Properties.IsoEntry`.
- Properties.RGroupEdits: its ensures states the count, the atom range and the fields touched; entry k with its label is stated by `Properties.RGroupEditsAt` together with `Properties.RGroupEntry`.
- Properties.RGroupLine: its ensures states only that nothing but the R-group fields changes; the label, query and mass each atom ends with are stated by `Properties.RGroupLineLabels`, and the split between an atom number past the last atom and one just past it by `Properties.RGroupEntry`.
- MolFile.Ctab, MolFile.Record and MolFile.ParseMol: their ensures state the shape of a successful read (new atoms exist, no query scan is pending, the dimension hint is settled) and the error cases of the counts line. What a read produces is stated lemma by lemma instead, because unfolding the whole reader in one contract is too costly for the verifier. `MolFileWritten` states it for the header, the counts line and a whole V3000 file of element atoms; the V2000 and V3000 modules state it table by table: `V2000.ParseAtomsInOrder` and `V2000.ParseBondsInOrder` give the k-th atom and bond of the V2000 tables from the k-th line, and `V3000Atoms.AtomLinesWritten` and `V3000Bonds.BondLinesWritten` read written V3000 atom and bond lines back.

## Findings

| source | as written | input that shows it | evidently intended | confidence | as-written member | corrected member |
|---|---|---|---|---|---|---|
| Code/GraphMol/FileParsers/MolFileParser.cpp:374-397 | the `M  UNS` loop moves `spos` past the atom-number field only, so the second entry's atom number is read from the first entry's count | `M  UNS  2   1   1   2   1` on a molecule with at least two atoms: rejected, because the second entry's count reads as 2 | each entry is 8 columns wide, so both atoms are marked unsaturated | not executed | Findings.UnsStrideAsWritten | Findings.UnsStrideCorrected |
| Code/GraphMol/FileParsers/MolFileParser.cpp:323-325 | in `M  SUB` and `M  RBC`, a count of 0 hits `continue` before `spos` passes the count field | `M  SUB  2   1   0   2   1`: the second atom number is read from the `0` field, wraps to 2^32 - 1 as an unsigned index, and the line is rejected | a count of 0 skips its atom and the loop goes on with the next entry | not executed | Findings.ZeroCountAsWritten | Findings.ZeroCountCorrected |
| Code/GraphMol/FileParsers/MolFileParser.cpp:513-517 | the `M  ALS` query starts from the atom's original element and ORs in only the listed elements after the first | an atom read as C with the list `N O`: the query accepts C and O, and rejects N | the query accepts exactly the listed elements | not executed | Findings.AtomListFirstAsWritten | Properties.AtomListQueryMatches |
| Code/GraphMol/FileParsers/MolFileParser.cpp:1119-1140 | a V3000 atom with symbol `R#` dereferences an atom pointer that was never allocated | the atom line `1 R# 0 0 0 0` | a dummy atom of atomic number 0, placed like any other atom | not executed | V3000Written.RGroupLineAsWritten | V3000Written.RGroupLineCorrected |
| Code/GraphMol/FileParsers/MolFileParser.cpp:1376 | `ParseV3000BondBlock` is called whatever the bond count, and its precondition requires a positive count | a V3000 table `COUNTS 1 0 0 0 0` with one atom and no bond block: rejected | a molecule of atoms without bonds reads back as its atoms | not executed | MolFileWritten.AtomsOnlyFileAsWritten | MolFileWritten.AtomsOnlyFileCorrected |
| Code/GraphMol/FileParsers/MolFileParser.cpp:1569 | the S group loop breaks on the first line of ten or more characters that is NOT `END SGROUP` | an S group block with one line of ten or more characters: `END SGROUP` is left for the end of the table, which rejects it | skip lines until `END SGROUP` | not executed | V3000Written.SGroupAsWritten | V3000Written.SGroupCorrected |
| Code/GraphMol/FileParsers/MolFileParser.cpp:1553-1555 | `nSgroups` and `n3DConstraints` are read uninitialized when the `COUNTS` line has only two counts | `COUNTS 1 0` | missing counts are zero | not executed | V3000Written.MissingCountsAsWritten | V3000Written.MissingCountsCorrected |

=== FILE: block.dfy ===
/** ParseMolBlockProperties: the loop over the lines after the bond block,
    up to `M  END`, `$$$$` or the end of the input.
 */
module PropertyBlock {
  import opened Wrappers
  import opened Text
  import opened Fields
  import opened Molecule
  import opened Edits
  import opened LineStream
  import opened Properties

  /** `line.substr(0, n)`: the first `n` characters, or the whole line when
      it is shorter. */
  function Head(line: string, n: nat): (h: string)
    ensures |h| <= n
    ensures |line| >= n ==> h == line[..n]
  {
    SubstrSlice(line, 0, n);
    Substr(line, 0, n)
  }

  /** A non-empty head starts with the line's first character. */
  lemma HeadFirst(line: string, n: nat)
    ensures |Head(line, n)| > 0 ==> Head(line, n)[0] == CharAt(line, 0)
  {
  }

  /** Where the loop stops: at the end of the input, at `M  END`, or at a
      record separator. */
  predicate Stops(line: string, s: Stream) {
    s.eof || Head(line, 6) == "M  END" || Head(line, 4) == "$$$$"
  }

  /** The `M  ` tags the loop acts on (besides `M  END`, which stops it). */
  predicate KnownTag(tag: string) {
    || tag == "M  ALS" || tag == "M  ISO" || tag == "M  RGP" || tag == "M  RBC"
    || tag == "M  SUB" || tag == "M  UNS" || tag == "M  CHG" || tag == "M  RAD"
  }

  /** A line the loop reads past without touching the molecule: a `G` line,
      `S  SKP`, or an `M  ` line with a tag the reader does not know. */
  predicate Ignored(line: string) {
    || CharAt(line, 0) == 'G'
    || Head(line, 6) == "S  SKP"
    || (Head(line, 3) == "M  " && Head(line, 6) != "M  END" && !KnownTag(Head(line, 6)))
  }

  /** The count-query and atom-list lines. */
  function QueryTagLine(tag: string, line: string, m: Mol, env: Env, asWritten: bool): (r: Result<Mol>)
    requires tag == "M  ALS" || tag == "M  RBC" || tag == "M  SUB" || tag == "M  UNS"
    ensures r.Ok? ==> AtomsOnly(m, r.value)
  {
    if tag == "M  ALS" then NewAtomList(m, line, env, asWritten)
    else if tag == "M  RBC" then CountLine(Rbc, asWritten, m, line)
    else if tag == "M  SUB" then CountLine(Sub, asWritten, m, line)
    else CountLine(Uns, asWritten, m, line)
  }

  /** An `M  ` line with the given tag. CHG and RAD share the first-line
      flag; an unknown tag is skipped. */
  function TagLine(tag: string, line: string, m: Mol, first: bool, env: Env, asWritten: bool): (r: Result<(Mol, bool)>)
    ensures r.Ok? ==> AtomsOnly(m, r.value.0)
    ensures r.Ok? ==> r.value.1 == (first && tag != "M  CHG" && tag != "M  RAD")
    ensures !KnownTag(tag) ==> r == Ok((m, first))
  {
    if tag == "M  ALS" || tag == "M  RBC" || tag == "M  SUB" || tag == "M  UNS" then
      var m1 :- QueryTagLine(tag, line, m, env, asWritten);
      Ok((m1, first))
    else if tag == "M  ISO" then
      var m1 :- IsotopeLine(m, line, env);
      Ok((m1, first))
    else if tag == "M  RGP" then
      var m1 :- RGroupLine(m, line);
      Ok((m1, first))
    else if tag == "M  CHG" then
      var m1 :- ChargeLine(m, line, first);
      Ok((m1, false))
    else if tag == "M  RAD" then
      var m1 :- RadicalLine(m, line, first);
      Ok((m1, false))
    else Ok((m, first))
  }

  /** One line of the block. */
  function PropertyLine(line: string, s: Stream, m: Mol, first: bool, env: Env, asWritten: bool)
    : (r: Result<(Mol, bool, Stream)>)
    ensures r.Ok? ==> AtomsOnly(m, r.value.0)
    ensures r.Ok? ==> r.value.2 == s || Remaining(r.value.2) < Remaining(s)
    ensures r.Ok? ==> r.value.1 == (first && Head(line, 6) != "M  CHG" && Head(line, 6) != "M  RAD")
    ensures Ignored(line) ==> r == Ok((m, first, s))
  {
    var c := CharAt(line, 0);
    HeadFirst(line, 3);
    HeadFirst(line, 6);
    if c == 'A' || c == 'V' then
      var res :- LegacyLine(line, s, m);
      Ok((res.0, first, res.1))
    else if c == 'G' || Head(line, 6) == "S  SKP" then Ok((m, first, s))
    else
      var res :- TagLine(Head(line, 6), line, m, first, env, asWritten);
      Ok((res.0, res.1, s))
  }

  /** A CHG line in the block: it clears the first-line flag, so a later CHG
      or RAD line keeps the charges it sets; an atom it does not name gets
      charge 0 on the block's first CHG/RAD line and keeps its charge on any
      later one; an atom it names gets the charge of its last entry. */
  lemma ChargeLineInBlock(line: string, s: Stream, m: Mol, first: bool, env: Env, asWritten: bool, i: nat)
    requires Head(line, 6) == "M  CHG" && i < |m.atoms|
    requires PropertyLine(line, s, m, first, env, asWritten).Ok?
    ensures var r := PropertyLine(line, s, m, first, env, asWritten).value;
            && !r.1 && r.2 == s
            && ChargeLine(m, line, first).Ok? && r.0 == ChargeLine(m, line, first).value
    ensures IntAt(line, 6, 3).Ok? && ReadPairs(line, 9, IntAt(line, 6, 3).value).Ok?
    ensures var ps := ReadPairs(line, 9, IntAt(line, 6, 3).value).value;
            var a := ChargeLine(m, line, first).value.atoms[i];
            && a == m.atoms[i].(formalCharge := LastFor(ps, i + 1, if first then 0 else m.atoms[i].formalCharge))
            && ((forall k :: 0 <= k < |ps| ==> ps[k].0 != i + 1) ==>
                  a.formalCharge == (if first then 0 else m.atoms[i].formalCharge))
  {
    HeadFirst(line, 6);
    assert CharAt(line, 0) == 'M';
    ChargeLineCharges(m, line, first, i);
    var ps := ReadPairs(line, 9, IntAt(line, 6, 3).value).value;
    if forall k :: 0 <= k < |ps| ==> ps[k].0 != i + 1 {
      LastForAbsent(ps, i + 1, if first then 0 else m.atoms[i].formalCharge);
    }
  }

  /** An `A` line, which reads the following line as its alias text (the
      test that this line is not `M  END` always passes, as it starts with
      `A`), or a `V` line. */
  function LegacyLine(line: string, s: Stream, m: Mol): (r: Result<(Mol, Stream)>)
    requires CharAt(line, 0) == 'A' || CharAt(line, 0) == 'V'
    ensures r.Ok? ==> AtomsOnly(m, r.value.0)
    ensures r.Ok? ==> r.value.1 == s || Remaining(r.value.1) < Remaining(s)
  {
    if CharAt(line, 0) == 'A' then
      var (next, s1) := GetLine(s);
      var m1 :- AtomAlias(m, line, next);
      Ok((m1, s1))
    else
      var m1 :- AtomValue(m, line);
      Ok((m1, s))
  }

  /** The loop: handle the current line, read the next, until a stop line.
      It returns the molecule, the line it stopped at and the stream. */
  function PropertyLoop(line: string, s: Stream, m: Mol, first: bool, env: Env, asWritten: bool)
    : (r: Result<(Mol, string, Stream)>)
    ensures r.Ok? ==> AtomsOnly(m, r.value.0)
    ensures r.Ok? ==> Stops(r.value.1, r.value.2)
    decreases Remaining(s)
  {
    if Stops(line, s) then Ok((m, line, s))
    else
      var res :- PropertyLine(line, s, m, first, env, asWritten);
      var (next, s2) := GetLine(res.2);
      var r :- PropertyLoop(next, s2, res.0, res.1, env, asWritten);
      Ok(r)
  }

  /** The properties block: the first line may be a legacy atom list (it is
      when it starts with none of M, A, V, G); the loop then starts on that
      same line. The flag says whether the block ended with `M  END`. */
  function MolBlockProperties(s: Stream, m: Mol, env: Env, asWritten: bool): (r: Result<(Mol, bool, Stream)>)
    ensures r.Ok? ==> AtomsOnly(m, r.value.0)
  {
    var (l0, s0) := GetLine(s);
    var c := CharAt(l0, 0);
    var m0 :- if c != 'M' && c != 'A' && c != 'V' && c != 'G' then OldAtomList(m, l0) else Ok(m);
    var res :- PropertyLoop(l0, s0, m0, true, env, asWritten);
    Ok((res.0, CharAt(res.1, 0) == 'M' && Head(res.1, 6) == "M  END", res.2))
  }

  /** Reading past the first of a run of clean ignored lines leaves the rest
      of the run, then `M  END`, then `rest`, with a clean line in front. */
  lemma SkipRunTail(ls: seq<string>, rest: seq<string>)
    requires |ls| > 0 && forall k :: 0 <= k < |ls| ==> Ignored(ls[k]) && Clean(ls[k])
    ensures var lines := ls + ["M  END"] + rest;
            var tail := ls[1..] + ["M  END"] + rest;
            && lines[0] == ls[0] && lines[1..] == tail && Clean(tail[0])
            && Head(ls[0], 6) != "M  END" && Head(ls[0], 4) != "$$$$"
  {
    var lines := ls + ["M  END"] + rest;
    var tail := ls[1..] + ["M  END"] + rest;
    assert lines[0] == ls[0];
    assert lines[1..] == tail;
    if |ls| > 1 {
      assert tail[0] == ls[1];
    } else {
      assert tail[0] == "M  END";
    }
  }

  /** Unknown lines are skipped: a run of ignored lines followed by `M  END`
      leaves the molecule as it was and stops on the `M  END` line, with the
      stream just after it. */
  lemma {:induction false} LoopSkips(ls: seq<string>, rest: seq<string>, m: Mol, first: bool, env: Env, asWritten: bool)
    requires forall k :: 0 <= k < |ls| ==> Ignored(ls[k]) && Clean(ls[k])
    ensures var lines := ls + ["M  END"] + rest;
            PropertyLoop(lines[0], Open(Render(lines[1..])), m, first, env, asWritten) ==
              Ok((m, "M  END", Open(Render(rest))))
    decreases |ls|
  {
    var lines := ls + ["M  END"] + rest;
    if |ls| == 0 {
      assert lines[0] == "M  END" && lines[1..] == rest;
    } else {
      SkipRunTail(ls, rest);
      var tail := ls[1..] + ["M  END"] + rest;
      GetLineRender(tail);
      LoopSkips(ls[1..], rest, m, first, env, asWritten);
    }
  }

  /** The first line of such a block is clean and starts with M or G. */
  lemma BlockFirstLine(ls: seq<string>, rest: seq<string>)
    requires forall k :: 0 <= k < |ls| ==> Ignored(ls[k]) && Clean(ls[k])
    requires |ls| > 0 ==> CharAt(ls[0], 0) != 'S'
    ensures var l := (ls + ["M  END"] + rest)[0];
            Clean(l) && (CharAt(l, 0) == 'M' || CharAt(l, 0) == 'G')
  {
    var lines := ls + ["M  END"] + rest;
    if |ls| > 0 {
      assert lines[0] == ls[0];
    } else {
      assert lines[0] == "M  END";
    }
    HeadFirst(lines[0], 3);
    HeadFirst(lines[0], 6);
  }

  /** A block of ignored lines (the first not starting with S, which would
      make it a legacy atom list) closed by `M  END`: the molecule is
      unchanged, the block counts as complete, and reading resumes after
      `M  END`. */
  lemma BlockSkips(ls: seq<string>, rest: seq<string>, m: Mol, env: Env, asWritten: bool)
    requires forall k :: 0 <= k < |ls| ==> Ignored(ls[k]) && Clean(ls[k])
    requires |ls| > 0 ==> CharAt(ls[0], 0) != 'S'
    ensures MolBlockProperties(Open(Render(ls + ["M  END"] + rest)), m, env, asWritten) ==
              Ok((m, true, Open(Render(rest))))
  {
    var lines := ls + ["M  END"] + rest;
    BlockFirstLine(ls, rest);
    GetLineRender(lines);
    var s := Open(Render(lines));
    LoopSkips(ls, rest, m, true, env, asWritten);
    var loop := PropertyLoop(lines[0], Open(Render(lines[1..])), m, true, env, asWritten);
    assert loop == Ok((m, "M  END", Open(Render(rest))));
    assert MolBlockProperties(s, m, env, asWritten) == Ok((m, CharAt("M  END", 0) == 'M' && Head("M  END", 6) == "M  END", Open(Render(rest))));
  }
}

=== FILE: countwriter.dfy ===
/** The count lines (SUB, UNS, RBC) as a writer lays them out, and what the
    reader makes of them.
 */
module CountWriter {
  import opened Wrappers
  import opened Fields
  import opened Queries
  import opened Molecule
  import opened Edits
  import opened Properties
  import opened Writer

  /** The counts a SUB, UNS or RBC entry may carry: 0 (no query) or one the
      reader accepts. */
  predicate CountAccepted(kind: CountKind, c: int) {
    || c == 0
    || (kind == Sub && -2 <= c <= 6)
    || (kind == Uns && c == 1)
    || (kind == Rbc && -2 <= c <= 4)
  }

  /** The tag of each count line. */
  function CountTag(kind: CountKind): (tag: string)
    ensures |tag| == 6
  {
    match kind
    case Sub => "M  SUB"
    case Uns => "M  UNS"
    case Rbc => "M  RBC"
  }

  /** The edit an accepted count `c` for atom `idx` asks for: nothing for 0,
      otherwise AND the count's query onto the atom. */
  function CountEdit(kind: CountKind, idx: int, c: int, degree: nat): (r: Option<(int, Edit)>)
    requires CountAccepted(kind, c)
    ensures r.Some? ==> r.value.0 == idx && r.value.1.AndWith?
  {
    if c == 0 then None else Some((idx, AndWith(CountQuery(kind, c, degree).value)))
  }

  /** What a written count entry is meant to do to the molecule. */
  function CountIntentOf(kind: CountKind, aid: int, c: int, m: Mol): (r: Option<(int, Edit)>)
    requires 1 <= aid <= |m.atoms| && CountAccepted(kind, c)
    ensures r.Some? ==> 0 <= r.value.0 < |m.atoms| && r.value.1.AndWith?
  {
    CountEdit(kind, aid - 1, c, Degree(m.bonds, aid - 1))
  }

  /** The intended edits of a whole list of count entries. */
  function CountIntent(kind: CountKind, ps: seq<(int, int)>, m: Mol): (r: seq<(int, Edit)>)
    requires NumbersIn(ps, |m.atoms|)
    requires AllAccepted(kind, ps)
    ensures InRange(r, |m.atoms|) && Within(r, {QueryField})
    decreases |ps|
  {
    if |ps| == 0 then []
    else
      var st := Step(CountIntentOf(kind, ps[0].0, ps[0].1, m), 0, false);
      Cons(st, CountIntent(kind, ps[1..], m), |m.atoms|, {QueryField})
  }

  /** One count entry whose fields read as atom number `a` (naming an
      existing atom) and count `c`: an accepted count gives the intended edit
      and moves on by the stride; any other count is rejected. */
  lemma CountEntryRead(kind: CountKind, asWritten: bool, text: string, spos: nat, m: Mol, a: nat, c: int)
    requires 1 <= a <= |m.atoms|
    requires UnsignedAt(text, spos, 4) == Ok(a) && FieldGiven(text, spos + 4) && IntAt(text, spos + 4, 4) == Ok(c)
    ensures CountAccepted(kind, c) ==>
              CountEntry(kind, asWritten, text, spos, m) ==
                Ok(Step(CountIntentOf(kind, a, c, m), spos + 4 + CountStride(kind, c, asWritten), kind == Rbc && c == -2))
    ensures !CountAccepted(kind, c) ==> CountEntry(kind, asWritten, text, spos, m).Err?
  {
    if CountAccepted(kind, c) {
      CountEntryAccepted(kind, asWritten, text, spos, m, a, c);
    } else {
      CountEntryRejected(kind, asWritten, text, spos, m, a, c);
    }
  }

  /** The accepted half of CountEntryRead. */
  lemma CountEntryAccepted(kind: CountKind, asWritten: bool, text: string, spos: nat, m: Mol, a: nat, c: int)
    requires 1 <= a <= |m.atoms| && CountAccepted(kind, c)
    requires UnsignedAt(text, spos, 4) == Ok(a) && FieldGiven(text, spos + 4) && IntAt(text, spos + 4, 4) == Ok(c)
    ensures CountEntry(kind, asWritten, text, spos, m) ==
              Ok(Step(CountIntentOf(kind, a, c, m), spos + 4 + CountStride(kind, c, asWritten), kind == Rbc && c == -2))
  {
    CountEntryIndex(kind, asWritten, text, spos, m, a);
    CountFieldAccepted(kind, asWritten, text, spos + 4, a - 1, Degree(m.bonds, a - 1), c);
  }

  /** The rejected half of CountEntryRead. */
  lemma CountEntryRejected(kind: CountKind, asWritten: bool, text: string, spos: nat, m: Mol, a: nat, c: int)
    requires 1 <= a <= |m.atoms| && !CountAccepted(kind, c)
    requires UnsignedAt(text, spos, 4) == Ok(a) && FieldGiven(text, spos + 4) && IntAt(text, spos + 4, 4) == Ok(c)
    ensures CountEntry(kind, asWritten, text, spos, m).Err?
  {
    CountEntryIndex(kind, asWritten, text, spos, m, a);
    CountFieldRejected(kind, asWritten, text, spos + 4, a - 1, Degree(m.bonds, a - 1), c);
  }

  /** An entry whose atom number names an existing atom reads on into the
      count field for that atom. */
  lemma CountEntryIndex(kind: CountKind, asWritten: bool, text: string, spos: nat, m: Mol, a: nat)
    requires 1 <= a <= |m.atoms| && UnsignedAt(text, spos, 4) == Ok(a)
    ensures CountEntry(kind, asWritten, text, spos, m) ==
              CountField(kind, asWritten, text, spos + 4, a - 1, Degree(m.bonds, a - 1))
  {
    assert UnsignedIndex(a, |m.atoms|) == Ok(a - 1);
  }

  /** A given count field holding an accepted count `c`. */
  lemma CountFieldAccepted(kind: CountKind, asWritten: bool, text: string, pos: nat, idx: int, degree: nat, c: int)
    requires FieldGiven(text, pos) && IntAt(text, pos, 4) == Ok(c) && CountAccepted(kind, c)
    ensures CountField(kind, asWritten, text, pos, idx, degree) ==
              Ok(Step(CountEdit(kind, idx, c, degree), pos + CountStride(kind, c, asWritten), kind == Rbc && c == -2))
  {
    if c != 0 {
      assert CountQuery(kind, c, degree).Ok?;
    }
  }

  /** A given count field holding any other count is rejected. */
  lemma CountFieldRejected(kind: CountKind, asWritten: bool, text: string, pos: nat, idx: int, degree: nat, c: int)
    requires FieldGiven(text, pos) && IntAt(text, pos, 4) == Ok(c) && !CountAccepted(kind, c)
    ensures CountField(kind, asWritten, text, pos, idx, degree).Err?
  {
    assert CountQuery(kind, c, degree).Err?;
  }

  /** An entry whose atom number reads as 0: the unsigned index wraps to
      2^32 - 1, which names no atom. */
  lemma CountEntryZeroAtom(kind: CountKind, asWritten: bool, text: string, spos: nat, m: Mol)
    requires UnsignedAt(text, spos, 4) == Ok(0) && |m.atoms| < U32
    ensures CountEntry(kind, asWritten, text, spos, m).Err?
  {
    assert UnsignedIndex(0, |m.atoms|).Err?;
  }

  /** Every entry carries a count the reader accepts. */
  predicate AllAccepted(kind: CountKind, ps: seq<(int, int)>) {
    forall k :: 0 <= k < |ps| ==> CountAccepted(kind, ps[k].1)
  }

  /** Count entries in place from column `spos`: their fields are there,
      their atom numbers name existing atoms and their counts are
      accepted. */
  predicate CountPairsAt(kind: CountKind, text: string, spos: nat, ps: seq<(int, int)>, count: nat) {
    FieldsAt(text, spos, ps) && NumbersIn(ps, count) && AllAccepted(kind, ps)
  }

  /** The fields of the entries of `ps`, one after another from column
      `spos` of `text`, eight columns each. */
  predicate FieldsAt(text: string, spos: nat, ps: seq<(int, int)>)
    decreases |ps|
  {
    |ps| == 0 || (EntryAt(text, spos, ps[0].0, ps[0].1) && FieldsAt(text, spos + 8, ps[1..]))
  }

  /** The first entry of a run in place, and the rest of the run eight
      columns on. */
  lemma CountPairsTail(kind: CountKind, text: string, spos: nat, ps: seq<(int, int)>, count: nat)
    requires |ps| > 0 && CountPairsAt(kind, text, spos, ps, count)
    ensures CountPairsAt(kind, text, spos + 8, ps[1..], count)
    ensures EntryAt(text, spos, ps[0].0, ps[0].1) && 1 <= ps[0].0 <= count && CountAccepted(kind, ps[0].1)
  {
    forall k | 0 <= k < |ps| - 1
      ensures 1 <= ps[1..][k].0 <= count && CountAccepted(kind, ps[1..][k].1)
    {
      assert ps[1..][k] == ps[k + 1];
    }
  }

  /** Written entries leave their fields where a reader looks for them. */
  lemma {:induction false} WrittenFieldsAt(pre: string, ps: seq<(int, int)>, post: string)
    requires PairsFit(ps)
    ensures FieldsAt(pre + PairsText(ps) + post, |pre|, ps)
    decreases |ps|
  {
    if |ps| > 0 {
      var pre1 := pre + EntryText(ps[0]);
      PairsTextSplit(pre, ps, post);
      EntryWritten(pre, ps[0].0, ps[0].1, PairsText(ps[1..]) + post);
      assert ps[0] == (ps[0].0, ps[0].1);
      WrittenFieldsAt(pre1, ps[1..], post);
      assert |pre1| == |pre| + 8;
    }
  }

  /** Read with the corrected stride from column `spos`, the count entry
      loop accepts the entries `ps` and gives their intended edits. */
  predicate CountEditsGive(kind: CountKind, text: string, spos: nat, ps: seq<(int, int)>, m: Mol) {
    && NumbersIn(ps, |m.atoms|) && AllAccepted(kind, ps)
    && CountEdits(kind, false, text, spos, |ps|, m).Ok?
    && CountEdits(kind, false, text, spos, |ps|, m).value.0 == CountIntent(kind, ps, m)
  }

  /** One turn of the count entry loop, read with the corrected stride. */
  lemma CountEditsStep(kind: CountKind, text: string, spos: nat, ps: seq<(int, int)>, m: Mol)
    requires |ps| > 0 && CountPairsAt(kind, text, spos, ps, |m.atoms|)
    requires CountEditsGive(kind, text, spos + 8, ps[1..], m)
    ensures CountEditsGive(kind, text, spos, ps, m)
  {
    CountPairsTail(kind, text, spos, ps, |m.atoms|);
    CountEntryRead(kind, false, text, spos, m, ps[0].0, ps[0].1);
  }

  /** Read with the corrected stride, count entries sitting where the loop
      looks give exactly the intended edits. */
  lemma {:induction false} CountEditsFrom(kind: CountKind, text: string, spos: nat, ps: seq<(int, int)>, m: Mol)
    requires CountPairsAt(kind, text, spos, ps, |m.atoms|)
    ensures CountEditsGive(kind, text, spos, ps, m)
    decreases |ps|
  {
    if |ps| > 0 {
      CountPairsTail(kind, text, spos, ps, |m.atoms|);
      CountEditsFrom(kind, text, spos + 8, ps[1..], m);
      CountEditsStep(kind, text, spos, ps, m);
    }
  }

  /** Read with the corrected stride, written count entries give exactly
      the intended edits. */
  lemma CountEditsWritten(kind: CountKind, pre: string, ps: seq<(int, int)>, post: string, m: Mol)
    requires PairsFit(ps) && NumbersIn(ps, |m.atoms|) && AllAccepted(kind, ps)
    ensures CountEdits(kind, false, pre + PairsText(ps) + post, |pre|, |ps|, m).Ok?
    ensures CountEdits(kind, false, pre + PairsText(ps) + post, |pre|, |ps|, m).value.0 == CountIntent(kind, ps, m)
  {
    WrittenFieldsAt(pre, ps, post);
    CountEditsFrom(kind, pre + PairsText(ps) + post, |pre|, ps, m);
  }

  /** Round trip for the count lines: read with the corrected stride, a
      written SUB, UNS or RBC line whose entries name existing atoms and
      carry accepted counts is accepted, and each atom ends up with the
      queries its entries ask for, ANDed on in order. */
  lemma CountLineWritten(kind: CountKind, m: Mol, ps: seq<(int, int)>)
    requires PairsFit(ps) && |ps| < 1000 && NumbersIn(ps, |m.atoms|)
    requires AllAccepted(kind, ps)
    ensures CountLine(kind, false, m, EntryLine(CountTag(kind), ps)).Ok?
    ensures CountLine(kind, false, m, EntryLine(CountTag(kind), ps)).value.atoms ==
              ApplyEdits(m.atoms, CountIntent(kind, ps, m))
  {
    var tag := CountTag(kind);
    var t := EntryLine(tag, ps);
    EntryCountWritten(tag, ps);
    assert t == (tag + RightJustify(|ps|, 3)) + PairsText(ps) + "";
    CountEditsWritten(kind, tag + RightJustify(|ps|, 3), ps, "", m);
  }
}

=== FILE: edits.dfy ===
/** The per-atom updates the properties lines make, kept apart from the
    parsing that produces them: each entry of a CHG, RAD, ISO, SUB, UNS, RBC
    or RGP line names an atom and says what to do to it, and the entries are
    applied in order.
 */
module Edits {
  import opened Wrappers
  import opened Queries
  import opened Molecule

  /** The integer-valued atom fields a line can set. */
  datatype IntField = ChargeOf | RadicalsOf

  function IntOf(a: Atom, f: IntField): int {
    match f
    case ChargeOf => a.formalCharge
    case RadicalsOf => a.numRadicals
  }

  function WithInt(a: Atom, f: IntField, v: int): (r: Atom)
    ensures IntOf(r, f) == v
  {
    match f
    case ChargeOf => a.(formalCharge := v)
    case RadicalsOf => a.(numRadicals := v)
  }

  /** What one entry does to its atom. */
  datatype Edit =
    | SetInt(field: IntField, value: int)   // setFormalCharge / setNumRadicalElectrons
    | SetMass(mass: real)                  // setMass
    | AndWith(q: Query)                    // AND a query onto the (upgraded) atom
    | RGroup(rLabel: nat)                  // the RGP replacement query atom

  /** The fields the RGP replacement changes. */
  const RGroupFields: set<AtomField> := {MassField, QueryField, IntPropsField}

  /** Every field the edit may change is in `fs`. */
  predicate EditWithin(e: Edit, fs: set<AtomField>) {
    match e
    case SetInt(f, _) => (if f == ChargeOf then ChargeField else RadicalField) in fs
    case SetMass(_) => MassField in fs
    case AndWith(_) => QueryField in fs
    case RGroup(_) => MassField in fs && QueryField in fs && IntPropsField in fs
  }

  /** The RGP replacement: a copy of the atom as a query atom carrying the
      `_MolFileRLabel` property, the rLabel as its mass when it lies between 1
      and 998, and the match-anything query. */
  function RGroupAtom(a: Atom, rLabel: nat): (r: Atom)
    ensures r.query == Some(Null(false))
    ensures "_MolFileRLabel" in r.intProps && r.intProps["_MolFileRLabel"] == rLabel
    ensures r.mass == (if 0 < rLabel < 999 then rLabel as real else a.mass)
    ensures r == a.(mass := r.mass, query := r.query, intProps := r.intProps)
  {
    var a0 := QueryAtomOf(a);
    var a1 := a0.(intProps := a0.intProps["_MolFileRLabel" := rLabel]);
    var a2 := if 0 < rLabel < 999 then a1.(mass := rLabel as real) else a1;
    a2.(query := Some(Null(false)))
  }

  function ApplyEdit(a: Atom, e: Edit): Atom {
    match e
    case SetInt(f, v) => WithInt(a, f, v)
    case SetMass(x) => a.(mass := x)
    case AndWith(q) => AndQuery(a, q)
    case RGroup(l) => RGroupAtom(a, l)
  }

  /** An edit changes no field outside the ones it names. */
  lemma ApplyEditWithin(a: Atom, e: Edit, fs: set<AtomField>)
    requires EditWithin(e, fs)
    ensures AgreeExcept(a, ApplyEdit(a, e), fs)
  {
  }

  /** Every entry names an atom of a list of `n`. */
  predicate InRange(es: seq<(int, Edit)>, n: nat) {
    forall k :: 0 <= k < |es| ==> 0 <= es[k].0 < n
  }

  /** The edits applied in order, each to the atom at its index. */
  function ApplyEdits(atoms: seq<Atom>, es: seq<(int, Edit)>): (r: seq<Atom>)
    requires InRange(es, |atoms|)
    ensures |r| == |atoms|
    decreases |es|
  {
    if |es| == 0 then atoms
    else
      var k := es[0].0;
      ApplyEdits(atoms[k := ApplyEdit(atoms[k], es[0].1)], es[1..])
  }

  /** The edits naming atom `i`, in order. */
  function EditsFor(es: seq<(int, Edit)>, i: int): (r: seq<Edit>)
    ensures |r| <= |es|
    decreases |es|
  {
    if |es| == 0 then []
    else (if es[0].0 == i then [es[0].1] else []) + EditsFor(es[1..], i)
  }

  /** The edits of a list applied in order to one atom. */
  function ApplyAll(a: Atom, eds: seq<Edit>): Atom
    decreases |eds|
  {
    if |eds| == 0 then a else ApplyAll(ApplyEdit(a, eds[0]), eds[1..])
  }

  /** Each atom ends up as its own edits make it, whatever the edits to the
      other atoms; in particular an atom no entry names is left as it was. */
  lemma {:induction false} ApplyEditsAt(atoms: seq<Atom>, es: seq<(int, Edit)>, i: nat)
    requires InRange(es, |atoms|) && i < |atoms|
    ensures ApplyEdits(atoms, es)[i] == ApplyAll(atoms[i], EditsFor(es, i))
    decreases |es|
  {
    if |es| > 0 {
      var k := es[0].0;
      var atoms1 := atoms[k := ApplyEdit(atoms[k], es[0].1)];
      assert InRange(es[1..], |atoms1|);
      ApplyEditsAt(atoms1, es[1..], i);
      if k == i {
        assert EditsFor(es, i) == [es[0].1] + EditsFor(es[1..], i);
        assert (([es[0].1] + EditsFor(es[1..], i)))[1..] == EditsFor(es[1..], i);
      } else {
        assert EditsFor(es, i) == EditsFor(es[1..], i);
      }
    }
  }

  /** Every edit of the list stays inside `fs`. */
  predicate Within(es: seq<(int, Edit)>, fs: set<AtomField>) {
    forall k :: 0 <= k < |es| ==> EditWithin(es[k].1, fs)
  }

  /** One more edit in front of a list. */
  function Prepend(e: (int, Edit), es: seq<(int, Edit)>, n: nat, fs: set<AtomField>): (r: seq<(int, Edit)>)
    requires 0 <= e.0 < n && EditWithin(e.1, fs) && InRange(es, n) && Within(es, fs)
    ensures r == [e] + es && InRange(r, n) && Within(r, fs)
  {
    [e] + es
  }

  /** Edits that stay inside `fs` leave every other field of every atom as it
      was. */
  lemma {:induction false} ApplyEditsAgree(atoms: seq<Atom>, es: seq<(int, Edit)>, fs: set<AtomField>)
    requires InRange(es, |atoms|) && Within(es, fs)
    ensures AtomsAgreeExcept(atoms, ApplyEdits(atoms, es), fs)
    decreases |es|
  {
    if |es| > 0 {
      var k := es[0].0;
      var a := ApplyEdit(atoms[k], es[0].1);
      ApplyEditWithin(atoms[k], es[0].1, fs);
      var atoms1 := atoms[k := a];
      assert AtomsAgreeExcept(atoms, atoms1, fs);
      assert InRange(es[1..], |atoms1|) && Within(es[1..], fs);
      ApplyEditsAgree(atoms1, es[1..], fs);
      AgreeTrans(atoms, atoms1, ApplyEdits(atoms, es), fs);
    }
  }

  /** The entries of a CHG or RAD line as edits: the atom number is 1-based. */
  function SetInts(f: IntField, pairs: seq<(int, int)>): (r: seq<(int, Edit)>)
    ensures |r| == |pairs|
    ensures forall k :: 0 <= k < |pairs| ==> r[k] == (pairs[k].0 - 1, SetInt(f, pairs[k].1))
    decreases |pairs|
  {
    if |pairs| == 0 then [] else [(pairs[0].0 - 1, SetInt(f, pairs[0].1))] + SetInts(f, pairs[1..])
  }

  /** The value the last pair for `key` gives, or `dflt` when none does. */
  function LastFor(pairs: seq<(int, int)>, key: int, dflt: int): int
    decreases |pairs|
  {
    if |pairs| == 0 then dflt
    else LastFor(pairs[1..], key, if pairs[0].0 == key then pairs[0].1 else dflt)
  }

  /** No entry for `key`: the default stands. */
  lemma {:induction false} LastForAbsent(pairs: seq<(int, int)>, key: int, dflt: int)
    requires forall k :: 0 <= k < |pairs| ==> pairs[k].0 != key
    ensures LastFor(pairs, key, dflt) == dflt
    decreases |pairs|
  {
    if |pairs| > 0 {
      assert forall k :: 0 <= k < |pairs| - 1 ==> pairs[1..][k] == pairs[k + 1];
      LastForAbsent(pairs[1..], key, dflt);
    }
  }

  /** The last entry wins: after a run of integer settings, atom `i` carries
      the value of the last entry for atom number `i + 1`, and is otherwise
      unchanged. */
  lemma {:induction false} LastIntWins(a: Atom, f: IntField, pairs: seq<(int, int)>, i: int)
    ensures ApplyAll(a, EditsFor(SetInts(f, pairs), i)) == WithInt(a, f, LastFor(pairs, i + 1, IntOf(a, f)))
    decreases |pairs|
  {
    var es := SetInts(f, pairs);
    if |pairs| == 0 {
      match f
      case ChargeOf =>
      case RadicalsOf =>
    } else {
      var p := pairs[0];
      assert es[1..] == SetInts(f, pairs[1..]);
      var a1 := if p.0 - 1 == i then WithInt(a, f, p.1) else a;
      LastIntWins(a1, f, pairs[1..], i);
      if p.0 - 1 == i {
        assert EditsFor(es, i) == [SetInt(f, p.1)] + EditsFor(es[1..], i);
        assert ([SetInt(f, p.1)] + EditsFor(es[1..], i))[1..] == EditsFor(es[1..], i);
        match f
        case ChargeOf =>
        case RadicalsOf =>
      } else {
        assert EditsFor(es, i) == EditsFor(es[1..], i);
      }
    }
  }
  /** The mass the last mass edit for atom `i` sets, or `dflt` when none
      does. */
  function LastMass(es: seq<(int, Edit)>, i: int, dflt: real): real
    decreases |es|
  {
    if |es| == 0 then dflt
    else LastMass(es[1..], i, if es[0].0 == i && es[0].1.SetMass? then es[0].1.mass else dflt)
  }

  /** The last mass wins: after a run of mass settings, atom `i` carries
      the mass of the last entry naming it, and is otherwise unchanged. */
  lemma {:induction false} LastMassWins(a: Atom, es: seq<(int, Edit)>, i: int)
    requires Within(es, {MassField})
    ensures ApplyAll(a, EditsFor(es, i)) == a.(mass := LastMass(es, i, a.mass))
    decreases |es|
  {
    if |es| > 0 {
      assert Within(es[1..], {MassField}) by {
        forall k | 0 <= k < |es| - 1 ensures EditWithin(es[1..][k].1, {MassField}) {
          assert es[1..][k] == es[k + 1];
        }
      }
      assert es[0].1.SetMass? by {
        assert EditWithin(es[0].1, {MassField});
      }
      if es[0].0 == i {
        var a1 := a.(mass := es[0].1.mass);
        LastMassWins(a1, es[1..], i);
        assert EditsFor(es, i) == [es[0].1] + EditsFor(es[1..], i);
        assert ([es[0].1] + EditsFor(es[1..], i))[1..] == EditsFor(es[1..], i);
      } else {
        LastMassWins(a, es[1..], i);
        assert EditsFor(es, i) == EditsFor(es[1..], i);
      }
    }
  }

  /** Every edit naming atom `i` comes from an entry of the list. */
  lemma {:induction false} EditsForIn(es: seq<(int, Edit)>, i: int)
    ensures forall e :: e in EditsFor(es, i) ==> (i, e) in es
    decreases |es|
  {
    if |es| > 0 {
      EditsForIn(es[1..], i);
      assert forall p :: p in es[1..] ==> p in es;
    }
  }

  /** A run of R-group replacements leaves the match-anything query, the
      last label, and that label as the mass when it lies between 1 and
      998. */
  lemma {:induction false} LastRGroupWins(a: Atom, eds: seq<Edit>)
    requires |eds| > 0 && forall k :: 0 <= k < |eds| ==> eds[k].RGroup?
    ensures var r := ApplyAll(a, eds);
            var l := eds[|eds| - 1].rLabel;
            && r.query == Some(Null(false))
            && "_MolFileRLabel" in r.intProps && r.intProps["_MolFileRLabel"] == l
            && (0 < l < 999 ==> r.mass == l as real)
    decreases |eds|
  {
    var a1 := ApplyEdit(a, eds[0]);
    if |eds| > 1 {
      LastRGroupWins(a1, eds[1..]);
      assert eds[1..][|eds[1..]| - 1] == eds[|eds| - 1];
    }
  }

  /** After a run of R-group replacements, an atom no entry names is left
      alone, and an atom some entry names carries what the last of them
      leaves. */
  lemma RGroupEditsWin(atoms: seq<Atom>, es: seq<(int, Edit)>, i: nat)
    requires i < |atoms| && InRange(es, |atoms|) && forall k :: 0 <= k < |es| ==> es[k].1.RGroup?
    ensures forall e :: e in EditsFor(es, i) ==> e.RGroup?
    ensures var eds := EditsFor(es, i);
            var a := ApplyEdits(atoms, es)[i];
            && (|eds| == 0 ==> a == atoms[i])
            && (|eds| > 0 ==>
                  && a.query == Some(Null(false))
                  && "_MolFileRLabel" in a.intProps && a.intProps["_MolFileRLabel"] == eds[|eds| - 1].rLabel
                  && (0 < eds[|eds| - 1].rLabel < 999 ==> a.mass == eds[|eds| - 1].rLabel as real))
  {
    ApplyEditsAt(atoms, es, i);
    EditsForIn(es, i);
    var eds := EditsFor(es, i);
    if |eds| > 0 {
      forall k | 0 <= k < |eds| ensures eds[k].RGroup? {
        assert (i, eds[k]) in es;
      }
      LastRGroupWins(atoms[i], eds);
    }
  }
}

=== FILE: fields.dfy ===
/** Fixed-width numeric field decoding: C's atoi, the parser's toInt wrapper with
    its blank-field rule, and stripSpacesAndCast<unsigned int>.
 */
module Fields {
  import opened Wrappers
  import opened Text

  const U32: int := 0x1_0000_0000

  function DigitValue(c: char): (d: nat)
    requires IsDigit(c)
    ensures d < 10
  {
    c as int - '0' as int
  }

  function DigitChar(d: nat): (c: char)
    requires d < 10
    ensures IsDigit(c) && DigitValue(c) == d
  {
    ('0' as int + d) as char
  }

  predicate AllDigits(s: string) {
    forall i :: 0 <= i < |s| ==> IsDigit(s[i])
  }

  /** The value of a string of decimal digits, most significant first. */
  function DecimalValue(ds: string): nat
    requires AllDigits(ds)
    decreases |ds|
  {
    if |ds| == 0 then 0
    else DecimalValue(ds[..|ds| - 1]) * 10 + DigitValue(ds[|ds| - 1])
  }

  /** The longest prefix of `s` made of digits. */
  function LeadingDigits(s: string): (r: string)
    ensures |r| <= |s|
  {
    if |s| == 0 || !IsDigit(s[0]) then ""
    else [s[0]] + LeadingDigits(s[1..])
  }

  /** LeadingDigits is a prefix of digits followed by no further digit. */
  lemma {:induction false} LeadingDigitsSpec(s: string)
    ensures LeadingDigits(s) == s[..|LeadingDigits(s)|] && AllDigits(LeadingDigits(s))
    ensures |LeadingDigits(s)| < |s| ==> !IsDigit(s[|LeadingDigits(s)|])
    decreases |s|
  {
    if |s| > 0 && IsDigit(s[0]) {
      LeadingDigitsSpec(s[1..]);
      var r := LeadingDigits(s[1..]);
      assert LeadingDigits(s) == [s[0]] + r;
      assert s[..|r| + 1] == [s[0]] + s[1..][..|r|];
    }
  }

  /** C's atoi: skip white space, take an optional sign, then as many digits
      as follow; no digits at all gives 0. (Overflow, undefined in C, is not
      modelled: the result is the exact integer.) */
  function Atoi(s: string): int {
    var t := TrimLeft(s);
    LeadingDigitsSpec(t);
    if |t| > 0 && (t[0] == '-' || t[0] == '+') then
      LeadingDigitsSpec(t[1..]);
      var v: int := DecimalValue(LeadingDigits(t[1..]));
      if t[0] == '-' then -v else v
    else DecimalValue(LeadingDigits(t))
  }

  /** toInt: atoi, except that a field that starts with a blank, decodes to 0
      and trims to nothing is a failed cast unless blanks are accepted. */
  function ToInt(input: string, acceptSpaces: bool): (r: Result<int>)
    ensures r.Ok? ==> r.value == Atoi(input)
    ensures r.Err? ==> r.error == CastError(input)
  {
    var res := Atoi(input);
    if res == 0 && !acceptSpaces && CharAt(input, 0) == ' ' && Trim(input) == "" then
      Err(CastError(input))
    else Ok(res)
  }

  /** A field made only of white space decodes to 0 under atoi. */
  lemma AtoiAllSpace(s: string)
    requires AllSpace(s)
    ensures Atoi(s) == 0
  {
    TrimLeftSpec(s);
    assert TrimLeft(s) == "";
  }

  /** The exact failure condition of toInt: it fails if and only if blanks are
      not accepted and the field is non-empty, starts with ' ' and is all white
      space. In every other case it returns atoi's value, so an all-blank field
      read with acceptSpaces gives 0. */
  lemma ToIntFailsOnlyOnBlank(input: string, acceptSpaces: bool)
    ensures ToInt(input, acceptSpaces).Err? <==>
              !acceptSpaces && |input| > 0 && input[0] == ' ' && AllSpace(input)
    ensures ToInt(input, acceptSpaces).Ok? ==> ToInt(input, acceptSpaces).value == Atoi(input)
    ensures acceptSpaces && AllSpace(input) ==> ToInt(input, acceptSpaces) == Ok(0)
  {
    TrimSpec(input);
    if AllSpace(input) {
      AtoiAllSpace(input);
    }
  }

  /** Decimal rendering of a natural number, most significant digit first. */
  function Digits(n: nat): (r: string)
    ensures |r| >= 1 && AllDigits(r)
    decreases n
  {
    if n < 10 then [DigitChar(n)] else Digits(n / 10) + [DigitChar(n % 10)]
  }

  lemma {:induction false} DecimalValueDigits(n: nat)
    ensures DecimalValue(Digits(n)) == n
    decreases n
  {
    if n >= 10 {
      var d := Digits(n);
      assert d[..|d| - 1] == Digits(n / 10);
      DecimalValueDigits(n / 10);
    }
  }

  lemma {:induction false} LeadingDigitsOfDigits(ds: string, rest: string)
    requires AllDigits(ds)
    requires |rest| > 0 ==> !IsDigit(rest[0])
    ensures LeadingDigits(ds + rest) == ds
    decreases |ds|
  {
    if |ds| > 0 {
      assert (ds + rest)[1..] == ds[1..] + rest;
      LeadingDigitsOfDigits(ds[1..], rest);
      assert [ds[0]] + ds[1..] == ds;
    } else {
      assert ds + rest == rest;
    }
  }

  lemma {:induction false} TrimLeftBlanks(k: nat, t: string)
    requires |t| > 0 && !IsSpace(t[0])
    ensures TrimLeft(Blanks(k) + t) == t
    decreases k
  {
    var s := Blanks(k) + t;
    if k > 0 {
      assert s[0] == ' ' && s[1..] == Blanks(k - 1) + t by {
        assert Blanks(k) == " " + Blanks(k - 1);
      }
      TrimLeftBlanks(k - 1, t);
    } else {
      assert Blanks(0) + t == t;
    }
  }

  lemma AtoiPadded(k: nat, n: nat)
    ensures Atoi(Blanks(k) + Digits(n)) == n
  {
    var d := Digits(n);
    TrimLeftBlanks(k, d);
    assert d == d + "";
    LeadingDigitsOfDigits(d, "");
    DecimalValueDigits(n);
  }

  lemma AtoiPaddedNegative(k: nat, n: nat)
    ensures Atoi(Blanks(k) + ("-" + Digits(n))) + n == 0
  {
    var d := Digits(n);
    var body := "-" + d;
    TrimLeftBlanks(k, body);
    assert body[1..] == d + "";
    LeadingDigitsOfDigits(d, "");
    DecimalValueDigits(n);
  }

  /** The decimal text of an integer: a minus sign for negatives. */
  function SignedDigits(v: int): (r: string)
    ensures |r| >= 1 && IsDigit(r[|r| - 1]) && !IsSpace(r[0])
  {
    if v < 0 then "-" + Digits(-v) else Digits(v)
  }

  /** The decimal text of an integer reads back as that integer. */
  lemma SignedDigitsToInt(v: int)
    ensures ToInt(SignedDigits(v), false) == Ok(v) && Atoi(SignedDigits(v)) == v
    ensures SignedDigits(v) == "0" <==> v == 0
    ensures forall i :: 0 <= i < |SignedDigits(v)| ==> !IsSpace(SignedDigits(v)[i])
  {
    assert RightJustify(v, 0) == SignedDigits(v);
    RightJustifyToInt(v, 0, false);
    var d := SignedDigits(v);
    if v < 0 {
      assert d == "-" + Digits(-v);
      assert forall i :: 1 <= i < |d| ==> d[i] == Digits(-v)[i - 1];
    }
    if v == 0 {
      assert Digits(0) == "0";
    }
  }

  /** How a Molfile writer fills a `width`-column integer field: the number
      right-justified, padded on the left with blanks. */
  function RightJustify(v: int, width: nat): (f: string)
    ensures |f| >= width
  {
    var body := SignedDigits(v);
    Blanks(PadWidth(|body|, width)) + body
  }

  function PadWidth(len: nat, width: nat): nat {
    if len >= width then 0 else width - len
  }

  lemma AtoiRightJustify(v: int, width: nat)
    ensures Atoi(RightJustify(v, width)) == v
  {
    var body := SignedDigits(v);
    var k := PadWidth(|body|, width);
    var f := RightJustify(v, width);
    if v < 0 {
      assert f == Blanks(k) + ("-" + Digits(-v));
      AtoiPaddedNegative(k, -v);
    } else {
      assert f == Blanks(k) + Digits(v);
      AtoiPadded(k, v);
    }
  }

  lemma RightJustifyNotBlank(v: int, width: nat)
    ensures !AllSpace(RightJustify(v, width))
  {
    var f := RightJustify(v, width);
    var body := SignedDigits(v);
    assert f[|f| - 1] == body[|body| - 1];
  }

  /** Round trip: toInt reads back every right-justified integer, whatever the
      width and whether or not blanks are accepted. */
  lemma RightJustifyToInt(v: int, width: nat, acceptSpaces: bool)
    ensures ToInt(RightJustify(v, width), acceptSpaces) == Ok(v)
  {
    AtoiRightJustify(v, width);
    RightJustifyNotBlank(v, width);
    ToIntFailsOnlyOnBlank(RightJustify(v, width), acceptSpaces);
  }

  /** toDouble: C's atof (a collaborator, passed in), except that a field
      that starts with a blank, decodes to 0 and trims to nothing is a failed
      cast unless blanks are accepted, which is the default. */
  function ToDouble(input: string, acceptSpaces: bool, atof: string -> real): (r: Result<real>)
    ensures r.Ok? ==> r.value == atof(input)
    ensures r.Err? <==> atof(input) == 0.0 && !acceptSpaces && CharAt(input, 0) == ' ' && Trim(input) == ""
    ensures r.Err? ==> r.error == CastError(input)
  {
    var res := atof(input);
    if res == 0.0 && !acceptSpaces && CharAt(input, 0) == ' ' && Trim(input) == "" then
      Err(CastError(input))
    else Ok(res)
  }

  /** stripSpacesAndCast<unsigned int>: trim, then a strict
      boost::lexical_cast. The cast takes an optional sign and at least one
      digit and nothing else; a value that does not fit 32 bits fails, and a
      minus sign negates modulo 2^32 as unsigned arithmetic does. */
  function CastUnsigned(input: string, acceptSpaces: bool): (r: Result<nat>)
    ensures r.Ok? ==> r.value < U32
    ensures r.Err? ==> r.error == CastError(input)
  {
    var t := Trim(input);
    if acceptSpaces && t == "" then Ok(0)
    else
      var signed := |t| > 0 && (t[0] == '+' || t[0] == '-');
      var ds := if signed then t[1..] else t;
      if |ds| == 0 || !AllDigits(ds) || DecimalValue(ds) >= U32 then Err(CastError(input))
      else if signed && t[0] == '-' then Ok(if DecimalValue(ds) == 0 then 0 else U32 - DecimalValue(ds))
      else Ok(DecimalValue(ds))
  }

  lemma TrimRightJustify(n: nat, width: nat)
    ensures Trim(RightJustify(n, width)) == Digits(n)
  {
    var body := Digits(n);
    var f := RightJustify(n, width);
    assert TrimLeft(f) == body by {
      assert SignedDigits(n) == body;
      var k := PadWidth(|body|, width);
      assert f == Blanks(k) + body;
      TrimLeftBlanks(k, body);
    }
    assert TrimRight(body) == body;
  }

  /** The strict cast reads back every right-justified natural number below
      2^32. */
  lemma CastUnsignedRoundTrip(n: nat, width: nat, acceptSpaces: bool)
    requires n < U32
    ensures CastUnsigned(RightJustify(n, width), acceptSpaces) == Ok(n)
  {
    TrimRightJustify(n, width);
    DecimalValueDigits(n);
    CastUnsignedOfDigits(RightJustify(n, width), Digits(n), acceptSpaces);
  }

  lemma CastUnsignedOfDigits(f: string, t: string, acceptSpaces: bool)
    requires |t| > 0 && AllDigits(t) && Trim(f) == t && DecimalValue(t) < U32
    ensures CastUnsigned(f, acceptSpaces) == Ok(DecimalValue(t))
  {
    assert IsDigit(t[0]);
  }

  /** An all-blank field is 0 when blanks are accepted and a failed cast
      otherwise. */
  lemma CastUnsignedBlank(width: nat, acceptSpaces: bool)
    ensures CastUnsigned(Blanks(width), acceptSpaces) ==
              if acceptSpaces then Ok(0) else Err(CastError(Blanks(width)))
  {
    assert AllSpace(Blanks(width));
  }

  /** std::string::substr(pos, n): a start past the end throws
      std::out_of_range; otherwise the length is clamped to what is left. */
  function Column(s: string, pos: nat, n: nat): (r: Result<string>)
    ensures r.Ok? <==> pos <= |s|
    ensures r.Ok? ==> r.value == Substr(s, pos, n)
    ensures r.Err? ==> r.error.RangeError?
  {
    if pos > |s| then Err(RangeError("basic_string::substr")) else Ok(Substr(s, pos, n))
  }

  /** `toInt(text.substr(pos, width))` inside a try block that turns a failed
      cast into a FileParseException. IntAtSpec gives its value. */
  function IntAt(text: string, pos: nat, width: nat): (r: Result<int>)
    ensures r.Ok? ==> pos <= |text|
    ensures r.Err? ==> r.error.FormatError? || r.error.RangeError?
  {
    var f :- Column(text, pos, width);
    Rethrow(ToInt(f, false), "Cannot convert field to int")
  }

  /** IntAt fails with a range error exactly when the column starts past the
      end of the line, with a FileParseException exactly when toInt rejects
      the field, and otherwise returns atoi's value of the field. */
  lemma IntAtSpec(text: string, pos: nat, width: nat)
    ensures pos > |text| ==> IntAt(text, pos, width) == Err(RangeError("basic_string::substr"))
    ensures pos <= |text| && ToInt(Substr(text, pos, width), false).Err? ==>
              IntAt(text, pos, width) == Err(FormatError("Cannot convert field to int"))
    ensures pos <= |text| && ToInt(Substr(text, pos, width), false).Ok? ==>
              IntAt(text, pos, width) == Ok(Atoi(Substr(text, pos, width)))
  {
  }

  /** `stripSpacesAndCast<unsigned int>(text.substr(pos, width))` inside the
      same kind of try block. UnsignedAtSpec gives its value. */
  function UnsignedAt(text: string, pos: nat, width: nat): (r: Result<nat>)
    ensures r.Ok? ==> r.value < U32 && pos <= |text|
    ensures r.Err? ==> r.error.FormatError? || r.error.RangeError?
  {
    var f :- Column(text, pos, width);
    Rethrow(CastUnsigned(f, false), "Cannot convert field to unsigned int")
  }

  lemma UnsignedAtSpec(text: string, pos: nat, width: nat)
    ensures pos > |text| ==> UnsignedAt(text, pos, width) == Err(RangeError("basic_string::substr"))
    ensures pos <= |text| && CastUnsigned(Substr(text, pos, width), false).Err? ==>
              UnsignedAt(text, pos, width) == Err(FormatError("Cannot convert field to unsigned int"))
    ensures pos <= |text| && CastUnsigned(Substr(text, pos, width), false).Ok? ==>
              UnsignedAt(text, pos, width) == CastUnsigned(Substr(text, pos, width), false)
  {
  }

  /** `text.size() >= pos + width && text.substr(pos, width) != zero`: the
      gate in front of every optional fixed-column field. */
  predicate Present(text: string, pos: nat, width: nat, zero: string) {
    |text| >= pos + width && text[pos..pos + width] != zero
  }

  /** Unsigned subtraction of one, as in `idx = cast(...) - 1` on an
      unsigned int: 0 wraps to 2^32 - 1. */
  function PredU32(n: nat): (r: nat)
    requires n < U32
    ensures r < U32
    ensures n > 0 ==> r == n - 1
    ensures n == 0 ==> r == U32 - 1
  {
    if n == 0 then U32 - 1 else n - 1
  }

  /** Conversion of an int to unsigned int: the value modulo 2^32. */
  function AsU32(v: int): (r: nat)
    ensures r < U32
    ensures 0 <= v < U32 ==> r == v
    ensures -U32 <= v < 0 ==> r == v + U32
  {
    v % U32
  }
}

=== FILE: findings.dfy ===
/** Inputs on which the SUB, UNS and RBC readers, as written, part from what
    the Molfile format and the surrounding code evidently intend. Each
    as-written lemma exhibits the failure on a family of two-entry lines a
    writer produces; the corrected reading (the one the rest of the model
    uses) accepts the same lines, by CountWriter.CountLineWritten.
 */
module Findings {
  import opened Wrappers
  import opened Text
  import opened Fields
  import opened Queries
  import opened Molecule
  import opened Properties
  import opened Writer
  import opened CountWriter

  /** A written line of two entries, (a0, c0) then (a1, c1). */
  function TwoEntries(tag: string, a0: int, c0: int, a1: int, c1: int): (t: string)
    requires |tag| == 6 && InField(a0) && InField(c0) && InField(a1) && InField(c1)
  {
    EntryLine(tag, [(a0, c0), (a1, c1)])
  }

  /** Regrouping the pieces of a two-entry line. */
  lemma Regroup(h: string, f0: string, f1: string, f2: string, f3: string)
    ensures h + ((f0 + f1) + ((f2 + f3) + "")) == h + f0 + f1 + f2 + f3
    ensures h + f0 + f1 + f2 + f3 == h + f0 + (f1 + f2 + f3)
    ensures h + f0 + f1 + f2 + f3 == (h + f0) + f1 + (f2 + f3)
    ensures h + f0 + f1 + f2 + f3 == (h + f0 + f1 + f2) + f3 + ""
  {
  }

  /** Such a line is the tag, the count 2 and the four fields. */
  lemma TwoEntriesText(tag: string, a0: int, c0: int, a1: int, c1: int)
    requires |tag| == 6 && InField(a0) && InField(c0) && InField(a1) && InField(c1)
    ensures TwoEntries(tag, a0, c0, a1, c1) ==
              tag + RightJustify(2, 3) + RightJustify(a0, 4) + RightJustify(c0, 4) + RightJustify(a1, 4) + RightJustify(c1, 4)
    ensures UnsignedAt(TwoEntries(tag, a0, c0, a1, c1), 6, 3) == Ok(2)
  {
    var ps := [(a0, c0), (a1, c1)];
    EntryCountWritten(tag, ps);
    assert ps[1..] == [(a1, c1)] && ps[1..][1..] == [];
    assert PairsText(ps) == EntryText((a0, c0)) + (EntryText((a1, c1)) + "");
    Regroup(tag + RightJustify(2, 3), RightJustify(a0, 4), RightJustify(c0, 4), RightJustify(a1, 4), RightJustify(c1, 4));
  }

  /** The field at column |pre| of a text made of pieces around it. */
  lemma FieldIn(t: string, pre: string, v: int, post: string)
    requires InField(v) && t == pre + RightJustify(v, 4) + post
    ensures IntAt(t, |pre|, 4) == Ok(v) && FieldGiven(t, |pre|)
    ensures v >= 0 ==> UnsignedAt(t, |pre|, 4) == Ok(v)
  {
    WrittenField(pre, v, post);
  }

  /** The fields of such a line: the count 2 in columns 6-8, then the four
      values at columns 9, 13, 17 and 21. */
  lemma TwoEntriesFields(tag: string, a0: int, c0: int, a1: int, c1: int)
    requires |tag| == 6 && InField(a0) && InField(c0) && InField(a1) && InField(c1)
    ensures var t := TwoEntries(tag, a0, c0, a1, c1);
            && UnsignedAt(t, 6, 3) == Ok(2)
            && IntAt(t, 9, 4) == Ok(a0) && FieldGiven(t, 9) && (a0 >= 0 ==> UnsignedAt(t, 9, 4) == Ok(a0))
            && IntAt(t, 13, 4) == Ok(c0) && FieldGiven(t, 13) && (c0 >= 0 ==> UnsignedAt(t, 13, 4) == Ok(c0))
            && IntAt(t, 17, 4) == Ok(a1) && FieldGiven(t, 17) && (a1 >= 0 ==> UnsignedAt(t, 17, 4) == Ok(a1))
            && IntAt(t, 21, 4) == Ok(c1) && FieldGiven(t, 21) && (c1 >= 0 ==> UnsignedAt(t, 21, 4) == Ok(c1))
  {
    var t := TwoEntries(tag, a0, c0, a1, c1);
    TwoEntriesText(tag, a0, c0, a1, c1);
    InFieldFits(a0);
    InFieldFits(c0);
    InFieldFits(a1);
    InFieldFits(c1);
    CountFits(2);
    var f0 := RightJustify(a0, 4);
    var f1 := RightJustify(c0, 4);
    var f2 := RightJustify(a1, 4);
    var f3 := RightJustify(c1, 4);
    var head := tag + RightJustify(2, 3);
    RightJustifyWidth(2, 3);
    RightJustifyWidth(a0, 4);
    RightJustifyWidth(c0, 4);
    RightJustifyWidth(a1, 4);
    Regroup(head, f0, f1, f2, f3);
    FieldIn(t, head, a0, f1 + f2 + f3);
    FieldIn(t, head + f0, c0, f2 + f3);
    FieldIn(t, head + f0 + f1, a1, f3);
    FieldIn(t, head + f0 + f1 + f2, c1, "");
  }

  /** A two-entry count line whose second entry is rejected as read: the
      whole line is rejected. */
  lemma SecondEntryFails(kind: CountKind, asWritten: bool, t: string, m: Mol, st: Step)
    requires UnsignedAt(t, 6, 3) == Ok(2)
    requires CountEntry(kind, asWritten, t, 9, m) == Ok(st) && CountEntry(kind, asWritten, t, st.next, m).Err?
    ensures CountLine(kind, asWritten, m, t).Err?
  {
    assert CountEdits(kind, asWritten, t, st.next, 1, m).Err?;
    assert CountEdits(kind, asWritten, t, 9, 2, m).Err?;
  }

  /** UNS, as written: the loop never steps over the count field, so the
      second entry's atom number is read from the first entry's count (1)
      and its count from the second entry's atom number. Every two-entry
      line marking atoms `a` and `b` unsaturated, with b >= 2, is
      rejected. */
  lemma UnsStrideAsWritten(m: Mol, a: int, b: int)
    requires 1 <= a <= |m.atoms| <= 9999 && 2 <= b <= 9999
    ensures CountLine(Uns, true, m, TwoEntries("M  UNS", a, 1, b, 1)).Err?
  {
    TwoEntriesFields("M  UNS", a, 1, b, 1);
    UnsChain(TwoEntries("M  UNS", a, 1, b, 1), m, a, b);
  }

  /** The as-written UNS reading of any line whose fields read as those of
      the family above. */
  lemma UnsChain(t: string, m: Mol, a: int, b: int)
    requires 1 <= a <= |m.atoms| && b >= 2
    requires UnsignedAt(t, 6, 3) == Ok(2)
    requires UnsignedAt(t, 9, 4) == Ok(a) && FieldGiven(t, 13) && IntAt(t, 13, 4) == Ok(1)
    requires UnsignedAt(t, 13, 4) == Ok(1) && FieldGiven(t, 17) && IntAt(t, 17, 4) == Ok(b)
    ensures CountLine(Uns, true, m, t).Err?
  {
    StuckEntry(Uns, t, m, a, 1);
    UnsRejects(t, 13, m, b);
    SecondEntryFails(Uns, true, t, m, CountEntry(Uns, true, t, 9, m).value);
  }

  /** An accepted first entry after which the as-written position does not
      move past the count field: the next entry is read from column 13. */
  lemma StuckEntry(kind: CountKind, t: string, m: Mol, a: int, c: int)
    requires 1 <= a <= |m.atoms| && CountAccepted(kind, c) && CountStride(kind, c, true) == 0
    requires UnsignedAt(t, 9, 4) == Ok(a) && FieldGiven(t, 13) && IntAt(t, 13, 4) == Ok(c)
    ensures CountEntry(kind, true, t, 9, m).Ok? && CountEntry(kind, true, t, 9, m).value.next == 13
  {
    CountEntryRead(kind, true, t, 9, m, a, c);
  }

  /** A UNS entry for an existing atom whose count reads as b >= 2 is
      rejected. */
  lemma UnsRejects(t: string, spos: nat, m: Mol, b: int)
    requires 1 <= |m.atoms| && b >= 2
    requires UnsignedAt(t, spos, 4) == Ok(1) && FieldGiven(t, spos + 4) && IntAt(t, spos + 4, 4) == Ok(b)
    ensures CountEntry(Uns, true, t, spos, m).Err?
  {
    assert !CountAccepted(Uns, b);
    CountEntryRead(Uns, true, t, spos, m, 1, b);
  }

  /** UNS, corrected: the same lines are accepted whenever both atoms
      exist. */
  lemma UnsStrideCorrected(m: Mol, a: int, b: int)
    requires 1 <= a <= |m.atoms| && 1 <= b <= |m.atoms| && |m.atoms| <= 9999
    ensures CountLine(Uns, false, m, TwoEntries("M  UNS", a, 1, b, 1)).Ok?
  {
    CountLineWritten(Uns, m, [(a, 1), (b, 1)]);
  }

  /** SUB and RBC, as written: a count of 0 skips the rest of the entry
      with `continue`, before the position moves past the count field, so
      the next entry's atom number is read from that count field: 0, which
      wraps to the unsigned index 2^32 - 1 and names no atom. Every
      two-entry line whose first count is 0 is rejected. */
  lemma ZeroCountAsWritten(kind: CountKind, m: Mol, a: int, b: int, c: int)
    requires kind != Uns && 1 <= a <= |m.atoms| <= 9999 && InField(b) && InField(c)
    ensures CountLine(kind, true, m, TwoEntries(CountTag(kind), a, 0, b, c)).Err?
  {
    TwoEntriesFields(CountTag(kind), a, 0, b, c);
    ZeroChain(kind, TwoEntries(CountTag(kind), a, 0, b, c), m, a);
  }

  /** The as-written SUB or RBC reading of any line whose fields read as
      those of the family above. */
  lemma ZeroChain(kind: CountKind, t: string, m: Mol, a: int)
    requires kind != Uns && 1 <= a <= |m.atoms| < U32
    requires UnsignedAt(t, 6, 3) == Ok(2)
    requires UnsignedAt(t, 9, 4) == Ok(a) && FieldGiven(t, 13) && IntAt(t, 13, 4) == Ok(0)
    requires UnsignedAt(t, 13, 4) == Ok(0)
    ensures CountLine(kind, true, m, t).Err?
  {
    StuckEntry(kind, t, m, a, 0);
    CountEntryZeroAtom(kind, true, t, 13, m);
    SecondEntryFails(kind, true, t, m, CountEntry(kind, true, t, 9, m).value);
  }

  /** SUB and RBC, corrected: the same lines are accepted whenever both
      atoms exist and the second count is one the reader supports. */
  lemma ZeroCountCorrected(kind: CountKind, m: Mol, a: int, b: int, c: int)
    requires 1 <= a <= |m.atoms| && 1 <= b <= |m.atoms| && |m.atoms| <= 9999 && CountAccepted(kind, c)
    ensures CountLine(kind, false, m, TwoEntries(CountTag(kind), a, 0, b, c)).Ok?
  {
    CountLineWritten(kind, m, [(a, 0), (b, c)]);
  }

  /** ALS, as written: an atom whose own element differs from the first
      listed one, tested against that first listed element (and no other
      listed one), fails the list query; corrected, it passes. */
  lemma AtomListFirstAsWritten(orig: Atom, nums: seq<int>, data: Feature -> int)
    requires |nums| > 0 && orig.atomicNum != nums[0] && nums[0] !in nums[1..]
    requires data(AtomicNum) == nums[0]
    ensures !Matches(AtomListQuery(orig, nums, false, true), data)
    ensures Matches(AtomListQuery(orig, nums, false, false), data)
  {
    AtomListQueryAsWritten(orig, nums, data);
    AtomListQueryMatches(orig, nums, false, data);
  }
}

=== FILE: linestream.dfy ===
/** The input stream as the parser sees it: getLine reads up to the next
    newline, drops one trailing carriage return, and sets the stream's eof flag
    when it runs into the end of the text before finding a newline.
 */
module LineStream {
  import opened Text
  import opened Wrappers

  /** The unread text and the istream's eof flag. */
  datatype Stream = Stream(rest: string, eof: bool)

  function Open(text: string): (s: Stream)
    ensures !s.eof && s.rest == text
  {
    Stream(text, false)
  }

  /** A measure every read on a stream that is not yet at its end lowers. */
  function Remaining(s: Stream): nat {
    |s.rest| + (if s.eof then 0 else 1)
  }

  /** The line ending RDKit's getLine tolerates: one trailing '\r' is removed. */
  function StripCR(l: string): (r: string)
    ensures l == r || l == r + "\r"
  {
    if |l| > 0 && l[|l| - 1] == '\r' then l[..|l| - 1] else l
  }

  /** getLine: std::getline followed by StripCR. A read on a stream already at
      its end yields the empty string and leaves the stream at its end. */
  function GetLine(s: Stream): (res: (string, Stream))
    ensures s.eof ==> res == ("", s)
    ensures !s.eof ==> Remaining(res.1) < Remaining(s)
    ensures |res.1.rest| <= |s.rest|
  {
    if s.eof then ("", s)
    else
      var l := UpTo(s.rest, '\n');
      if |l| < |s.rest| then (StripCR(l), Stream(s.rest[|l| + 1..], false))
      else (StripCR(s.rest), Stream("", true))
  }

  /** A text written as lines, each one followed by a newline. */
  function Render(lines: seq<string>): string
    decreases |lines|
  {
    if |lines| == 0 then "" else lines[0] + "\n" + Render(lines[1..])
  }

  /** A line a writer can put on its own: no newline inside and no trailing
      carriage return. */
  predicate Clean(l: string) {
    '\n' !in l && (|l| == 0 || l[|l| - 1] != '\r')
  }

  /** Reading one line of a text returns the part before the first newline
      and leaves what follows that newline, without setting eof. */
  lemma GetLineSplit(a: string, b: string)
    requires Clean(a)
    ensures GetLine(Open(a + "\n" + b)) == (a, Open(b))
  {
    var t := a + "\n" + b;
    assert t == a + ("\n" + b);
    UpToPrefix(a, '\n', b);
    assert t[|a| + 1..] == b;
  }

  lemma GetLineRender(lines: seq<string>)
    requires |lines| > 0 && Clean(lines[0])
    ensures GetLine(Open(Render(lines))) == (lines[0], Open(Render(lines[1..])))
  {
    GetLineSplit(lines[0], Render(lines[1..]));
  }

  lemma {:induction false} UpToPrefix(a: string, c: char, b: string)
    requires c !in a
    ensures UpTo(a + ([c] + b), c) == a
    decreases |a|
  {
    if |a| > 0 {
      assert (a + ([c] + b))[1..] == a[1..] + ([c] + b);
      UpToPrefix(a[1..], c, b);
      assert [a[0]] + a[1..] == a;
    } else {
      assert a + ([c] + b) == [c] + b;
    }
  }

  lemma ConsAppend(x: string, t: seq<string>, r: seq<string>)
    ensures ([x] + t) + r == [x] + (t + r)
  {
  }

  /** n successive getLine calls. */
  function ReadN(s: Stream, n: nat): (res: (seq<string>, Stream))
    ensures |res.0| == n
    decreases n
  {
    if n == 0 then ([], s)
    else
      var (l, s1) := GetLine(s);
      var (ls, s2) := ReadN(s1, n - 1);
      ([l] + ls, s2)
  }

  /** Reading n > 0 lines is reading one, then n - 1 more. */
  lemma ReadNStep(s: Stream, n: nat)
    requires n > 0
    ensures ReadN(s, n).0 == [GetLine(s).0] + ReadN(GetLine(s).1, n - 1).0
    ensures ReadN(s, n).1 == ReadN(GetLine(s).1, n - 1).1
  {
  }

  /** Round trip: reading back a text written line by line gives every line
      in order with eof still clear, and the next read then yields "" and sets
      eof. */
  lemma {:induction false} ReadRender(lines: seq<string>)
    requires forall k :: 0 <= k < |lines| ==> Clean(lines[k])
    ensures ReadN(Open(Render(lines)), |lines|) == (lines, Open(""))
    ensures GetLine(Open("")) == ("", Stream("", true))
    decreases |lines|
  {
    if |lines| > 0 {
      GetLineRender(lines);
      ReadRender(lines[1..]);
      assert [lines[0]] + lines[1..] == lines;
    }
  }

  /** A final line without a newline is still returned, but sets eof. */
  lemma GetLineLast(l: string)
    requires Clean(l)
    ensures GetLine(Open(l)) == (l, Stream("", true))
  {
  }
}

=== FILE: molecule.dfy ===
/** The molecule draft the parser fills in: atoms, bonds, bookmarks and the
    few record-level flags it sets, plus the query-atom upgrade and the
    deferred query completion that act on it.
 */
module Molecule {
  import opened Wrappers
  import opened Queries

  /** Bond::BondType values the parser produces. */
  datatype BondType = Unspecified | Single | Double | Triple | Aromatic

  /** The numeric value of each Bond::BondType, which a bond-order leaf
      stores. */
  function TypeCode(t: BondType): int {
    match t
    case Unspecified => 0
    case Single => 1
    case Double => 2
    case Triple => 3
    case Aromatic => 12
  }

  lemma TypeCodeInjective(s: BondType, t: BondType)
    ensures TypeCode(s) == TypeCode(t) <==> s == t
  {
  }

  /** Bond::BondDir values the parser produces. */
  datatype BondDir = NoDir | BeginWedge | BeginDash | EitherDouble | UnknownDir

  /** The dimensionality hint of the header's info line (`_2DConf`/`_3DConf`). */
  datatype DimHint = NoHint | Hint2D | Hint3D

  datatype Atom = Atom(
    atomicNum: int,
    mass: real,
    formalCharge: int,
    numRadicals: int,
    noImplicit: bool,
    isAromatic: bool,
    hasMassQuery: bool,                 // the `_hasMassQuery` property
    query: Option<Query>,               // Some: a QueryAtom
    intProps: map<string, int>,         // molParity, molAtomMapNumber, _MolFileRLabel, ...
    strProps: map<string, string>)      // molFileAlias, molFileValue

  /** The fields of an atom, to say which ones an operation may change. */
  datatype AtomField =
    | NumField | MassField | ChargeField | RadicalField | ImplicitField
    | AromaticField | MassQueryField | QueryField | IntPropsField | StrPropsField

  /** `a` and `b` agree on every field outside `fs`. */
  predicate AgreeExcept(a: Atom, b: Atom, fs: set<AtomField>) {
    && (NumField !in fs ==> a.atomicNum == b.atomicNum)
    && (MassField !in fs ==> a.mass == b.mass)
    && (ChargeField !in fs ==> a.formalCharge == b.formalCharge)
    && (RadicalField !in fs ==> a.numRadicals == b.numRadicals)
    && (ImplicitField !in fs ==> a.noImplicit == b.noImplicit)
    && (AromaticField !in fs ==> a.isAromatic == b.isAromatic)
    && (MassQueryField !in fs ==> a.hasMassQuery == b.hasMassQuery)
    && (QueryField !in fs ==> a.query == b.query)
    && (IntPropsField !in fs ==> a.intProps == b.intProps)
    && (StrPropsField !in fs ==> a.strProps == b.strProps)
  }

  /** Two atom lists of the same length that agree, atom by atom, outside
      `fs`. */
  predicate AtomsAgreeExcept(xs: seq<Atom>, ys: seq<Atom>, fs: set<AtomField>) {
    |xs| == |ys| && forall i :: 0 <= i < |xs| ==> AgreeExcept(xs[i], ys[i], fs)
  }

  lemma AgreeTrans(xs: seq<Atom>, ys: seq<Atom>, zs: seq<Atom>, fs: set<AtomField>)
    requires AtomsAgreeExcept(xs, ys, fs) && AtomsAgreeExcept(ys, zs, fs)
    ensures AtomsAgreeExcept(xs, zs, fs)
  {
  }

  /** Replaces one atom by one that agrees with it outside `fs`. */
  function UpdateAtom(atoms: seq<Atom>, k: nat, a: Atom, fs: set<AtomField>): (r: seq<Atom>)
    requires k < |atoms| && AgreeExcept(atoms[k], a, fs)
    ensures AtomsAgreeExcept(atoms, r, fs)
    ensures r == atoms[k := a]
  {
    atoms[k := a]
  }

  datatype Bond = Bond(
    begin: int,
    end: int,
    bondType: BondType,
    dir: BondDir,
    stereoAny: bool,                    // Bond::STEREOANY was set
    isAromatic: bool,
    query: Option<Query>,               // Some: a QueryBond
    reactStatus: Option<int>)           // the molReactStatus property

  datatype Mol = Mol(
    name: string,
    info: string,
    comments: string,
    dimHint: DimHint,
    conf3D: Option<bool>,               // None: the conformer keeps its default
    atoms: seq<Atom>,
    coords: seq<Point>,                 // the conformer, one position per atom
    bonds: seq<Bond>,
    needsQueryScan: bool,               // the `_NeedsQueryScan` property
    chiralityPossible: bool,
    atomBookmarks: map<int, nat>,
    bondBookmarks: map<int, nat>)

  datatype Point = Point(x: real, y: real, z: real)

  /** The collaborators the parser calls and this model does not define: the
      periodic table's two lookups and C's atof, which every real-valued
      field goes through. */
  datatype Env = Env(
    atomicNumber: string -> int,
    atomicWeight: int -> real,
    atof: string -> real)

  /** A freshly constructed atom of the given atomic number. */
  function NewAtom(num: int): (a: Atom)
    ensures a.atomicNum == num && a.query == None && a.formalCharge == 0
  {
    Atom(num, 0.0, 0, 0, false, false, false, None, map[], map[])
  }

  function EmptyMol(): (m: Mol)
    ensures |m.atoms| == 0 && |m.coords| == 0 && |m.bonds| == 0 && !m.needsQueryScan
  {
    Mol("", "", "", NoHint, None, [], [], [], false, false, map[], map[])
  }

  /** static_cast<int> of a positive or negative real: truncation toward 0. */
  function Trunc(r: real): (i: int)
    ensures r >= 0.0 ==> i == r.Floor
    ensures r < 0.0 ==> i == -((-r).Floor)
  {
    if r >= 0.0 then r.Floor else -((-r).Floor)
  }

  /** QueryAtom(const Atom &): the atom's fields with an atomic-number query. */
  function QueryAtomOf(a: Atom): (r: Atom)
    ensures r == a.(query := Some(EqualsQuery(AtomicNum, a.atomicNum)))
  {
    a.(query := Some(EqualsQuery(AtomicNum, a.atomicNum)))
  }

  /** replaceAtomWithQueryAtom: a query atom is returned as it is; a plain atom
      becomes a query atom whose query also pins a non-zero formal charge and,
      when a mass difference was read, the truncated mass. */
  function Upgrade(a: Atom): (r: Atom)
    ensures r.query.Some?
    ensures a.query.Some? ==> r == a
    ensures r == a.(query := r.query)
  {
    if a.query.Some? then a
    else
      var q0 := EqualsQuery(AtomicNum, a.atomicNum);
      var q1 := if a.formalCharge != 0 then Expand(q0, EqualsQuery(FormalCharge, a.formalCharge), CombineAnd) else q0;
      var q2 := if a.hasMassQuery then Expand(q1, EqualsQuery(Mass, Trunc(a.mass)), CombineAnd) else q1;
      a.(query := Some(q2))
  }

  /** Upgrading twice is upgrading once. */
  lemma UpgradeIdempotent(a: Atom)
    ensures Upgrade(Upgrade(a)) == Upgrade(a)
  {
  }

  /** The query of an upgraded plain atom accepts exactly the atoms with the
      same atomic number, the same charge when it is non-zero, and the same
      truncated mass when a mass difference was read. */
  lemma UpgradeMatches(a: Atom, data: Feature -> int)
    requires a.query.None?
    ensures Matches(Upgrade(a).query.value, data) <==>
              && data(AtomicNum) == a.atomicNum
              && (a.formalCharge != 0 ==> data(FormalCharge) == a.formalCharge)
              && (a.hasMassQuery ==> data(Mass) == Trunc(a.mass))
  {
    var q0 := EqualsQuery(AtomicNum, a.atomicNum);
    var q1 := if a.formalCharge != 0 then Expand(q0, EqualsQuery(FormalCharge, a.formalCharge), CombineAnd) else q0;
    if a.formalCharge != 0 {
      ExpandMatches(q0, EqualsQuery(FormalCharge, a.formalCharge), data);
    }
    if a.hasMassQuery {
      ExpandMatches(q1, EqualsQuery(Mass, Trunc(a.mass)), data);
    }
  }

  /** `if(!atom->hasQuery()) atom = replaceAtomWithQueryAtom(...);
      atom->expandQuery(q, COMPOSITE_AND)`. */
  function AndQuery(a: Atom, q: Query): (r: Atom)
    ensures r.query.Some?
    ensures r == a.(query := r.query)
  {
    var u := Upgrade(a);
    u.(query := Some(Expand(u.query.value, q, CombineAnd)))
  }

  /** The added predicate is conjoined with everything the atom demanded
      before. */
  lemma AndQueryMatches(a: Atom, q: Query, data: Feature -> int)
    ensures Matches(AndQuery(a, q).query.value, data) <==>
              Matches(Upgrade(a).query.value, data) && Matches(q, data)
  {
    ExpandMatches(Upgrade(a).query.value, q, data);
  }

  /** getAtomWithIdx: an index outside the atom list is a range error. */
  function AtomAt(m: Mol, idx: int): (r: Result<Atom>)
    ensures r.Ok? <==> 0 <= idx < |m.atoms|
    ensures r.Ok? ==> r.value == m.atoms[idx]
  {
    if 0 <= idx < |m.atoms| then Ok(m.atoms[idx]) else Err(RangeError("atom index out of range"))
  }

  /** The RANGE_CHECK / getAtomWithIdx guard on an atom index. */
  function AtomIndex(m: Mol, idx: int): (r: Result<nat>)
    ensures r.Ok? <==> 0 <= idx < |m.atoms|
    ensures r.Ok? ==> r.value == idx
    ensures r.Err? ==> r.error.RangeError?
  {
    if 0 <= idx < |m.atoms| then Ok(idx) else Err(RangeError("atom index out of range"))
  }

  /** replaceAtom / in-place update at a stable index. */
  function SetAtom(m: Mol, idx: nat, a: Atom): (r: Mol)
    requires idx < |m.atoms|
    ensures r.atoms == m.atoms[idx := a]
    ensures r == m.(atoms := r.atoms)
  {
    m.(atoms := m.atoms[idx := a])
  }

  /** addAtom plus setAtomPos: the new atom takes the next index and its
      position the matching slot of the conformer. */
  function AddAtom(m: Mol, a: Atom, p: Point): (r: Mol)
    ensures r.atoms == m.atoms + [a] && r.coords == m.coords + [p]
    ensures r == m.(atoms := r.atoms, coords := r.coords)
  {
    m.(atoms := m.atoms + [a], coords := m.coords + [p])
  }

  /** Some bond of the list already joins atoms i and j, in either order. */
  predicate HasBondBetween(bonds: seq<Bond>, i: int, j: int) {
    exists k :: 0 <= k < |bonds| && {bonds[k].begin, bonds[k].end} == {i, j}
  }

  /** addBond: both ends must name existing, distinct atoms not yet bonded. */
  function AddBond(m: Mol, b: Bond): (r: Result<Mol>)
    ensures r.Ok? <==>
              && 0 <= b.begin < |m.atoms| && 0 <= b.end < |m.atoms| && b.begin != b.end
              && !HasBondBetween(m.bonds, b.begin, b.end)
    ensures r.Ok? ==> r.value == m.(bonds := m.bonds + [b])
  {
    if !(0 <= b.begin < |m.atoms|) || !(0 <= b.end < |m.atoms|) then
      Err(RangeError("bond atom index out of range"))
    else if b.begin == b.end then Err(InvariantError("attempt to add self-bond"))
    else if HasBondBetween(m.bonds, b.begin, b.end) then Err(InvariantError("bond already exists"))
    else Ok(m.(bonds := m.bonds + [b]))
  }

  /** Every bond of the draft joins two existing atoms. */
  predicate BondsInRange(m: Mol) {
    forall k :: 0 <= k < |m.bonds| ==>
      0 <= m.bonds[k].begin < |m.atoms| && 0 <= m.bonds[k].end < |m.atoms|
  }

  /** The graph invariants addBond keeps: every bond joins two distinct
      existing atoms, and no two bonds join the same pair. */
  predicate WellFormed(m: Mol) {
    && BondsInRange(m)
    && (forall k :: 0 <= k < |m.bonds| ==> m.bonds[k].begin != m.bonds[k].end)
    && (forall k, l :: 0 <= k < l < |m.bonds| ==>
          {m.bonds[k].begin, m.bonds[k].end} != {m.bonds[l].begin, m.bonds[l].end})
  }

  /** Whatever the parser adds to a well-formed draft keeps it well formed. */
  lemma AddBondKeepsWellFormed(m: Mol, b: Bond)
    requires WellFormed(m) && AddBond(m, b).Ok?
    ensures WellFormed(AddBond(m, b).value)
  {
    var r := AddBond(m, b).value;
    forall k, l | 0 <= k < l < |r.bonds|
      ensures {r.bonds[k].begin, r.bonds[k].end} != {r.bonds[l].begin, r.bonds[l].end}
    {
      if l == |m.bonds| {
        assert r.bonds[l] == b;
        assert !({m.bonds[k].begin, m.bonds[k].end} == {b.begin, b.end});
      }
    }
  }

  lemma AddAtomKeepsWellFormed(m: Mol, a: Atom, p: Point)
    requires WellFormed(m)
    ensures WellFormed(AddAtom(m, a, p))
  {
  }

  /** QueryBond(const Bond &): the bond's fields with a query asking for its
      bond order. */
  function QueryBondOf(b: Bond): (r: Bond)
    ensures r.query == Some(EqualsQuery(BondOrder, TypeCode(b.bondType)))
    ensures r == b.(query := r.query)
  {
    b.(query := Some(EqualsQuery(BondOrder, TypeCode(b.bondType))))
  }

  /** Atom::getDegree: the number of bonds that touch the atom. */
  function Degree(bonds: seq<Bond>, idx: int): (d: nat)
    ensures d <= |bonds|
  {
    if |bonds| == 0 then 0
    else (if bonds[0].begin == idx || bonds[0].end == idx then 1 else 0) + Degree(bonds[1..], idx)
  }

  /** setAtomBookmark followed by getAtomWithBookmark: the first atom filed
      under a number is the one found. */
  function Bookmark(marks: map<int, nat>, key: int, idx: nat): (r: map<int, nat>)
    ensures key in r
    ensures key in marks ==> r == marks
    ensures key !in marks ==> r == marks[key := idx]
  {
    if key in marks then marks else marks[key := idx]
  }

  /** CompleteMolQueries: the deferred values of every query atom are filled in
      from that atom's own data functions; plain atoms are left alone. */
  function CompleteMolQueries(atoms: seq<Atom>, data: nat -> Feature -> int): (r: seq<Atom>)
    ensures |r| == |atoms|
    ensures forall i :: 0 <= i < |atoms| ==> r[i] == CompleteAtom(atoms[i], data(i))
    ensures forall i :: 0 <= i < |atoms| && atoms[i].query.None? ==> r[i] == atoms[i]
    ensures forall i :: 0 <= i < |atoms| && atoms[i].query.Some? ==>
              r[i] == atoms[i].(query := r[i].query) && r[i].query.Some? &&
              SameShape(atoms[i].query.value, r[i].query.value)
  {
    seq(|atoms|, i requires 0 <= i < |atoms| => CompleteAtom(atoms[i], data(i)))
  }

  /** The completion of one atom's query. */
  function CompleteAtom(a: Atom, data: Feature -> int): (r: Atom)
    ensures a.query.None? ==> r == a
    ensures a.query.Some? ==>
              r == a.(query := r.query) && r.query.Some? && SameShape(a.query.value, r.query.value)
  {
    if a.query.Some? then
      CompleteSameShape(a.query.value, data);
      a.(query := Some(Complete(a.query.value, data)))
    else a
  }

  /** The completion pass of the reader runs only when a deferred value was
      stored, and it clears that flag. */
  function CompleteIfNeeded(m: Mol, data: nat -> Feature -> int): (r: Mol)
    ensures !r.needsQueryScan
    ensures !m.needsQueryScan ==> r == m
    ensures m.needsQueryScan ==> r == m.(needsQueryScan := false, atoms := CompleteMolQueries(m.atoms, data))
  {
    if m.needsQueryScan then m.(needsQueryScan := false, atoms := CompleteMolQueries(m.atoms, data))
    else m
  }

  /** After completion, no query atom keeps the sentinel so long as the data
      functions never produce it. */
  lemma CompleteMolQueriesResolves(atoms: seq<Atom>, data: nat -> Feature -> int)
    requires forall i: nat, f :: data(i)(f) != MagicVal
    ensures forall i :: 0 <= i < |atoms| && atoms[i].query.Some? ==>
              Resolved(CompleteMolQueries(atoms, data)[i].query.value)
  {
    var r := CompleteMolQueries(atoms, data);
    forall i | 0 <= i < |atoms| && atoms[i].query.Some?
      ensures Resolved(r[i].query.value)
    {
      CompleteResolves(atoms[i].query.value, data(i));
    }
  }

  /** After the atoms are read, a 2D or 3D label of the header fixes the
      conformer's dimensionality, and the label is cleared. */
  function SettleDim(m: Mol): (r: Mol)
    ensures r.dimHint == NoHint
    ensures m.dimHint == NoHint ==> r == m
    ensures m.dimHint != NoHint ==> r == m.(dimHint := NoHint, conf3D := Some(m.dimHint == Hint3D))
  {
    match m.dimHint
    case NoHint => m
    case Hint2D => m.(dimHint := NoHint, conf3D := Some(false))
    case Hint3D => m.(dimHint := NoHint, conf3D := Some(true))
  }

  /** Sets every atom's formal charge to 0 (the first-charge-line reset). */
  function ZeroCharges(atoms: seq<Atom>): (r: seq<Atom>)
    ensures |r| == |atoms|
    ensures forall i :: 0 <= i < |atoms| ==> r[i] == atoms[i].(formalCharge := 0)
  {
    seq(|atoms|, i requires 0 <= i < |atoms| => atoms[i].(formalCharge := 0))
  }
}

=== FILE: molfile.dfy ===
/** MolDataStreamToMol, up to the chemistry post-processing: the three
    header lines, the counts line with its version tag, then a V2000 or a
    V3000 connection table, and the check that the record was complete.
 */
module MolFile {
  import opened Wrappers
  import opened Text
  import opened Fields
  import opened Molecule
  import opened LineStream
  import opened Queries
  import V2000
  import PropertyBlock
  import V3000Ctab

  /** The dimension label of the header's info line, columns 20 and 21. */
  function DimLabel(info: string): (h: DimHint)
    ensures |info| < 22 ==> h == NoHint
    ensures h == Hint2D <==> |info| >= 22 && (info[20..22] == "2d" || info[20..22] == "2D")
    ensures h == Hint3D <==> |info| >= 22 && (info[20..22] == "3d" || info[20..22] == "3D")
  {
    if |info| < 22 then NoHint
    else
      var d := info[20..22];
      if d == "2d" || d == "2D" then Hint2D
      else if d == "3d" || d == "3D" then Hint3D
      else NoHint
  }

  /** The header: name, info and comment lines. A stream that ends while
      the name is read holds no molecule. */
  function Header(s: Stream): (r: Option<(Mol, Stream)>)
    ensures r.None? <==> GetLine(s).1.eof
    ensures r.Some? ==> && r.value.0.name == GetLine(s).0
                        && r.value.0.info == GetLine(GetLine(s).1).0
                        && r.value.0.dimHint == DimLabel(r.value.0.info)
                        && |r.value.0.atoms| == 0 && |r.value.0.bonds| == 0 && !r.value.0.needsQueryScan
  {
    var (name, s1) := GetLine(s);
    if s1.eof then None
    else
      var (info, s2) := GetLine(s1);
      var (comments, s3) := GetLine(s2);
      Some((EmptyMol().(name := name, info := info, comments := comments, dimHint := DimLabel(info)), s3))
  }

  /** The two mandatory fields of the counts line, atoms and bonds, each
      three columns wide; a line shorter than six characters is rejected,
      and a field toInt rejects becomes a FileParseException. The optional
      fields after them are read inside a try block that swallows every
      failure, and none of them is used. */
  function CountsFields(c: string): (r: Result<(int, int)>)
    ensures |c| < 6 ==> r.Err? && r.error.FormatError?
    ensures r.Ok? <==> |c| >= 6 && ToInt(c[0..3], false).Ok? && ToInt(c[3..6], false).Ok?
    ensures r.Ok? ==> r.value == (Atoi(c[0..3]), Atoi(c[3..6]))
    ensures r.Err? ==> r.error.FormatError?
  {
    if |c| < 6 then Err(FormatError("Counts line too short"))
    else
      IntAtSpec(c, 0, 3);
      IntAtSpec(c, 3, 3);
      SubstrSlice(c, 0, 3);
      SubstrSlice(c, 3, 3);
      var na :- IntAt(c, 0, 3);
      var nb :- IntAt(c, 3, 3);
      Ok((na, nb))
  }

  /** The connection table version: 2000 for a counts line of at most 35
      characters; a longer one needs 39 characters and a 'V' at column 34,
      and columns 34 to 38 must read V2000 or V3000. */
  function CtabVersion(c: string): (r: Result<nat>)
    ensures r == Ok(3000) <==> |c| >= 39 && c[34..39] == "V3000"
    ensures r == Ok(2000) <==> |c| <= 35 || (|c| >= 39 && c[34..39] == "V2000")
    ensures r.Err? <==> |c| > 35 && (|c| < 39 || (c[34..39] != "V3000" && c[34..39] != "V2000"))
    ensures r.Err? ==> r.error.FormatError?
  {
    if |c| <= 35 then Ok(2000)
    else if |c| < 39 || c[34] != 'V' then Err(FormatError("CTAB version string invalid"))
    else if c[34..39] == "V3000" then Ok(3000)
    else if c[34..39] != "V2000" then Err(FormatError("Unsupported CTAB version"))
    else Ok(2000)
  }

  /** The V2000 connection table: the atom lines, after which the header's
      label settles the conformer, then the bond lines with the bond count
      taken as an unsigned int. */
  function V2000Tables(s: Stream, na: nat, nb: int, m: Mol, env: Env): (r: Result<(Mol, Stream)>)
    ensures r.Ok? ==> |r.value.0.atoms| == |m.atoms| + na && |r.value.0.bonds| == |m.bonds| + AsU32(nb)
    ensures r.Ok? ==> r.value.0.dimHint == NoHint && r.value.0.name == m.name
    ensures r.Ok? ==> r.value.0.needsQueryScan == m.needsQueryScan
  {
    var a :- V2000.ParseAtoms(s, na, m, env);
    V2000.ParseBonds(a.1, AsU32(nb), SettleDim(a.0))
  }

  /** The V2000 body: a positive atom count, the tables, and the property
      block, which says whether the record was complete. */
  function V2000Body(s: Stream, na: int, nb: int, m: Mol, env: Env, asWritten: bool): (r: Result<(Mol, bool)>)
    ensures na <= 0 ==> r.Err? && r.error.FormatError?
    ensures r.Ok? ==> |r.value.0.atoms| == |m.atoms| + na && |r.value.0.bonds| == |m.bonds| + AsU32(nb)
    ensures r.Ok? ==> r.value.0.dimHint == NoHint && r.value.0.name == m.name
  {
    if na <= 0 then Err(FormatError("molecule has no atoms"))
    else
      var t :- V2000Tables(s, na, nb, m, env);
      var p :- PropertyBlock.MolBlockProperties(t.1, t.0, env, asWritten);
      Ok((p.0, p.1))
  }

  /** The V3000 body: the fixed-column counts must both be zero; a table
      that reads through `END CTAB` completes the record. */
  function V3000Body(s: Stream, na: int, nb: int, m: Mol, env: Env, asWritten: bool): (r: Result<(Mol, bool)>)
    ensures na != 0 || nb != 0 ==> r.Err? && r.error.FormatError?
    ensures r.Ok? ==> r.value.1 && |r.value.0.atoms| > |m.atoms| && r.value.0.dimHint == NoHint
  {
    if na != 0 || nb != 0 then Err(FormatError("V3000 mol blocks should have 0s in the initial counts line."))
    else
      var t :- V3000Ctab.MolBlock(s, m, env, asWritten);
      Ok((t.0, true))
  }

  /** The connection table after the header: the counts line's two fixed
      fields, its version tag, and the V2000 or V3000 body it selects. */
  function Ctab(c: string, s: Stream, m: Mol, env: Env, asWritten: bool): (r: Result<(Mol, bool)>)
    ensures CountsFields(c).Err? || CtabVersion(c).Err? ==> r.Err? && r.error.FormatError?
    ensures r.Ok? ==> |r.value.0.atoms| > |m.atoms| && r.value.0.dimHint == NoHint
  {
    var counts :- CountsFields(c);
    var version :- CtabVersion(c);
    if version == 2000 then V2000Body(s, counts.0, counts.1, m, env, asWritten)
    else V3000Body(s, counts.0, counts.1, m, env, asWritten)
  }

  /** Everything after the header: the counts line, the connection table
      and the completeness check, then the deferred ring-bond-count queries
      filled in. */
  function Record(s: Stream, m: Mol, env: Env, data: nat -> Feature -> int, asWritten: bool): (r: Result<Mol>)
    ensures r.Ok? ==> |r.value.atoms| > |m.atoms| && !r.value.needsQueryScan && r.value.dimHint == NoHint
  {
    var (c, s1) := GetLine(s);
    var body :- Ctab(c, s1, m, env, asWritten);
    if !body.1 then Err(FormatError("Problems encountered parsing Mol data, M  END "))
    else Ok(CompleteIfNeeded(body.0, data))
  }

  /** MolDataStreamToMol without the post-processing: None when the text
      ends on its first line, otherwise the record read after the header. */
  function ParseMol(text: string, env: Env, data: nat -> Feature -> int, asWritten: bool): (r: Result<Option<Mol>>)
    ensures r == Ok(None) <==> GetLine(Open(text)).1.eof
    ensures r.Ok? && r.value.Some? ==>
              && |r.value.value.atoms| > 0
              && !r.value.value.needsQueryScan
              && r.value.value.dimHint == NoHint
  {
    var h := Header(Open(text));
    if h.None? then Ok(None)
    else
      var mol :- Record(h.value.1, h.value.0, env, data, asWritten);
      Ok(Some(mol))
  }
}

=== FILE: molfilewritten.dfy ===
/** Whole mol blocks as a writer lays them out, read back by ParseMol: the
    header, the counts line with its version tag, and an atoms-only V3000
    table, on which the parser as written and the corrected one part ways.
 */
module MolFileWritten {
  import opened Wrappers
  import opened Text
  import opened Fields
  import opened Molecule
  import opened LineStream
  import opened Queries
  import opened MolFile
  import V3000Ctab
  import V3000Atoms
  import V3000Written
  import Writer

  /** The molecule the header lines describe, before any atom is read. */
  function HeaderMol(name: string, info: string, comments: string): (m: Mol)
    ensures m.name == name && m.info == info && m.comments == comments
    ensures |m.atoms| == 0 && |m.bonds| == 0 && !m.needsQueryScan
  {
    EmptyMol().(name := name, info := info, comments := comments, dimHint := DimLabel(info))
  }

  /** Round trip: three clean lines read back as the header's name, info
      and comments, with the dimension label taken from the info line, and
      the stream left at the line after them. */
  lemma HeaderWritten(name: string, info: string, comments: string, more: seq<string>)
    requires Clean(name) && Clean(info) && Clean(comments)
    ensures Header(Open(Render([name, info, comments] + more))) ==
              Some((HeaderMol(name, info, comments), Open(Render(more))))
  {
    var l0 := [name, info, comments] + more;
    var l1 := [info, comments] + more;
    var l2 := [comments] + more;
    assert l0[0] == name && l0[1..] == l1;
    assert l1[0] == info && l1[1..] == l2;
    assert l2[0] == comments && l2[1..] == more;
    GetLineRender(l0);
    GetLineRender(l1);
    GetLineRender(l2);
  }

  /** A counts line as a writer lays it out: the atom and bond counts right
      justified in three columns each, blanks, and the version tag starting
      at column 34. */
  function CountsLineText(na: nat, nb: nat, version: string): (c: string)
    requires na < 1000 && nb < 1000
  {
    RightJustify(na, 3) + (RightJustify(nb, 3) + (Blanks(28) + version))
  }

  lemma JustifiedWidth(n: nat)
    requires n < 1000
    ensures |RightJustify(n, 3)| == 3
  {
    Writer.CountFits(n);
    Writer.RightJustifyWidth(n, 3);
  }

  /** Round trip: a written counts line gives back its two counts. */
  lemma CountsLineFields(na: nat, nb: nat, version: string)
    requires na < 1000 && nb < 1000
    ensures CountsFields(CountsLineText(na, nb, version)) == Ok((na, nb))
  {
    var a := RightJustify(na, 3);
    var b := RightJustify(nb, 3);
    var c := CountsLineText(na, nb, version);
    JustifiedWidth(na);
    JustifiedWidth(nb);
    assert c[0..3] == a;
    assert c[3..] == b + (Blanks(28) + version);
    assert c[3..6] == c[3..][..3] == b;
    RightJustifyToInt(na, 3, false);
    RightJustifyToInt(nb, 3, false);
  }

  /** The version tag of a written counts line selects the table format. */
  lemma CountsLineVersion(na: nat, nb: nat, version: string)
    requires na < 1000 && nb < 1000
    requires version == "V2000" || version == "V3000"
    ensures CtabVersion(CountsLineText(na, nb, version)) == Ok(if version == "V3000" then 3000 else 2000)
  {
    var c := CountsLineText(na, nb, version);
    JustifiedWidth(na);
    JustifiedWidth(nb);
    assert c[34..39] == version;
  }

  lemma JustifiedClean(n: nat)
    ensures forall i :: 0 <= i < |RightJustify(n, 3)| ==> RightJustify(n, 3)[i] != '\n'
  {
    var a := RightJustify(n, 3);
    var k := PadWidth(|Digits(n)|, 3);
    assert a == Blanks(k) + Digits(n);
    forall i | 0 <= i < |a|
      ensures a[i] != '\n'
    {
      if i >= k {
        assert a[i] == Digits(n)[i - k];
      }
    }
  }

  /** A written counts line fits on one line. */
  lemma CountsLineClean(na: nat, nb: nat, version: string)
    requires na < 1000 && nb < 1000
    requires version == "V2000" || version == "V3000"
    ensures Clean(CountsLineText(na, nb, version))
  {
    var a := RightJustify(na, 3);
    var b := RightJustify(nb, 3);
    var c := CountsLineText(na, nb, version);
    JustifiedWidth(na);
    JustifiedWidth(nb);
    JustifiedClean(na);
    JustifiedClean(nb);
    forall i | 0 <= i < |c|
      ensures c[i] != '\n'
    {
      if i < 3 {
        assert c[i] == a[i];
      } else if i < 6 {
        assert c[i] == b[i - 3];
      } else if i < 34 {
        assert c[i] == Blanks(28)[i - 6];
      } else {
        assert c[i] == version[i - 34];
      }
    }
    assert c[|c| - 1] == '0';
  }

  /** A V2000 counts line with no atoms is rejected before any atom line is
      read. */
  lemma NoAtomsRejected(nb: nat, s: Stream, m: Mol, env: Env, asWritten: bool)
    requires nb < 1000
    ensures Ctab(CountsLineText(0, nb, "V2000"), s, m, env, asWritten) == Err(FormatError("molecule has no atoms"))
  {
    CountsLineFields(0, nb, "V2000");
    CountsLineVersion(0, nb, "V2000");
  }

  /** A V3000 counts line must carry zero counts in its fixed columns. */
  lemma V3000CountsMustBeZero(na: nat, nb: nat, s: Stream, m: Mol, env: Env, asWritten: bool)
    requires na < 1000 && nb < 1000 && (na != 0 || nb != 0)
    ensures Ctab(CountsLineText(na, nb, "V3000"), s, m, env, asWritten) ==
              Err(FormatError("V3000 mol blocks should have 0s in the initial counts line."))
  {
    CountsLineFields(na, nb, "V3000");
    CountsLineVersion(na, nb, "V3000");
  }

  /** The header and the counts line of a mol block, read back: the stream
      is left at the line after the counts line. */
  lemma FileHead(name: string, info: string, comments: string, c: string, tail: seq<string>)
    requires Clean(name) && Clean(info) && Clean(comments) && Clean(c)
    ensures Header(Open(Render([name, info, comments, c] + tail))) ==
              Some((HeaderMol(name, info, comments), Open(Render([c] + tail))))
    ensures GetLine(Open(Render([c] + tail))) == (c, Open(Render(tail)))
  {
    var more := [c] + tail;
    assert [name, info, comments, c] + tail == [name, info, comments] + more;
    HeaderWritten(name, info, comments, more);
    GetLineRender(more);
    assert more[1..] == tail;
  }

  /** ParseMol on a text whose header reads back, given the record after
      it. */
  lemma ParseMolSteps(text: string, env: Env, data: nat -> Feature -> int, asWritten: bool, m: Mol, s: Stream, r: Result<Mol>)
    requires Header(Open(text)) == Some((m, s))
    requires Record(s, m, env, data, asWritten) == r
    ensures r.Err? ==> ParseMol(text, env, data, asWritten) == Err(r.error)
    ensures r.Ok? ==> ParseMol(text, env, data, asWritten) == Ok(Some(r.value))
  {
  }

  /** The record after a header, given what the counts line and the table
      yield. */
  lemma RecordSteps(s: Stream, m: Mol, env: Env, data: nat -> Feature -> int, asWritten: bool, c: string, s1: Stream, t: Result<(Mol, bool)>)
    requires GetLine(s) == (c, s1)
    requires Ctab(c, s1, m, env, asWritten) == t
    ensures t.Err? ==> Record(s, m, env, data, asWritten) == Err(t.error)
    ensures t.Ok? && t.value.1 ==> Record(s, m, env, data, asWritten) == Ok(CompleteIfNeeded(t.value.0, data))
  {
  }

  /** A V3000 counts line followed by a table: the stream at the table, and
      the counts line accepted as a V3000 one with zero fixed counts. */
  lemma V3000CountsHead(tail: seq<string>)
    ensures var c := CountsLineText(0, 0, "V3000");
            && GetLine(Open(Render([c] + tail))) == (c, Open(Render(tail)))
            && CountsFields(c) == Ok((0, 0)) && CtabVersion(c) == Ok(3000)
  {
    var c := CountsLineText(0, 0, "V3000");
    CountsLineClean(0, 0, "V3000");
    GetLineRender([c] + tail);
    assert ([c] + tail)[1..] == tail;
    CountsLineFields(0, 0, "V3000");
    CountsLineVersion(0, 0, "V3000");
  }

  /** A V3000 counts line with zero fixed counts hands the stream to the
      V3000 table. */
  lemma V3000CtabSteps(c: string, s: Stream, m: Mol, env: Env, asWritten: bool, t: Result<(Mol, Stream)>)
    requires CountsFields(c) == Ok((0, 0)) && CtabVersion(c) == Ok(3000)
    requires V3000Ctab.MolBlock(s, m, env, asWritten) == t
    ensures t.Err? ==> Ctab(c, s, m, env, asWritten) == Err(t.error)
    ensures t.Ok? ==> Ctab(c, s, m, env, asWritten) == Ok((t.value.0, true))
  {
  }

  /** As written, a V3000 counts line and an atoms-only table fail at the
      bond block. */
  lemma AtomsOnlyRecordAsWritten(specs: seq<V3000Atoms.AtomSpec>, rest: seq<string>, m: Mol, env: Env, data: nat -> Feature -> int)
    requires 0 < |specs| < U32 && forall k :: 0 <= k < |specs| ==> V3000Atoms.ElementSpec(specs[k])
    ensures Record(Open(Render([CountsLineText(0, 0, "V3000")] + (V3000Written.CtabText(specs) + rest))), m, env, data, true) ==
              Err(InvariantError("bad bond count"))
  {
    var c := CountsLineText(0, 0, "V3000");
    var tail := V3000Written.CtabText(specs) + rest;
    V3000CountsHead(tail);
    V3000Written.AtomsOnlyCtabAsWritten(specs, rest, m, env);
    V3000CtabSteps(c, Open(Render(tail)), m, env, true, Err(InvariantError("bad bond count")));
    RecordSteps(Open(Render([c] + tail)), m, env, data, true, c, Open(Render(tail)), Err(InvariantError("bad bond count")));
  }

  /** Corrected, the same lines give the molecule with the atoms placed. */
  lemma AtomsOnlyRecordCorrected(specs: seq<V3000Atoms.AtomSpec>, rest: seq<string>, m: Mol, env: Env, data: nat -> Feature -> int)
    requires 0 < |specs| < U32 && forall k :: 0 <= k < |specs| ==> V3000Atoms.ElementSpec(specs[k])
    ensures Record(Open(Render([CountsLineText(0, 0, "V3000")] + (V3000Written.CtabText(specs) + rest))), m, env, data, false) ==
              Ok(CompleteIfNeeded(SettleDim(V3000Atoms.PlaceAll(m, specs, env)), data))
  {
    var c := CountsLineText(0, 0, "V3000");
    var tail := V3000Written.CtabText(specs) + rest;
    var mol := SettleDim(V3000Atoms.PlaceAll(m, specs, env));
    V3000CountsHead(tail);
    V3000Written.AtomsOnlyCtabCorrected(specs, rest, m, env);
    V3000CtabSteps(c, Open(Render(tail)), m, env, false, Ok((mol, Open(Render(rest)))));
    RecordSteps(Open(Render([c] + tail)), m, env, data, false, c, Open(Render(tail)), Ok((mol, true)));
  }

  /** A whole mol block with an atoms-only V3000 table. */
  function V3000FileText(name: string, info: string, comments: string, specs: seq<V3000Atoms.AtomSpec>, rest: seq<string>): seq<string> {
    [name, info, comments, CountsLineText(0, 0, "V3000")] + (V3000Written.CtabText(specs) + rest)
  }

  /** Finding, as written: a complete V3000 mol block whose table holds atoms
      and no bonds is rejected, because the bond block's precondition
      demands a positive bond count. */
  lemma AtomsOnlyFileAsWritten(name: string, info: string, comments: string, specs: seq<V3000Atoms.AtomSpec>, rest: seq<string>,
                               env: Env, data: nat -> Feature -> int)
    requires Clean(name) && Clean(info) && Clean(comments)
    requires 0 < |specs| < U32 && forall k :: 0 <= k < |specs| ==> V3000Atoms.ElementSpec(specs[k])
    ensures ParseMol(Render(V3000FileText(name, info, comments, specs, rest)), env, data, true) ==
              Err(InvariantError("bad bond count"))
  {
    var c := CountsLineText(0, 0, "V3000");
    var tail := V3000Written.CtabText(specs) + rest;
    var hm := HeaderMol(name, info, comments);
    CountsLineClean(0, 0, "V3000");
    FileHead(name, info, comments, c, tail);
    AtomsOnlyRecordAsWritten(specs, rest, hm, env, data);
    ParseMolSteps(Render(V3000FileText(name, info, comments, specs, rest)), env, data, true, hm,
                  Open(Render([c] + tail)), Err(InvariantError("bad bond count")));
  }

  /** Corrected: the same mol block reads back as the header's molecule with
      the written atoms placed in order, its conformer settled by the header's
      dimension label, and its deferred queries filled in. */
  lemma AtomsOnlyFileCorrected(name: string, info: string, comments: string, specs: seq<V3000Atoms.AtomSpec>, rest: seq<string>,
                               env: Env, data: nat -> Feature -> int)
    requires Clean(name) && Clean(info) && Clean(comments)
    requires 0 < |specs| < U32 && forall k :: 0 <= k < |specs| ==> V3000Atoms.ElementSpec(specs[k])
    ensures ParseMol(Render(V3000FileText(name, info, comments, specs, rest)), env, data, false) ==
              Ok(Some(CompleteIfNeeded(SettleDim(V3000Atoms.PlaceAll(HeaderMol(name, info, comments), specs, env)), data)))
  {
    var c := CountsLineText(0, 0, "V3000");
    var tail := V3000Written.CtabText(specs) + rest;
    var hm := HeaderMol(name, info, comments);
    CountsLineClean(0, 0, "V3000");
    FileHead(name, info, comments, c, tail);
    AtomsOnlyRecordCorrected(specs, rest, hm, env, data);
    ParseMolSteps(Render(V3000FileText(name, info, comments, specs, rest)), env, data, false, hm,
                  Open(Render([c] + tail)), Ok(CompleteIfNeeded(SettleDim(V3000Atoms.PlaceAll(hm, specs, env)), data)));
  }
}

=== FILE: properties.dfy ===
/** The V2000 properties block: the `M  xxx` lines, the legacy `A`/`V`/`G`
    lines, the legacy atom-list line, and the loop that reads them up to
    `M  END`. Each entry line is read into a list of edits (module Edits),
    which are then applied in order.
 */
module Properties {
  import opened Wrappers
  import opened Text
  import opened Fields
  import opened Queries
  import opened Molecule
  import opened Edits
  import opened LineStream

  /** getAtomWithIdx(aid - 1) for an unsigned atom number: the subtraction
      wraps, so 0 names index 2^32 - 1, which no molecule of fewer than 2^32
      atoms has. */
  function UnsignedIndex(aid: nat, count: nat): (r: Result<int>)
    requires aid < U32
    ensures r.Ok? ==> r.value == PredU32(aid) && 0 <= r.value < count
    ensures count < U32 ==> (r.Ok? <==> 1 <= aid <= count)
    ensures r.Err? ==> r.error.RangeError?
  {
    var idx := PredU32(aid);
    if idx < count then Ok(idx) else Err(RangeError("atom index out of range"))
  }

  /** The atom a signed atom number names (CHG and RAD read it with toInt). */
  function SignedIndex(aid: int, count: nat): (r: Result<int>)
    ensures r.Ok? <==> 1 <= aid <= count
    ensures r.Ok? ==> r.value == aid - 1
    ensures r.Err? ==> r.error.RangeError?
  {
    if 1 <= aid <= count then Ok(aid - 1) else Err(RangeError("atom index out of range"))
  }

  /** Only the atoms (and the deferred-completion flag) change; the atom list
      keeps its length, so bonds, coordinates and header are untouched. */
  predicate AtomsOnly(m: Mol, m1: Mol) {
    m1 == m.(atoms := m1.atoms, needsQueryScan := m1.needsQueryScan) && |m1.atoms| == |m.atoms|
  }

  // ---------------------------------------------------------------------
  // M  CHG and M  RAD
  // ---------------------------------------------------------------------

  /** One entry of a CHG or RAD line: two 4-column integers. */
  function ReadEntry(text: string, spos: nat): (r: Result<(int, int)>)
    ensures r.Ok? ==> spos + 4 <= |text|
  {
    var aid :- IntAt(text, spos, 4);
    var v :- IntAt(text, spos + 4, 4);
    Ok((aid, v))
  }

  /** The raw entries of a CHG or RAD line, eight columns each from `spos`. */
  function ReadPairs(text: string, spos: nat, n: int): (r: Result<seq<(int, int)>>)
    ensures r.Ok? ==> |r.value| == (if n <= 0 then 0 else n)
    decreases n
  {
    if n <= 0 then Ok([])
    else
      var e :- ReadEntry(text, spos);
      var rest :- ReadPairs(text, spos + 8, n - 1);
      Ok([e] + rest)
  }

  /** All atom numbers of the pairs name one of `count` atoms. */
  predicate NumbersIn(pairs: seq<(int, int)>, count: nat) {
    forall k :: 0 <= k < |pairs| ==> 1 <= pairs[k].0 <= count
  }

  /** The CHG entry loop: each entry is read and its atom looked up before
      the next entry is read; what it accepts is the raw entries, every one
      naming an existing atom. */
  function ChargePairs(text: string, spos: nat, n: int, count: nat): (r: Result<seq<(int, int)>>)
    ensures r.Ok? ==> r == ReadPairs(text, spos, n) && NumbersIn(r.value, count)
    decreases n
  {
    if n <= 0 then Ok([])
    else
      var e :- ReadEntry(text, spos);
      if !(1 <= e.0 <= count) then Err(RangeError("atom index out of range"))
      else
        var rest :- ChargePairs(text, spos + 8, n - 1, count);
        assert ([e] + rest)[1..] == rest;
        Ok([e] + rest)
  }

  /** The first CHG or RAD line of the block resets every formal charge. */
  function BaseAtoms(m: Mol, first: bool): (r: seq<Atom>)
    ensures AtomsAgreeExcept(m.atoms, r, {ChargeField})
    ensures forall i :: 0 <= i < |m.atoms| ==>
              r[i] == (if first then m.atoms[i].(formalCharge := 0) else m.atoms[i])
  {
    if first then ZeroCharges(m.atoms) else m.atoms
  }

  /** ParseChargeLine: the entry count is in columns 6-8, the entries follow
      from column 9. */
  function ChargeLine(m: Mol, text: string, first: bool): (r: Result<Mol>)
    ensures r.Ok? ==> AtomsOnly(m, r.value) && r.value.needsQueryScan == m.needsQueryScan
    ensures r.Ok? ==> AtomsAgreeExcept(m.atoms, r.value.atoms, {ChargeField})
  {
    var atoms := BaseAtoms(m, first);
    var n :- IntAt(text, 6, 3);
    var pairs :- ChargePairs(text, 9, n, |atoms|);
    var es := SetInts(ChargeOf, pairs);
    ApplyEditsAgree(atoms, es, {ChargeField});
    AgreeTrans(m.atoms, atoms, ApplyEdits(atoms, es), {ChargeField});
    Ok(m.(atoms := ApplyEdits(atoms, es)))
  }

  /** What a CHG line means: afterwards each atom carries the charge of the
      last entry naming it; an atom no entry names keeps its charge, or has
      charge 0 when this is the block's first CHG/RAD line; nothing else about
      any atom changes. */
  lemma ChargeLineCharges(m: Mol, text: string, first: bool, i: nat)
    requires ChargeLine(m, text, first).Ok? && i < |m.atoms|
    ensures ReadPairs(text, 9, IntAt(text, 6, 3).value).Ok?
    ensures ChargeLine(m, text, first).value.atoms[i] ==
              m.atoms[i].(formalCharge :=
                LastFor(ReadPairs(text, 9, IntAt(text, 6, 3).value).value, i + 1,
                        if first then 0 else m.atoms[i].formalCharge))
  {
    var atoms := BaseAtoms(m, first);
    var pairs := ReadPairs(text, 9, IntAt(text, 6, 3).value).value;
    ApplyEditsAt(atoms, SetInts(ChargeOf, pairs), i);
    LastIntWins(atoms[i], ChargeOf, pairs, i);
  }

  /** The radical code of a RAD entry: 1 (singlet) and 3 (triplet) mean two
      unpaired electrons, 2 (doublet) one; nothing else is accepted. */
  function RadicalElectrons(code: int): (r: Option<int>)
    ensures r.Some? <==> code in {1, 2, 3}
    ensures r.Some? ==> r.value == (if code == 2 then 1 else 2)
  {
    if code == 1 || code == 3 then Some(2) else if code == 2 then Some(1) else None
  }

  /** The RAD entry loop: the radical code is checked before the atom number,
      and the pairs carry the electron counts. */
  function RadicalPairs(text: string, spos: nat, n: int, count: nat): (r: Result<seq<(int, int)>>)
    ensures r.Ok? ==> ReadPairs(text, spos, n).Ok? && |r.value| == |ReadPairs(text, spos, n).value|
    ensures r.Ok? ==> forall k :: 0 <= k < |r.value| ==>
              && r.value[k].0 == ReadPairs(text, spos, n).value[k].0
              && RadicalElectrons(ReadPairs(text, spos, n).value[k].1) == Some(r.value[k].1)
    ensures r.Ok? ==> NumbersIn(r.value, count)
    decreases n
  {
    if n <= 0 then Ok([])
    else
      var entry :- ReadEntry(text, spos);
      var e := RadicalElectrons(entry.1);
      if e.None? then Err(FormatError("Unrecognized radical value"))
      else
        var _ :- SignedIndex(entry.0, count);
        var rest :- RadicalPairs(text, spos + 8, n - 1, count);
        assert ([(entry.0, e.value)] + rest)[1..] == rest;
        Ok([(entry.0, e.value)] + rest)
  }

  /** ParseRadicalLine. The first CHG or RAD line of the block resets the
      formal charges, as the charge line does; radical counts are never
      reset. */
  function RadicalLine(m: Mol, text: string, first: bool): (r: Result<Mol>)
    ensures r.Ok? ==> AtomsOnly(m, r.value) && r.value.needsQueryScan == m.needsQueryScan
    ensures r.Ok? ==> AtomsAgreeExcept(m.atoms, r.value.atoms, {ChargeField, RadicalField})
  {
    var atoms := BaseAtoms(m, first);
    var n :- IntAt(text, 6, 3);
    var pairs :- RadicalPairs(text, 9, n, |atoms|);
    var es := SetInts(RadicalsOf, pairs);
    ApplyEditsAgree(atoms, es, {ChargeField, RadicalField});
    AgreeTrans(m.atoms, atoms, ApplyEdits(atoms, es), {ChargeField, RadicalField});
    Ok(m.(atoms := ApplyEdits(atoms, es)))
  }

  /** What a RAD line means: each atom carries the electron count of the
      last entry naming it, or keeps its own; its charge is reset on the
      block's first CHG/RAD line and kept otherwise. */
  lemma RadicalLineRadicals(m: Mol, text: string, first: bool, i: nat)
    requires RadicalLine(m, text, first).Ok? && i < |m.atoms|
    ensures RadicalPairs(text, 9, IntAt(text, 6, 3).value, |m.atoms|).Ok?
    ensures RadicalLine(m, text, first).value.atoms[i] ==
              (if first then m.atoms[i].(formalCharge := 0) else m.atoms[i]).(numRadicals :=
                LastFor(RadicalPairs(text, 9, IntAt(text, 6, 3).value, |m.atoms|).value, i + 1,
                        m.atoms[i].numRadicals))
  {
    var atoms := BaseAtoms(m, first);
    var pairs := RadicalPairs(text, 9, IntAt(text, 6, 3).value, |m.atoms|).value;
    ApplyEditsAt(atoms, SetInts(RadicalsOf, pairs), i);
    LastIntWins(atoms[i], RadicalsOf, pairs, i);
  }

  // ---------------------------------------------------------------------
  // M  ISO
  // ---------------------------------------------------------------------

  /** The four columns at `pos` exist and are not all blank. */
  predicate FieldGiven(text: string, pos: nat) {
    |text| >= pos + 4 && text[pos..pos + 4] != "    "
  }

  /** One entry of an ISO, SUB, UNS or RBC line: the edit it makes, if any,
      where the next entry starts, and whether it asks for the completion
      pass. */
  datatype Step = Step(edit: Option<(int, Edit)>, next: nat, scan: bool)

  /** A step whose edit names one of `count` atoms and stays inside `fs`. */
  predicate StepIn(st: Step, count: nat, fs: set<AtomField>) {
    st.edit.Some? ==> 0 <= st.edit.value.0 < count && EditWithin(st.edit.value.1, fs)
  }

  /** One ISO entry: an unsigned atom number, then a mass when the next four
      columns exist and are not blank; without a mass the atom takes its
      element's standard weight and the position does not move on. */
  function IsoEntry(text: string, spos: nat, atoms: seq<Atom>, env: Env): (r: Result<Step>)
    ensures r.Ok? ==> r.value.edit.Some? && StepIn(r.value, |atoms|, {MassField})
    ensures r.Ok? ==> r.value.next == spos + (if FieldGiven(text, spos + 4) then 8 else 4)
    ensures r.Ok? ==> UnsignedAt(text, spos, 4).Ok? && r.value.edit.value.0 == PredU32(UnsignedAt(text, spos, 4).value)
    ensures r.Ok? && FieldGiven(text, spos + 4) ==>
              IntAt(text, spos + 4, 4).Ok? && r.value.edit.value.1 == SetMass(IntAt(text, spos + 4, 4).value as real)
    ensures r.Ok? && !FieldGiven(text, spos + 4) ==>
              r.value.edit.value.1 == SetMass(env.atomicWeight(atoms[r.value.edit.value.0].atomicNum))
    ensures (&& UnsignedAt(text, spos, 4).Ok?
             && UnsignedIndex(UnsignedAt(text, spos, 4).value, |atoms|).Ok?
             && (FieldGiven(text, spos + 4) ==> IntAt(text, spos + 4, 4).Ok?)) ==> r.Ok?
  {
    var aid :- UnsignedAt(text, spos, 4);
    var idx :- UnsignedIndex(aid, |atoms|);
    if FieldGiven(text, spos + 4) then
      var mass :- IntAt(text, spos + 4, 4);
      Ok(Step(Some((idx, SetMass(mass as real))), spos + 8, false))
    else
      Ok(Step(Some((idx, SetMass(env.atomicWeight(atoms[idx].atomicNum)))), spos + 4, false))
  }

  /** The edits of a run of steps. */
  function Cons(st: Step, es: seq<(int, Edit)>, count: nat, fs: set<AtomField>): (r: seq<(int, Edit)>)
    requires StepIn(st, count, fs) && InRange(es, count) && Within(es, fs)
    ensures InRange(r, count) && Within(r, fs)
    ensures r == (if st.edit.Some? then [st.edit.value] else []) + es
  {
    if st.edit.Some? then Prepend(st.edit.value, es, count, fs) else es
  }

  /** The ISO entry loop. */
  function IsoEdits(text: string, spos: nat, n: nat, atoms: seq<Atom>, env: Env): (r: Result<seq<(int, Edit)>>)
    ensures r.Ok? ==> |r.value| == n && InRange(r.value, |atoms|) && Within(r.value, {MassField})
    decreases n
  {
    if n == 0 then Ok([])
    else
      var st :- IsoEntry(text, spos, atoms, env);
      var rest :- IsoEdits(text, st.next, n - 1, atoms, env);
      Ok(Cons(st, rest, |atoms|, {MassField}))
  }

  /** Entries read by `f` from position `p` on, each starting where the one
      before it ended, give the edits `es`. */
  ghost predicate StepsFrom(f: nat -> Result<Step>, p: nat, es: seq<(int, Edit)>)
    decreases |es|
  {
    |es| == 0 || (f(p).Ok? && f(p).value.edit == Some(es[0]) && StepsFrom(f, f(p).value.next, es[1..]))
  }

  /** Where entry k starts when entry 0 starts at `p`. */
  function StepStart(f: nat -> Result<Step>, p: nat, k: nat): nat
    decreases k
  {
    if k == 0 || f(p).Err? then p else StepStart(f, f(p).value.next, k - 1)
  }

  /** Entry k of such a run reads edit k. */
  lemma {:induction false} StepsAt(f: nat -> Result<Step>, p: nat, es: seq<(int, Edit)>, k: nat)
    requires StepsFrom(f, p, es) && k < |es|
    ensures f(StepStart(f, p, k)).Ok? && f(StepStart(f, p, k)).value.edit == Some(es[k])
    decreases k
  {
    if k > 0 {
      StepsAt(f, f(p).value.next, es[1..], k - 1);
    }
  }

  /** The ISO entry at each position of a line. */
  function IsoEntryAt(text: string, atoms: seq<Atom>, env: Env): nat -> Result<Step> {
    (p: nat) => IsoEntry(text, p, atoms, env)
  }

  /** The ISO entry loop from `spos` gives the edits `es`. */
  predicate IsoEditsGive(text: string, spos: nat, atoms: seq<Atom>, env: Env, es: seq<(int, Edit)>) {
    IsoEdits(text, spos, |es|, atoms, env) == Ok(es)
  }

  /** One step of the ISO entry loop: the first entry's edit, then the
      edits of the entries after it. */
  lemma IsoEditsStep(text: string, spos: nat, atoms: seq<Atom>, env: Env, es: seq<(int, Edit)>)
    requires IsoEditsGive(text, spos, atoms, env, es) && |es| > 0
    ensures IsoEntry(text, spos, atoms, env).Ok? && IsoEntry(text, spos, atoms, env).value.edit == Some(es[0])
    ensures IsoEditsGive(text, IsoEntry(text, spos, atoms, env).value.next, atoms, env, es[1..])
  {
  }

  /** The ISO loop's edits are those of its entries, read one after the
      other. */
  lemma {:induction false} IsoEditsSteps(text: string, spos: nat, atoms: seq<Atom>, env: Env, es: seq<(int, Edit)>)
    requires IsoEditsGive(text, spos, atoms, env, es)
    ensures StepsFrom(IsoEntryAt(text, atoms, env), spos, es)
    decreases |es|
  {
    if |es| > 0 {
      IsoEditsStep(text, spos, atoms, env, es);
      IsoEditsSteps(text, IsoEntry(text, spos, atoms, env).value.next, atoms, env, es[1..]);
    }
  }

  /** Edit k of the ISO loop is the one read by the entry starting where
      entry k - 1 ended, each entry being eight columns with a mass and four
      without. */
  lemma IsoEditsAt(text: string, spos: nat, atoms: seq<Atom>, env: Env, es: seq<(int, Edit)>, k: nat)
    requires IsoEditsGive(text, spos, atoms, env, es) && k < |es|
    ensures var p := StepStart(IsoEntryAt(text, atoms, env), spos, k);
            IsoEntry(text, p, atoms, env).Ok? && IsoEntry(text, p, atoms, env).value.edit == Some(es[k])
  {
    IsoEditsSteps(text, spos, atoms, env, es);
    StepsAt(IsoEntryAt(text, atoms, env), spos, es, k);
  }

  /** ParseIsotopeLine: the entry count is an unsigned field in columns 6-8. */
  function IsotopeLine(m: Mol, text: string, env: Env): (r: Result<Mol>)
    ensures r.Ok? ==> AtomsOnly(m, r.value) && r.value.needsQueryScan == m.needsQueryScan
    ensures r.Ok? ==> AtomsAgreeExcept(m.atoms, r.value.atoms, {MassField})
  {
    var n :- UnsignedAt(text, 6, 3);
    var es :- IsoEdits(text, 9, n, m.atoms, env);
    ApplyEditsAgree(m.atoms, es, {MassField});
    Ok(m.(atoms := ApplyEdits(m.atoms, es)))
  }

  /** What an ISO line means: afterwards each atom carries the mass of the
      last entry naming it, or keeps its own; nothing else about it
      changes. */
  lemma IsotopeLineMasses(m: Mol, text: string, env: Env, i: nat)
    requires IsotopeLine(m, text, env).Ok? && i < |m.atoms|
    ensures UnsignedAt(text, 6, 3).Ok? && IsoEdits(text, 9, UnsignedAt(text, 6, 3).value, m.atoms, env).Ok?
    ensures IsotopeLine(m, text, env).value.atoms[i] ==
              m.atoms[i].(mass := LastMass(IsoEdits(text, 9, UnsignedAt(text, 6, 3).value, m.atoms, env).value, i, m.atoms[i].mass))
  {
    var es := IsoEdits(text, 9, UnsignedAt(text, 6, 3).value, m.atoms, env).value;
    ApplyEditsAt(m.atoms, es, i);
    LastMassWins(m.atoms[i], es, i);
  }

  // ---------------------------------------------------------------------
  // M  SUB, M  UNS, M  RBC
  // ---------------------------------------------------------------------

  /** The three count-query lines. */
  datatype CountKind = Sub | Uns | Rbc

  /** The query a non-zero count stands for, or the FileParseException for an
      unsupported one. `degree` is the atom's current degree (SUB -2). */
  function CountQuery(kind: CountKind, count: int, degree: nat): (r: Result<Query>)
    requires count != 0
    ensures r.Ok? <==>
              match kind
              case Sub => -2 <= count <= 6
              case Uns => count == 1
              case Rbc => -2 <= count <= 4
    ensures r.Err? ==> r.error.FormatError?
  {
    match kind
    case Sub =>
      if count == -1 then Ok(EqualsQuery(ExplicitDegree, 0))
      else if count == -2 then Ok(EqualsQuery(ExplicitDegree, degree))
      else if 1 <= count <= 6 then Ok(EqualsQuery(ExplicitDegree, count))
      else Err(FormatError("Value is not supported as a degree query."))
    case Uns =>
      if count == 1 then Ok(EqualsQuery(Unsaturated, 1))
      else Err(FormatError("Value is not supported as an unsaturation query (only 0 and 1 are allowed)."))
    case Rbc =>
      if count == -1 then Ok(EqualsQuery(RingBondCount, 0))
      else if count == -2 then Ok(EqualsQuery(RingBondCount, MagicVal))
      else if 1 <= count <= 3 then Ok(EqualsQuery(RingBondCount, count))
      else if count == 4 then Ok(Leaf(RingBondCount, LessEqual, 4, false))
      else Err(FormatError("Value is not supported as a ring-bond count query."))
  }

  /** What each accepted count asks of an atom. SUB: -1 no explicit
      connections, -2 exactly the degree drawn, 1-6 exactly that many. RBC:
      -1 no ring bonds, 1-3 exactly that many, 4 four or more, -2 deferred.
      UNS 1: some multiple bond. */
  lemma CountQueryMatches(kind: CountKind, count: int, degree: nat, data: Feature -> int)
    requires count != 0 && CountQuery(kind, count, degree).Ok?
    ensures kind == Sub ==>
              (Matches(CountQuery(kind, count, degree).value, data) <==>
               data(ExplicitDegree) == (if count == -1 then 0 else if count == -2 then degree else count))
    ensures kind == Uns ==> (Matches(CountQuery(kind, count, degree).value, data) <==> data(Unsaturated) == 1)
    ensures kind == Rbc && count != -2 ==>
              (Matches(CountQuery(kind, count, degree).value, data) <==>
               if count == 4 then data(RingBondCount) >= 4
               else data(RingBondCount) == (if count == -1 then 0 else count))
    ensures kind == Rbc && count == -2 ==> CountQuery(kind, count, degree).value.val == MagicVal
  {
  }

  /** How far the read position moves past a count field that was present.
      As written, SUB and RBC skip the move when the count is 0 and UNS never
      moves; corrected, the count field is always stepped over (CountField
      steps over a blank field as well). */
  function CountStride(kind: CountKind, count: int, asWritten: bool): (k: nat)
    ensures !asWritten ==> k == 4
    ensures asWritten ==> (k == 4 <==> kind != Uns && count != 0)
  {
    if !asWritten then 4
    else if kind == Uns || count == 0 then 0
    else 4
  }

  /** One SUB/UNS/RBC entry: an unsigned atom number, then the count
      field. */
  function CountEntry(kind: CountKind, asWritten: bool, text: string, spos: nat, m: Mol): (r: Result<Step>)
    ensures r.Ok? ==> StepIn(r.value, |m.atoms|, {QueryField})
    ensures r.Ok? && r.value.scan ==> kind == Rbc
  {
    var aid :- UnsignedAt(text, spos, 4);
    var idx :- UnsignedIndex(aid, |m.atoms|);
    CountField(kind, asWritten, text, spos + 4, idx, Degree(m.bonds, idx))
  }

  /** The count field of an entry for atom `idx`: when the four columns exist
      and are not blank, a count whose query is ANDed onto the atom (a plain
      atom is first upgraded to a query atom); a count of 0 adds nothing.
      Only an RBC -2 entry asks for the completion pass. As written, a blank
      or missing field leaves the position on it; corrected, every entry is
      eight columns wide, so the field is stepped over whatever it holds. */
  function CountField(kind: CountKind, asWritten: bool, text: string, pos: nat, idx: int, degree: nat)
    : (r: Result<Step>)
    ensures r.Ok? && r.value.edit.Some? ==> r.value.edit.value == (idx, r.value.edit.value.1) && r.value.edit.value.1.AndWith?
    ensures r.Ok? && r.value.scan ==> kind == Rbc
    ensures r.Ok? && !asWritten ==> r.value.next == pos + 4
    ensures !FieldGiven(text, pos) ==> r == Ok(Step(None, if asWritten then pos else pos + 4, false))
  {
    if FieldGiven(text, pos) then
      var count :- IntAt(text, pos, 4);
      var next := pos + CountStride(kind, count, asWritten);
      if count == 0 then Ok(Step(None, next, false))
      else
        var q :- CountQuery(kind, count, degree);
        Ok(Step(Some((idx, AndWith(q))), next, kind == Rbc && count == -2))
    else Ok(Step(None, if asWritten then pos else pos + 4, false))
  }

  /** The SUB/UNS/RBC entry loop; the flag reports an entry that asks for the
      completion pass. */
  function CountEdits(kind: CountKind, asWritten: bool, text: string, spos: nat, n: nat, m: Mol)
    : (r: Result<(seq<(int, Edit)>, bool)>)
    ensures r.Ok? ==> InRange(r.value.0, |m.atoms|) && Within(r.value.0, {QueryField})
    ensures r.Ok? && r.value.1 ==> kind == Rbc
    decreases n
  {
    if n == 0 then Ok(([], false))
    else
      var st :- CountEntry(kind, asWritten, text, spos, m);
      var rest :- CountEdits(kind, asWritten, text, st.next, n - 1, m);
      Ok((Cons(st, rest.0, |m.atoms|, {QueryField}), st.scan || rest.1))
  }

  /** ParseSubstitutionCountLine, ParseUnsaturationLine and
      ParseRingBondCountLine: the entry count is an unsigned field in columns
      6-8. */
  function CountLine(kind: CountKind, asWritten: bool, m: Mol, text: string): (r: Result<Mol>)
    ensures r.Ok? ==> AtomsOnly(m, r.value) && AtomsAgreeExcept(m.atoms, r.value.atoms, {QueryField})
    ensures r.Ok? && kind != Rbc ==> r.value.needsQueryScan == m.needsQueryScan
    ensures r.Ok? && m.needsQueryScan ==> r.value.needsQueryScan
  {
    var n :- UnsignedAt(text, 6, 3);
    var res :- CountEdits(kind, asWritten, text, 9, n, m);
    ApplyEditsAgree(m.atoms, res.0, {QueryField});
    Ok(m.(atoms := ApplyEdits(m.atoms, res.0), needsQueryScan := m.needsQueryScan || res.1))
  }

  // ---------------------------------------------------------------------
  // M  RGP
  // ---------------------------------------------------------------------

  /** Two unsigned 3-column fields four columns apart. */
  function UnsignedPair(text: string, pos: nat): (r: Result<(nat, nat)>)
    ensures r.Ok? ==> r.value.0 < U32 && r.value.1 < U32
    ensures r.Ok? <==> UnsignedAt(text, pos, 3).Ok? && UnsignedAt(text, pos + 4, 3).Ok?
    ensures r.Ok? ==> r.value.0 == UnsignedAt(text, pos, 3).value && r.value.1 == UnsignedAt(text, pos + 4, 3).value
  {
    var a :- UnsignedAt(text, pos, 3);
    var b :- UnsignedAt(text, pos + 4, 3);
    Ok((a, b))
  }

  /** One RGP entry: unsigned 3-column fields for the atom number and the
      rLabel, eight columns apart from column 10. The atom number minus one
      (wrapping) is checked with `>` against the atom count, so the count
      itself slips through to the index lookup. */
  function RGroupEntry(text: string, i: nat, count: nat): (r: Result<(int, Edit)>)
    ensures r.Ok? ==> 0 <= r.value.0 < count && r.value.1.RGroup?
    ensures UnsignedPair(text, 10 + 8 * i).Err? ==> r.Err?
    ensures UnsignedPair(text, 10 + 8 * i).Ok? ==>
              var idx := PredU32(UnsignedPair(text, 10 + 8 * i).value.0);
              && (idx > count ==> r.Err? && r.error.FormatError?)
              && (idx == count ==> r.Err? && r.error.RangeError?)
              && (idx < count ==> r == Ok((idx, RGroup(UnsignedPair(text, 10 + 8 * i).value.1))))
  {
    var fields :- UnsignedPair(text, 10 + 8 * i);
    var (at, rLabel) := fields;
    var atIdx := PredU32(at);
    if atIdx > count then Err(FormatError("Attempt to set R group label on nonexistent atom"))
    else if atIdx == count then Err(RangeError("atom index out of range"))
    else Ok((atIdx, RGroup(rLabel)))
  }

  /** The RGP entry loop over the `left` entries from entry `i` on. */
  function RGroupEdits(text: string, i: nat, left: nat, count: nat): (r: Result<seq<(int, Edit)>>)
    ensures r.Ok? ==> InRange(r.value, count) && Within(r.value, RGroupFields)
    ensures r.Ok? ==> |r.value| == left
    decreases left
  {
    if left == 0 then Ok([])
    else
      var e :- RGroupEntry(text, i, count);
      var rest :- RGroupEdits(text, i + 1, left - 1, count);
      var r := Prepend(e, rest, count, RGroupFields);
      Ok(r)
  }

  /** The RGP entry loop from entry `i` on gives the entries `es`. */
  predicate RGroupEditsGive(text: string, i: nat, count: nat, es: seq<(int, Edit)>) {
    RGroupEdits(text, i, |es|, count) == Ok(es)
  }

  /** One step of the RGP entry loop: the first entry, then the rest. */
  lemma RGroupEditsStep(text: string, i: nat, count: nat, es: seq<(int, Edit)>)
    requires RGroupEditsGive(text, i, count, es) && |es| > 0
    ensures RGroupEntry(text, i, count) == Ok(es[0]) && RGroupEditsGive(text, i + 1, count, es[1..])
  {
  }

  /** The loop's entries are the entries read from entry `i` on. */
  lemma {:induction false} RGroupEditsReads(text: string, i: nat, count: nat, es: seq<(int, Edit)>)
    requires RGroupEditsGive(text, i, count, es)
    ensures ReadsFrom(k => RGroupEntry(text, k, count), i, es)
    decreases |es|
  {
    if |es| > 0 {
      RGroupEditsStep(text, i, count, es);
      RGroupEditsReads(text, i + 1, count, es[1..]);
    }
  }

  /** Entry `k` of the loop is the one read from columns 10 + 8k on. */
  lemma RGroupEditsAt(text: string, i: nat, count: nat, es: seq<(int, Edit)>, k: nat)
    requires RGroupEditsGive(text, i, count, es) && i <= k < i + |es|
    ensures RGroupEntry(text, k, count) == Ok(es[k - i])
  {
    RGroupEditsReads(text, i, count, es);
    ReadsFromAt(k => RGroupEntry(text, k, count), i, es, k);
  }

  /** ParseRGroupLabels: the label count is a signed field in columns 6-8. */
  function RGroupLine(m: Mol, text: string): (r: Result<Mol>)
    ensures r.Ok? ==> AtomsOnly(m, r.value) && r.value.needsQueryScan == m.needsQueryScan
    ensures r.Ok? ==> AtomsAgreeExcept(m.atoms, r.value.atoms, RGroupFields)
  {
    var n :- IntAt(text, 6, 3);
    var es :- RGroupEdits(text, 0, if n < 0 then 0 else n, |m.atoms|);
    ApplyEditsAgree(m.atoms, es, RGroupFields);
    Ok(m.(atoms := ApplyEdits(m.atoms, es)))
  }

  /** The entries an accepted RGP line applies: a negative count reads
      none. */
  lemma RGroupLineEdits(m: Mol, text: string)
    requires RGroupLine(m, text).Ok?
    ensures IntAt(text, 6, 3).Ok?
    ensures var n := IntAt(text, 6, 3).value;
            RGroupEdits(text, 0, if n < 0 then 0 else n, |m.atoms|).Ok?
    ensures var n := IntAt(text, 6, 3).value;
            var es := RGroupEdits(text, 0, if n < 0 then 0 else n, |m.atoms|).value;
            RGroupLine(m, text).value.atoms == ApplyEdits(m.atoms, es)
  {
  }

  /** What an RGP line means: an atom no entry names is left alone; an atom
      some entry names becomes a match-anything query atom whose R label is
      that of the last entry naming it, and whose mass is that label when it
      lies between 1 and 998. Entry `k` is the one read from columns 10 + 8k
      (RGroupEditsAt). */
  lemma RGroupLineLabels(m: Mol, text: string, i: nat)
    requires RGroupLine(m, text).Ok? && i < |m.atoms|
    ensures IntAt(text, 6, 3).Ok?
    ensures var n := IntAt(text, 6, 3).value;
            RGroupEdits(text, 0, if n < 0 then 0 else n, |m.atoms|).Ok?
    ensures var n := IntAt(text, 6, 3).value;
            forall e :: e in EditsFor(RGroupEdits(text, 0, if n < 0 then 0 else n, |m.atoms|).value, i) ==> e.RGroup?
    ensures var n := IntAt(text, 6, 3).value;
            var eds := EditsFor(RGroupEdits(text, 0, if n < 0 then 0 else n, |m.atoms|).value, i);
            var a := RGroupLine(m, text).value.atoms[i];
            && (|eds| == 0 ==> a == m.atoms[i])
            && (|eds| > 0 ==>
                  && a.query == Some(Null(false))
                  && "_MolFileRLabel" in a.intProps && a.intProps["_MolFileRLabel"] == eds[|eds| - 1].rLabel
                  && (0 < eds[|eds| - 1].rLabel < 999 ==> a.mass == eds[|eds| - 1].rLabel as real))
  {
    RGroupLineEdits(m, text);
    var n := IntAt(text, 6, 3).value;
    var es := RGroupEdits(text, 0, if n < 0 then 0 else n, |m.atoms|).value;
    forall k | 0 <= k < |es| ensures es[k].1.RGroup? {
      RGroupEditsAt(text, 0, |m.atoms|, es, k);
    }
    RGroupEditsWin(m.atoms, es, i);
  }

  // ---------------------------------------------------------------------
  // Atom lists
  // ---------------------------------------------------------------------

  /** The atomic-number alternatives of a list, ORed left to right onto a
      first query. */
  function OrAtomNums(q: Query, nums: seq<int>): (r: Query)
    ensures !q.negated ==> !r.negated
    decreases |nums|
  {
    if |nums| == 0 then q else OrAtomNums(Expand(q, EqualsQuery(AtomicNum, nums[0]), CombineOr), nums[1..])
  }

  lemma {:induction false} OrAtomNumsMatches(q: Query, nums: seq<int>, data: Feature -> int)
    ensures Matches(OrAtomNums(q, nums), data) <==> Matches(q, data) || data(AtomicNum) in nums
    decreases |nums|
  {
    if |nums| > 0 {
      ExpandMatches(q, EqualsQuery(AtomicNum, nums[0]), data);
      OrAtomNumsMatches(Expand(q, EqualsQuery(AtomicNum, nums[0]), CombineOr), nums[1..], data);
      assert nums == [nums[0]] + nums[1..];
    }
  }

  /** The element symbol in a 4-column ALS slot: the text before the first
      blank. A slot with no blank makes the erase throw std::out_of_range. */
  function SlotSymbol(slot: string): (r: Result<string>)
    ensures r.Ok? <==> ' ' in slot
    ensures r.Ok? ==> ' ' !in r.value && r.value + [' '] <= slot
  {
    if ' ' in slot then
      UpToPrefixOf(slot, ' ');
      Ok(UpTo(slot, ' '))
    else Err(RangeError("basic_string::erase"))
  }

  lemma {:induction false} UpToPrefixOf(s: string, c: char)
    requires c in s
    ensures c !in UpTo(s, c) && UpTo(s, c) + [c] <= s
    decreases |s|
  {
    if s[0] != c {
      assert c in s[1..] by {
        var k :| 0 <= k < |s| && s[k] == c;
        assert s[1..][k - 1] == c;
      }
      UpToPrefixOf(s[1..], c);
    }
  }

  /** The atomic numbers of the slots of an ALS line, from column 16 on, four
      columns per slot. */
  function ListSymbols(text: string, i: nat, n: nat, env: Env): (r: Result<seq<int>>)
    ensures r.Ok? ==> |r.value| == n
    ensures r.Ok? && n > 0 ==> |text| >= 16 + 4 * (i + n)
    decreases n
  {
    if n == 0 then Ok([])
    else
      var pos := 16 + 4 * i;
      if |text| < pos + 4 then Err(FormatError("Atom list line too short"))
      else
        var symb :- SlotSymbol(text[pos..pos + 4]);
        var rest :- ListSymbols(text, i + 1, n - 1, env);
        Ok([env.atomicNumber(symb)] + rest)
  }

  /** The query a new-style atom list gives its atom. As written, the first
      listed element does not contribute its own number: the query atom is
      copied from the atom on the line, so its first alternative is that
      atom's original atomic number. Corrected, the first alternative is the
      first listed element. */
  function AtomListQuery(orig: Atom, nums: seq<int>, negated: bool, asWritten: bool): (q: Query)
    requires |nums| > 0
    ensures q.negated == negated
  {
    var first := if asWritten then orig.atomicNum else nums[0];
    WithNegation(OrAtomNums(EqualsQuery(AtomicNum, first), nums[1..]), negated)
  }

  /** Corrected, the list query accepts exactly the listed elements, or for a
      T (exclusion) list exactly the others. */
  lemma AtomListQueryMatches(orig: Atom, nums: seq<int>, negated: bool, data: Feature -> int)
    requires |nums| > 0
    ensures Matches(AtomListQuery(orig, nums, negated, false), data) <==> (data(AtomicNum) in nums) != negated
  {
    var q := OrAtomNums(EqualsQuery(AtomicNum, nums[0]), nums[1..]);
    OrAtomNumsMatches(EqualsQuery(AtomicNum, nums[0]), nums[1..], data);
    assert nums == [nums[0]] + nums[1..];
    if negated {
      WithNegationMatches(q, data);
    } else {
      assert WithNegation(q, false) == q;
    }
  }

  /** As written, the list query accepts the atom's original element and
      every listed element after the first. */
  lemma AtomListQueryAsWritten(orig: Atom, nums: seq<int>, data: Feature -> int)
    requires |nums| > 0
    ensures Matches(AtomListQuery(orig, nums, false, true), data) <==>
              data(AtomicNum) == orig.atomicNum || data(AtomicNum) in nums[1..]
  {
    var q := OrAtomNums(EqualsQuery(AtomicNum, orig.atomicNum), nums[1..]);
    OrAtomNumsMatches(EqualsQuery(AtomicNum, orig.atomicNum), nums[1..], data);
    assert WithNegation(q, false) == q;
  }

  /** ParseNewAtomList: `M  ALS` with the atom number in columns 7-9, the
      element count in 10-12 (it must be positive), the T/F exclusion flag in
      column 14 and the element slots from column 16. The atom becomes a
      query atom whose atomic number is the first element's. */
  function NewAtomList(m: Mol, text: string, env: Env, asWritten: bool): (r: Result<Mol>)
    ensures |text| < 15 ==> r.Err? && r.error.FormatError?
    ensures r.Ok? ==> AtomsOnly(m, r.value) && r.value.needsQueryScan == m.needsQueryScan
    ensures r.Ok? ==> AtomsAgreeExcept(m.atoms, r.value.atoms, {NumField, QueryField})
    ensures r.Ok? ==> text[14] in "TF"
  {
    if |text| < 15 then Err(FormatError("Atom list line too short"))
    else
      var aid :- UnsignedAt(text, 7, 3);
      var idx :- UnsignedIndex(aid, |m.atoms|);
      var n :- IntAt(text, 10, 3);
      if n <= 0 then Err(InvariantError("no queries provided"))
      else
        var nums :- ListSymbols(text, 0, n, env);
        var flag := text[14];
        if flag != 'T' && flag != 'F' then Err(FormatError("Unrecognized atom-list query modifier"))
        else
          var orig := m.atoms[idx];
          var a := orig.(atomicNum := nums[0], query := Some(AtomListQuery(orig, nums, flag == 'T', asWritten)));
          var atoms := UpdateAtom(m.atoms, idx, a, {NumField, QueryField});
          Ok(m.(atoms := atoms))
  }

  /** ParseOldAtomList: the legacy atom-list line before the properties. Atom
      number in columns 0-2, T/F flag in column 4, count (0 to 5) in column 9,
      and atomic numbers (0 to 200) in 3-column fields four apart from column
      11. */
  function OldAtomNums(text: string, i: nat, n: nat): (r: Result<seq<int>>)
    ensures r.Err? ==> r.error.FormatError? || r.error.RangeError?
    ensures r.Ok? ==> |r.value| == n
    ensures r.Ok? ==> forall k :: 0 <= k < |r.value| ==> 0 <= r.value[k] <= 200
    decreases n
  {
    if n == 0 then Ok([])
    else
      var atNum :- IntAt(text, 11 + 4 * i, 3);
      if !(0 <= atNum <= 200) then Err(RangeError("atomic number out of range"))
      else
        var rest :- OldAtomNums(text, i + 1, n - 1);
        Ok([atNum] + rest)
  }

  /** The OR of one atomic-number leaf per listed element. */
  function ListQuery(nums: seq<int>, negated: bool): (q: Query)
    ensures q.Or? && |q.children| == |nums| && q.negated == negated
  {
    Or(seq(|nums|, k requires 0 <= k < |nums| => EqualsQuery(AtomicNum, nums[k])), negated)
  }

  /** The legacy list query accepts exactly the listed atomic numbers, or the
      others for a T list. */
  lemma ListQueryMatches(nums: seq<int>, negated: bool, data: Feature -> int)
    ensures Matches(ListQuery(nums, negated), data) <==> (data(AtomicNum) in nums) != negated
  {
    var cs := ListQuery(nums, negated).children;
    if data(AtomicNum) in nums {
      var k :| 0 <= k < |nums| && nums[k] == data(AtomicNum);
      assert Matches(cs[k], data);
    }
  }

  /** The flag is read as `text[4]`, which C++ leaves undefined on a line
      shorter than 4; a bad flag is reported with `text[14]`, undefined on a
      line shorter than 14. */
  function OldAtomList(m: Mol, text: string): (r: Result<Mol>)
    ensures r.Ok? ==> AtomsOnly(m, r.value) && r.value.needsQueryScan == m.needsQueryScan
    ensures r.Ok? ==> AtomsAgreeExcept(m.atoms, r.value.atoms, {NumField, QueryField})
    ensures r.Ok? ==> 4 < |text| && text[4] in "TF"
    ensures r.Err? && r.error.Undefined? <==>
              && UnsignedAt(text, 0, 3).Ok? && UnsignedIndex(UnsignedAt(text, 0, 3).value, |m.atoms|).Ok?
              && (|text| < 4 || (CharAt(text, 4) !in "TF" && |text| < 14))
    ensures (&& UnsignedAt(text, 0, 3).Ok? && UnsignedIndex(UnsignedAt(text, 0, 3).value, |m.atoms|).Ok?
             && 14 <= |text| && text[4] !in "TF") ==> r.Err? && r.error.FormatError?
  {
    var aid :- UnsignedAt(text, 0, 3);
    var idx :- UnsignedIndex(aid, |m.atoms|);
    var flag := CharAt(text, 4);
    if |text| < 4 then Err(Undefined("flag read past the end of the line"))
    else if flag != 'T' && flag != 'F' then
      if |text| < 14 then Err(Undefined("bad flag reported past the end of the line"))
      else Err(FormatError("Unrecognized atom-list query modifier"))
    else
      var negated := flag == 'T';
      var n :- IntAt(text, 9, 1);
      if !(0 <= n <= 5) then Err(RangeError("atom-list count out of range"))
      else
        var nums :- OldAtomNums(text, 0, n);
        var orig := m.atoms[idx];
        var a := if n > 0 then orig.(atomicNum := nums[0], query := Some(ListQuery(nums, negated)))
                 else orig.(query := Some(ListQuery(nums, negated)));
        var atoms := UpdateAtom(m.atoms, idx, a, {NumField, QueryField});
        Ok(m.(atoms := atoms))
  }

  // ---------------------------------------------------------------------
  // A and V
  // ---------------------------------------------------------------------

  /** ParseAtomAlias: the line must start with `A ` (a failed precondition
      otherwise); the atom number is in columns 3-5 and the alias text is the
      whole next line. */
  function AtomAlias(m: Mol, text: string, nextLine: string): (r: Result<Mol>)
    ensures Substr(text, 0, 2) != "A " ==> r == Err(InvariantError("bad atom alias line"))
    ensures r.Ok? ==> AtomsOnly(m, r.value) && r.value.needsQueryScan == m.needsQueryScan
    ensures r.Ok? ==> AtomsAgreeExcept(m.atoms, r.value.atoms, {StrPropsField})
    ensures r.Ok? ==>
              && UnsignedAt(text, 3, 3).Ok?
              && var k := PredU32(UnsignedAt(text, 3, 3).value);
              && 0 <= k < |m.atoms|
              && r.value.atoms[k].strProps == m.atoms[k].strProps["molFileAlias" := nextLine]
  {
    if Substr(text, 0, 2) != "A " then Err(InvariantError("bad atom alias line"))
    else
      var aid :- UnsignedAt(text, 3, 3);
      var idx :- UnsignedIndex(aid, |m.atoms|);
      var a := m.atoms[idx];
      var atoms := UpdateAtom(m.atoms, idx, a.(strProps := a.strProps["molFileAlias" := nextLine]), {StrPropsField});
      Ok(m.(atoms := atoms))
  }

  /** ParseAtomValue: the line must start with `V ` (a failed precondition
      otherwise); the atom number is in columns 3-5 and the value is the rest
      of the line from column 7 (a line shorter than that makes the substr
      throw). */
  function AtomValue(m: Mol, text: string): (r: Result<Mol>)
    ensures Substr(text, 0, 2) != "V " ==> r == Err(InvariantError("bad atom value line"))
    ensures r.Ok? ==> AtomsOnly(m, r.value) && r.value.needsQueryScan == m.needsQueryScan
    ensures r.Ok? ==> AtomsAgreeExcept(m.atoms, r.value.atoms, {StrPropsField})
    ensures r.Ok? ==>
              && |text| >= 7 && UnsignedAt(text, 3, 3).Ok?
              && var k := PredU32(UnsignedAt(text, 3, 3).value);
              && 0 <= k < |m.atoms|
              && r.value.atoms[k].strProps == m.atoms[k].strProps["molFileValue" := text[7..]]
  {
    if Substr(text, 0, 2) != "V " then Err(InvariantError("bad atom value line"))
    else
      var aid :- UnsignedAt(text, 3, 3);
      var idx :- UnsignedIndex(aid, |m.atoms|);
      var v :- Column(text, 7, |text|);
      SubstrSlice(text, 7, |text|);
      assert v == text[7..];
      var a := m.atoms[idx];
      var atoms := UpdateAtom(m.atoms, idx, a.(strProps := a.strProps["molFileValue" := v]), {StrPropsField});
      Ok(m.(atoms := atoms))
  }
}

=== FILE: queries.dfy ===
/** Substructure query trees as the parser builds them for query atoms and
    query bonds: leaf predicates over one feature of an atom or bond, the
    match-anything null query, and OR/AND composites, each node carrying its
    own negation flag.
 */
module Queries {
  import Fields

  /** The feature a leaf reads through its data function. */
  datatype Feature =
    | AtomicNum | FormalCharge | Mass | ExplicitDegree | Unsaturated
    | RingBondCount | HCount | BondOrder | BondInRing

  /** EqualityQuery, or LessEqualQuery, which holds when the stored value is
      less than or equal to the feature read from the atom: a LessEqual leaf
      with value 4 accepts 4 or more. */
  datatype Cmp = Equal | LessEqual

  datatype Query =
    | Leaf(feature: Feature, cmp: Cmp, val: int, negated: bool)
    | Null(negated: bool)
    | Or(children: seq<Query>, negated: bool)
    | And(children: seq<Query>, negated: bool)

  /** How expandQuery combines an existing query with a new one. */
  datatype Combine = CombineAnd | CombineOr

  /** The makeXxxEqualsQuery / makeXxxQuery factories: an un-negated leaf. */
  function EqualsQuery(f: Feature, v: int): (q: Query)
    ensures q.Leaf? && q.feature == f && q.val == v && q.cmp == Equal && !q.negated
  {
    Leaf(f, Equal, v, false)
  }

  /** setNegation on the root of a query. */
  function WithNegation(q: Query, neg: bool): (r: Query)
    ensures r.negated == neg
  {
    match q
    case Leaf(f, c, v, _) => Leaf(f, c, v, neg)
    case Null(_) => Null(neg)
    case Or(cs, _) => Or(cs, neg)
    case And(cs, _) => And(cs, neg)
  }

  /** expandQuery(what, how, maintainOrder = true): the old query and the new
      one become the two children of a fresh composite node. */
  function Expand(q: Query, what: Query, how: Combine): Query {
    match how
    case CombineAnd => And([q, what], false)
    case CombineOr => Or([q, what], false)
  }

  /** What a query accepts, given the values its data functions read from the
      atom or bond under test. */
  predicate Matches(q: Query, data: Feature -> int)
    decreases q
  {
    match q
    case Leaf(f, c, v, neg) =>
      (if c == Equal then data(f) == v else v <= data(f)) != neg
    case Null(neg) => !neg
    case Or(cs, neg) =>
      (exists i :: 0 <= i < |cs| && Matches(cs[i], data)) != neg
    case And(cs, neg) =>
      (forall i :: 0 <= i < |cs| ==> Matches(cs[i], data)) != neg
  }

  /** AND-expansion accepts exactly what both parts accept, OR-expansion what
      either accepts. */
  lemma ExpandMatches(q: Query, what: Query, data: Feature -> int)
    ensures Matches(Expand(q, what, CombineAnd), data) <==> Matches(q, data) && Matches(what, data)
    ensures Matches(Expand(q, what, CombineOr), data) <==> Matches(q, data) || Matches(what, data)
  {
    var a := Expand(q, what, CombineAnd);
    var o := Expand(q, what, CombineOr);
    assert a.children[0] == q && a.children[1] == what;
    assert o.children[0] == q && o.children[1] == what;
  }

  /** Negating the root flips the answer. */
  lemma WithNegationMatches(q: Query, data: Feature -> int)
    ensures Matches(WithNegation(q, !q.negated), data) <==> !Matches(q, data)
  {
  }

  // ---------------------------------------------------------------------
  // Deferred ring-bond-count completion
  // ---------------------------------------------------------------------

  /** The "unresolved" value. The source writes -0xDEADBEEF; the literal
      0xDEADBEEF does not fit an int and is unsigned, so the negation is taken
      modulo 2^32 and the value stored is 2^32 - 0xDEADBEEF. */
  const MagicVal: int := Fields.U32 - 0xDEADBEEF

  lemma MagicValValue()
    ensures MagicVal == 559038737
  {
  }

  /** completeQueryAndChildren: every node whose value is the sentinel takes
      the value of its own data function on the atom. Only leaves carry a
      value in this model. */
  function Complete(q: Query, data: Feature -> int): (r: Query)
    decreases q
  {
    match q
    case Leaf(f, c, v, neg) => Leaf(f, c, if v == MagicVal then data(f) else v, neg)
    case Null(_) => q
    case Or(cs, neg) => Or(CompleteAll(cs, data), neg)
    case And(cs, neg) => And(CompleteAll(cs, data), neg)
  }

  function CompleteAll(cs: seq<Query>, data: Feature -> int): (rs: seq<Query>)
    ensures |rs| == |cs|
    decreases cs
  {
    if |cs| == 0 then [] else [Complete(cs[0], data)] + CompleteAll(cs[1..], data)
  }

  /** Two trees with the same nodes, features, comparisons and negations,
      whatever their leaf values. */
  predicate SameShape(a: Query, b: Query)
    decreases a
  {
    match a
    case Leaf(f, c, _, neg) => b.Leaf? && b.feature == f && b.cmp == c && b.negated == neg
    case Null(neg) => b == a
    case Or(cs, neg) =>
      b.Or? && b.negated == neg && |b.children| == |cs| &&
      forall i :: 0 <= i < |cs| ==> SameShape(cs[i], b.children[i])
    case And(cs, neg) =>
      b.And? && b.negated == neg && |b.children| == |cs| &&
      forall i :: 0 <= i < |cs| ==> SameShape(cs[i], b.children[i])
  }

  /** The leaves of a tree, left to right. */
  function Leaves(q: Query): (ls: seq<Query>)
    ensures forall i :: 0 <= i < |ls| ==> ls[i].Leaf?
    decreases q
  {
    match q
    case Leaf(_, _, _, _) => [q]
    case Null(_) => []
    case Or(cs, _) => LeavesAll(cs)
    case And(cs, _) => LeavesAll(cs)
  }

  function LeavesAll(cs: seq<Query>): (ls: seq<Query>)
    ensures forall i :: 0 <= i < |ls| ==> ls[i].Leaf?
    decreases cs
  {
    if |cs| == 0 then [] else Leaves(cs[0]) + LeavesAll(cs[1..])
  }

  /** One leaf after completion, on its own. */
  function Fill(l: Query, data: Feature -> int): Query
    requires l.Leaf?
  {
    if l.val == MagicVal then l.(val := data(l.feature)) else l
  }

  /** The sentinel appears in no leaf. */
  predicate Resolved(q: Query) {
    forall l :: l in Leaves(q) ==> l.val != MagicVal
  }

  lemma {:induction false} CompleteAllIndex(cs: seq<Query>, data: Feature -> int, i: nat)
    requires i < |cs|
    ensures CompleteAll(cs, data)[i] == Complete(cs[i], data)
    decreases cs
  {
    if i > 0 {
      CompleteAllIndex(cs[1..], data, i - 1);
    }
  }

  /** Completion keeps the shape of the tree. */
  lemma {:induction false} CompleteSameShape(q: Query, data: Feature -> int)
    ensures SameShape(q, Complete(q, data))
    decreases q
  {
    match q
    case Leaf(_, _, _, _) =>
    case Null(_) =>
    case Or(cs, _) =>
      forall i | 0 <= i < |cs|
        ensures SameShape(cs[i], Complete(q, data).children[i])
      {
        CompleteAllIndex(cs, data, i);
        CompleteSameShape(cs[i], data);
      }
    case And(cs, _) =>
      forall i | 0 <= i < |cs|
        ensures SameShape(cs[i], Complete(q, data).children[i])
      {
        CompleteAllIndex(cs, data, i);
        CompleteSameShape(cs[i], data);
      }
  }

  /** Completion changes exactly the sentinel leaves: the leaves of the result
      are the leaves of the input, each filled on its own. */
  lemma {:induction false} CompleteLeaves(q: Query, data: Feature -> int)
    ensures |Leaves(Complete(q, data))| == |Leaves(q)|
    ensures forall i :: 0 <= i < |Leaves(q)| ==>
              Leaves(Complete(q, data))[i] == Fill(Leaves(q)[i], data)
    decreases q
  {
    match q
    case Leaf(_, _, _, _) =>
    case Null(_) =>
    case Or(cs, _) => CompleteAllLeaves(cs, data);
    case And(cs, _) => CompleteAllLeaves(cs, data);
  }

  lemma {:induction false} CompleteAllLeaves(cs: seq<Query>, data: Feature -> int)
    ensures |LeavesAll(CompleteAll(cs, data))| == |LeavesAll(cs)|
    ensures forall i :: 0 <= i < |LeavesAll(cs)| ==>
              LeavesAll(CompleteAll(cs, data))[i] == Fill(LeavesAll(cs)[i], data)
    decreases cs
  {
    if |cs| > 0 {
      var rs := CompleteAll(cs, data);
      assert rs[0] == Complete(cs[0], data);
      assert rs[1..] == CompleteAll(cs[1..], data);
      CompleteLeaves(cs[0], data);
      CompleteAllLeaves(cs[1..], data);
    }
  }

  /** When no data function returns the sentinel, nothing unresolved survives
      completion, and completing again changes nothing. */
  lemma CompleteResolves(q: Query, data: Feature -> int)
    requires forall f :: data(f) != MagicVal
    ensures Resolved(Complete(q, data))
    ensures Complete(Complete(q, data), data) == Complete(q, data)
  {
    CompleteLeaves(q, data);
    var r := Complete(q, data);
    forall l | l in Leaves(r)
      ensures l.val != MagicVal
    {
      var i :| 0 <= i < |Leaves(r)| && Leaves(r)[i] == l;
    }
    CompleteIdentity(r, data);
  }

  /** A tree without the sentinel is left alone. */
  lemma {:induction false} CompleteIdentity(q: Query, data: Feature -> int)
    requires Resolved(q)
    ensures Complete(q, data) == q
    decreases q
  {
    match q
    case Leaf(_, _, _, _) =>
    case Null(_) =>
    case Or(cs, _) => CompleteAllIdentity(cs, data);
    case And(cs, _) => CompleteAllIdentity(cs, data);
  }

  lemma {:induction false} CompleteAllIdentity(cs: seq<Query>, data: Feature -> int)
    requires forall l :: l in LeavesAll(cs) ==> l.val != MagicVal
    ensures CompleteAll(cs, data) == cs
    decreases cs
  {
    if |cs| > 0 {
      assert LeavesAll(cs) == Leaves(cs[0]) + LeavesAll(cs[1..]);
      CompleteIdentity(cs[0], data);
      CompleteAllIdentity(cs[1..], data);
      assert [cs[0]] + cs[1..] == cs;
    }
  }
}

=== FILE: text.dfy ===
/** The string operations the parser borrows from std::string and Boost:
    substr, operator[], trim_copy, to_upper, split and lexicographic comparison.
 */
module Text {

  /** std::isspace in the "C" locale. */
  predicate IsSpace(c: char) {
    c == ' ' || c == '\t' || c == '\n' || c == '\U{B}' || c == '\U{C}' || c == '\r'
  }

  predicate IsDigit(c: char) {
    '0' <= c <= '9'
  }

  predicate AllSpace(s: string) {
    forall i :: 0 <= i < |s| ==> IsSpace(s[i])
  }

  /** `n` blanks, the padding of a right-justified fixed-width field. */
  function Blanks(n: nat): (r: string)
    ensures |r| == n
    ensures forall i :: 0 <= i < n ==> r[i] == ' '
  {
    if n == 0 then "" else " " + Blanks(n - 1)
  }

  /** s.substr(pos, n), one character at a time. A start past the end
      throws std::out_of_range in C++; here it yields the empty string. */
  function Substr(s: string, pos: nat, n: nat): (r: string)
    ensures |r| <= n
    ensures pos + n <= |s| ==> |r| == n
    decreases n
  {
    if n == 0 || pos >= |s| then "" else [s[pos]] + Substr(s, pos + 1, n - 1)
  }

  /** A substring that fits is the slice; one that runs past the end is
      the rest of the string. */
  lemma {:induction false} SubstrSlice(s: string, pos: nat, n: nat)
    ensures pos + n <= |s| ==> Substr(s, pos, n) == s[pos..pos + n]
    ensures pos <= |s| <= pos + n ==> Substr(s, pos, n) == s[pos..]
    decreases n
  {
    if n > 0 && pos < |s| {
      SubstrSlice(s, pos + 1, n - 1);
      if pos + n <= |s| {
        assert s[pos..pos + n] == [s[pos]] + s[pos + 1..pos + n];
      } else {
        assert s[pos..] == [s[pos]] + s[pos + 1..];
      }
    }
  }

  /** Each character of a substring is the one at the same offset. */
  lemma {:induction false} SubstrAt(s: string, pos: nat, n: nat, i: nat)
    requires i < |Substr(s, pos, n)|
    ensures pos + i < |s| && Substr(s, pos, n)[i] == s[pos + i]
    decreases n
  {
    if i > 0 {
      SubstrAt(s, pos + 1, n - 1, i - 1);
    }
  }

  /** s[i] on a std::string: the terminating NUL at i == size(). */
  function CharAt(s: string, i: nat): (c: char)
    ensures i < |s| ==> c == s[i]
    ensures i >= |s| ==> c == '\0'
  {
    if i < |s| then s[i] else '\0'
  }

  /** The idiom `s.size() >= |p| && s.substr(0, |p|) == p`. */
  predicate StartsWith(s: string, p: string) {
    |p| <= |s| && s[..|p|] == p
  }

  function TrimLeft(s: string): (r: string)
    ensures |r| <= |s|
    decreases |s|
  {
    if |s| == 0 || !IsSpace(s[0]) then s
    else TrimLeft(s[1..])
  }

  /** TrimLeft drops the leading white space and nothing else. */
  lemma {:induction false} TrimLeftSpec(s: string)
    ensures TrimLeft(s) == s[|s| - |TrimLeft(s)|..]
    ensures |TrimLeft(s)| > 0 ==> !IsSpace(TrimLeft(s)[0])
    ensures TrimLeft(s) == "" <==> AllSpace(s)
    decreases |s|
  {
    if |s| > 0 && IsSpace(s[0]) {
      TrimLeftSpec(s[1..]);
      assert s[1..][|s| - 1 - |TrimLeft(s)|..] == s[|s| - |TrimLeft(s)|..];
      if AllSpace(s[1..]) {
        assert forall i :: 0 < i < |s| ==> s[i] == s[1..][i - 1];
      }
    }
  }

  function TrimRight(s: string): (r: string)
    ensures |r| <= |s|
    decreases |s|
  {
    if |s| == 0 || !IsSpace(s[|s| - 1]) then s
    else TrimRight(s[..|s| - 1])
  }

  /** TrimRight drops the trailing white space and nothing else. */
  lemma {:induction false} TrimRightSpec(s: string)
    ensures TrimRight(s) == s[..|TrimRight(s)|]
    ensures |TrimRight(s)| > 0 ==> !IsSpace(TrimRight(s)[|TrimRight(s)| - 1])
    ensures TrimRight(s) == "" <==> AllSpace(s)
    decreases |s|
  {
    if |s| > 0 && IsSpace(s[|s| - 1]) {
      var s1 := s[..|s| - 1];
      TrimRightSpec(s1);
      assert s1[..|TrimRight(s)|] == s[..|TrimRight(s)|];
      if AllSpace(s1) {
        assert forall i :: 0 <= i < |s| - 1 ==> s[i] == s1[i];
      }
    }
  }

  /** boost::trim_copy. */
  function Trim(s: string): (r: string)
    ensures |r| <= |s|
  {
    TrimRight(TrimLeft(s))
  }

  /** Trim keeps no white space at either end, and is empty exactly when the
      string is all white space. */
  lemma TrimSpec(s: string)
    ensures |Trim(s)| > 0 ==> !IsSpace(Trim(s)[0]) && !IsSpace(Trim(s)[|Trim(s)| - 1])
    ensures Trim(s) == "" <==> AllSpace(s)
  {
    var t := TrimLeft(s);
    TrimLeftSpec(s);
    TrimRightSpec(t);
    if |t| > 0 {
      assert !AllSpace(t);
    }
  }

  /** The characters before the first `c`, or all of `s` when there is none:
      s.substr(0, s.find(c)). */
  function UpTo(s: string, c: char): (r: string)
    ensures |r| <= |s| && r == s[..|r|]
    ensures c !in r
    ensures |r| < |s| ==> s[|r|] == c
  {
    if |s| == 0 || s[0] == c then ""
    else [s[0]] + UpTo(s[1..], c)
  }

  /** std::string operator<= : lexicographic order on characters. */
  predicate LexLe(a: string, b: string)
    decreases |a|
  {
    if |a| == 0 then true
    else if |b| == 0 then false
    else if a[0] != b[0] then a[0] < b[0]
    else LexLe(a[1..], b[1..])
  }

  /** toupper in the "C" locale. */
  function ToUpper(c: char): (u: char)
    ensures 'a' <= c <= 'z' ==> u as int == c as int - 32
    ensures !('a' <= c <= 'z') ==> u == c
  {
    if 'a' <= c <= 'z' then (c as int - 32) as char else c
  }

  /** boost::to_upper. */
  function Upper(s: string): (r: string)
    ensures |r| == |s|
    ensures forall i :: 0 <= i < |s| ==> r[i] == ToUpper(s[i])
  {
    if |s| == 0 then "" else [ToUpper(s[0])] + Upper(s[1..])
  }

  predicate NoneIn(s: string, seps: set<char>) {
    forall i :: 0 <= i < |s| ==> s[i] !in seps
  }

  /** boost::split(out, s, is_any_of(seps)) without token compression: one piece
      more than there are separators, empty pieces kept. */
  function SplitAny(s: string, seps: set<char>): (r: seq<string>)
    ensures |r| >= 1
    ensures forall k :: 0 <= k < |r| ==> NoneIn(r[k], seps)
    decreases |s|
  {
    if |s| == 0 then [""]
    else
      var rest := SplitAny(s[1..], seps);
      if s[0] in seps then [""] + rest
      else [[s[0]] + rest[0]] + rest[1..]
  }

  /** The pieces joined back with the separator `c`. */
  function Join(pieces: seq<string>, c: char): string
    requires |pieces| >= 1
    decreases |pieces|
  {
    if |pieces| == 1 then pieces[0] else pieces[0] + [c] + Join(pieces[1..], c)
  }

  /** Splitting on one separator loses nothing: joining the pieces with that
      separator gives the input back. */
  lemma {:induction false} JoinSplitAny(s: string, c: char)
    ensures Join(SplitAny(s, {c}), c) == s
    decreases |s|
  {
    if |s| > 0 {
      var rest := SplitAny(s[1..], {c});
      JoinSplitAny(s[1..], c);
      if s[0] != c {
        if |rest| == 1 {
          assert Join(rest, c) == rest[0];
        } else {
          assert Join(rest, c) == rest[0] + [c] + Join(rest[1..], c);
        }
      }
    }
  }

  /** A piece free of separators splits into itself. */
  lemma {:induction false} SplitAnyNone(a: string, seps: set<char>)
    requires NoneIn(a, seps)
    ensures SplitAny(a, seps) == [a]
    decreases |a|
  {
    if |a| > 0 {
      SplitAnyNone(a[1..], seps);
      assert [a[0]] + a[1..] == a;
    }
  }

  /** A separator-free prefix followed by a separator becomes the first piece. */
  lemma {:induction false} SplitAnyHead(a: string, c: char, b: string, seps: set<char>)
    requires NoneIn(a, seps) && c in seps
    ensures SplitAny(a + [c] + b, seps) == [a] + SplitAny(b, seps)
    decreases |a|
  {
    if |a| == 0 {
      assert a + [c] + b == [c] + b;
      assert ([c] + b)[1..] == b;
    } else {
      var s := a + [c] + b;
      assert s[0] == a[0];
      assert s[1..] == a[1..] + [c] + b;
      SplitAnyHead(a[1..], c, b, seps);
      assert [a[0]] + a[1..] == a;
    }
  }

  /** Pieces free of the separator, joined with it, split back into the same
      pieces. */
  lemma {:induction false} SplitAnyJoin(ps: seq<string>, c: char)
    requires |ps| >= 1 && forall k :: 0 <= k < |ps| ==> NoneIn(ps[k], {c})
    ensures SplitAny(Join(ps, c), {c}) == ps
    decreases |ps|
  {
    assert NoneIn(ps[0], {c});
    if |ps| == 1 {
      SplitAnyNone(ps[0], {c});
    } else {
      assert forall k :: 0 <= k < |ps| - 1 ==> ps[1..][k] == ps[k + 1];
      SplitAnyHead(ps[0], c, Join(ps[1..], c), {c});
      SplitAnyJoin(ps[1..], c);
      assert [ps[0]] + ps[1..] == ps;
    }
  }

  /** boost::split with token_compress_on: runs of separators count as one.
      Leading and trailing separators still produce one empty piece each. */
  function SplitCompress(s: string, seps: set<char>): (r: seq<string>)
    ensures |r| >= 1
  {
    var raw := SplitAny(s, seps);
    if |raw| <= 2 then raw
    else [raw[0]] + DropEmpty(raw[1..|raw| - 1]) + [raw[|raw| - 1]]
  }

  function DropEmpty(ps: seq<string>): (r: seq<string>)
    ensures |r| <= |ps|
    ensures forall k :: 0 <= k < |r| ==> r[k] != "" && r[k] in ps
  {
    if |ps| == 0 then []
    else if ps[0] == "" then DropEmpty(ps[1..])
    else [ps[0]] + DropEmpty(ps[1..])
  }

  /** Concatenation of a sequence of strings. */
  function Concat(ps: seq<string>): (r: string)
    decreases |ps|
  {
    if |ps| == 0 then "" else ps[0] + Concat(ps[1..])
  }
}

=== FILE: v2000.dfy ===
/** The V2000 connection table: the fixed-column atom and bond lines and the
    two blocks that read them.
 */
module V2000 {
  import opened Wrappers
  import opened Text
  import opened Fields
  import opened Queries
  import opened Molecule
  import opened LineStream

  /** An optional fixed-column integer field read with blanks accepted:
      absent when the line is too short or the field holds the writer's
      "nothing" text. toInt with blanks accepted cannot fail, so a present
      field is simply its toInt value. */
  function AcceptField(text: string, pos: nat, width: nat, zero: string): (r: Option<int>)
    ensures r.Some? <==> Present(text, pos, width, zero)
    ensures r.Some? ==> ToInt(text[pos..pos + width], true) == Ok(r.value)
  {
    if Present(text, pos, width, zero) then
      ToIntFailsOnlyOnBlank(text[pos..pos + width], true);
      Some(Atoi(text[pos..pos + width]))
    else None
  }

  function OrZero(o: Option<int>): int {
    if o.Some? then o.value else 0
  }

  /** The integer fields of a V2000 atom line after column 34. */
  datatype AtomFields = AtomFields(
    symbol: string,
    massDiff: int,
    chg: int,
    hCount: int,
    parity: Option<int>,
    stereoCare: Option<int>,
    totValence: Option<int>,
    mapNum: Option<int>,
    inversion: Option<int>,
    exactChange: Option<int>)

  /** The symbols that denote something other than an element. */
  predicate SpecialSymbol(symb: string) {
    symb in {"L", "A", "Q", "*", "LP", "R", "R#"} || (LexLe("R0", symb) && LexLe(symb, "R9"))
  }

  /** The query a generic-atom symbol stands for: `*` any atom, `Q` anything
      but carbon and hydrogen, `A` anything but hydrogen. */
  function GenericQuery(symb: string): (q: Query)
    requires symb in {"A", "Q", "*"}
  {
    if symb == "*" then Null(false)
    else if symb == "Q" then Or([EqualsQuery(AtomicNum, 6), EqualsQuery(AtomicNum, 1)], true)
    else WithNegation(EqualsQuery(AtomicNum, 1), true)
  }

  lemma GenericQueryMatches(data: Feature -> int)
    ensures Matches(GenericQuery("*"), data)
    ensures Matches(GenericQuery("Q"), data) <==> data(AtomicNum) != 6 && data(AtomicNum) != 1
    ensures Matches(GenericQuery("A"), data) <==> data(AtomicNum) != 1
  {
    var q := GenericQuery("Q");
    assert q.children[0] == EqualsQuery(AtomicNum, 6);
    assert q.children[1] == EqualsQuery(AtomicNum, 1);
  }

  /** The atom a symbol stands for, before the charge, hydrogen and mass
      columns are applied. */
  function SymbolAtom(symb: string, massDiff: int, env: Env): (a: Atom)
    ensures a.formalCharge == 0 && !a.hasMassQuery
    ensures symb in {"A", "Q", "*"} ==> a.query == Some(GenericQuery(symb)) && a.noImplicit && a.atomicNum == 0
    ensures SpecialSymbol(symb) && symb !in {"A", "Q", "*"} ==> a.query.None? && a.atomicNum == 0
    ensures SpecialSymbol(symb) && massDiff == 0 && |symb| == 2 && symb[0] == 'R' && '1' <= symb[1] <= '9' ==>
              a.mass == (symb[1] as int - '0' as int) as real
    ensures !SpecialSymbol(symb) && symb == "D" ==> a == NewAtom(1).(mass := 2.014)
    ensures !SpecialSymbol(symb) && symb == "T" ==> a == NewAtom(1).(mass := 3.016)
    ensures !SpecialSymbol(symb) && symb != "D" && symb != "T" ==>
              a == NewAtom(env.atomicNumber(symb)).(mass := env.atomicWeight(env.atomicNumber(symb)))
  {
    if SpecialSymbol(symb) then
      var a0 := if symb in {"A", "Q", "*"} then NewAtom(0).(query := Some(GenericQuery(symb)), noImplicit := true)
                else NewAtom(0);
      if massDiff == 0 && |symb| == 2 && symb[0] == 'R' && '1' <= symb[1] <= '9' then
        a0.(mass := (symb[1] as int - '0' as int) as real)
      else a0
    else if symb == "D" then NewAtom(1).(mass := 2.014)
    else if symb == "T" then NewAtom(1).(mass := 3.016)
    else
      var n := env.atomicNumber(symb);
      NewAtom(n).(mass := env.atomicWeight(n))
  }

  /** Adds an integer property when the field was present. */
  function SetIntProp(props: map<string, int>, key: string, o: Option<int>): (r: map<string, int>)
    ensures o.Some? ==> r == props[key := o.value]
    ensures o.None? ==> r == props
  {
    if o.Some? then props[key := o.value] else props
  }

  /** The integer properties an atom line sets, one per present column. */
  function AtomProps(f: AtomFields): (p: map<string, int>)
    ensures "molParity" in p <==> f.parity.Some?
    ensures f.mapNum.Some? ==> "molAtomMapNumber" in p && p["molAtomMapNumber"] == f.mapNum.value
  {
    var p := SetIntProp(map[], "molParity", f.parity);
    var p := SetIntProp(p, "molStereoCare", f.stereoCare);
    var p := SetIntProp(p, "molTotValence", f.totValence);
    var p := SetIntProp(p, "molAtomMapNumber", f.mapNum);
    var p := SetIntProp(p, "molInversionFlag", f.inversion);
    SetIntProp(p, "molExactChangeFlag", f.exactChange)
  }

  /** The atom of a decoded atom line: the charge column stores 4 - charge,
      an hydrogen count of 1 switches implicit hydrogens off, and a mass
      difference is added to the mass and marks a mass query. */
  function BuildAtom(f: AtomFields, env: Env): (a: Atom)
    ensures f.chg != 0 ==> a.formalCharge == 4 - f.chg
    ensures f.chg == 0 ==> a.formalCharge == 0
    ensures a.hasMassQuery <==> f.massDiff != 0
    ensures a.mass == SymbolAtom(f.symbol, f.massDiff, env).mass + f.massDiff as real
    ensures a.noImplicit <==> SymbolAtom(f.symbol, f.massDiff, env).noImplicit || f.hCount == 1
    ensures a.atomicNum == SymbolAtom(f.symbol, f.massDiff, env).atomicNum
    ensures a.query == SymbolAtom(f.symbol, f.massDiff, env).query
    ensures a.intProps == AtomProps(f)
  {
    var a0 := SymbolAtom(f.symbol, f.massDiff, env);
    var a1 := if f.chg != 0 then a0.(formalCharge := 4 - f.chg) else a0;
    var a2 := if f.hCount == 1 then a1.(noImplicit := true) else a1;
    var a3 := if f.massDiff != 0 then a2.(mass := a2.mass + f.massDiff as real, hasMassQuery := true) else a2;
    a3.(intProps := AtomProps(f))
  }

  /** The columns after the coordinates: symbol in 31-33 cut at the first
      blank, then mass difference (34-35), charge (36-38), parity (39-41),
      hydrogen count (42-44), stereo care (45-47), valence (48-50), atom map
      (60-62), inversion (63-65) and exact change (66-68). */
  function ReadAtomFields(text: string): (f: AtomFields)
    requires |text| >= 34
    ensures f.symbol == UpTo(text[31..34], ' ')
    ensures Present(text, 34, 2, " 0") ==> ToInt(text[34..36], true) == Ok(f.massDiff)
    ensures !Present(text, 34, 2, " 0") ==> f.massDiff == 0
    ensures Present(text, 36, 3, "  0") ==> ToInt(text[36..39], true) == Ok(f.chg)
    ensures !Present(text, 36, 3, "  0") ==> f.chg == 0
    ensures Present(text, 42, 3, "  0") ==> ToInt(text[42..45], true) == Ok(f.hCount)
    ensures !Present(text, 42, 3, "  0") ==> f.hCount == 0
    ensures f.parity.Some? <==> Present(text, 39, 3, "  0")
    ensures f.mapNum.Some? <==> Present(text, 60, 3, "  0")
  {
    AtomFields(UpTo(text[31..34], ' '),
               OrZero(AcceptField(text, 34, 2, " 0")),
               OrZero(AcceptField(text, 36, 3, "  0")),
               OrZero(AcceptField(text, 42, 3, "  0")),
               AcceptField(text, 39, 3, "  0"),
               AcceptField(text, 45, 3, "  0"),
               AcceptField(text, 48, 3, "  0"),
               AcceptField(text, 60, 3, "  0"),
               AcceptField(text, 63, 3, "  0"),
               AcceptField(text, 66, 3, "  0"))
  }

  /** The coordinate columns 0-9, 10-19 and 20-29, each read with
      toDouble; a failed cast would be rethrown as a FileParseException. */
  function Coords(text: string, env: Env): (r: Result<Point>)
    ensures r.Err? ==> r.error == FormatError("Cannot process coordinates.")
  {
    var x := ToDouble(Substr(text, 0, 10), true, env.atof);
    var y := ToDouble(Substr(text, 10, 10), true, env.atof);
    var z := ToDouble(Substr(text, 20, 10), true, env.atof);
    if x.Err? || y.Err? || z.Err? then Err(FormatError("Cannot process coordinates."))
    else Ok(Point(x.value, y.value, z.value))
  }

  /** toDouble accepts blanks by default, so it never throws: the coordinates
      are atof of the three columns, and the catch around them never fires. */
  lemma CoordsAtof(text: string, env: Env)
    ensures Coords(text, env) ==
              Ok(Point(env.atof(Substr(text, 0, 10)), env.atof(Substr(text, 10, 10)), env.atof(Substr(text, 20, 10))))
  {
  }

  /** ParseMolFileAtomLine: a line shorter than 34 columns is a
      FileParseException; otherwise the atom and its position. */
  function ParseAtomLine(text: string, env: Env): (r: Result<(Atom, Point)>)
    ensures r.Ok? <==> |text| >= 34
    ensures r.Err? ==> r.error.FormatError?
    ensures r.Ok? ==> r.value.0 == BuildAtom(ReadAtomFields(text), env)
  {
    if |text| < 34 then Err(FormatError("Atom line too short"))
    else
      CoordsAtof(text, env);
      var p := Coords(text, env);
      if p.Err? then Err(FormatError("Cannot process coordinates."))
      else Ok((BuildAtom(ReadAtomFields(text), env), p.value))
  }

  /** Round trip for the charge column: a writer stores a charge q between
      -3 and 3, q != 0, as the code 4 - q right-justified in columns 36-38,
      and the reader gets q back. */
  lemma AtomLineCharge(text: string, env: Env, q: int)
    requires |text| >= 39 && -3 <= q <= 3 && q != 0 && text[36..39] == RightJustify(4 - q, 3)
    ensures ParseAtomLine(text, env).Ok? && ParseAtomLine(text, env).value.0.formalCharge == q
  {
    ChargeColumn(text, q);
    assert ParseAtomLine(text, env).value.0 == BuildAtom(ReadAtomFields(text), env);
  }

  /** The charge column of such a line decodes to the code 4 - q. */
  lemma ChargeColumn(text: string, q: int)
    requires |text| >= 39 && -3 <= q <= 3 && q != 0 && text[36..39] == RightJustify(4 - q, 3)
    ensures ReadAtomFields(text).chg == 4 - q
  {
    RightJustifyToInt(4 - q, 3, true);
    RightJustifyToInt(0, 3, true);
    assert text[36..39] != "  0" by {
      assert RightJustify(0, 3) == "  0";
    }
    assert Present(text, 36, 3, "  0");
  }

  // ---------------------------------------------------------------------
  // Bond lines
  // ---------------------------------------------------------------------

  /** The bond an order code describes: 1-4 plain single, double, triple and
      aromatic bonds, 0 an unspecified bond, 5/6/7 query bonds accepting two
      orders, and 8 or any other code the any-bond query. */
  function BondOfCode(code: int, begin: int, end: int): (b: Bond)
    ensures b.begin == begin && b.end == end && b.dir == NoDir && !b.stereoAny && !b.isAromatic
    ensures b.reactStatus.None?
    ensures (0 <= code <= 4) <==> b.query.None?
    ensures !(0 <= code <= 4) ==> b.bondType == Unspecified
  {
    var plain := Bond(begin, end, Unspecified, NoDir, false, false, None, None);
    if code == 1 then plain.(bondType := Single)
    else if code == 2 then plain.(bondType := Double)
    else if code == 3 then plain.(bondType := Triple)
    else if code == 4 then plain.(bondType := Aromatic)
    else if code == 0 then plain
    else if code == 5 then plain.(query := Some(OrderPair(Single, Double)))
    else if code == 6 then plain.(query := Some(OrderPair(Single, Aromatic)))
    else if code == 7 then plain.(query := Some(OrderPair(Double, Aromatic)))
    else plain.(query := Some(Null(false)))
  }

  function OrderPair(s: BondType, t: BondType): Query {
    Or([EqualsQuery(BondOrder, TypeCode(s)), EqualsQuery(BondOrder, TypeCode(t))], false)
  }

  lemma OrderPairMatches(s: BondType, t: BondType, data: Feature -> int)
    ensures Matches(OrderPair(s, t), data) <==>
              data(BondOrder) == TypeCode(s) || data(BondOrder) == TypeCode(t)
  {
    var q := OrderPair(s, t);
    assert q.children[0] == EqualsQuery(BondOrder, TypeCode(s));
    assert q.children[1] == EqualsQuery(BondOrder, TypeCode(t));
  }

  /** What each query bond code accepts, as bond-order values. */
  lemma BondCodeMatches(code: int, data: Feature -> int)
    requires !(0 <= code <= 4)
    ensures code == 5 ==> (Matches(BondOfCode(code, 0, 1).query.value, data) <==>
                             data(BondOrder) == 1 || data(BondOrder) == 2)
    ensures code == 6 ==> (Matches(BondOfCode(code, 0, 1).query.value, data) <==>
                             data(BondOrder) == 1 || data(BondOrder) == 12)
    ensures code == 7 ==> (Matches(BondOfCode(code, 0, 1).query.value, data) <==>
                             data(BondOrder) == 2 || data(BondOrder) == 12)
    ensures !(5 <= code <= 7) ==> Matches(BondOfCode(code, 0, 1).query.value, data)
  {
    if code == 5 { OrderPairMatches(Single, Double, data); }
    if code == 6 { OrderPairMatches(Single, Aromatic, data); }
    if code == 7 { OrderPairMatches(Double, Aromatic, data); }
  }

  /** The order code a writer uses for a plain bond type. */
  function CodeOfType(t: BondType): (c: int)
    ensures 0 <= c <= 4
  {
    match t
    case Unspecified => 0
    case Single => 1
    case Double => 2
    case Triple => 3
    case Aromatic => 4
  }

  /** Round trip: every plain bond type survives being written as its code and
      read back. */
  lemma BondCodeRoundTrip(t: BondType, begin: int, end: int)
    ensures BondOfCode(CodeOfType(t), begin, end).bondType == t
    ensures BondOfCode(CodeOfType(t), begin, end).query.None?
  {
  }

  /** The stereo column: 0 none, 1 wedge, 6 dash, 3 either double bond (also
      marked stereo-any), 4 either single bond; other codes change nothing. */
  function ApplyStereo(b: Bond, code: int): (r: Bond)
    ensures code in {0, 1, 3, 4, 6} ==> r == b.(dir := r.dir, stereoAny := r.stereoAny)
    ensures code !in {0, 1, 3, 4, 6} ==> r == b
    ensures r.stereoAny <==> b.stereoAny || code == 3
  {
    if code == 0 then b.(dir := NoDir)
    else if code == 1 then b.(dir := BeginWedge)
    else if code == 6 then b.(dir := BeginDash)
    else if code == 3 then b.(dir := EitherDouble, stereoAny := true)
    else if code == 4 then b.(dir := UnknownDir)
    else b
  }

  /** The stereo code a writer uses for a bond direction. */
  function StereoCode(d: BondDir): int {
    match d
    case NoDir => 0
    case BeginWedge => 1
    case BeginDash => 6
    case EitherDouble => 3
    case UnknownDir => 4
  }

  lemma StereoRoundTrip(b: Bond, d: BondDir)
    ensures ApplyStereo(b, StereoCode(d)).dir == d
  {
  }

  /** The ring-topology column: 1 asks for a ring bond, 2 for a chain bond;
      the bond becomes a query bond on its order AND that ring predicate.
      Any other value is a FileParseException. */
  function ApplyTopology(b: Bond, topology: int): (r: Result<Bond>)
    ensures r.Ok? <==> topology == 1 || topology == 2
    ensures r.Ok? ==> r.value == b.(query := r.value.query)
    ensures r.Ok? ==>
              r.value.query == Some(And([EqualsQuery(BondOrder, TypeCode(b.bondType)),
                                         WithNegation(EqualsQuery(BondInRing, 1), topology == 2)], false))
    ensures r.Err? ==> r.error.FormatError?
  {
    if topology == 1 || topology == 2 then
      var q := WithNegation(EqualsQuery(BondInRing, 1), topology == 2);
      var qb := QueryBondOf(b);
      Ok(qb.(query := Some(Expand(qb.query.value, q, CombineAnd))))
    else Err(FormatError("Unrecognized bond topology specifier"))
  }

  /** An optional bond-line column whose failed cast the parser swallows:
      None when the column is absent, holds "  0", or does not cast. */
  function SwallowedField(text: string, pos: nat): (r: Option<int>)
    ensures r.Some? <==> Present(text, pos, 3, "  0") && ToInt(text[pos..pos + 3], false).Ok?
    ensures r.Some? ==> ToInt(text[pos..pos + 3], false) == Ok(r.value)
  {
    if Present(text, pos, 3, "  0") then
      var v := ToInt(text[pos..pos + 3], false);
      if v.Ok? then Some(v.value) else None
    else None
  }

  /** The optional columns of a bond line: stereo (9-11), topology (15-17)
      and reacting-center status (18-20). */
  function BondOptions(text: string, b0: Bond): (r: Result<Bond>)
    ensures r.Err? <==> SwallowedField(text, 15).Some? && SwallowedField(text, 15).value !in {1, 2}
    ensures r.Err? ==> r.error.FormatError?
    ensures r.Ok? ==> r.value.begin == b0.begin && r.value.end == b0.end && r.value.bondType == b0.bondType
    ensures r.Ok? ==> r.value.reactStatus == (if SwallowedField(text, 18).Some? then SwallowedField(text, 18) else b0.reactStatus)
  {
    var stereo := SwallowedField(text, 9);
    var b1 := if stereo.Some? then ApplyStereo(b0, stereo.value) else b0;
    var topology := SwallowedField(text, 15);
    var b2 :- if topology.Some? then ApplyTopology(b1, topology.value) else Ok(b1);
    var react := SwallowedField(text, 18);
    Ok(if react.Some? then b2.(reactStatus := react) else b2)
  }

  /** ParseMolFileBondLine. The two atom numbers and the order code are
      mandatory (a blank or short field is a FileParseException); the stereo,
      topology and reacting-center columns are optional, and a failed cast in
      any of them is ignored. */
  function ParseBondLine(text: string): (r: Result<Bond>)
    ensures |text| < 9 ==> r.Err? && r.error.FormatError?
    ensures r.Err? ==> r.error.FormatError?
    ensures |text| >= 9 ==>
              (r.Ok? <==> && ToInt(text[0..3], false).Ok? && ToInt(text[3..6], false).Ok?
                          && ToInt(text[6..9], false).Ok? && BondOptions(text, Bond(0, 0, Unspecified, NoDir, false, false, None, None)).Ok?)
    ensures r.Ok? ==>
              && ToInt(text[0..3], false) == Ok(r.value.begin + 1)
              && ToInt(text[3..6], false) == Ok(r.value.end + 1)
              && r.value.bondType == BondOfCode(ToInt(text[6..9], false).value, 0, 0).bondType
  {
    if |text| < 9 then Err(FormatError("Bond line too short"))
    else
      var idx1 :- Rethrow(ToInt(text[0..3], false), "Cannot convert field to int");
      var idx2 :- Rethrow(ToInt(text[3..6], false), "Cannot convert field to int");
      var bType :- Rethrow(ToInt(text[6..9], false), "Cannot convert field to int");
      BondOptions(text, BondOfCode(bType, idx1 - 1, idx2 - 1))
  }

  /** A field toInt rejects when blanks are not accepted. */
  predicate BlankField(f: string) {
    |f| > 0 && f[0] == ' ' && AllSpace(f)
  }

  /** A bond line is rejected exactly when it is shorter than nine columns,
      one of its three mandatory fields is blank, or its topology column
      holds a number other than 1 or 2. */
  lemma ParseBondLineFails(text: string)
    ensures ParseBondLine(text).Err? <==>
              || |text| < 9
              || BlankField(text[0..3]) || BlankField(text[3..6]) || BlankField(text[6..9])
              || (SwallowedField(text, 15).Some? && SwallowedField(text, 15).value !in {1, 2})
  {
    if |text| >= 9 {
      ToIntFailsOnlyOnBlank(text[0..3], false);
      ToIntFailsOnlyOnBlank(text[3..6], false);
      ToIntFailsOnlyOnBlank(text[6..9], false);
    }
  }

  /** A bond line whose columns 0-8 hold a writer's right-justified fields
      reads back the same atoms (1-based in the file) and order. */
  lemma BondLineRoundTrip(text: string, a1: int, a2: int, t: BondType)
    requires |text| >= 9
    requires text[0..3] == RightJustify(a1 + 1, 3) && text[3..6] == RightJustify(a2 + 1, 3)
    requires text[6..9] == RightJustify(CodeOfType(t), 3)
    requires !Present(text, 15, 3, "  0")
    ensures ParseBondLine(text).Ok?
    ensures ParseBondLine(text).value.begin == a1 && ParseBondLine(text).value.end == a2
    ensures ParseBondLine(text).value.bondType == t
  {
    RightJustifyToInt(a1 + 1, 3, false);
    RightJustifyToInt(a2 + 1, 3, false);
    RightJustifyToInt(CodeOfType(t), 3, false);
  }

  // ---------------------------------------------------------------------
  // Atom and bond blocks
  // ---------------------------------------------------------------------

  /** The loop of ParseMolBlockAtoms with the line parser as a parameter:
      n lines, each followed by a check that the read did not hit the end of
      the input. The atoms are appended, each with its position, and nothing
      else of the draft changes. */
  function AtomLoop(s: Stream, n: nat, m: Mol, parse: string -> Result<(Atom, Point)>): (r: Result<(Mol, Stream)>)
    ensures r.Ok? ==> |r.value.0.atoms| == |m.atoms| + n && |r.value.0.coords| == |m.coords| + n
    ensures r.Ok? ==> r.value.0.atoms[..|m.atoms|] == m.atoms && r.value.0.coords[..|m.coords|] == m.coords
    ensures r.Ok? ==> r.value.0 == m.(atoms := r.value.0.atoms, coords := r.value.0.coords)
    ensures r.Ok? ==> r.value.1 == ReadN(s, n).1
    decreases n
  {
    if n == 0 then Ok((m, s))
    else
      var next := GetLine(s);
      if next.1.eof then Err(FormatError("EOF hit while reading atoms"))
      else
        var ap :- parse(next.0);
        var m1 := AddAtom(m, ap.0, ap.1);
        var r :- AtomLoop(next.1, n - 1, m1, parse);
        assert r.0.atoms[..|m.atoms|] == m1.atoms[..|m.atoms|];
        assert r.0.coords[..|m.coords|] == m1.coords[..|m.coords|];
        Ok(r)
  }

  /** ParseMolBlockAtoms: the atom loop over ParseMolFileAtomLine. The atoms
      are appended in file order (ParseAtomsInOrder), each with its position,
      and nothing else of the draft changes. */
  function ParseAtoms(s: Stream, n: nat, m: Mol, env: Env): (r: Result<(Mol, Stream)>)
    ensures r.Ok? ==> |r.value.0.atoms| == |m.atoms| + n && |r.value.0.coords| == |m.coords| + n
    ensures r.Ok? ==> r.value.0.atoms[..|m.atoms|] == m.atoms && r.value.0.coords[..|m.coords|] == m.coords
    ensures r.Ok? ==> r.value.0 == m.(atoms := r.value.0.atoms, coords := r.value.0.coords)
    ensures r.Ok? ==> r.value.1 == ReadN(s, n).1
  {
    AtomLoop(s, n, m, l => ParseAtomLine(l, env))
  }

  /** A list whose prefix is `p + [x]` holds `x` just after `p`. */
  lemma PrefixLast<T>(s: seq<T>, p: seq<T>, x: T)
    requires |p| < |s| && s[..|p| + 1] == p + [x]
    ensures s[|p|] == x
  {
    assert s[|p|] == s[..|p| + 1][|p|];
  }

  /** One turn of the atom loop: the next line parses, and the loop goes on
      after it with that atom appended. */
  lemma AtomLoopStep(s: Stream, n: nat, m: Mol, parse: string -> Result<(Atom, Point)>)
    requires AtomLoop(s, n, m, parse).Ok? && n > 0
    ensures parse(GetLine(s).0).Ok?
    ensures var ap := parse(GetLine(s).0).value;
            AtomLoop(GetLine(s).1, n - 1, AddAtom(m, ap.0, ap.1), parse) == AtomLoop(s, n, m, parse)
  {
  }

  /** The atoms a list of lines gives, parsed one after the other and
      appended to `m`; the reference the atom loop is measured against. */
  function LinesAtoms(ls: seq<string>, m: Mol, parse: string -> Result<(Atom, Point)>): (r: Result<Mol>)
    ensures r.Ok? ==> |r.value.atoms| == |m.atoms| + |ls| && |r.value.coords| == |m.coords| + |ls|
    ensures r.Ok? ==> r.value.atoms[..|m.atoms|] == m.atoms && r.value.coords[..|m.coords|] == m.coords
    decreases |ls|
  {
    if |ls| == 0 then Ok(m)
    else
      var ap :- parse(ls[0]);
      var m1 := AddAtom(m, ap.0, ap.1);
      var r :- LinesAtoms(ls[1..], m1, parse);
      assert r.atoms[..|m.atoms|] == m1.atoms[..|m.atoms|];
      assert r.coords[..|m.coords|] == m1.coords[..|m.coords|];
      Ok(r)
  }

  /** The atom loop builds what its lines give. */
  lemma {:induction false} AtomLoopLines(s: Stream, n: nat, m: Mol, parse: string -> Result<(Atom, Point)>)
    requires AtomLoop(s, n, m, parse).Ok?
    ensures LinesAtoms(ReadN(s, n).0, m, parse) == Ok(AtomLoop(s, n, m, parse).value.0)
    decreases n
  {
    if n > 0 {
      AtomLoopStep(s, n, m, parse);
      ReadNStep(s, n);
      var ap := parse(GetLine(s).0).value;
      AtomLoopLines(GetLine(s).1, n - 1, AddAtom(m, ap.0, ap.1), parse);
      assert ReadN(s, n).0[1..] == ReadN(GetLine(s).1, n - 1).0;
    }
  }

  /** The lines give their atoms in order: the k-th new atom and position
      are what the k-th line parses as. */
  lemma {:induction false} LinesAtomsAt(ls: seq<string>, m: Mol, parse: string -> Result<(Atom, Point)>, k: nat)
    requires LinesAtoms(ls, m, parse).Ok? && k < |ls|
    ensures var r := LinesAtoms(ls, m, parse).value;
            parse(ls[k]) == Ok((r.atoms[|m.atoms| + k], r.coords[|m.coords| + k]))
    decreases |ls|
  {
    var ap := parse(ls[0]).value;
    var m1 := AddAtom(m, ap.0, ap.1);
    var r := LinesAtoms(ls, m, parse).value;
    assert LinesAtoms(ls[1..], m1, parse) == Ok(r);
    if k == 0 {
      PrefixLast(r.atoms, m.atoms, ap.0);
      PrefixLast(r.coords, m.coords, ap.1);
    } else {
      LinesAtomsAt(ls[1..], m1, parse, k - 1);
    }
  }

  /** The atoms come in file order: the k-th new atom and position are those
      of the k-th line read. */
  lemma ParseAtomsInOrder(s: Stream, n: nat, m: Mol, env: Env, k: nat)
    requires ParseAtoms(s, n, m, env).Ok? && k < n
    ensures ParseAtomLine(ReadN(s, n).0[k], env).Ok?
    ensures var r := ParseAtoms(s, n, m, env).value.0;
            var ap := ParseAtomLine(ReadN(s, n).0[k], env).value;
            r.atoms[|m.atoms| + k] == ap.0 && r.coords[|m.coords| + k] == ap.1
  {
    var parse := l => ParseAtomLine(l, env);
    AtomLoopLines(s, n, m, parse);
    LinesAtomsAt(ReadN(s, n).0, m, parse, k);
  }

  /** Sets the aromatic flag of one atom, when the index names one. */
  function MarkAromatic(atoms: seq<Atom>, i: int): (r: seq<Atom>)
    ensures |r| == |atoms|
    ensures forall k :: 0 <= k < |atoms| ==> r[k] == (if k == i then atoms[k].(isAromatic := true) else atoms[k])
  {
    if 0 <= i < |atoms| then atoms[i := atoms[i].(isAromatic := true)] else atoms
  }

  /** A bond line's effect on the draft: an aromatic bond marks itself and
      both ends aromatic; a wedge, dash or either-double bond makes chirality
      possible; then the bond is added. */
  function AddBondLine(m: Mol, b: Bond): (r: Result<Mol>)
    ensures r.Ok? <==> AddBond(m, b).Ok?
    ensures r.Ok? ==> |r.value.atoms| == |m.atoms|
    ensures r.Ok? ==> r.value.bonds == m.bonds + [AddedBond(b)]
    ensures r.Ok? && b.bondType == Aromatic ==> r.value.atoms[b.begin].isAromatic && r.value.atoms[b.end].isAromatic
    ensures r.Ok? ==> (r.value.chiralityPossible <==> m.chiralityPossible || b.dir !in {NoDir, UnknownDir})
    ensures r.Ok? ==> forall i :: 0 <= i < |m.atoms| ==> r.value.atoms[i] == m.atoms[i].(isAromatic := r.value.atoms[i].isAromatic)
  {
    var aromatic := b.bondType == Aromatic;
    var atoms := if aromatic then MarkAromatic(MarkAromatic(m.atoms, b.begin), b.end) else m.atoms;
    var b1 := AddedBond(b);
    var chiral := m.chiralityPossible || b.dir !in {NoDir, UnknownDir};
    var m1 := m.(atoms := atoms, chiralityPossible := chiral);
    assert {b1.begin, b1.end} == {b.begin, b.end};
    AddBond(m1, b1)
  }

  /** ParseMolBlockBonds: n bond lines, each followed by a check that the
      read did not hit the end of the input. Bonds are appended in file order
      (ParseBondsInOrder) and the graph invariants are kept. */
  function ParseBonds(s: Stream, n: nat, m: Mol): (r: Result<(Mol, Stream)>)
    ensures r.Ok? ==> |r.value.0.bonds| == |m.bonds| + n && r.value.0.bonds[..|m.bonds|] == m.bonds
    ensures r.Ok? ==> |r.value.0.atoms| == |m.atoms|
    ensures r.Ok? ==> r.value.1 == ReadN(s, n).1
    ensures r.Ok? && WellFormed(m) ==> WellFormed(r.value.0)
    ensures r.Ok? ==> r.value.0 == m.(atoms := r.value.0.atoms, bonds := r.value.0.bonds, chiralityPossible := r.value.0.chiralityPossible)
    decreases n
  {
    if n == 0 then Ok((m, s))
    else
      var next := GetLine(s);
      if next.1.eof then Err(FormatError("EOF hit while reading bonds"))
      else
        var b :- ParseBondLine(next.0);
        var m1 :- AddBondLine(m, b);
        BondLineKeepsWellFormed(m, b);
        var r :- ParseBonds(next.1, n - 1, m1);
        assert r.0.bonds[..|m.bonds|] == m1.bonds[..|m.bonds|];
        Ok(r)
  }

  lemma BondLineKeepsWellFormed(m: Mol, b: Bond)
    requires AddBondLine(m, b).Ok?
    ensures WellFormed(m) ==> WellFormed(AddBondLine(m, b).value)
  {
    if !WellFormed(m) {
      return;
    }
    var r := AddBondLine(m, b).value;
    var b1 := r.bonds[|m.bonds|];
    assert {b1.begin, b1.end} == {b.begin, b.end};
    forall k, l | 0 <= k < l < |r.bonds|
      ensures {r.bonds[k].begin, r.bonds[k].end} != {r.bonds[l].begin, r.bonds[l].end}
    {
      if l == |m.bonds| {
        assert !HasBondBetween(m.bonds, b.begin, b.end);
        assert r.bonds[k] == m.bonds[k];
      }
    }
  }

  /** A bond as the draft keeps it: an aromatic bond is flagged aromatic. */
  function AddedBond(b: Bond): (r: Bond)
    ensures r.bondType == b.bondType && r.begin == b.begin && r.end == b.end
    ensures r.isAromatic <==> b.isAromatic || b.bondType == Aromatic
  {
    if b.bondType == Aromatic then b.(isAromatic := true) else b
  }

  /** One turn of the bond loop: the next line parses as a bond, the draft
      takes it, and the loop goes on after it. */
  lemma ParseBondsStep(s: Stream, n: nat, m: Mol)
    requires ParseBonds(s, n, m).Ok? && n > 0
    ensures ParseBondLine(GetLine(s).0).Ok? && AddBondLine(m, ParseBondLine(GetLine(s).0).value).Ok?
    ensures ParseBonds(GetLine(s).1, n - 1, AddBondLine(m, ParseBondLine(GetLine(s).0).value).value) == ParseBonds(s, n, m)
  {
  }

  /** The bonds a list of lines gives, each parsed and added in turn; the
      reference the bond loop is measured against. */
  function LinesBonds(ls: seq<string>, m: Mol): (r: Result<Mol>)
    ensures r.Ok? ==> |r.value.bonds| == |m.bonds| + |ls| && r.value.bonds[..|m.bonds|] == m.bonds
    decreases |ls|
  {
    if |ls| == 0 then Ok(m)
    else
      var b :- ParseBondLine(ls[0]);
      var m1 :- AddBondLine(m, b);
      var r :- LinesBonds(ls[1..], m1);
      assert r.bonds[..|m.bonds|] == m1.bonds[..|m.bonds|];
      Ok(r)
  }

  /** The bond loop builds what its lines give. */
  lemma {:induction false} ParseBondsLines(s: Stream, n: nat, m: Mol)
    requires ParseBonds(s, n, m).Ok?
    ensures LinesBonds(ReadN(s, n).0, m) == Ok(ParseBonds(s, n, m).value.0)
    decreases n
  {
    if n > 0 {
      ParseBondsStep(s, n, m);
      ReadNStep(s, n);
      var m1 := AddBondLine(m, ParseBondLine(GetLine(s).0).value).value;
      ParseBondsLines(GetLine(s).1, n - 1, m1);
      assert ReadN(s, n).0[1..] == ReadN(GetLine(s).1, n - 1).0;
    }
  }

  /** One turn of the reference: the first line parses as a bond the
      draft takes, and the rest of the lines go on from there. */
  lemma LinesBondsStep(ls: seq<string>, m: Mol)
    requires LinesBonds(ls, m).Ok? && |ls| > 0
    ensures ParseBondLine(ls[0]).Ok? && AddBondLine(m, ParseBondLine(ls[0]).value).Ok?
    ensures LinesBonds(ls[1..], AddBondLine(m, ParseBondLine(ls[0]).value).value) == LinesBonds(ls, m)
  {
  }

  /** The lines give their bonds in order: the k-th new bond is the bond
      the k-th line parses as. */
  lemma {:induction false} LinesBondsAt(ls: seq<string>, m: Mol, k: nat)
    requires LinesBonds(ls, m).Ok? && k < |ls|
    ensures ParseBondLine(ls[k]).Ok?
    ensures LinesBonds(ls, m).value.bonds[|m.bonds| + k] == AddedBond(ParseBondLine(ls[k]).value)
    decreases |ls|
  {
    LinesBondsStep(ls, m);
    var b := ParseBondLine(ls[0]).value;
    var m1 := AddBondLine(m, b).value;
    var r := LinesBonds(ls, m).value;
    if k == 0 {
      assert r.bonds[..|m1.bonds|] == m.bonds + [AddedBond(b)];
      PrefixLast(r.bonds, m.bonds, AddedBond(b));
    } else {
      LinesBondsAt(ls[1..], m1, k - 1);
      assert ls[1..][k - 1] == ls[k];
    }
  }

  /** The bonds come in file order: the k-th new bond is the bond of the
      k-th line read, flagged aromatic when its type is. */
  lemma ParseBondsInOrder(s: Stream, n: nat, m: Mol, k: nat)
    requires ParseBonds(s, n, m).Ok? && k < n
    ensures ParseBondLine(ReadN(s, n).0[k]).Ok?
    ensures ParseBonds(s, n, m).value.0.bonds[|m.bonds| + k] == AddedBond(ParseBondLine(ReadN(s, n).0[k]).value)
  {
    ParseBondsLines(s, n, m);
    LinesBondsAt(ReadN(s, n).0, m, k);
  }
}

=== FILE: v3000atoms.dfy ===
/** The V3000 atom block: the atom symbol (an element, a generic query atom
    or a bracketed atom list), the KEY=VALUE atom properties, the atom line
    and the block between `BEGIN ATOM` and `END ATOM`.
 */
module V3000Atoms {
  import opened Wrappers
  import opened Text
  import opened Fields
  import opened Queries
  import opened Molecule
  import opened LineStream
  import opened V3000Lines
  import Properties
  import V2000

  // ---------------------------------------------------------------------
  // Atom symbols
  // ---------------------------------------------------------------------

  /** The atomic numbers of the pieces of an atom list, each trimmed, the
      empty ones skipped. */
  function ListNums(pieces: seq<string>, env: Env): (nums: seq<int>)
    ensures |nums| <= |pieces|
    decreases |pieces|
  {
    if |pieces| == 0 then []
    else
      var sym := Trim(pieces[0]);
      var rest := ListNums(pieces[1..], env);
      if sym == "" then rest else [env.atomicNumber(sym)] + rest
  }

  /** The atomic numbers the periodic table gives a list of symbols. */
  function Numbers(syms: seq<string>, env: Env): (nums: seq<int>)
    ensures |nums| == |syms|
  {
    seq(|syms|, k requires 0 <= k < |syms| => env.atomicNumber(syms[k]))
  }

  /** The query of a V3000 atom list: the first element's atomic-number
      query ORed with the others, its root negated for a NOT list. */
  function V30ListQuery(nums: seq<int>, negate: bool): (q: Query)
    requires |nums| > 0
    ensures q.negated == negate
  {
    WithNegation(Properties.OrAtomNums(EqualsQuery(AtomicNum, nums[0]), nums[1..]), negate)
  }

  /** An atom list accepts exactly the listed elements, or for a NOT list
      exactly the others. */
  lemma V30ListQueryMatches(nums: seq<int>, negate: bool, data: Feature -> int)
    requires |nums| > 0
    ensures Matches(V30ListQuery(nums, negate), data) <==> (data(AtomicNum) in nums) != negate
  {
    var q0 := EqualsQuery(AtomicNum, nums[0]);
    var q := Properties.OrAtomNums(q0, nums[1..]);
    Properties.OrAtomNumsMatches(q0, nums[1..], data);
    assert nums == [nums[0]] + nums[1..];
    if negate {
      WithNegationMatches(q, data);
    } else {
      assert WithNegation(q, false) == q;
    }
  }

  /** ParseV3000AtomSymbol. A token in brackets is an atom list (NOT makes
      it a negated one); `A`, `Q` and `*` are the generic query atoms, `D`
      and `T` hydrogen isotopes, `R#` an R-group atom, and anything else an
      element symbol looked up in the periodic table. As written, `R#`
      dereferences an atom it never allocated. */
  function V3000Symbol(token: string, negate: bool, env: Env, asWritten: bool): (r: Result<Atom>)
    ensures CharAt(token, 0) != '[' ==> (r.Err? <==> negate || (asWritten && token == "R#"))
    ensures CharAt(token, 0) == '[' && r.Ok? ==>
              r.value.query.Some? && r.value == NewAtom(r.value.atomicNum).(query := r.value.query)
    ensures r.Err? ==> r.error.FormatError? || r.error.Undefined?
    ensures !negate && token == "R#" && !asWritten ==> r == Ok(NewAtom(0))
  {
    if CharAt(token, 0) == '[' then
      if token[|token| - 1] != ']' then Err(FormatError("Bad atom token"))
      else
        var nums := ListNums(SplitAny(token[1..|token| - 1], {','}), env);
        if |nums| == 0 then Err(Undefined("atom list without elements"))
        else Ok(NewAtom(nums[0]).(query := Some(V30ListQuery(nums, negate))))
    else if negate then Err(FormatError("NOT tokens only supported for atom lists"))
    else if token == "R#" then
      if asWritten then Err(Undefined("R# atom never allocated")) else Ok(NewAtom(0))
    else if token in {"A", "Q", "*"} then
      Ok(NewAtom(0).(query := Some(V2000.GenericQuery(token)), noImplicit := true))
    else if token == "D" then Ok(NewAtom(1).(mass := 2.014))
    else if token == "T" then Ok(NewAtom(1).(mass := 3.016))
    else
      var n := env.atomicNumber(token);
      Ok(NewAtom(n).(mass := env.atomicWeight(n)))
  }

  /** A symbol a writer can put in an atom list: not empty, and free of
      white space and commas. */
  predicate ListSymbol(s: string) {
    Word(s) && NoneIn(s, {','})
  }

  lemma {:induction false} ListNumsOfSymbols(syms: seq<string>, env: Env)
    requires forall k :: 0 <= k < |syms| ==> ListSymbol(syms[k])
    ensures ListNums(syms, env) == Numbers(syms, env)
    decreases |syms|
  {
    if |syms| > 0 {
      var s := syms[0];
      assert ListSymbol(s);
      TrimKeeps(s);
      assert forall k :: 0 <= k < |syms| - 1 ==> syms[1..][k] == syms[k + 1];
      ListNumsOfSymbols(syms[1..], env);
      assert Numbers(syms, env) == [env.atomicNumber(s)] + Numbers(syms[1..], env);
    }
  }

  /** Round trip: an atom list written as `[S1,S2,...]` (behind NOT or not)
      reads back as a query atom of the first element that accepts exactly
      the listed elements, or exactly the others. */
  lemma AtomListWritten(syms: seq<string>, negate: bool, env: Env, asWritten: bool, data: Feature -> int)
    requires |syms| >= 1 && forall k :: 0 <= k < |syms| ==> ListSymbol(syms[k])
    ensures var r := V3000Symbol("[" + Join(syms, ',') + "]", negate, env, asWritten);
            && r.Ok? && r.value.atomicNum == env.atomicNumber(syms[0])
            && (Matches(r.value.query.value, data) <==> (data(AtomicNum) in Numbers(syms, env)) != negate)
  {
    var inner := Join(syms, ',');
    var token := "[" + inner + "]";
    assert token[1..|token| - 1] == inner;
    SplitAnyJoin(syms, ',');
    ListNumsOfSymbols(syms, env);
    V30ListQueryMatches(Numbers(syms, env), negate, data);
  }

  // ---------------------------------------------------------------------
  // Atom properties
  // ---------------------------------------------------------------------

  /** The atom property keys the reader acts on. */
  const AtomKeys: set<string> := {"CHG", "RAD", "MASS", "CFG", "HCOUNT", "UNSAT", "RBCNT", "AAMAP"}

  /** The fields an atom property may change. */
  const PropFields: set<AtomField> := {ChargeField, RadicalField, MassField, QueryField, IntPropsField}

  /** One KEY=VALUE property of an atom. CHG sets the charge of a plain atom
      and ANDs a charge query onto a query atom; RAD maps 1 and 3 to two
      radical electrons and 2 to one; MASS sets the mass of a plain atom and
      ANDs a truncated-mass query onto a query atom; CFG records the parity;
      HCOUNT, UNSAT and RBCNT turn the atom into a query atom and AND the
      matching query onto it; AAMAP records the atom-map number. Any other
      key is ignored. */
  function V30AtomProp(a: Atom, key: string, val: string, env: Env): (r: Result<Atom>)
    ensures key !in AtomKeys ==> r == Ok(a)
    ensures r.Ok? ==> AgreeExcept(a, r.value, PropFields)
    ensures r.Ok? && a.query.Some? ==> r.value.query.Some?
    ensures r.Err? ==> r.error.FormatError? || r.error.CastError?
  {
    if key == "CHG" then
      var c :- ToInt(val, false);
      if a.query.None? then Ok(a.(formalCharge := c)) else Ok(AndQuery(a, EqualsQuery(FormalCharge, c)))
    else if key == "RAD" then
      var code :- ToInt(val, false);
      var e := Properties.RadicalElectrons(code);
      if code == 0 then Ok(a)
      else if e.Some? then Ok(a.(numRadicals := e.value))
      else Err(FormatError("Unrecognized RAD value"))
    else if key == "MASS" then
      var v := ToDouble(val, true, env.atof);
      if v.Err? then Err(FormatError("Bad value for MASS"))
      else if v.value <= 0.0 then Err(FormatError("Bad value for MASS"))
      else if a.query.None? then Ok(a.(mass := v.value))
      else Ok(AndQuery(a, EqualsQuery(Mass, Trunc(v.value))))
    else if key == "CFG" then
      var cfg :- ToInt(val, false);
      if cfg == 0 then Ok(a)
      else if 1 <= cfg <= 3 then Ok(a.(intProps := a.intProps["molParity" := cfg]))
      else Err(FormatError("Unrecognized CFG value"))
    else if key == "HCOUNT" then
      if val == "0" then Ok(a)
      else
        var h :- ToInt(val, false);
        Ok(AndQuery(a, EqualsQuery(HCount, if h == -1 then 0 else h)))
    else if key == "UNSAT" then
      if val == "1" then Ok(AndQuery(a, EqualsQuery(Unsaturated, 1))) else Ok(a)
    else if key == "RBCNT" then
      if val == "0" then Ok(a)
      else
        var n :- ToInt(val, false);
        Ok(AndQuery(a, EqualsQuery(RingBondCount, if n == -1 then 0 else n)))
    else if key == "AAMAP" then
      if val == "0" then Ok(a)
      else
        var n :- ToInt(val, false);
        Ok(a.(intProps := a.intProps["molAtomMapNumber" := n]))
    else Ok(a)
  }

  /** A written charge: a plain atom takes it, a query atom additionally
      demands it. */
  lemma ChargePropWritten(a: Atom, c: int, env: Env, data: Feature -> int)
    ensures var r := V30AtomProp(a, "CHG", SignedDigits(c), env);
            && r.Ok?
            && (a.query.None? ==> r.value == a.(formalCharge := c))
            && (a.query.Some? ==>
                  && r.value.formalCharge == a.formalCharge
                  && (Matches(r.value.query.value, data) <==> Matches(a.query.value, data) && data(FormalCharge) == c))
  {
    SignedDigitsToInt(c);
    if a.query.Some? {
      AndQueryMatches(a, EqualsQuery(FormalCharge, c), data);
    }
  }

  /** A written radical code is accepted exactly when the V2000 RAD line
      accepts it (or it is 0, no radical), with the same electron count. */
  lemma RadicalPropWritten(a: Atom, code: int, env: Env)
    ensures var r := V30AtomProp(a, "RAD", SignedDigits(code), env);
            && (r.Ok? <==> 0 <= code <= 3)
            && (code == 0 ==> r == Ok(a))
            && (r.Ok? && code != 0 ==> r.value == a.(numRadicals := Properties.RadicalElectrons(code).value))
  {
    SignedDigitsToInt(code);
  }

  /** A written hydrogen count other than 0 makes the atom a query atom that
      demands everything it demanded before and that hydrogen count, -1
      standing for 0. */
  lemma HCountPropWritten(a: Atom, h: int, env: Env, data: Feature -> int)
    requires h != 0
    ensures var r := V30AtomProp(a, "HCOUNT", SignedDigits(h), env);
            && r.Ok? && r.value.query.Some?
            && (Matches(r.value.query.value, data) <==>
                  Matches(Upgrade(a).query.value, data) && data(HCount) == (if h == -1 then 0 else h))
  {
    SignedDigitsToInt(h);
    AndQueryMatches(a, EqualsQuery(HCount, if h == -1 then 0 else h), data);
  }

  /** ParseV3000AtomProps: every remaining token must be a KEY=VALUE pair;
      the properties are applied in order. */
  function V30AtomProps(a: Atom, tokens: seq<string>, env: Env): (r: Result<Atom>)
    ensures r.Ok? ==> AgreeExcept(a, r.value, PropFields)
    ensures r.Ok? ==> forall k :: 0 <= k < |tokens| ==> SplitAssign(tokens[k]).Some?
    ensures r.Ok? && a.query.Some? ==> r.value.query.Some?
    decreases |tokens|
  {
    if |tokens| == 0 then Ok(a)
    else
      var kv := SplitAssign(tokens[0]);
      if kv.None? then Err(FormatError("Invalid atom property"))
      else
        var a1 :- V30AtomProp(a, kv.value.0, kv.value.1, env);
        var r :- V30AtomProps(a1, tokens[1..], env);
        assert forall k :: 1 <= k < |tokens| ==> tokens[k] == tokens[1..][k - 1];
        Ok(r)
  }

  /** Properties with keys the reader does not know leave the atom alone. */
  lemma {:induction false} UnknownPropsIgnored(a: Atom, keys: seq<string>, vals: seq<string>, env: Env)
    requires |keys| == |vals|
    requires forall k :: 0 <= k < |keys| ==> NoneIn(keys[k], {'='}) && NoneIn(vals[k], {'='}) && Upper(keys[k]) !in AtomKeys
    ensures V30AtomProps(a, seq(|keys|, k requires 0 <= k < |keys| => keys[k] + "=" + vals[k]), env) == Ok(a)
    decreases |keys|
  {
    var ts := seq(|keys|, k requires 0 <= k < |keys| => keys[k] + "=" + vals[k]);
    if |keys| > 0 {
      SplitAssignWritten(keys[0], vals[0]);
      UnknownPropsIgnored(a, keys[1..], vals[1..], env);
      assert ts[1..] == seq(|keys| - 1, k requires 0 <= k < |keys| - 1 => keys[1..][k] + "=" + vals[1..][k]);
    }
  }

  // ---------------------------------------------------------------------
  // Atom lines and the atom block
  // ---------------------------------------------------------------------

  /** The atom a line's symbol and map number give, before its properties
      are applied. */
  function BaseAtom(sym: Atom, mapNum: int): (a: Atom)
    ensures a == sym.(intProps := sym.intProps["molAtomMapNumber" := mapNum])
  {
    sym.(intProps := sym.intProps["molAtomMapNumber" := mapNum])
  }

  /** The effect of an accepted atom line: the atom is appended with its
      position and filed under its number (the first atom filed under a
      number keeps it). */
  function PlaceAtom(m: Mol, a: Atom, p: Point, molIdx: int): (r: Mol)
    ensures r.atoms == m.atoms + [a] && r.coords == m.coords + [p]
    ensures r.atomBookmarks == Bookmark(m.atomBookmarks, molIdx, |m.atoms|)
    ensures r == m.(atoms := r.atoms, coords := r.coords, atomBookmarks := r.atomBookmarks)
  {
    AddAtom(m, a, p).(atomBookmarks := Bookmark(m.atomBookmarks, molIdx, |m.atoms|))
  }

  /** One line of the atom block: the atom number, an optional NOT, the
      symbol, three coordinates, the map number, then properties. A line
      that ends before the map number is rejected. */
  function V3000AtomLine(line: string, m: Mol, env: Env, asWritten: bool): (r: Result<Mol>)
    ensures r.Ok? ==> |Tokens(line)| >= 6
    ensures r.Ok? ==> |r.value.atoms| == |m.atoms| + 1 && r.value.atoms[..|m.atoms|] == m.atoms
    ensures r.Ok? ==> |r.value.coords| == |m.coords| + 1 && r.value.coords[..|m.coords|] == m.coords
    ensures r.Ok? ==> r.value == m.(atoms := r.value.atoms, coords := r.value.coords, atomBookmarks := r.value.atomBookmarks)
    ensures r.Ok? ==> r.value.atomBookmarks == Bookmark(m.atomBookmarks, AsU32(Atoi(Tokens(line)[0])), |m.atoms|)
  {
    var ts := Tokens(line);
    if |ts| < 2 then Err(FormatError("Bad atom line"))
    else
      var molIdx := AsU32(Atoi(ts[0]));
      var negate := ts[1] == "NOT";
      var at := if negate then 2 else 1;
      if |ts| <= at then Err(FormatError("Bad atom line"))
      else
        var sym :- V3000Symbol(ts[at], negate, env, asWritten);
        if |ts| < at + 5 then Err(FormatError("Bad atom line"))
        else
          var p := Point(env.atof(ts[at + 1]), env.atof(ts[at + 2]), env.atof(ts[at + 3]));
          var a :- V30AtomProps(BaseAtom(sym, Atoi(ts[at + 4])), ts[at + 5..], env);
          var r := PlaceAtom(m, a, p, molIdx);
          assert r.atoms[..|m.atoms|] == m.atoms && r.coords[..|m.coords|] == m.coords;
          Ok(r)
  }

  /** What a writer puts on an atom line for an element: its number, its
      symbol, the coordinate texts and the map number. */
  datatype AtomSpec = AtomSpec(idx: nat, sym: string, xs: string, ys: string, zs: string, mapNum: nat)

  /** A spec a writer can produce for an element atom: the number fits an
      unsigned int, and the symbol is a word that the reader takes for an
      element (no list, no generic or special symbol, not NOT). */
  predicate ElementSpec(a: AtomSpec) {
    && a.idx < U32
    && Word(a.sym) && a.sym[0] != '[' && a.sym !in {"NOT", "R#", "A", "Q", "*", "D", "T"}
    && Word(a.xs) && Word(a.ys) && Word(a.zs)
  }

  /** The tokens of an atom line. */
  function SpecWords(a: AtomSpec): (ws: seq<string>)
    ensures |ws| == 6
  {
    [SignedDigits(a.idx), a.sym, a.xs, a.ys, a.zs, SignedDigits(a.mapNum)]
  }

  /** The atom a spec describes, as the reader builds it. */
  function SpecAtom(a: AtomSpec, env: Env): (r: Atom)
    ensures r.atomicNum == env.atomicNumber(a.sym) && r.query.None?
    ensures r.intProps == map["molAtomMapNumber" := a.mapNum]
  {
    var n := env.atomicNumber(a.sym);
    NewAtom(n).(mass := env.atomicWeight(n), intProps := map["molAtomMapNumber" := a.mapNum])
  }

  function SpecPoint(a: AtomSpec, env: Env): Point {
    Point(env.atof(a.xs), env.atof(a.ys), env.atof(a.zs))
  }

  lemma SpecWordsAreWords(a: AtomSpec)
    requires ElementSpec(a)
    ensures Words(SpecWords(a))
  {
    SignedDigitsToInt(a.idx);
    SignedDigitsToInt(a.mapNum);
    var ws := SpecWords(a);
    assert ws[0] == SignedDigits(a.idx) && ws[5] == SignedDigits(a.mapNum);
  }

  /** Round trip: an element atom written as a line of blank-separated
      tokens reads back as that element at the written position, filed
      under the written number. */
  lemma V3000AtomLineWritten(a: AtomSpec, m: Mol, env: Env, asWritten: bool)
    requires ElementSpec(a)
    ensures V3000AtomLine(Spaced(SpecWords(a)), m, env, asWritten) ==
              Ok(PlaceAtom(m, SpecAtom(a, env), SpecPoint(a, env), a.idx))
  {
    var ws := SpecWords(a);
    SpecWordsAreWords(a);
    TokensSpaced(ws);
    SignedDigitsToInt(a.idx);
    SignedDigitsToInt(a.mapNum);
    assert ws[6..] == [];
    assert CharAt(a.sym, 0) != '[';
  }

  /** The physical line of a written atom. */
  function AtomText(a: AtomSpec): string {
    V30Prefix + Spaced(SpecWords(a))
  }

  /** The expected result of reading written atoms: each placed in turn. */
  function PlaceAll(m: Mol, specs: seq<AtomSpec>, env: Env): (r: Mol)
    ensures |r.atoms| == |m.atoms| + |specs|
    decreases |specs|
  {
    if |specs| == 0 then m
    else PlaceAll(PlaceAtom(m, SpecAtom(specs[0], env), SpecPoint(specs[0], env), specs[0].idx), specs[1..], env)
  }

  /** Reading `n` atom lines: each a V3000 logical line. */
  function AtomLines(s: Stream, n: nat, m: Mol, env: Env, asWritten: bool): (r: Result<(Mol, Stream)>)
    ensures r.Ok? ==> |r.value.0.atoms| == |m.atoms| + n && r.value.0.atoms[..|m.atoms|] == m.atoms
    ensures r.Ok? ==> |r.value.0.coords| == |m.coords| + n
    ensures r.Ok? ==> r.value.0 == m.(atoms := r.value.0.atoms, coords := r.value.0.coords, atomBookmarks := r.value.0.atomBookmarks)
    ensures r.Ok? && n > 0 ==> Remaining(r.value.1) < Remaining(s)
    ensures r.Ok? ==> Remaining(r.value.1) <= Remaining(s)
    decreases n
  {
    if n == 0 then Ok((m, s))
    else
      var ls :- V30Line(s);
      var m1 :- V3000AtomLine(ls.0, m, env, asWritten);
      var r :- AtomLines(ls.1, n - 1, m1, env, asWritten);
      assert r.0.atoms[..|m.atoms|] == m1.atoms[..|m.atoms|];
      Ok(r)
  }

  /** The lines of written atoms, in order. */
  predicate AtomsRead(s: Stream, specs: seq<AtomSpec>, m: Mol, env: Env, asWritten: bool, after: Stream) {
    AtomLines(s, |specs|, m, env, asWritten) == Ok((PlaceAll(m, specs, env), after))
  }

  /** The physical line of a written atom reads back as its tokens joined
      by blanks. */
  lemma AtomTextRead(a: AtomSpec, more: seq<string>)
    requires ElementSpec(a)
    ensures V30Line(Open(Render([AtomText(a)] + more))) == Ok((Spaced(SpecWords(a)), Open(Render(more))))
  {
    var ws := SpecWords(a);
    SpecWordsAreWords(a);
    SpacedOneLine(ws);
    SpacedLast(ws);
    SignedDigitsToInt(a.mapNum);
    V30LastLine(Spaced(ws), more);
  }

  /** AtomLines takes one logical line, places its atom, and goes on. */
  lemma AtomLinesUnfold(s: Stream, n: nat, m: Mol, env: Env, asWritten: bool, l: string, s1: Stream, m1: Mol, r: (Mol, Stream))
    requires n > 0
    requires V30Line(s) == Ok((l, s1))
    requires V3000AtomLine(l, m, env, asWritten) == Ok(m1)
    requires AtomLines(s1, n - 1, m1, env, asWritten) == Ok(r)
    ensures AtomLines(s, n, m, env, asWritten) == Ok(r)
  {
  }

  lemma AtomTextsCons(specs: seq<AtomSpec>, rest: seq<string>)
    requires |specs| > 0
    ensures AtomTexts(specs) + rest == [AtomText(specs[0])] + (AtomTexts(specs[1..]) + rest)
  {
    ConsAppend(AtomText(specs[0]), AtomTexts(specs[1..]), rest);
  }

  /** One written atom line in front of further ones. */
  lemma AtomLinesStep(specs: seq<AtomSpec>, rest: seq<string>, m: Mol, env: Env, asWritten: bool)
    requires |specs| > 0 && ElementSpec(specs[0])
    requires AtomsRead(Open(Render(AtomTexts(specs[1..]) + rest)), specs[1..],
                       PlaceAtom(m, SpecAtom(specs[0], env), SpecPoint(specs[0], env), specs[0].idx), env, asWritten,
                       Open(Render(rest)))
    ensures AtomsRead(Open(Render(AtomTexts(specs) + rest)), specs, m, env, asWritten, Open(Render(rest)))
  {
    var a := specs[0];
    var more := AtomTexts(specs[1..]) + rest;
    var m1 := PlaceAtom(m, SpecAtom(a, env), SpecPoint(a, env), a.idx);
    AtomTextsCons(specs, rest);
    AtomTextRead(a, more);
    V3000AtomLineWritten(a, m, env, asWritten);
    AtomLinesUnfold(Open(Render(AtomTexts(specs) + rest)), |specs|, m, env, asWritten, Spaced(SpecWords(a)), Open(Render(more)), m1,
                    (PlaceAll(m1, specs[1..], env), Open(Render(rest))));
  }

  /** The physical lines of written atoms. */
  function AtomTexts(specs: seq<AtomSpec>): (ls: seq<string>)
    ensures |ls| == |specs|
    decreases |specs|
  {
    if |specs| == 0 then [] else [AtomText(specs[0])] + AtomTexts(specs[1..])
  }

  /** Round trip: element atoms written one per line read back, in order,
      as those atoms at those positions, and the stream is left just after
      them. */
  lemma {:induction false} AtomLinesWritten(specs: seq<AtomSpec>, rest: seq<string>, m: Mol, env: Env, asWritten: bool)
    requires forall k :: 0 <= k < |specs| ==> ElementSpec(specs[k])
    ensures AtomsRead(Open(Render(AtomTexts(specs) + rest)), specs, m, env, asWritten, Open(Render(rest)))
    decreases |specs|
  {
    if |specs| == 0 {
      assert AtomTexts(specs) + rest == rest;
    } else {
      assert ElementSpec(specs[0]);
      assert forall k :: 0 <= k < |specs| - 1 ==> specs[1..][k] == specs[k + 1];
      var m1 := PlaceAtom(m, SpecAtom(specs[0], env), SpecPoint(specs[0], env), specs[0].idx);
      AtomLinesWritten(specs[1..], rest, m1, env, asWritten);
      AtomLinesStep(specs, rest, m, env, asWritten);
    }
  }

  /** ParseV3000AtomBlock: a positive atom count (a zero count violates the
      block's precondition), `BEGIN ATOM`, the atom lines, `END ATOM`; then
      the header's 2D/3D label settles the conformer. */
  function AtomBlock(s: Stream, n: nat, m: Mol, env: Env, asWritten: bool): (r: Result<(Mol, Stream)>)
    ensures n == 0 ==> r.Err? && r.error.InvariantError?
    ensures r.Ok? ==> |r.value.0.atoms| == |m.atoms| + n && r.value.0.atoms[..|m.atoms|] == m.atoms
    ensures r.Ok? ==> r.value.0.bonds == m.bonds && r.value.0.dimHint == NoHint
    ensures r.Ok? ==> Remaining(r.value.1) < Remaining(s)
  {
    if n == 0 then Err(InvariantError("bad atom count"))
    else
      var l0 :- V30Line(s);
      if !StartsWith(l0.0, "BEGIN ATOM") then Err(FormatError("BEGIN ATOM line not found"))
      else
        var body :- AtomLines(l0.1, n, m, env, asWritten);
        var l1 :- V30Line(body.1);
        if !StartsWith(l1.0, "END ATOM") then Err(FormatError("END ATOM line not found"))
        else Ok((SettleDim(body.0), l1.1))
  }
}

=== FILE: v3000bonds.dfy ===
/** The V3000 bond block: the bond line (index, order code, the two atoms'
    numbers, then KEY=VALUE properties) and the block between `BEGIN BOND`
    and `END BOND`. Bond ends name atoms by the numbers the atom lines
    filed them under.
 */
module V3000Bonds {
  import opened Wrappers
  import opened Text
  import opened Fields
  import opened Queries
  import opened Molecule
  import opened LineStream
  import opened V3000Lines
  import V2000

  /** The bond property keys the reader acts on (STBOX is read and
      ignored). */
  const BondKeys: set<string> := {"CFG", "TOPO", "RXCTR"}

  /** The ring-topology query a TOPO value asks for: 1 a ring bond, 2 a
      chain bond. */
  function TopoQuery(chain: bool): (q: Query)
    ensures q == WithNegation(EqualsQuery(BondInRing, 1), chain)
  {
    WithNegation(EqualsQuery(BondInRing, 1), chain)
  }

  /** One KEY=VALUE property of a bond of order code `bType`, and whether
      it makes chirality possible. CFG (read with atoi, as unsigned) gives 1
      a wedge and 3 a dash, both flagging chirality, and 2 an unknown
      direction on a single bond or an either-double bond on a double bond.
      TOPO other than 0 makes the bond a query bond and ANDs the ring
      topology onto it. RXCTR records the reacting-center status. */
  function V30BondProp(b: Bond, bType: nat, key: string, val: string): (r: Result<(Bond, bool)>)
    ensures key !in BondKeys ==> r == Ok((b, false))
    ensures r.Ok? ==> && r.value.0.begin == b.begin && r.value.0.end == b.end
                      && r.value.0.bondType == b.bondType && r.value.0.isAromatic == b.isAromatic
    ensures r.Ok? && r.value.1 ==> key == "CFG" && r.value.0.dir in {BeginWedge, BeginDash}
    ensures r.Ok? && b.dir !in {BeginWedge, BeginDash} && r.value.0.dir in {BeginWedge, BeginDash} ==> r.value.1
    ensures r.Err? ==> r.error.FormatError? || r.error.CastError?
  {
    if key == "CFG" then
      var cfg := AsU32(Atoi(val));
      if cfg == 0 then Ok((b, false))
      else if cfg == 1 then Ok((b.(dir := BeginWedge), true))
      else if cfg == 2 then
        if bType == 1 then Ok((b.(dir := UnknownDir), false))
        else if bType == 2 then Ok((b.(dir := EitherDouble, stereoAny := true), false))
        else Ok((b, false))
      else if cfg == 3 then Ok((b.(dir := BeginDash), true))
      else Err(FormatError("bad bond CFG"))
    else if key == "TOPO" then
      if val == "0" then Ok((b, false))
      else
        var qb := if b.query.None? then QueryBondOf(b) else b;
        if val == "1" || val == "2" then
          Ok((qb.(query := Some(Expand(qb.query.value, TopoQuery(val == "2"), CombineAnd))), false))
        else Err(FormatError("bad bond TOPO"))
    else if key == "RXCTR" then
      var rs :- ToInt(val, false);
      Ok((b.(reactStatus := Some(rs)), false))
    else Ok((b, false))
  }

  /** The CFG code a writer uses for a bond direction. */
  function CfgCode(d: BondDir): (c: nat)
    ensures c <= 3
  {
    match d
    case NoDir => 0
    case BeginWedge => 1
    case UnknownDir => 2
    case EitherDouble => 2
    case BeginDash => 3
  }

  /** Round trip: a written CFG value gives the bond back its direction
      (unknown on a single bond, either-double on a double bond), and flags
      chirality exactly for wedges and dashes. */
  lemma CfgWritten(b: Bond, bType: nat, d: BondDir)
    requires d == UnknownDir ==> bType == 1
    requires d == EitherDouble ==> bType == 2
    ensures var r := V30BondProp(b, bType, "CFG", SignedDigits(CfgCode(d)));
            && r.Ok?
            && (d == NoDir ==> r.value.0 == b)
            && (d != NoDir ==> r.value.0.dir == d)
            && (r.value.1 <==> d in {BeginWedge, BeginDash})
  {
    SignedDigitsToInt(CfgCode(d));
  }

  /** A written TOPO value of 1 or 2 on a plain bond gives the same query
      bond as the V2000 topology column with that value. */
  lemma TopoAgreesWithV2000(b: Bond, bType: nat, t: int)
    requires b.query.None? && (t == 1 || t == 2)
    ensures V30BondProp(b, bType, "TOPO", SignedDigits(t)) == Ok((V2000.ApplyTopology(b, t).value, false))
  {
    SignedDigitsToInt(t);
    assert SignedDigits(1) == "1" && SignedDigits(2) == "2";
  }

  /** The bond properties in order; chirality is possible once any of them
      says so. */
  function V30BondProps(b: Bond, bType: nat, tokens: seq<string>): (r: Result<(Bond, bool)>)
    ensures r.Ok? ==> && r.value.0.begin == b.begin && r.value.0.end == b.end
                      && r.value.0.bondType == b.bondType && r.value.0.isAromatic == b.isAromatic
    ensures r.Ok? ==> forall k :: 0 <= k < |tokens| ==> SplitAssign(tokens[k]).Some?
    decreases |tokens|
  {
    if |tokens| == 0 then Ok((b, false))
    else
      var kv := SplitAssign(tokens[0]);
      if kv.None? then Err(FormatError("bad bond property"))
      else
        var b1 :- V30BondProp(b, bType, kv.value.0, kv.value.1);
        var r :- V30BondProps(b1.0, bType, tokens[1..]);
        assert forall k :: 1 <= k < |tokens| ==> tokens[k] == tokens[1..][k - 1];
        Ok((r.0, b1.1 || r.1))
  }

  /** Every atom number filed so far names an atom of the draft. */
  predicate MarksInRange(m: Mol) {
    forall k :: k in m.atomBookmarks ==> m.atomBookmarks[k] < |m.atoms|
  }

  /** The bond an order code gives, before its properties: code 4 is also
      flagged aromatic. */
  function CodeBond(bType: nat): (b: Bond)
    ensures b.isAromatic <==> bType == 4
    ensures b == V2000.BondOfCode(bType, 0, 0).(isAromatic := b.isAromatic)
  {
    var b0 := V2000.BondOfCode(bType, 0, 0);
    if bType == 4 then b0.(isAromatic := true) else b0
  }

  lemma WellFormedAfterAdd(m: Mol, b: Bond)
    requires AddBond(m, b).Ok?
    ensures WellFormed(m) ==> WellFormed(AddBond(m, b).value)
  {
    if WellFormed(m) {
      AddBondKeepsWellFormed(m, b);
    }
  }

  /** The effect of an accepted bond: added between the atoms the two
      numbers name, its ends marked aromatic when it is, chirality flagged
      when a property said so, and the bond filed under its number. */
  function PlaceBond(m: Mol, b: Bond, chiral: bool, bondIdx: int): (r: Result<Mol>)
    ensures r.Ok? <==> AddBond(m, b).Ok?
    ensures r.Ok? ==> r.value.bonds == m.bonds + [b] && |r.value.atoms| == |m.atoms|
    ensures r.Ok? ==> r.value.bondBookmarks == Bookmark(m.bondBookmarks, bondIdx, |m.bonds|)
    ensures r.Ok? ==> r.value.chiralityPossible == (m.chiralityPossible || chiral)
    ensures r.Ok? ==> r.value == m.(atoms := r.value.atoms, bonds := r.value.bonds,
                                    chiralityPossible := r.value.chiralityPossible, bondBookmarks := r.value.bondBookmarks)
    ensures r.Ok? && b.isAromatic ==> r.value.atoms[b.begin].isAromatic && r.value.atoms[b.end].isAromatic
    ensures r.Ok? ==> forall i :: 0 <= i < |m.atoms| ==> r.value.atoms[i] == m.atoms[i].(isAromatic := r.value.atoms[i].isAromatic)
    ensures r.Ok? && WellFormed(m) ==> WellFormed(r.value)
  {
    var m1 :- AddBond(m.(chiralityPossible := m.chiralityPossible || chiral), b);
    WellFormedAfterAdd(m.(chiralityPossible := m.chiralityPossible || chiral), b);
    var atoms := if b.isAromatic then V2000.MarkAromatic(V2000.MarkAromatic(m1.atoms, b.begin), b.end) else m1.atoms;
    Ok(m1.(atoms := atoms, bondBookmarks := Bookmark(m.bondBookmarks, bondIdx, |m.bonds|)))
  }

  /** What an accepted bond line did to the draft: one bond appended
      between the atoms filed under the line's third and fourth columns,
      the bond filed under the first, atoms kept in number, the atom
      bookmarks and coordinates untouched. */
  predicate BondAdded(m: Mol, r: Mol, ps: seq<string>) {
    && |ps| >= 4
    && |r.bonds| == |m.bonds| + 1 && r.bonds[..|m.bonds|] == m.bonds
    && |r.atoms| == |m.atoms|
    && AsU32(Atoi(ps[2])) in m.atomBookmarks && AsU32(Atoi(ps[3])) in m.atomBookmarks
    && r.bonds[|m.bonds|].begin == m.atomBookmarks[AsU32(Atoi(ps[2]))]
    && r.bonds[|m.bonds|].end == m.atomBookmarks[AsU32(Atoi(ps[3]))]
    && r.bondBookmarks == Bookmark(m.bondBookmarks, AsU32(Atoi(ps[0])), |m.bonds|)
    && Untouched(m, r)
  }

  /** The parts of the draft the bond block leaves alone. */
  predicate Untouched(m: Mol, r: Mol) {
    && r.name == m.name && r.info == m.info && r.comments == m.comments
    && r.dimHint == m.dimHint && r.conf3D == m.conf3D && r.needsQueryScan == m.needsQueryScan
    && r.atomBookmarks == m.atomBookmarks && r.coords == m.coords
  }

  /** One line of the bond block: the line is trimmed and split at runs of
      blanks; index, order code and the two atom numbers are read with atoi
      as unsigned ints. An atom number no atom was filed under fails the
      bookmark lookup's precondition. */
  function V3000BondLine(line: string, m: Mol): (r: Result<Mol>)
    ensures |Columns(line)| < 4 ==> r.Err?
    ensures r.Ok? ==> BondAdded(m, r.value, Columns(line))
    ensures r.Ok? && WellFormed(m) ==> WellFormed(r.value)
  {
    var ps := Columns(line);
    if |ps| < 4 then Err(FormatError("bond line is too short"))
    else
      var bondIdx := AsU32(Atoi(ps[0]));
      var bType := AsU32(Atoi(ps[1]));
      var a1 := AsU32(Atoi(ps[2]));
      var a2 := AsU32(Atoi(ps[3]));
      var bp :- V30BondProps(CodeBond(bType), bType, ps[4..]);
      if a1 !in m.atomBookmarks || a2 !in m.atomBookmarks then Err(InvariantError("atom bookmark not found"))
      else
        var b := bp.0.(begin := m.atomBookmarks[a1], end := m.atomBookmarks[a2]);
        var r :- PlaceBond(m, b, bp.1, bondIdx);
        assert r.bonds[..|m.bonds|] == m.bonds;
        Ok(r)
  }

  /** Round trip: a bond of a plain type written as index, order code and
      the numbers of two filed atoms reads back as that type between those
      atoms, provided the graph can take it. */
  lemma V3000BondLineWritten(idx: nat, t: BondType, a1: nat, a2: nat, m: Mol)
    requires idx < U32 && a1 < U32 && a2 < U32 && MarksInRange(m)
    requires a1 in m.atomBookmarks && a2 in m.atomBookmarks
    requires m.atomBookmarks[a1] != m.atomBookmarks[a2]
    requires !HasBondBetween(m.bonds, m.atomBookmarks[a1], m.atomBookmarks[a2])
    ensures var r := V3000BondLine(Spaced([SignedDigits(idx), SignedDigits(V2000.CodeOfType(t)), SignedDigits(a1), SignedDigits(a2)]), m);
            && r.Ok?
            && r.value.bonds[|m.bonds|].bondType == t && r.value.bonds[|m.bonds|].query.None?
            && r.value.bonds[|m.bonds|].begin == m.atomBookmarks[a1]
            && r.value.bonds[|m.bonds|].end == m.atomBookmarks[a2]
  {
    var code := V2000.CodeOfType(t);
    var ws := [SignedDigits(idx), SignedDigits(code), SignedDigits(a1), SignedDigits(a2)];
    SignedDigitsToInt(idx);
    SignedDigitsToInt(code);
    SignedDigitsToInt(a1);
    SignedDigitsToInt(a2);
    assert Words(ws);
    ColumnsSpaced(ws);
    assert ws[4..] == [];
    V2000.BondCodeRoundTrip(t, 0, 0);
  }

  /** Reading `n` bond lines; written lines read back as their bonds
      (BondLinesWritten). */
  function BondLines(s: Stream, n: nat, m: Mol): (r: Result<(Mol, Stream)>)
    ensures r.Ok? ==> |r.value.0.bonds| == |m.bonds| + n && r.value.0.bonds[..|m.bonds|] == m.bonds
    ensures r.Ok? ==> |r.value.0.atoms| == |m.atoms| && Untouched(m, r.value.0)
    ensures r.Ok? && WellFormed(m) ==> WellFormed(r.value.0)
    ensures r.Ok? ==> Remaining(r.value.1) <= Remaining(s)
    decreases n
  {
    if n == 0 then Ok((m, s))
    else
      var ls :- V30Line(s);
      var m1 :- V3000BondLine(ls.0, m);
      var r :- BondLines(ls.1, n - 1, m1);
      assert r.0.bonds[..|m.bonds|] == m1.bonds[..|m.bonds|];
      Ok(r)
  }

  // ---------------------------------------------------------------------
  // Written bond lines
  // ---------------------------------------------------------------------

  /** What a writer puts on a bond line for a plain bond: its number, the
      order code of its type and the numbers of its two atoms. */
  datatype BondSpec = BondSpec(idx: nat, t: BondType, a1: nat, a2: nat)

  /** The tokens of a bond line. */
  function BondWords(b: BondSpec): (ws: seq<string>)
    ensures |ws| == 4
  {
    [SignedDigits(b.idx), SignedDigits(V2000.CodeOfType(b.t)), SignedDigits(b.a1), SignedDigits(b.a2)]
  }

  /** The physical line of a written bond. */
  function BondText(b: BondSpec): string {
    V30Prefix + Spaced(BondWords(b))
  }

  /** The physical lines of written bonds. */
  function BondTexts(specs: seq<BondSpec>): (ls: seq<string>)
    ensures |ls| == |specs|
    decreases |specs|
  {
    if |specs| == 0 then [] else [BondText(specs[0])] + BondTexts(specs[1..])
  }

  /** A spec whose numbers fit an unsigned int and whose two atom numbers
      were filed for two distinct atoms. */
  predicate Filed(b: BondSpec, m: Mol) {
    && b.idx < U32 && b.a1 < U32 && b.a2 < U32
    && b.a1 in m.atomBookmarks && b.a2 in m.atomBookmarks
    && m.atomBookmarks[b.a1] != m.atomBookmarks[b.a2]
  }

  /** The atoms a filed spec joins. */
  function Ends(b: BondSpec, m: Mol): (e: set<int>)
    requires Filed(b, m)
    ensures |e| == 2
  {
    {m.atomBookmarks[b.a1], m.atomBookmarks[b.a2]}
  }

  /** Bonds a writer can list for the draft: each joins two distinct filed
      atoms that are not bonded yet, and no two join the same pair. */
  predicate Bondable(specs: seq<BondSpec>, m: Mol) {
    && MarksInRange(m)
    && (forall k :: 0 <= k < |specs| ==>
          Filed(specs[k], m) && !HasBondBetween(m.bonds, m.atomBookmarks[specs[k].a1], m.atomBookmarks[specs[k].a2]))
    && (forall k, l :: 0 <= k < l < |specs| ==> Ends(specs[k], m) != Ends(specs[l], m))
  }

  /** A bond read from a spec's line: the spec's type, no query, between
      the atoms its numbers name. */
  predicate BondIs(b: Bond, spec: BondSpec, m: Mol) {
    && spec.a1 in m.atomBookmarks && spec.a2 in m.atomBookmarks
    && b.bondType == spec.t && b.query.None?
    && b.begin == m.atomBookmarks[spec.a1] && b.end == m.atomBookmarks[spec.a2]
  }

  /** Reading the lines of written bonds appends, in order, the bonds they
      describe, and leaves the stream at `after`. */
  predicate BondsRead(s: Stream, specs: seq<BondSpec>, m: Mol, after: Stream) {
    var r := BondLines(s, |specs|, m);
    && r.Ok? && r.value.1 == after
    && forall k :: 0 <= k < |specs| ==> BondIs(r.value.0.bonds[|m.bonds| + k], specs[k], m)
  }

  /** The physical line of a written bond reads back as its tokens joined
      by blanks. */
  lemma BondTextRead(b: BondSpec, more: seq<string>)
    ensures V30Line(Open(Render([BondText(b)] + more))) == Ok((Spaced(BondWords(b)), Open(Render(more))))
  {
    var ws := BondWords(b);
    SignedDigitsToInt(b.idx);
    SignedDigitsToInt(V2000.CodeOfType(b.t));
    SignedDigitsToInt(b.a1);
    SignedDigitsToInt(b.a2);
    assert Words(ws);
    SpacedOneLine(ws);
    SpacedLast(ws);
    V30LastLine(Spaced(ws), more);
  }

  /** A bond appended to a list joins one more pair. */
  lemma HasBondBetweenAppend(bonds: seq<Bond>, b: Bond, i: int, j: int)
    ensures HasBondBetween(bonds + [b], i, j) <==> HasBondBetween(bonds, i, j) || {b.begin, b.end} == {i, j}
  {
    var bs := bonds + [b];
    if HasBondBetween(bs, i, j) {
      var k :| 0 <= k < |bs| && {bs[k].begin, bs[k].end} == {i, j};
      if k < |bonds| {
        assert bonds[k] == bs[k];
      }
    }
    if HasBondBetween(bonds, i, j) {
      var k :| 0 <= k < |bonds| && {bonds[k].begin, bonds[k].end} == {i, j};
      assert bs[k] == bonds[k];
    }
    if {b.begin, b.end} == {i, j} {
      assert bs[|bonds|] == b;
    }
  }

  /** After the first written bond is placed, the rest can still be. */
  lemma BondableTail(specs: seq<BondSpec>, m: Mol, m1: Mol)
    requires |specs| > 0 && Bondable(specs, m)
    requires m1.atomBookmarks == m.atomBookmarks && |m1.atoms| == |m.atoms|
    requires |m1.bonds| == |m.bonds| + 1 && m1.bonds[..|m.bonds|] == m.bonds
    requires BondIs(m1.bonds[|m.bonds|], specs[0], m)
    ensures Bondable(specs[1..], m1)
  {
    var b0 := m1.bonds[|m.bonds|];
    var tail := specs[1..];
    assert Filed(specs[0], m);
    forall k | 0 <= k < |tail|
      ensures Filed(tail[k], m1) && !HasBondBetween(m1.bonds, m1.atomBookmarks[tail[k].a1], m1.atomBookmarks[tail[k].a2])
    {
      assert tail[k] == specs[k + 1];
      assert Filed(specs[k + 1], m);
      assert Ends(specs[0], m) != Ends(specs[k + 1], m);
      HasBondBetweenAppend(m.bonds, b0, m.atomBookmarks[tail[k].a1], m.atomBookmarks[tail[k].a2]);
    }
    forall k, l | 0 <= k < l < |tail|
      ensures Ends(tail[k], m1) != Ends(tail[l], m1)
    {
      assert tail[k] == specs[k + 1] && tail[l] == specs[l + 1];
      assert Ends(specs[k + 1], m) != Ends(specs[l + 1], m);
    }
  }

  /** BondLines takes one logical line, places its bond, and goes on. */
  lemma BondLinesUnfold(s: Stream, n: nat, m: Mol, l: string, s1: Stream, m1: Mol, r: (Mol, Stream))
    requires n > 0
    requires V30Line(s) == Ok((l, s1))
    requires V3000BondLine(l, m) == Ok(m1)
    requires BondLines(s1, n - 1, m1) == Ok(r)
    ensures BondLines(s, n, m) == Ok(r)
  {
  }

  lemma BondTextsCons(specs: seq<BondSpec>, rest: seq<string>)
    requires |specs| > 0
    ensures BondTexts(specs) + rest == [BondText(specs[0])] + (BondTexts(specs[1..]) + rest)
  {
    ConsAppend(BondText(specs[0]), BondTexts(specs[1..]), rest);
  }

  /** One written bond line in front of further ones. */
  lemma BondLinesStep(specs: seq<BondSpec>, rest: seq<string>, m: Mol, m1: Mol)
    requires |specs| > 0 && Bondable(specs, m)
    requires V3000BondLine(Spaced(BondWords(specs[0])), m) == Ok(m1)
    requires BondIs(m1.bonds[|m.bonds|], specs[0], m)
    requires BondsRead(Open(Render(BondTexts(specs[1..]) + rest)), specs[1..], m1, Open(Render(rest)))
    ensures BondsRead(Open(Render(BondTexts(specs) + rest)), specs, m, Open(Render(rest)))
  {
    var more := BondTexts(specs[1..]) + rest;
    var r := BondLines(Open(Render(more)), |specs| - 1, m1).value;
    BondTextsCons(specs, rest);
    BondTextRead(specs[0], more);
    BondLinesUnfold(Open(Render(BondTexts(specs) + rest)), |specs|, m, Spaced(BondWords(specs[0])), Open(Render(more)), m1, r);
    assert m1.atomBookmarks == m.atomBookmarks && |m1.bonds| == |m.bonds| + 1;
    forall k | 0 <= k < |specs|
      ensures BondIs(r.0.bonds[|m.bonds| + k], specs[k], m)
    {
      if k == 0 {
        assert r.0.bonds[..|m1.bonds|] == m1.bonds;
        assert r.0.bonds[|m.bonds|] == r.0.bonds[..|m1.bonds|][|m.bonds|];
      } else {
        assert specs[1..][k - 1] == specs[k];
        assert BondIs(r.0.bonds[|m1.bonds| + (k - 1)], specs[1..][k - 1], m1);
      }
    }
  }

  /** Round trip: plain bonds written one per line between filed atoms
      read back, in order, as bonds of those types between those atoms, and
      the stream is left just after them. */
  lemma {:induction false} BondLinesWritten(specs: seq<BondSpec>, rest: seq<string>, m: Mol)
    requires Bondable(specs, m)
    ensures BondsRead(Open(Render(BondTexts(specs) + rest)), specs, m, Open(Render(rest)))
    decreases |specs|
  {
    if |specs| == 0 {
      assert BondTexts(specs) + rest == rest;
    } else {
      var a := specs[0];
      assert Filed(a, m);
      V3000BondLineWritten(a.idx, a.t, a.a1, a.a2, m);
      var m1 := V3000BondLine(Spaced(BondWords(a)), m).value;
      BondableTail(specs, m, m1);
      BondLinesWritten(specs[1..], rest, m1);
      BondLinesStep(specs, rest, m, m1);
    }
  }

  /** ParseV3000BondBlock: a positive bond count (a zero count violates the
      block's precondition), `BEGIN BOND`, the bond lines, `END BOND`. */
  function BondBlock(s: Stream, n: nat, m: Mol): (r: Result<(Mol, Stream)>)
    ensures n == 0 ==> r.Err? && r.error.InvariantError?
    ensures r.Ok? ==> |r.value.0.bonds| == |m.bonds| + n && r.value.0.bonds[..|m.bonds|] == m.bonds
    ensures r.Ok? ==> |r.value.0.atoms| == |m.atoms| && Untouched(m, r.value.0)
    ensures r.Ok? && WellFormed(m) ==> WellFormed(r.value.0)
    ensures r.Ok? ==> Remaining(r.value.1) < Remaining(s)
  {
    if n == 0 then Err(InvariantError("bad bond count"))
    else
      var l0 :- V30Line(s);
      if !StartsWith(l0.0, "BEGIN BOND") then Err(FormatError("BEGIN BOND line not found"))
      else
        var body :- BondLines(l0.1, n, m);
        var l1 :- V30Line(body.1);
        if !StartsWith(l1.0, "END BOND") then Err(FormatError("END BOND line not found"))
        else Ok((body.0, l1.1))
  }

  /** The bond block is read whatever the bond count: as written, a count
      of zero reaches the block's precondition and fails; the corrected
      reading skips the block when there are no bonds. */
  function BondsIfAny(s: Stream, n: nat, m: Mol, asWritten: bool): (r: Result<(Mol, Stream)>)
    ensures n == 0 && asWritten ==> r.Err? && r.error.InvariantError?
    ensures n == 0 && !asWritten ==> r == Ok((m, s))
    ensures n > 0 ==> r == BondBlock(s, n, m)
    ensures r.Ok? ==> |r.value.0.bonds| == |m.bonds| + n && r.value.0.bonds[..|m.bonds|] == m.bonds
    ensures r.Ok? ==> |r.value.0.atoms| == |m.atoms| && Untouched(m, r.value.0)
    ensures r.Ok? && WellFormed(m) ==> WellFormed(r.value.0)
    ensures r.Ok? ==> Remaining(r.value.1) <= Remaining(s)
  {
    if asWritten || n > 0 then BondBlock(s, n, m) else Ok((m, s))
  }
}

=== FILE: v3000ctab.dfy ===
/** ParseV3000MolBlock: the V3000 connection table between `BEGIN CTAB` and
    `END CTAB` — the COUNTS line, the atom and bond blocks, and the blocks
    the parser skips (S groups, 3D constraints, link nodes, anything else
    that opens with BEGIN).
 */
module V3000Ctab {
  import opened Wrappers
  import opened Text
  import opened Fields
  import opened Molecule
  import opened LineStream
  import opened V3000Lines
  import V3000Atoms
  import V3000Bonds

  /** The counts of a COUNTS line. The S group and 3D constraint counts are
      optional; None marks one the line leaves out. */
  datatype Counts = Counts(nAtoms: nat, nBonds: nat, nSgroups: Option<nat>, n3D: Option<nat>)

  /** An optional count: read with toInt when the line has it. */
  function OptionalCount(ps: seq<string>, k: nat): (r: Result<Option<nat>>)
    ensures k >= |ps| ==> r == Ok(None)
    ensures k < |ps| ==> (r.Ok? <==> ToInt(ps[k], false).Ok?)
    ensures k < |ps| && r.Ok? ==> r.value == Some(AsU32(ToInt(ps[k], false).value))
  {
    if k < |ps| then
      var v :- ToInt(ps[k], false);
      Ok(Some(AsU32(v)))
    else Ok(None)
  }

  /** The COUNTS line: `COUNTS ` and at least two fields, atoms and bonds,
      read with toInt into unsigned ints; a zero atom count is rejected.
      The chiral flag, the fifth field, is read and dropped. */
  function CountsLine(l: string): (r: Result<Counts>)
    ensures !StartsWith(l, "COUNTS ") || |l| < 8 ==> r.Err? && r.error.FormatError?
    ensures r.Ok? ==> && |Columns(l[7..])| >= 2 && r.value.nAtoms > 0
                      && ToInt(Columns(l[7..])[0], false).Ok? && r.value.nAtoms == AsU32(ToInt(Columns(l[7..])[0], false).value)
                      && ToInt(Columns(l[7..])[1], false).Ok? && r.value.nBonds == AsU32(ToInt(Columns(l[7..])[1], false).value)
    ensures r.Ok? ==> r.value.nAtoms < U32 && r.value.nBonds < U32
    ensures r.Ok? ==> (r.value.nSgroups.Some? <==> |Columns(l[7..])| > 2) && (r.value.n3D.Some? <==> |Columns(l[7..])| > 3)
    ensures r.Err? ==> r.error.FormatError? || r.error.CastError?
  {
    if |l| < 8 || !StartsWith(l, "COUNTS ") then Err(FormatError("Bad counts line"))
    else
      var ps := Columns(l[7..]);
      if |ps| < 2 then Err(FormatError("Bad counts line"))
      else
        var na :- ToInt(ps[0], false);
        var nb :- ToInt(ps[1], false);
        if AsU32(na) == 0 then Err(FormatError("molecule has no atoms"))
        else
          var ns :- OptionalCount(ps, 2);
          var n3 :- OptionalCount(ps, 3);
          var chiral :- OptionalCount(ps, 4);
          Ok(Counts(AsU32(na), AsU32(nb), ns, n3))
  }

  /** The words a writer puts on a COUNTS line: atoms, bonds, S groups, 3D
      constraints and a zero chiral flag. */
  function CountsWords(na: nat, nb: nat, ns: nat, n3: nat): (ws: seq<string>)
    ensures |ws| == 5
  {
    [SignedDigits(na), SignedDigits(nb), SignedDigits(ns), SignedDigits(n3), SignedDigits(0)]
  }

  lemma CountsWordsAreWords(na: nat, nb: nat, ns: nat, n3: nat)
    ensures Words(CountsWords(na, nb, ns, n3))
  {
    SignedDigitsToInt(na);
    SignedDigitsToInt(nb);
    SignedDigitsToInt(ns);
    SignedDigitsToInt(n3);
    SignedDigitsToInt(0);
  }

  /** Round trip: a written COUNTS line with a positive atom count reads
      back as its four counts. */
  lemma CountsLineWritten(na: nat, nb: nat, ns: nat, n3: nat)
    requires 0 < na < U32 && nb < U32 && ns < U32 && n3 < U32
    ensures CountsLine("COUNTS " + Spaced(CountsWords(na, nb, ns, n3))) == Ok(Counts(na, nb, Some(ns), Some(n3)))
  {
    var ws := CountsWords(na, nb, ns, n3);
    var l := "COUNTS " + Spaced(ws);
    CountsWordsAreWords(na, nb, ns, n3);
    assert l[7..] == Spaced(ws);
    assert l[..7] == "COUNTS ";
    SpacedEnds(ws);
    ColumnsSpaced(ws);
    SignedDigitsToInt(na);
    SignedDigitsToInt(nb);
    SignedDigitsToInt(ns);
    SignedDigitsToInt(n3);
    SignedDigitsToInt(0);
  }

  /** The S group count the parser tests after the bond block. As written,
      a count the COUNTS line left out is read uninitialized; the corrected
      reading takes it as zero. */
  function CountOrZero(c: Option<nat>, what: string, asWritten: bool): (r: Result<nat>)
    ensures c.Some? ==> r == Ok(c.value)
    ensures c.None? ==> (r.Err? <==> asWritten) && (r.Ok? ==> r.value == 0)
    ensures r.Err? ==> r.error.Undefined?
  {
    if c.Some? then Ok(c.value)
    else if asWritten then Err(Undefined(what + " read uninitialized"))
    else Ok(0)
  }

  /** The line that closes the S group block, as the loop tests it. As
      written, the loop stops at the first line of ten or more characters
      that is NOT `END SGROUP`; the corrected loop stops at `END SGROUP`. */
  predicate SGroupStop(l: string, asWritten: bool) {
    if asWritten then |l| >= 10 && l[..10] != "END SGROUP" else StartsWith(l, "END SGROUP")
  }

  /** Reading S group lines up to and including the one the loop stops at. */
  function SkipSGroup(s: Stream, asWritten: bool): (r: Result<Stream>)
    ensures r.Ok? ==> Remaining(r.value) < Remaining(s)
    ensures r.Err? ==> r.error.FormatError?
    decreases Remaining(s)
  {
    var l :- V30Line(s);
    if SGroupStop(l.0, asWritten) then Ok(l.1) else SkipSGroup(l.1, asWritten)
  }

  /** With a non-zero S group count: `BEGIN SGROUP`, then the skipped
      lines. */
  function SGroupBlock(s: Stream, n: nat, asWritten: bool): (r: Result<Stream>)
    ensures n == 0 ==> r == Ok(s)
    ensures r.Ok? ==> Remaining(r.value) <= Remaining(s)
    ensures r.Ok? && n > 0 ==> Remaining(r.value) < Remaining(s)
    ensures r.Err? ==> r.error.FormatError?
  {
    if n == 0 then Ok(s)
    else
      var l :- V30Line(s);
      if !StartsWith(l.0, "BEGIN SGROUP") then Err(FormatError("BEGIN SGROUP line not found"))
      else SkipSGroup(l.1, asWritten)
  }

  /** `n` lines read and dropped. */
  function SkipLines(s: Stream, n: nat): (r: Result<Stream>)
    ensures r.Ok? ==> Remaining(r.value) <= Remaining(s)
    ensures r.Ok? && n > 0 ==> Remaining(r.value) < Remaining(s)
    ensures r.Err? ==> r.error.FormatError?
    decreases n
  {
    if n == 0 then Ok(s)
    else
      var l :- V30Line(s);
      SkipLines(l.1, n - 1)
  }

  /** With a non-zero 3D constraint count: `BEGIN OBJ3D`, that many lines,
      `END OBJ3D`. */
  function Obj3DBlock(s: Stream, n: nat): (r: Result<Stream>)
    ensures n == 0 ==> r == Ok(s)
    ensures r.Ok? ==> Remaining(r.value) <= Remaining(s)
    ensures r.Err? ==> r.error.FormatError?
  {
    if n == 0 then Ok(s)
    else
      var l0 :- V30Line(s);
      if !StartsWith(l0.0, "BEGIN OBJ3D") then Err(FormatError("BEGIN OBJ3D line not found"))
      else
        var s1 :- SkipLines(l0.1, n);
        var l1 :- V30Line(s1);
        if !StartsWith(l1.0, "END OBJ3D") then Err(FormatError("END OBJ3D line not found"))
        else Ok(l1.1)
  }

  /** A link node line: longer than eight characters and opening with
      LINKNODE. */
  predicate LinkNode(l: string) {
    |l| > 8 && l[..8] == "LINKNODE"
  }

  /** A line that opens a block the parser skips: longer than five
      characters and opening with BEGIN. */
  predicate BlockStart(l: string) {
    |l| > 5 && l[..5] == "BEGIN"
  }

  /** Link node lines are skipped; the result is the first other line and
      the stream after it. */
  function SkipLinkNodes(l: string, s: Stream): (r: Result<(string, Stream)>)
    ensures !LinkNode(l) ==> r == Ok((l, s))
    ensures r.Ok? ==> !LinkNode(r.value.0) && Remaining(r.value.1) <= Remaining(s)
    ensures r.Err? ==> r.error.FormatError?
    decreases Remaining(s)
  {
    if LinkNode(l) then
      var n :- V30Line(s);
      SkipLinkNodes(n.0, n.1)
    else Ok((l, s))
  }

  /** Lines up to and including the first that opens with END (the given
      line counts as the first). */
  function ToEnd(l: string, s: Stream): (r: Result<Stream>)
    ensures StartsWith(l, "END") ==> r == Ok(s)
    ensures r.Ok? ==> Remaining(r.value) <= Remaining(s)
    ensures r.Err? ==> r.error.FormatError?
    decreases Remaining(s)
  {
    if StartsWith(l, "END") then Ok(s)
    else
      var n :- V30Line(s);
      ToEnd(n.0, n.1)
  }

  /** Unknown blocks are skipped: from a BEGIN line through the next line
      opening with END; the result is the first line after them. */
  function SkipBlocks(l: string, s: Stream): (r: Result<(string, Stream)>)
    ensures !BlockStart(l) ==> r == Ok((l, s))
    ensures r.Ok? ==> !BlockStart(r.value.0) && Remaining(r.value.1) <= Remaining(s)
    ensures r.Err? ==> r.error.FormatError?
    decreases Remaining(s)
  {
    if BlockStart(l) then
      var n :- V30Line(s);
      var e :- ToEnd(n.0, n.1);
      var nx :- V30Line(e);
      SkipBlocks(nx.0, nx.1)
    else Ok((l, s))
  }

  /** The tail of the table: link nodes, unknown blocks, `END CTAB`. */
  function CtabEnd(s: Stream): (r: Result<Stream>)
    ensures r.Ok? ==> Remaining(r.value) < Remaining(s)
    ensures r.Err? ==> r.error.FormatError?
  {
    var l :- V30Line(s);
    var t :- SkipLinkNodes(l.0, l.1);
    var u :- SkipBlocks(t.0, t.1);
    if !StartsWith(u.0, "END CTAB") then Err(FormatError("END CTAB line not found"))
    else Ok(u.1)
  }

  /** The atom block, then the bond block, as the counts announce them. */
  function Tables(s: Stream, c: Counts, m: Mol, env: Env, asWritten: bool): (r: Result<(Mol, Stream)>)
    ensures r.Ok? ==> |r.value.0.atoms| == |m.atoms| + c.nAtoms
    ensures r.Ok? ==> |r.value.0.bonds| == |m.bonds| + c.nBonds && r.value.0.bonds[..|m.bonds|] == m.bonds
    ensures r.Ok? ==> r.value.0.dimHint == NoHint
    ensures r.Ok? ==> Remaining(r.value.1) < Remaining(s)
  {
    var a :- V3000Atoms.AtomBlock(s, c.nAtoms, m, env, asWritten);
    var b :- V3000Bonds.BondsIfAny(a.1, c.nBonds, a.0, asWritten);
    Ok(b)
  }

  /** What follows the bond block: the S group and 3D constraint blocks
      when the counts announce them, then the tail of the table. */
  function Skipped(s: Stream, c: Counts, asWritten: bool): (r: Result<Stream>)
    ensures r.Ok? ==> Remaining(r.value) < Remaining(s)
    ensures c.nSgroups.None? && asWritten ==> r.Err? && r.error.Undefined?
  {
    var ns :- CountOrZero(c.nSgroups, "nSgroups", asWritten);
    var s1 :- SGroupBlock(s, ns, asWritten);
    var n3 :- CountOrZero(c.n3D, "n3DConstraints", asWritten);
    var s2 :- Obj3DBlock(s1, n3);
    CtabEnd(s2)
  }

  /** ParseV3000MolBlock: `BEGIN CTAB`, COUNTS, the atom block, the bond
      block, the skipped blocks and `END CTAB`. The atoms and bonds are the
      only part of the table that reaches the molecule. */
  function MolBlock(s: Stream, m: Mol, env: Env, asWritten: bool): (r: Result<(Mol, Stream)>)
    ensures r.Ok? ==> |r.value.0.atoms| > |m.atoms|
    ensures r.Ok? ==> |r.value.0.bonds| >= |m.bonds| && r.value.0.bonds[..|m.bonds|] == m.bonds
    ensures r.Ok? ==> r.value.0.dimHint == NoHint
    ensures r.Ok? ==> Remaining(r.value.1) < Remaining(s)
    ensures r.Ok? ==>
              && V30Line(s).Ok? && V30Line(V30Line(s).value.1).Ok?
              && var c := CountsLine(V30Line(V30Line(s).value.1).value.0);
              && c.Ok?
              && |r.value.0.atoms| == |m.atoms| + c.value.nAtoms
              && |r.value.0.bonds| == |m.bonds| + c.value.nBonds
  {
    var l0 :- V30Line(s);
    if !StartsWith(l0.0, "BEGIN CTAB") then Err(FormatError("BEGIN CTAB line not found"))
    else
      var l1 :- V30Line(l0.1);
      var c :- CountsLine(l1.0);
      var t :- Tables(l1.1, c, m, env, asWritten);
      var s3 :- Skipped(t.1, c, asWritten);
      Ok((t.0, s3))
  }
}

=== FILE: v3000lines.dfy ===
/** The V3000 line layer: every line of a V3000 connection table starts with
    `M  V30 `, a line ending in `-` continues on the next one, and a logical
    line is split into blank-separated tokens, some of them KEY=VALUE
    assignments.
 */
module V3000Lines {
  import opened Wrappers
  import opened Text
  import opened LineStream

  const V30Prefix: string := "M  V30 "

  /** The separators of V3000 tokens. */
  const Blank: set<char> := {' ', '\t'}

  /** getV3000Line: the logical line and the stream after its last physical
      line. Every physical line must start with `M  V30 `; a continued
      line contributes its text from column 7 up to its trailing `-`, the
      last one its text from column 7 to its end. */
  function V30Line(s: Stream): (r: Result<(string, Stream)>)
    ensures r.Ok? ==> Remaining(r.value.1) < Remaining(s)
    ensures r.Ok? ==> StartsWith(GetLine(s).0, V30Prefix)
    ensures r.Err? ==> r.error.FormatError?
    decreases Remaining(s)
  {
    var (l, s1) := GetLine(s);
    if !StartsWith(l, V30Prefix) then Err(FormatError("Line does not start with 'M  V30 '"))
    else
      assert !s.eof && |l| >= |V30Prefix| == 7;
      if l[|l| - 1] == '-' then
        assert l[6] == l[..7][6] == ' ';
        var t :- V30Line(s1);
        Ok((l[7..|l| - 1] + t.0, t.1))
      else Ok((l[7..], s1))
  }

  /** A piece of text that stays on one physical line. */
  predicate OneLine(c: string) {
    forall i :: 0 <= i < |c| ==> c[i] != '\n' && c[i] != '\r'
  }

  /** Text a writer may split a logical line into: chunks that stay on their
      lines, the last of which does not end in the continuation mark. */
  predicate Chunks(cs: seq<string>) {
    && |cs| >= 1
    && (forall k :: 0 <= k < |cs| ==> OneLine(cs[k]))
    && (|cs[|cs| - 1]| == 0 || cs[|cs| - 1][|cs[|cs| - 1]| - 1] != '-')
  }

  /** How a writer spreads a logical line over physical lines: each chunk
      behind the prefix, every chunk but the last followed by `-`. */
  function V30Physical(cs: seq<string>): (ls: seq<string>)
    requires |cs| >= 1
    ensures |ls| == |cs|
    decreases |cs|
  {
    if |cs| == 1 then [V30Prefix + cs[0]] else [V30Prefix + cs[0] + "-"] + V30Physical(cs[1..])
  }

  /** The last physical line of a logical line, read in front of the rest
      of the text. */
  lemma V30LastLine(c: string, more: seq<string>)
    requires OneLine(c) && (|c| == 0 || c[|c| - 1] != '-')
    ensures V30Line(Open(Render([V30Prefix + c] + more))) == Ok((c, Open(Render(more))))
  {
    var l := V30Prefix + c;
    assert l[..7] == V30Prefix && l[7..] == c;
    assert l[|l| - 1] != '-';
    assert Clean(l) by {
      assert forall i :: 0 <= i < |l| ==> l[i] != '\n' && l[i] != '\r' by {
        assert forall i :: 7 <= i < |l| ==> l[i] == c[i - 7];
      }
    }
    GetLineRender([l] + more);
    assert ([l] + more)[1..] == more;
  }

  /** A continued physical line, read in front of the rest of the text: its
      chunk goes in front of whatever the following lines give. */
  lemma V30ContinuedLine(c: string, more: seq<string>)
    requires OneLine(c)
    ensures V30Line(Open(Render([V30Prefix + c + "-"] + more))) ==
              (var t := V30Line(Open(Render(more)));
               if t.Err? then t else Ok((c + t.value.0, t.value.1)))
  {
    var l := V30Prefix + c + "-";
    assert l[..7] == V30Prefix && l[7..|l| - 1] == c;
    assert Clean(l) by {
      assert forall i :: 0 <= i < |l| ==> l[i] != '\n' && l[i] != '\r' by {
        assert forall i :: 7 <= i < |l| - 1 ==> l[i] == c[i - 7];
      }
    }
    GetLineRender([l] + more);
    assert ([l] + more)[1..] == more;
  }

  /** Round trip: reading back a logical line written over several physical
      lines gives the chunks joined together and leaves the stream on the
      line after them. */
  lemma {:induction false} V30LineWritten(cs: seq<string>, rest: seq<string>)
    requires Chunks(cs)
    ensures V30Line(Open(Render(V30Physical(cs) + rest))) == Ok((Concat(cs), Open(Render(rest))))
    decreases |cs|
  {
    if |cs| == 1 {
      assert V30Physical(cs) + rest == [V30Prefix + cs[0]] + rest;
      V30LastLine(cs[0], rest);
      assert Concat(cs[1..]) == "";
      assert Concat(cs) == cs[0];
    } else {
      var more := V30Physical(cs[1..]) + rest;
      assert V30Physical(cs) + rest == [V30Prefix + cs[0] + "-"] + more;
      assert Chunks(cs[1..]) by {
        assert cs[1..][|cs[1..]| - 1] == cs[|cs| - 1];
        assert forall k :: 0 <= k < |cs| - 1 ==> cs[1..][k] == cs[k + 1];
      }
      V30LineWritten(cs[1..], rest);
      V30ContinuedLine(cs[0], more);
    }
  }

  /** A continued line followed by a line without the prefix is rejected. */
  lemma V30LineBroken(c: string, l: string, rest: seq<string>)
    requires OneLine(c) && Clean(l) && !StartsWith(l, V30Prefix)
    ensures V30Line(Open(Render([V30Prefix + c + "-", l] + rest))).Err?
  {
    assert [V30Prefix + c + "-", l] + rest == [V30Prefix + c + "-"] + ([l] + rest);
    GetLineRender([l] + rest);
    V30ContinuedLine(c, [l] + rest);
  }

  /** The tokens of a V3000 atom line: the trimmed line split at every
      blank and tab, so that a run of separators yields empty tokens; an
      empty line has no tokens at all. */
  function Tokens(line: string): (ts: seq<string>)
    ensures forall k :: 0 <= k < |ts| ==> NoneIn(ts[k], Blank)
    ensures |ts| == 0 <==> Trim(line) == ""
  {
    var t := Trim(line);
    if t == "" then [] else SplitAny(t, Blank)
  }

  /** The fields of a V3000 bond or counts line: the trimmed line split at
      runs of blanks and tabs. */
  function Columns(line: string): (fs: seq<string>)
    ensures |fs| >= 1
  {
    SplitCompress(Trim(line), Blank)
  }

  /** A token a writer can put on a line: not empty, and free of every
      character that trimming or splitting would touch. */
  predicate Word(w: string) {
    |w| > 0 && forall i :: 0 <= i < |w| ==> !IsSpace(w[i])
  }

  predicate Words(ws: seq<string>) {
    |ws| >= 1 && forall k :: 0 <= k < |ws| ==> Word(ws[k])
  }

  /** Words joined by single blanks. */
  function Spaced(ws: seq<string>): (s: string)
    requires |ws| >= 1
    decreases |ws|
  {
    if |ws| == 1 then ws[0] else ws[0] + " " + Spaced(ws[1..])
  }

  /** Words joined by blanks split back into the words. */
  lemma {:induction false} SplitSpaced(ws: seq<string>)
    requires Words(ws)
    ensures SplitAny(Spaced(ws), Blank) == ws
    decreases |ws|
  {
    assert Word(ws[0]);
    assert NoneIn(ws[0], Blank);
    if |ws| == 1 {
      SplitAnyNone(ws[0], Blank);
    } else {
      assert Words(ws[1..]) by {
        assert forall k :: 0 <= k < |ws| - 1 ==> ws[1..][k] == ws[k + 1];
      }
      SplitAnyHead(ws[0], ' ', Spaced(ws[1..]), Blank);
      SplitSpaced(ws[1..]);
      assert [ws[0]] + ws[1..] == ws;
    }
  }

  /** Words joined by blanks start and end with a character of a word. */
  lemma {:induction false} SpacedEnds(ws: seq<string>)
    requires Words(ws)
    ensures |Spaced(ws)| > 0 && !IsSpace(Spaced(ws)[0]) && !IsSpace(Spaced(ws)[|Spaced(ws)| - 1])
    decreases |ws|
  {
    assert Word(ws[0]);
    if |ws| > 1 {
      assert Words(ws[1..]) by {
        assert forall k :: 0 <= k < |ws| - 1 ==> ws[1..][k] == ws[k + 1];
      }
      SpacedEnds(ws[1..]);
    }
  }

  /** Words joined by blanks stay on one line. */
  lemma {:induction false} SpacedOneLine(ws: seq<string>)
    requires Words(ws)
    ensures OneLine(Spaced(ws))
    decreases |ws|
  {
    assert Word(ws[0]);
    if |ws| > 1 {
      assert Words(ws[1..]) by {
        assert forall k :: 0 <= k < |ws| - 1 ==> ws[1..][k] == ws[k + 1];
      }
      SpacedOneLine(ws[1..]);
      var t := Spaced(ws[1..]);
      var s := ws[0] + " " + t;
      assert forall i :: |ws[0]| + 1 <= i < |s| ==> s[i] == t[i - |ws[0]| - 1];
    }
  }

  /** The last character of words joined by blanks is that of the last
      word. */
  lemma {:induction false} SpacedLast(ws: seq<string>)
    requires Words(ws)
    ensures |Spaced(ws)| > 0 && |ws[|ws| - 1]| > 0
    ensures Spaced(ws)[|Spaced(ws)| - 1] == ws[|ws| - 1][|ws[|ws| - 1]| - 1]
    decreases |ws|
  {
    assert Word(ws[0]);
    assert Word(ws[|ws| - 1]);
    if |ws| > 1 {
      assert Words(ws[1..]) by {
        assert forall k :: 0 <= k < |ws| - 1 ==> ws[1..][k] == ws[k + 1];
      }
      SpacedLast(ws[1..]);
    }
  }

  /** Trimming leaves a text alone whose ends are not white space. */
  lemma TrimKeeps(s: string)
    requires |s| > 0 && !IsSpace(s[0]) && !IsSpace(s[|s| - 1])
    ensures Trim(s) == s
  {
    assert TrimLeft(s) == s;
  }

  /** Non-empty pieces survive DropEmpty. */
  lemma {:induction false} DropEmptyKeeps(ws: seq<string>)
    requires forall k :: 0 <= k < |ws| ==> ws[k] != ""
    ensures DropEmpty(ws) == ws
    decreases |ws|
  {
    if |ws| > 0 {
      DropEmptyKeeps(ws[1..]);
      assert [ws[0]] + ws[1..] == ws;
    }
  }

  /** Round trip: a line of words joined by blanks tokenizes into exactly
      those words. */
  lemma TokensSpaced(ws: seq<string>)
    requires Words(ws)
    ensures Tokens(Spaced(ws)) == ws
  {
    SpacedEnds(ws);
    TrimKeeps(Spaced(ws));
    SplitSpaced(ws);
  }

  /** The same round trip for the compressing split of bond and counts
      lines. */
  lemma ColumnsSpaced(ws: seq<string>)
    requires Words(ws)
    ensures Columns(Spaced(ws)) == ws
  {
    SpacedEnds(ws);
    TrimKeeps(Spaced(ws));
    SplitSpaced(ws);
    if |ws| > 2 {
      var mid := ws[1..|ws| - 1];
      DropEmptyKeeps(mid);
      assert [ws[0]] + mid + [ws[|ws| - 1]] == ws;
    }
  }

  /** The number of times `c` occurs in `s`. */
  function Occurrences(s: string, c: char): (n: nat)
    ensures n <= |s|
    ensures n == 0 <==> NoneIn(s, {c})
    decreases |s|
  {
    if |s| == 0 then 0 else (if s[0] == c then 1 else 0) + Occurrences(s[1..], c)
  }

  /** Splitting at one separator gives one piece more than it occurs. */
  lemma {:induction false} SplitAnyCount(s: string, c: char)
    ensures |SplitAny(s, {c})| == Occurrences(s, c) + 1
    decreases |s|
  {
    if |s| > 0 {
      SplitAnyCount(s[1..], c);
    }
  }

  /** splitAssignToken: a token that splits at '=' into exactly two pieces
      is a property name, upper-cased, and a value. */
  function SplitAssign(token: string): (r: Option<(string, string)>)
    ensures r.Some? ==> NoneIn(r.value.1, {'='})
  {
    var ps := SplitAny(token, {'='});
    if |ps| != 2 then None else Some((Upper(ps[0]), ps[1]))
  }

  /** A token is accepted exactly when it holds a single '='. */
  lemma SplitAssignOne(token: string)
    ensures SplitAssign(token).Some? <==> Occurrences(token, '=') == 1
  {
    SplitAnyCount(token, '=');
  }

  /** Round trip: a written KEY=VALUE token, neither part holding '=', reads
      back as the upper-cased key and the value. */
  lemma SplitAssignWritten(key: string, val: string)
    requires NoneIn(key, {'='}) && NoneIn(val, {'='})
    ensures SplitAssign(key + "=" + val) == Some((Upper(key), val))
  {
    SplitAnyHead(key, '=', val, {'='});
    SplitAnyNone(val, {'='});
  }
}

=== FILE: v3000written.dfy ===
/** What a V3000 writer produces, read back: the atom block, the COUNTS
    line, the tail of the table, and whole atoms-only tables; and the inputs
    on which the parser as written departs from what its blocks are for.
 */
module V3000Written {
  import opened Wrappers
  import opened Text
  import opened Fields
  import opened Molecule
  import opened LineStream
  import opened V3000Lines
  import opened V3000Atoms
  import opened V3000Ctab
  import V3000Bonds

  /** Each chunk behind the V3000 prefix, one physical line each. */
  function Prefixed(cs: seq<string>): (ls: seq<string>)
    ensures |ls| == |cs| && forall k :: 0 <= k < |cs| ==> ls[k] == V30Prefix + cs[k]
  {
    seq(|cs|, k requires 0 <= k < |cs| => V30Prefix + cs[k])
  }

  /** A line that fits on one physical line and does not continue. */
  predicate Last(c: string) {
    OneLine(c) && (|c| == 0 || c[|c| - 1] != '-')
  }

  /** A line that does not continue, followed by more lines, reads as
      itself. */
  lemma LineRead(c: string, more: seq<string>)
    requires Last(c)
    ensures V30Line(Open(Render([V30Prefix + c] + more))) == Ok((c, Open(Render(more))))
  {
    V30LastLine(c, more);
  }

  /** The keyword lines of the blocks this module writes. */
  predicate Keyword(c: string) {
    || c == "BEGIN CTAB" || c == "END CTAB" || c == "BEGIN ATOM" || c == "END ATOM"
    || c == "BEGIN SGROUP" || c == "END SGROUP"
  }

  lemma KeywordRead(c: string, more: seq<string>)
    requires Keyword(c)
    ensures V30Line(Open(Render([V30Prefix + c] + more))) == Ok((c, Open(Render(more))))
  {
    if c == "BEGIN CTAB" {
      assert c == ['B', 'E', 'G', 'I', 'N', ' ', 'C', 'T', 'A', 'B'];
    } else if c == "END CTAB" {
      assert c == ['E', 'N', 'D', ' ', 'C', 'T', 'A', 'B'];
    } else if c == "BEGIN ATOM" {
      assert c == ['B', 'E', 'G', 'I', 'N', ' ', 'A', 'T', 'O', 'M'];
    } else if c == "END ATOM" {
      assert c == ['E', 'N', 'D', ' ', 'A', 'T', 'O', 'M'];
    } else if c == "BEGIN SGROUP" {
      assert c == ['B', 'E', 'G', 'I', 'N', ' ', 'S', 'G', 'R', 'O', 'U', 'P'];
    } else {
      assert c == ['E', 'N', 'D', ' ', 'S', 'G', 'R', 'O', 'U', 'P'];
    }
    V30LastLine(c, more);
  }

  /** The tail of a table with nothing between the bond block and
      `END CTAB` reads through that line. */
  lemma CtabEndWritten(rest: seq<string>)
    ensures CtabEnd(Open(Render([V30Prefix + "END CTAB"] + rest))) == Ok(Open(Render(rest)))
  {
    KeywordRead("END CTAB", rest);
    assert "END CTAB"[..5][0] != "BEGIN"[0];
  }

  /** The atom block a writer produces for element atoms. */
  function AtomBlockText(specs: seq<AtomSpec>): seq<string> {
    [V30Prefix + "BEGIN ATOM"] + AtomTexts(specs) + [V30Prefix + "END ATOM"]
  }

  lemma AtomBlockSteps(s: Stream, n: nat, m: Mol, env: Env, asWritten: bool, s1: Stream, mid: Mol, s2: Stream, s3: Stream)
    requires n > 0
    requires V30Line(s) == Ok(("BEGIN ATOM", s1))
    requires AtomLines(s1, n, m, env, asWritten) == Ok((mid, s2))
    requires V30Line(s2) == Ok(("END ATOM", s3))
    ensures AtomBlock(s, n, m, env, asWritten) == Ok((SettleDim(mid), s3))
  {
    assert StartsWith("BEGIN ATOM", "BEGIN ATOM");
    assert StartsWith("END ATOM", "END ATOM");
  }

  /** Round trip: a written atom block reads back as its atoms placed in
      turn, the conformer settled by the header's label. */
  lemma AtomBlockWritten(specs: seq<AtomSpec>, rest: seq<string>, m: Mol, env: Env, asWritten: bool)
    requires |specs| > 0 && forall k :: 0 <= k < |specs| ==> ElementSpec(specs[k])
    ensures AtomBlock(Open(Render(AtomBlockText(specs) + rest)), |specs|, m, env, asWritten) ==
              Ok((SettleDim(PlaceAll(m, specs, env)), Open(Render(rest))))
  {
    var tail := [V30Prefix + "END ATOM"] + rest;
    assert AtomBlockText(specs) + rest == [V30Prefix + "BEGIN ATOM"] + (AtomTexts(specs) + tail);
    var s1 := Open(Render(AtomTexts(specs) + tail));
    var s2 := Open(Render(tail));
    KeywordRead("BEGIN ATOM", AtomTexts(specs) + tail);
    AtomLinesWritten(specs, tail, m, env, asWritten);
    KeywordRead("END ATOM", rest);
    AtomBlockSteps(Open(Render(AtomBlockText(specs) + rest)), |specs|, m, env, asWritten, s1, PlaceAll(m, specs, env), s2, Open(Render(rest)));
  }

  /** The COUNTS line of a table with `n` atoms and nothing else. */
  function CountsText(n: nat): string {
    "COUNTS " + Spaced(CountsWords(n, 0, 0, 0))
  }

  lemma CountsTextRead(n: nat, more: seq<string>)
    ensures V30Line(Open(Render([V30Prefix + CountsText(n)] + more))) == Ok((CountsText(n), Open(Render(more))))
  {
    var ws := CountsWords(n, 0, 0, 0);
    CountsWordsAreWords(n, 0, 0, 0);
    SpacedOneLine(ws);
    SpacedLast(ws);
    SignedDigitsToInt(0);
    var c := CountsText(n);
    assert forall i :: 7 <= i < |c| ==> c[i] == Spaced(ws)[i - 7];
    assert "COUNTS " == ['C', 'O', 'U', 'N', 'T', 'S', ' '];
    assert c[|c| - 1] == '0';
    V30LastLine(c, more);
  }

  /** How MolBlock composes its parts once each has been read. */
  lemma MolBlockSteps(s: Stream, m: Mol, env: Env, asWritten: bool, s1: Stream, l: string, s2: Stream,
                      c: Counts, t: Result<(Mol, Stream)>)
    requires V30Line(s) == Ok(("BEGIN CTAB", s1))
    requires V30Line(s1) == Ok((l, s2)) && CountsLine(l) == Ok(c)
    requires Tables(s2, c, m, env, asWritten) == t
    ensures t.Err? ==> MolBlock(s, m, env, asWritten) == Err(t.error)
    ensures t.Ok? ==> (MolBlock(s, m, env, asWritten) ==
                       var e := Skipped(t.value.1, c, asWritten); if e.Err? then Err(e.error) else Ok((t.value.0, e.value)))
  {
    assert StartsWith("BEGIN CTAB", "BEGIN CTAB");
  }

  /** The atom block of an atoms-only table, with the bond block that
      follows it: as written the zero bond count fails; corrected, the
      table's atoms are read and the stream is left after `END ATOM`. */
  lemma AtomsOnlyTables(specs: seq<AtomSpec>, rest: seq<string>, m: Mol, env: Env, asWritten: bool)
    requires 0 < |specs| < U32 && forall k :: 0 <= k < |specs| ==> ElementSpec(specs[k])
    ensures Tables(Open(Render(AtomBlockText(specs) + rest)), Counts(|specs|, 0, Some(0), Some(0)), m, env, asWritten) ==
              if asWritten then Err(InvariantError("bad bond count"))
              else Ok((SettleDim(PlaceAll(m, specs, env)), Open(Render(rest))))
  {
    AtomBlockWritten(specs, rest, m, env, asWritten);
  }

  /** A V3000 table holding only element atoms, as a writer produces it. */
  function CtabText(specs: seq<AtomSpec>): seq<string> {
    [V30Prefix + "BEGIN CTAB", V30Prefix + CountsText(|specs|)] + AtomBlockText(specs) + [V30Prefix + "END CTAB"]
  }

  /** The table read up to its COUNTS line, and the counts it gives. */
  lemma CtabHead(specs: seq<AtomSpec>, rest: seq<string>)
    requires 0 < |specs| < U32
    ensures var body := AtomBlockText(specs) + ([V30Prefix + "END CTAB"] + rest);
            var s1 := Open(Render([V30Prefix + CountsText(|specs|)] + body));
            && V30Line(Open(Render(CtabText(specs) + rest))) == Ok(("BEGIN CTAB", s1))
            && V30Line(s1) == Ok((CountsText(|specs|), Open(Render(body))))
            && CountsLine(CountsText(|specs|)) == Ok(Counts(|specs|, 0, Some(0), Some(0)))
  {
    var body := AtomBlockText(specs) + ([V30Prefix + "END CTAB"] + rest);
    assert CtabText(specs) + rest == [V30Prefix + "BEGIN CTAB"] + ([V30Prefix + CountsText(|specs|)] + body);
    KeywordRead("BEGIN CTAB", [V30Prefix + CountsText(|specs|)] + body);
    CountsTextRead(|specs|, body);
    CountsLineWritten(|specs|, 0, 0, 0);
  }

  /** Finding, as written: a V3000 table of atoms without bonds is rejected,
      because the bond block is read whatever the bond count and its
      precondition demands a positive one. */
  lemma AtomsOnlyCtabAsWritten(specs: seq<AtomSpec>, rest: seq<string>, m: Mol, env: Env)
    requires 0 < |specs| < U32 && forall k :: 0 <= k < |specs| ==> ElementSpec(specs[k])
    ensures MolBlock(Open(Render(CtabText(specs) + rest)), m, env, true) == Err(InvariantError("bad bond count"))
  {
    var tail := [V30Prefix + "END CTAB"] + rest;
    var body := AtomBlockText(specs) + tail;
    CtabHead(specs, rest);
    AtomsOnlyTables(specs, tail, m, env, true);
    MolBlockSteps(Open(Render(CtabText(specs) + rest)), m, env, true,
                  Open(Render([V30Prefix + CountsText(|specs|)] + body)), CountsText(|specs|), Open(Render(body)),
                  Counts(|specs|, 0, Some(0), Some(0)), Err(InvariantError("bad bond count")));
  }

  /** Finding, corrected: skipping the bond block when there are no bonds,
      a written atoms-only table reads back as its atoms. */
  lemma AtomsOnlyCtabCorrected(specs: seq<AtomSpec>, rest: seq<string>, m: Mol, env: Env)
    requires 0 < |specs| < U32 && forall k :: 0 <= k < |specs| ==> ElementSpec(specs[k])
    ensures MolBlock(Open(Render(CtabText(specs) + rest)), m, env, false) ==
              Ok((SettleDim(PlaceAll(m, specs, env)), Open(Render(rest))))
  {
    var tail := [V30Prefix + "END CTAB"] + rest;
    var body := AtomBlockText(specs) + tail;
    var c := Counts(|specs|, 0, Some(0), Some(0));
    CtabHead(specs, rest);
    AtomsOnlyTables(specs, tail, m, env, false);
    CtabEndWritten(rest);
    assert Skipped(Open(Render(tail)), c, false) == Ok(Open(Render(rest)));
    MolBlockSteps(Open(Render(CtabText(specs) + rest)), m, env, false,
                  Open(Render([V30Prefix + CountsText(|specs|)] + body)), CountsText(|specs|), Open(Render(body)),
                  c, Ok((SettleDim(PlaceAll(m, specs, env)), Open(Render(tail)))));
  }

  // ---------------------------------------------------------------------
  // The S group block
  // ---------------------------------------------------------------------

  /** S group lines a writer produces: each on one line, none of them the
      closing line. */
  predicate SGroupBody(cs: seq<string>) {
    forall k :: 0 <= k < |cs| ==> Last(cs[k]) && !StartsWith(cs[k], "END SGROUP")
  }

  /** Corrected loop: S group lines are read through `END SGROUP`. */
  lemma {:induction false} SkipSGroupWritten(cs: seq<string>, rest: seq<string>)
    requires SGroupBody(cs)
    ensures SkipSGroup(Open(Render(Prefixed(cs) + [V30Prefix + "END SGROUP"] + rest)), false) == Ok(Open(Render(rest)))
    decreases |cs|
  {
    if |cs| == 0 {
      assert Prefixed(cs) + [V30Prefix + "END SGROUP"] + rest == [V30Prefix + "END SGROUP"] + rest;
      KeywordRead("END SGROUP", rest);
      assert StartsWith("END SGROUP", "END SGROUP");
    } else {
      var more := Prefixed(cs[1..]) + [V30Prefix + "END SGROUP"] + rest;
      assert Prefixed(cs) + [V30Prefix + "END SGROUP"] + rest == [V30Prefix + cs[0]] + more;
      LineRead(cs[0], more);
      assert SGroupBody(cs[1..]) by {
        assert forall k :: 0 <= k < |cs| - 1 ==> cs[1..][k] == cs[k + 1];
      }
      SkipSGroupWritten(cs[1..], rest);
    }
  }

  /** An S group block as a writer produces it, followed by the end of the
      table. */
  function SGroupText(cs: seq<string>): seq<string> {
    [V30Prefix + "BEGIN SGROUP"] + Prefixed(cs) + [V30Prefix + "END SGROUP", V30Prefix + "END CTAB"]
  }

  /** As written, the S group loop stops after its first line of ten or
      more characters, leaving whatever follows unread. */
  lemma SGroupStopsEarly(c: string, tail: seq<string>, ns: nat)
    requires Last(c) && !StartsWith(c, "END SGROUP") && |c| >= 10 && ns > 0
    ensures SGroupBlock(Open(Render([V30Prefix + "BEGIN SGROUP", V30Prefix + c] + tail)), ns, true) == Ok(Open(Render(tail)))
  {
    var more := [V30Prefix + c] + tail;
    assert [V30Prefix + "BEGIN SGROUP", V30Prefix + c] + tail == [V30Prefix + "BEGIN SGROUP"] + more;
    KeywordRead("BEGIN SGROUP", more);
    LineRead(c, tail);
    SkipSGroupStep(Open(Render(more)), c, Open(Render(tail)));
    SGroupBlockStep(Open(Render([V30Prefix + "BEGIN SGROUP"] + more)), ns, Open(Render(more)));
  }

  lemma SkipSGroupStep(s: Stream, c: string, s1: Stream)
    requires V30Line(s) == Ok((c, s1)) && |c| >= 10 && !StartsWith(c, "END SGROUP")
    ensures SkipSGroup(s, true) == Ok(s1)
  {
    assert |"END SGROUP"| == 10;
    assert SGroupStop(c, true);
  }

  lemma SGroupBlockStep(s: Stream, ns: nat, s1: Stream)
    requires ns > 0 && V30Line(s) == Ok(("BEGIN SGROUP", s1))
    ensures SGroupBlock(s, ns, true) == SkipSGroup(s1, true)
  {
    assert StartsWith("BEGIN SGROUP", "BEGIN SGROUP");
  }

  /** A line opening with E neither names a link node nor opens a block. */
  lemma NotLinkNodeNorBlock(l: string)
    requires |l| > 0 && l[0] == 'E'
    ensures !LinkNode(l) && !BlockStart(l)
  {
    if |l| > 8 { assert l[..8][0] != "LINKNODE"[0]; }
    if |l| > 5 { assert l[..5][0] != "BEGIN"[0]; }
  }

  /** How CtabEnd treats a line that is neither a link node nor opens a
      block. */
  lemma CtabEndPlain(s: Stream, l: string, s1: Stream)
    requires V30Line(s) == Ok((l, s1)) && !LinkNode(l) && !BlockStart(l)
    ensures CtabEnd(s) == if StartsWith(l, "END CTAB") then Ok(s1) else Err(FormatError("END CTAB line not found"))
  {
  }

  /** The tail of the table does not accept the S group block's closing
      line. */
  lemma EndSGroupRejected(rest: seq<string>)
    ensures CtabEnd(Open(Render([V30Prefix + "END SGROUP", V30Prefix + "END CTAB"] + rest))).Err?
  {
    var more := [V30Prefix + "END CTAB"] + rest;
    assert [V30Prefix + "END SGROUP", V30Prefix + "END CTAB"] + rest == [V30Prefix + "END SGROUP"] + more;
    KeywordRead("END SGROUP", more);
    var l := "END SGROUP";
    assert l[0] == 'E' && l[4] == 'S';
    NotLinkNodeNorBlock(l);
    assert l[..8][4] != "END CTAB"[4];
    CtabEndPlain(Open(Render([V30Prefix + "END SGROUP"] + more)), l, Open(Render(more)));
  }

  /** Finding, as written: the loop stops after the first S group line that
      is ten characters or longer, so `END SGROUP` is left for the tail of
      the table, which does not accept it. */
  lemma SGroupAsWritten(c: string, rest: seq<string>, na: nat, nb: nat, ns: nat)
    requires Last(c) && SGroupBody([c]) && |c| >= 10 && ns > 0
    ensures Skipped(Open(Render(SGroupText([c]) + rest)), Counts(na, nb, Some(ns), Some(0)), true).Err?
  {
    var tail := [V30Prefix + "END SGROUP", V30Prefix + "END CTAB"] + rest;
    assert Prefixed([c]) == [V30Prefix + c];
    assert [c][0] == c;
    assert SGroupText([c]) + rest == [V30Prefix + "BEGIN SGROUP", V30Prefix + c] + tail;
    SGroupStopsEarly(c, tail, ns);
    EndSGroupRejected(rest);
  }

  /** Finding, corrected: a written S group block is skipped through its
      closing line and the table ends where the writer ended it. */
  lemma SGroupCorrected(cs: seq<string>, rest: seq<string>, na: nat, nb: nat, ns: nat)
    requires SGroupBody(cs) && ns > 0
    ensures Skipped(Open(Render(SGroupText(cs) + rest)), Counts(na, nb, Some(ns), Some(0)), false) == Ok(Open(Render(rest)))
  {
    var tail := [V30Prefix + "END CTAB"] + rest;
    assert SGroupText(cs) + rest == [V30Prefix + "BEGIN SGROUP"] + (Prefixed(cs) + [V30Prefix + "END SGROUP"] + tail);
    KeywordRead("BEGIN SGROUP", Prefixed(cs) + [V30Prefix + "END SGROUP"] + tail);
    assert StartsWith("BEGIN SGROUP", "BEGIN SGROUP");
    SkipSGroupWritten(cs, tail);
    CtabEndWritten(rest);
  }

  // ---------------------------------------------------------------------
  // Counts the COUNTS line leaves out
  // ---------------------------------------------------------------------

  /** A COUNTS line with only the atom and bond counts. */
  lemma ShortCountsLine(na: nat, nb: nat)
    requires 0 < na < U32 && nb < U32
    ensures CountsLine("COUNTS " + Spaced([SignedDigits(na), SignedDigits(nb)])) == Ok(Counts(na, nb, None, None))
  {
    var ws := [SignedDigits(na), SignedDigits(nb)];
    SignedDigitsToInt(na);
    SignedDigitsToInt(nb);
    assert Words(ws);
    var l := "COUNTS " + Spaced(ws);
    assert l[7..] == Spaced(ws);
    assert l[..7] == "COUNTS ";
    ColumnsSpaced(ws);
  }

  /** Finding, as written: after a COUNTS line with two counts, the S group
      count is read uninitialized. */
  lemma MissingCountsAsWritten(na: nat, nb: nat, s: Stream)
    requires 0 < na < U32 && nb < U32
    ensures var c := CountsLine("COUNTS " + Spaced([SignedDigits(na), SignedDigits(nb)]));
            c.Ok? && Skipped(s, c.value, true).Err? && Skipped(s, c.value, true).error.Undefined?
  {
    ShortCountsLine(na, nb);
  }

  /** Finding, corrected: the counts a COUNTS line leaves out are zero, so
      the table may end right after its bond block. */
  lemma MissingCountsCorrected(na: nat, nb: nat, rest: seq<string>)
    requires 0 < na < U32 && nb < U32
    ensures var c := CountsLine("COUNTS " + Spaced([SignedDigits(na), SignedDigits(nb)]));
            c.Ok? && Skipped(Open(Render([V30Prefix + "END CTAB"] + rest)), c.value, false) == Ok(Open(Render(rest)))
  {
    ShortCountsLine(na, nb);
    CtabEndWritten(rest);
  }

  // ---------------------------------------------------------------------
  // Blocks the parser skips
  // ---------------------------------------------------------------------

  /** Lines of a block the parser does not read: each on one line, none
      opening with END. */
  predicate BlockBody(cs: seq<string>) {
    forall k :: 0 <= k < |cs| ==> Last(cs[k]) && !StartsWith(cs[k], "END")
  }

  /** Reading from the first line of a block body through its END line
      leaves the stream after that line. */
  lemma {:induction false} ToEndWritten(cs: seq<string>, e: string, rest: seq<string>)
    requires BlockBody(cs) && Last(e) && StartsWith(e, "END")
    ensures var r := V30Line(Open(Render(Prefixed(cs + [e]) + rest)));
            r.Ok? && ToEnd(r.value.0, r.value.1) == Ok(Open(Render(rest)))
    decreases |cs|
  {
    if |cs| == 0 {
      assert Prefixed(cs + [e]) + rest == [V30Prefix + e] + rest;
      LineRead(e, rest);
    } else {
      var more := Prefixed(cs[1..] + [e]) + rest;
      assert Prefixed(cs + [e]) + rest == [V30Prefix + cs[0]] + more by {
        assert (cs + [e])[1..] == cs[1..] + [e];
      }
      LineRead(cs[0], more);
      assert BlockBody(cs[1..]) by {
        assert forall k :: 0 <= k < |cs| - 1 ==> cs[1..][k] == cs[k + 1];
      }
      ToEndWritten(cs[1..], e, rest);
    }
  }

  /** One skipped block, as SkipBlocks takes it. */
  lemma SkipBlocksStep(l: string, s: Stream, n: string, s1: Stream, e: Stream, l2: string, s2: Stream)
    requires BlockStart(l) && V30Line(s) == Ok((n, s1)) && ToEnd(n, s1) == Ok(e) && V30Line(e) == Ok((l2, s2))
    ensures SkipBlocks(l, s) == SkipBlocks(l2, s2)
  {
  }

  lemma BeginLine(name: string)
    ensures !LinkNode("BEGIN " + name) && BlockStart("BEGIN " + name)
  {
    var b := "BEGIN " + name;
    assert b[..5] == "BEGIN";
    if |b| > 8 { assert b[..8][0] != "LINKNODE"[0]; }
  }

  lemma EndLine(name: string)
    ensures StartsWith("END " + name, "END")
  {
    assert ("END " + name)[..3] == "END";
  }

  /** An unknown block followed by `END CTAB`: SkipBlocks stops at the
      `END CTAB` line. */
  lemma BlockThenEnd(name: string, cs: seq<string>, rest: seq<string>)
    requires Last("END " + name) && BlockBody(cs)
    ensures SkipBlocks("BEGIN " + name, Open(Render(Prefixed(cs + ["END " + name]) + ([V30Prefix + "END CTAB"] + rest)))) ==
              Ok(("END CTAB", Open(Render(rest))))
  {
    var tail := [V30Prefix + "END CTAB"] + rest;
    var body := Prefixed(cs + ["END " + name]) + tail;
    BeginLine(name);
    EndLine(name);
    ToEndWritten(cs, "END " + name, tail);
    var r := V30Line(Open(Render(body)));
    KeywordRead("END CTAB", rest);
    SkipBlocksStep("BEGIN " + name, Open(Render(body)), r.value.0, r.value.1, Open(Render(tail)), "END CTAB", Open(Render(rest)));
    var l := "END CTAB";
    assert l[0] == 'E';
    NotLinkNodeNorBlock(l);
  }

  /** How CtabEnd treats a first line that opens a block. */
  lemma CtabEndBlock(s: Stream, b: string, s1: Stream, l: string, s2: Stream)
    requires V30Line(s) == Ok((b, s1)) && !LinkNode(b) && SkipBlocks(b, s1) == Ok((l, s2)) && StartsWith(l, "END CTAB")
    ensures CtabEnd(s) == Ok(s2)
  {
  }

  /** Round trip for a block this parser does not know: a table whose tail
      is one such block, written as `BEGIN name`, body lines and
      `END name`, reads through its `END CTAB` line. */
  lemma UnknownBlockSkipped(name: string, cs: seq<string>, rest: seq<string>)
    requires Last("BEGIN " + name) && Last("END " + name) && BlockBody(cs)
    ensures var body := Prefixed(cs + ["END " + name]) + ([V30Prefix + "END CTAB"] + rest);
            CtabEnd(Open(Render([V30Prefix + ("BEGIN " + name)] + body))) == Ok(Open(Render(rest)))
  {
    var b := "BEGIN " + name;
    var body := Prefixed(cs + ["END " + name]) + ([V30Prefix + "END CTAB"] + rest);
    LineRead(b, body);
    BeginLine(name);
    BlockThenEnd(name, cs, rest);
    assert StartsWith("END CTAB", "END CTAB");
    CtabEndBlock(Open(Render([V30Prefix + b] + body)), b, Open(Render(body)), "END CTAB", Open(Render(rest)));
  }

  // ---------------------------------------------------------------------
  // R# atoms
  // ---------------------------------------------------------------------

  /** An atom line for an R# atom. */
  function RGroupWords(idx: nat, xs: string, ys: string, zs: string): (ws: seq<string>)
    ensures |ws| == 6
  {
    [SignedDigits(idx), "R#", xs, ys, zs, SignedDigits(0)]
  }

  lemma RGroupTokens(idx: nat, xs: string, ys: string, zs: string)
    requires Word(xs) && Word(ys) && Word(zs)
    ensures Tokens(Spaced(RGroupWords(idx, xs, ys, zs))) == RGroupWords(idx, xs, ys, zs)
  {
    SignedDigitsToInt(idx);
    SignedDigitsToInt(0);
    var ws := RGroupWords(idx, xs, ys, zs);
    assert "R#" == ['R', '#'];
    assert Words(ws);
    TokensSpaced(ws);
  }

  /** Finding, as written: an R# atom on a V3000 atom line dereferences an
      atom that was never allocated. */
  lemma RGroupLineAsWritten(idx: nat, xs: string, ys: string, zs: string, m: Mol, env: Env)
    requires idx < U32 && Word(xs) && Word(ys) && Word(zs)
    ensures var r := V3000AtomLine(Spaced(RGroupWords(idx, xs, ys, zs)), m, env, true);
            r.Err? && r.error.Undefined?
  {
    RGroupTokens(idx, xs, ys, zs);
    assert "R#" != "NOT" && CharAt("R#", 0) != '[';
  }

  /** Finding, corrected: the R# atom is a dummy atom of atomic number 0,
      placed and filed like any other atom. */
  lemma RGroupLineCorrected(idx: nat, xs: string, ys: string, zs: string, m: Mol, env: Env)
    requires idx < U32 && Word(xs) && Word(ys) && Word(zs)
    ensures V3000AtomLine(Spaced(RGroupWords(idx, xs, ys, zs)), m, env, false) ==
              Ok(PlaceAtom(m, BaseAtom(NewAtom(0), 0), Point(env.atof(xs), env.atof(ys), env.atof(zs)), idx))
  {
    RGroupTokens(idx, xs, ys, zs);
    SignedDigitsToInt(idx);
    SignedDigitsToInt(0);
    assert "R#" != "NOT" && CharAt("R#", 0) != '[';
    assert RGroupWords(idx, xs, ys, zs)[6..] == [];
  }
}

=== FILE: wrappers.dfy ===
/** Failure-compatible result types shared by every part of the Molfile model.

The C++ parser reports problems by throwing. The kinds of exception matter to
the control flow (the V2000 bond line swallows a failed numeric cast but not a
FileParseException), so the model keeps them apart as constructors of Error.
 */
module Wrappers {

  datatype Option<+T> = None | Some(value: T)

  /** The exception kinds the parser can raise. */
  datatype Error =
    | FormatError(msg: string)    // FileParseException
    | CastError(field: string)    // boost::bad_lexical_cast
    | RangeError(msg: string)     // RANGE_CHECK or an out-of-range atom index
    | InvariantError(msg: string) // PRECONDITION / ASSERT_INVARIANT violated
    | Undefined(msg: string)      // behaviour C++ leaves undefined (null dereference)

  datatype Result<+T> = Ok(value: T) | Err(error: Error) {

    predicate IsFailure() {
      Err?
    }

    function PropagateFailure<U>(): Result<U>
      requires Err?
    {
      Err(error)
    }

    function Extract(): T
      requires Ok?
    {
      value
    }
  }

  /** Turns a failed numeric cast into the FileParseException the caller
      rethrows; every other failure passes through unchanged. */
  function Rethrow<T>(r: Result<T>, msg: string): (s: Result<T>)
    ensures r.Ok? ==> s == r
    ensures r.Err? && r.error.CastError? ==> s == Err(FormatError(msg))
    ensures r.Err? && !r.error.CastError? ==> s == r
  {
    if r.Err? && r.error.CastError? then Err(FormatError(msg)) else r
  }

  /** The reader `f`, asked for entries `i`, `i + 1`, ..., gives the values
      `vs` in order. */
  ghost predicate ReadsFrom<T>(f: nat -> Result<T>, i: nat, vs: seq<T>)
    decreases |vs|
  {
    |vs| == 0 || (f(i) == Ok(vs[0]) && ReadsFrom(f, i + 1, vs[1..]))
  }

  /** The value at place `k - i` is the one entry `k` gives. */
  lemma {:induction false} ReadsFromAt<T>(f: nat -> Result<T>, i: nat, vs: seq<T>, k: nat)
    requires ReadsFrom(f, i, vs) && i <= k < i + |vs|
    ensures f(k) == Ok(vs[k - i])
    decreases |vs|
  {
    if k > i {
      ReadsFromAt(f, i + 1, vs[1..], k);
    }
  }
}

=== FILE: writer.dfy ===
/** The writing side of the fixed-width fields: numbers right-justified in
    their columns, as a Molfile writer lays them out, and the entry lines of
    the properties block built from them. The lemmas here say that the
    readers get back what was written.
 */
module Writer {
  import opened Wrappers
  import opened Text
  import opened Fields
  import opened Properties

  /** `v` fits a field of `w` columns: its decimal text is no wider. */
  predicate Fits(v: int, w: nat) {
    |SignedDigits(v)| <= w
  }

  function Pow10(w: nat): (p: nat)
    ensures p >= 1
  {
    if w == 0 then 1 else 10 * Pow10(w - 1)
  }

  /** A natural number below 10^w has at most w digits. */
  lemma {:induction false} DigitsWidth(n: nat, w: nat)
    requires 1 <= w && n < Pow10(w)
    ensures |Digits(n)| <= w
    decreases n
  {
    if n >= 10 {
      assert w >= 2;
      DigitsWidth(n / 10, w - 1);
    }
  }

  /** Every count below 1000 fits the three-column count field. */
  lemma CountFits(n: nat)
    requires n < 1000
    ensures Fits(n, 3)
  {
    DigitsWidth(n, 3);
  }

  /** The values a four-column field holds: -999 to 9999. */
  predicate InField(v: int) {
    -999 <= v <= 9999
  }

  lemma InFieldFits(v: int)
    requires InField(v)
    ensures Fits(v, 4)
  {
    if v < 0 {
      DigitsWidth(-v, 3);
    } else {
      DigitsWidth(v, 4);
    }
  }

  lemma RightJustifyWidth(v: int, w: nat)
    requires Fits(v, w)
    ensures |RightJustify(v, w)| == w
  {
  }

  /** The field a writer put at column `|pre|` reads back as the integer it
      holds. */
  lemma IntAtWritten(pre: string, v: int, w: nat, post: string)
    requires Fits(v, w)
    ensures IntAt(pre + RightJustify(v, w) + post, |pre|, w) == Ok(v)
  {
    var f := RightJustify(v, w);
    var text := pre + f + post;
    RightJustifyWidth(v, w);
    assert text[|pre|..|pre| + w] == f;
    SubstrSlice(text, |pre|, w);
    RightJustifyToInt(v, w, false);
    IntAtSpec(text, |pre|, w);
  }

  /** The same for the strict unsigned cast. */
  lemma UnsignedAtWritten(pre: string, n: nat, w: nat, post: string)
    requires n < U32 && Fits(n, w)
    ensures UnsignedAt(pre + RightJustify(n, w) + post, |pre|, w) == Ok(n)
  {
    var f := RightJustify(n, w);
    var text := pre + f + post;
    RightJustifyWidth(n, w);
    assert text[|pre|..|pre| + w] == f;
    SubstrSlice(text, |pre|, w);
    CastUnsignedRoundTrip(n, w, false);
    UnsignedAtSpec(text, |pre|, w);
  }

  /** A written four-column field is never mistaken for an absent one. */
  lemma FieldGivenWritten(pre: string, v: int, post: string)
    requires Fits(v, 4)
    ensures FieldGiven(pre + RightJustify(v, 4) + post, |pre|)
  {
    var f := RightJustify(v, 4);
    var text := pre + f + post;
    RightJustifyWidth(v, 4);
    assert text[|pre|..|pre| + 4] == f;
    RightJustifyNotBlank(v, 4);
    assert !AllSpace("    ") ==> false;
  }

  /** A written four-column field reads back as its value, signed or (when
      not negative) unsigned, and counts as given. */
  lemma WrittenField(pre: string, v: int, post: string)
    requires InField(v)
    ensures IntAt(pre + RightJustify(v, 4) + post, |pre|, 4) == Ok(v)
    ensures v >= 0 ==> UnsignedAt(pre + RightJustify(v, 4) + post, |pre|, 4) == Ok(v)
    ensures FieldGiven(pre + RightJustify(v, 4) + post, |pre|)
  {
    InFieldFits(v);
    IntAtWritten(pre, v, 4, post);
    if v >= 0 {
      UnsignedAtWritten(pre, v, 4, post);
    }
    FieldGivenWritten(pre, v, post);
  }

  /** Every pair fits two four-column fields. */
  predicate PairsFit(ps: seq<(int, int)>) {
    forall k :: 0 <= k < |ps| ==> InField(ps[k].0) && InField(ps[k].1)
  }

  /** One written entry: atom number and value, four columns each. */
  function EntryText(p: (int, int)): (t: string)
    requires InField(p.0) && InField(p.1)
    ensures |t| == 8
  {
    InFieldFits(p.0);
    InFieldFits(p.1);
    RightJustifyWidth(p.0, 4);
    RightJustifyWidth(p.1, 4);
    RightJustify(p.0, 4) + RightJustify(p.1, 4)
  }

  /** The entries of a CHG, RAD, SUB, UNS or RBC line. */
  function PairsText(ps: seq<(int, int)>): (t: string)
    requires PairsFit(ps)
    ensures |t| == 8 * |ps|
    decreases |ps|
  {
    if |ps| == 0 then "" else EntryText(ps[0]) + PairsText(ps[1..])
  }

  /** A whole entry line: the six-column tag, the entry count in three
      columns, the entries. */
  function EntryLine(tag: string, ps: seq<(int, int)>): (t: string)
    requires |tag| == 6 && PairsFit(ps) && |ps| < 1000
    ensures |t| == 9 + 8 * |ps| && t[..6] == tag
  {
    CountFits(|ps|);
    RightJustifyWidth(|ps|, 3);
    tag + RightJustify(|ps|, 3) + PairsText(ps)
  }

  /** The entry at column `spos` holds `a` and `v`: both four-column fields
      are given and read back, signed and, when not negative, unsigned. */
  predicate EntryAt(text: string, spos: nat, a: int, v: int) {
    && IntAt(text, spos, 4) == Ok(a) && FieldGiven(text, spos)
    && (a >= 0 ==> UnsignedAt(text, spos, 4) == Ok(a))
    && IntAt(text, spos + 4, 4) == Ok(v) && FieldGiven(text, spos + 4)
    && (v >= 0 ==> UnsignedAt(text, spos + 4, 4) == Ok(v))
  }

  /** A written entry reads back as the pair it holds. */
  lemma EntryWritten(pre: string, a: int, v: int, post: string)
    requires InField(a) && InField(v)
    ensures EntryAt(pre + EntryText((a, v)) + post, |pre|, a, v)
  {
    var fa := RightJustify(a, 4);
    var fv := RightJustify(v, 4);
    InFieldFits(a);
    RightJustifyWidth(a, 4);
    assert EntryText((a, v)) == fa + fv;
    Regroup(pre, fa, fv, post);
    WrittenField(pre, a, fv + post);
    WrittenField(pre + fa, v, post);
  }

  /** The entries after the first fit as well. */
  lemma PairsFitTail(ps: seq<(int, int)>)
    requires PairsFit(ps) && |ps| > 0
    ensures PairsFit(ps[1..])
  {
    forall k | 0 <= k < |ps| - 1
      ensures InField(ps[1..][k].0) && InField(ps[1..][k].1)
    {
      assert ps[1..][k] == ps[k + 1];
    }
  }

  /** The text of the entries after the first starts eight columns on. */
  lemma PairsTextSplit(pre: string, ps: seq<(int, int)>, post: string)
    requires PairsFit(ps) && |ps| > 0
    ensures PairsFit(ps[1..])
    ensures pre + PairsText(ps) + post == pre + EntryText(ps[0]) + (PairsText(ps[1..]) + post)
    ensures pre + PairsText(ps) + post == (pre + EntryText(ps[0])) + PairsText(ps[1..]) + post
  {
    PairsFitTail(ps);
    Regroup(pre, EntryText(ps[0]), PairsText(ps[1..]), post);
  }

  lemma Regroup(pre: string, e: string, t: string, post: string)
    ensures pre + (e + t) + post == pre + e + (t + post)
    ensures pre + (e + t) + post == (pre + e) + t + post
  {
  }

  /** The entries of `ps` read one after another from column `spos` of
      `text`, eight columns each. */
  predicate EntriesAt(text: string, spos: nat, ps: seq<(int, int)>)
    decreases |ps|
  {
    |ps| == 0 || (ReadEntry(text, spos) == Ok(ps[0]) && EntriesAt(text, spos + 8, ps[1..]))
  }

  /** An entry read where one sits. */
  lemma ReadEntryAt(text: string, spos: nat, a: int, v: int)
    requires EntryAt(text, spos, a, v)
    ensures ReadEntry(text, spos) == Ok((a, v))
  {
  }

  /** A written entry reads back as the pair it holds. */
  lemma WrittenEntryRead(pre: string, p: (int, int), post: string)
    requires InField(p.0) && InField(p.1)
    ensures ReadEntry(pre + EntryText(p) + post, |pre|) == Ok(p)
  {
    EntryWritten(pre, p.0, p.1, post);
    assert p == (p.0, p.1);
    ReadEntryAt(pre + EntryText(p) + post, |pre|, p.0, p.1);
  }

  /** Written entries read back where a reader looks for them. */
  lemma {:induction false} WrittenEntriesAt(pre: string, ps: seq<(int, int)>, post: string)
    requires PairsFit(ps)
    ensures EntriesAt(pre + PairsText(ps) + post, |pre|, ps)
    decreases |ps|
  {
    if |ps| > 0 {
      var pre1 := pre + EntryText(ps[0]);
      PairsTextSplit(pre, ps, post);
      WrittenEntryRead(pre, ps[0], PairsText(ps[1..]) + post);
      WrittenEntriesAt(pre1, ps[1..], post);
      assert |pre1| == |pre| + 8;
    }
  }

  /** The CHG/RAD entry loop, run from column `spos` for |ps| entries,
      returns `ps`. */
  predicate PairsRead(text: string, spos: nat, ps: seq<(int, int)>) {
    ReadPairs(text, spos, |ps|) == Ok(ps)
  }

  /** One turn of the CHG/RAD entry loop. */
  lemma ReadPairsStep(text: string, spos: nat, ps: seq<(int, int)>)
    requires |ps| > 0 && EntriesAt(text, spos, ps) && PairsRead(text, spos + 8, ps[1..])
    ensures PairsRead(text, spos, ps)
  {
    assert [ps[0]] + ps[1..] == ps;
  }

  /** The entry loop reads back the entries sitting where it looks. */
  lemma {:induction false} ReadPairsFrom(text: string, spos: nat, ps: seq<(int, int)>)
    requires EntriesAt(text, spos, ps)
    ensures PairsRead(text, spos, ps)
    decreases |ps|
  {
    if |ps| > 0 {
      ReadPairsFrom(text, spos + 8, ps[1..]);
      ReadPairsStep(text, spos, ps);
    }
  }

  /** The entry loop reads back the written entries, whatever precedes and
      follows them. */
  lemma ReadPairsWritten(pre: string, ps: seq<(int, int)>, post: string)
    requires PairsFit(ps)
    ensures ReadPairs(pre + PairsText(ps) + post, |pre|, |ps|) == Ok(ps)
  {
    WrittenEntriesAt(pre, ps, post);
    ReadPairsFrom(pre + PairsText(ps) + post, |pre|, ps);
  }

  /** The count field of a written entry line reads back as the number of
      entries. */
  lemma EntryCountWritten(tag: string, ps: seq<(int, int)>)
    requires |tag| == 6 && PairsFit(ps) && |ps| < 1000
    ensures IntAt(EntryLine(tag, ps), 6, 3) == Ok(|ps|)
    ensures UnsignedAt(EntryLine(tag, ps), 6, 3) == Ok(|ps|)
  {
    var t := EntryLine(tag, ps);
    CountFits(|ps|);
    assert t == tag + RightJustify(|ps|, 3) + PairsText(ps);
    IntAtWritten(tag, |ps|, 3, PairsText(ps));
    UnsignedAtWritten(tag, |ps|, 3, PairsText(ps));
  }

  /** Entries in place from column `spos` whose atom numbers all name one
      of `count` atoms. */
  predicate ChargePairsAt(text: string, spos: nat, ps: seq<(int, int)>, count: nat) {
    EntriesAt(text, spos, ps) && NumbersIn(ps, count)
  }

  /** The first entry of such a run names an existing atom, and the rest of
      the run sits eight columns on. */
  lemma ChargePairsTail(text: string, spos: nat, ps: seq<(int, int)>, count: nat)
    requires |ps| > 0 && ChargePairsAt(text, spos, ps, count)
    ensures ChargePairsAt(text, spos + 8, ps[1..], count) && 1 <= ps[0].0 <= count
  {
    forall k | 0 <= k < |ps| - 1
      ensures 1 <= ps[1..][k].0 <= count
    {
      assert ps[1..][k] == ps[k + 1];
    }
  }

  /** The CHG entry loop, run from column `spos` for |ps| entries,
      returns `ps`. */
  predicate ChargesRead(text: string, spos: nat, ps: seq<(int, int)>, count: nat) {
    ChargePairs(text, spos, |ps|, count) == Ok(ps)
  }

  /** One turn of the CHG entry loop with its atom-number check. */
  lemma ChargePairsStep(text: string, spos: nat, ps: seq<(int, int)>, count: nat)
    requires |ps| > 0 && ChargePairsAt(text, spos, ps, count) && ChargesRead(text, spos + 8, ps[1..], count)
    ensures ChargesRead(text, spos, ps, count)
  {
    ChargePairsTail(text, spos, ps, count);
    assert [ps[0]] + ps[1..] == ps;
  }

  /** The CHG entry loop accepts entries naming existing atoms that sit
      where it looks, and returns them. */
  lemma {:induction false} ChargePairsFrom(text: string, spos: nat, ps: seq<(int, int)>, count: nat)
    requires ChargePairsAt(text, spos, ps, count)
    ensures ChargesRead(text, spos, ps, count)
    decreases |ps|
  {
    if |ps| > 0 {
      ChargePairsTail(text, spos, ps, count);
      ChargePairsFrom(text, spos + 8, ps[1..], count);
      ChargePairsStep(text, spos, ps, count);
    }
  }

  /** The CHG entry loop accepts written entries whose atom numbers all name
      existing atoms, and returns them. */
  lemma ChargePairsWritten(pre: string, ps: seq<(int, int)>, post: string, count: nat)
    requires PairsFit(ps) && NumbersIn(ps, count)
    ensures ChargePairs(pre + PairsText(ps) + post, |pre|, |ps|, count) == Ok(ps)
  {
    WrittenEntriesAt(pre, ps, post);
    ChargePairsFrom(pre + PairsText(ps) + post, |pre|, ps, count);
  }

  /** Round trip for charges: a written CHG line naming existing atoms is
      accepted, and each atom gets the charge of the last entry written for
      it, or keeps its charge (0 on the first CHG/RAD line) when there is
      none. */
  lemma ChargeLineWritten(m: Molecule.Mol, ps: seq<(int, int)>, first: bool, i: nat)
    requires PairsFit(ps) && |ps| < 1000 && NumbersIn(ps, |m.atoms|) && i < |m.atoms|
    ensures ChargeLine(m, EntryLine("M  CHG", ps), first).Ok?
    ensures ChargeLine(m, EntryLine("M  CHG", ps), first).value.atoms[i] ==
              m.atoms[i].(formalCharge := Edits.LastFor(ps, i + 1, if first then 0 else m.atoms[i].formalCharge))
  {
    var t := EntryLine("M  CHG", ps);
    EntryCountWritten("M  CHG", ps);
    assert t == ("M  CHG" + RightJustify(|ps|, 3)) + PairsText(ps) + "";
    ReadPairsWritten("M  CHG" + RightJustify(|ps|, 3), ps, "");
    ChargePairsWritten("M  CHG" + RightJustify(|ps|, 3), ps, "", |m.atoms|);
    ChargeLineCharges(m, t, first, i);
  }
}
